=== FILE: README.md ===
# AUV simulator core, modelled in Dafny

This project models the bookkeeping core of the McGill Robotics AUV simulator. The simulator is a Unity scene plus a small Python ROS bridge. The model covers the logic that turns simulator state into ROS messages and scores and that turns keys and messages into actuator commands:

- **Bridge.** The Python bypass bridge fans one Unity state sample out to scalar topics, a pose, health flags and a pair of TF transforms.
- **Sensors.** Frame and sign conversions and message assembly for ground truth, IMU, DVL, ZED, depth, pressure and the hydrophone time difference.
- **Core.** The ROS clock's seconds/nanoseconds split, the base publisher's rate limiter, the simulation origin, the camera render manager, and the settings save/load round trip (PlayerPrefs as a string map).
- **Actuators.** Keyboard-to-thruster mixing with ramp, efficiency and saturation, and the torpedo launcher's index and angle state machine.
- **UI.** The vision-object and belief visualisers' remaps and filters, the HUD's rolling log and drawers, and the camera feed dropdown.
- **Competition.** The buoy circumnavigation, tricks, gate and octagon scoring state machines, and the points accumulator.
- **Synthetic data.** The batch schedule, the SOLO-to-YOLO converter, weighted prefab placement, bounded camera placement, distinct material picks, conditional labeling, the drag lookup baker's sample grid and centroid arithmetic, and the orbit camera's clamps.

How the model is built:

- Every Unity component is a Dafny module with immutable records and pure step functions. Loops with invariants are methods.
- All arithmetic is on `real`; where the source relies on an integer width or a cast, that is written out (`Trunc`, modulo `uint.MaxValue`, the 32-bit range of `int.Parse`).
- Values the engine computes are parameters: square roots, distances, angles, Euler extraction, raycast hits, random draws and noise samples.
- Shared helpers live in `Wrappers` (Option/Result), `Geometry` (vectors, quaternions, Unity's `Clamp`/`Lerp`/`MoveTowards`/`DeltaAngle`) and `Text` (`bool.Parse`/`int.Parse`/`ToString`, split and join).

Three behaviours of the code worth noting, each modelled as written:

- The bypass bridge flips no signs. It publishes position, velocities and the quaternion exactly as received. Its two transforms are stamped by two separate clock reads, so their stamps need not be equal (`Bridge.StampsMayDiffer`).
- The ground-truth publisher's header comment says only the quaternion's x and z are negated. The code negates x, y and z (`GroundTruth.RightHanded`).
- The hydrophone loop runs over the four-element distance array although only three hydrophones are registered (see Findings).

## Model

| member | source | states |
|---|---|---|
| Bridge.OnUnityState | src/unity_bypass_bridge.py:14-51 | The fan-out is consistent: the x/y/z topics are the received position, the pose carries the received quaternion, all three health flags are true, and the frame ids are fixed. The original sample can be read back from the fan-out unchanged, so no component is sign-flipped. |
| Bridge.OnUnityStateInjective | src/unity_bypass_bridge.py:14-51 | Two callbacks give the same fan-out only for the same sample, Euler angles and stamps: the bridge loses nothing. |
| Bridge.BroadcastAuvPose | src/unity_bypass_bridge.py:53-72 | Exactly two transforms. Both carry the pose's orientation. The first translates by the pose position and the second by zero. Each carries the stamp of its own clock read. |
| Bridge.StampsMayDiffer | src/unity_bypass_bridge.py:55-64 | The two transform stamps come from separate clock reads, so nothing forces them to be equal. |
| GroundTruth.RightHanded | Assets/_Project/Scripts/Sensors/GroundTruthPublisher.cs:140-145 | The handedness change negates x, y and z, keeps w, and preserves the norm. |
| GroundTruth.RightHandedInvolution | Assets/_Project/Scripts/Sensors/GroundTruthPublisher.cs:140-145 | Applying the change twice gives back the quaternion. A quaternion is a unit exactly when its image is. |
| GroundTruth.Start | Assets/_Project/Scripts/Sensors/GroundTruthPublisher.cs:42-67 | With a rigidbody, the remembered velocities become its current ones. Without one, nothing changes. |
| GroundTruth.Publish | Assets/_Project/Scripts/Sensors/GroundTruthPublisher.cs:86-152 | Messages exist exactly when a rigidbody exists. The orientation is the right-handed conversion, the depth is minus y, and the remembered velocities move to the current ones. |
| GroundTruth.TwistRecoversWorld | Assets/_Project/Scripts/Sensors/GroundTruthPublisher.cs:95-110 | Rotated back by the body rotation, the published twist is the world linear velocity unchanged and the world angular velocity negated. |
| GroundTruth.AccelRecoversWorld | Assets/_Project/Scripts/Sensors/GroundTruthPublisher.cs:113-133 | Rotated back to the world, the published acceleration is the velocity change over dt, with the angular part negated. |
| GroundTruth.SteadyStateZeroAccel | Assets/_Project/Scripts/Sensors/GroundTruthPublisher.cs:115-120 | Publishing the same rigidbody state twice reports zero acceleration the second time, because each publish stores the velocities it saw. |
| GroundTruth.DepthPositiveBelowSurface | Assets/_Project/Scripts/Sensors/GroundTruthPublisher.cs:150 | The published depth is positive exactly when the AUV is below y = 0. |
| Imu.GyroToFlu | Assets/_Project/Scripts/Sensors/IMUPublisher.cs:331-336 | The pseudovector remap (x, y, z) to (-z, x, -y) preserves length. |
| Imu.GyroRemapRoundTrip | Assets/_Project/Scripts/Sensors/IMUPublisher.cs:331-336 | The remap and its inverse undo each other in both directions. |
| Imu.Simulate | Assets/_Project/Scripts/Sensors/IMUPublisher.cs:246-337 | The remembered point velocity becomes the current one, and the published rate is the remap of the sensor rate. In raw mode the orientation is the all-zero quaternion and the last orientation is the identity. Otherwise the published orientation is the last one. |
| Imu.NoiseFreeGyro | Assets/_Project/Scripts/Sensors/IMUPublisher.cs:255-263 | With noise off, the published rate is exactly the remapped world angular velocity expressed in the sensor frame. |
| Imu.NoiseFreeGyroExact | Assets/_Project/Scripts/Sensors/IMUPublisher.cs:255-336 | With noise off and a unit sensor rotation, mapping the published rate back to Unity and into the world gives the body's angular velocity. |
| Imu.RawModeIgnoresRotation | Assets/_Project/Scripts/Sensors/IMUPublisher.cs:314-319 | In raw mode the published orientation does not depend on the inputs at all. |
| Imu.ModFourIsDiagonal | Assets/_Project/Scripts/Sensors/IMUPublisher.cs:358-365 | For the nine entries of a 3x3 row-major matrix, the test `i % 4 == 0` picks exactly the diagonal. |
| Imu.DiagonalCovariance | Assets/_Project/Scripts/Sensors/IMUPublisher.cs:358-360 | The covariance loop holds the variance on the diagonal and zero elsewhere. |
| Imu.OrientationCovariance | Assets/_Project/Scripts/Sensors/IMUPublisher.cs:342-355 | With orientation on, only indices 0, 4 and 8 are non-zero, and they are non-negative. In raw mode entry 0 is -1 and all others are 0. |
| Imu.SetCovarianceMatrices | Assets/_Project/Scripts/Sensors/IMUPublisher.cs:339-366 | The gyro and accel arrays hold the squared noise exactly where `i % 4 == 0` and zero elsewhere. The orientation array follows the rule above. |
| Dvl.Classify | Assets/_Project/Scripts/Sensors/DVLPublisher.cs:338-363 | A beam classified valid carries an altitude within [minAltitude, maxAltitude]. |
| Dvl.ClassifyValidIff | Assets/_Project/Scripts/Sensors/DVLPublisher.cs:338-363 | A beam is valid exactly when it hit, its incidence is at most the grazing limit, and its vertical altitude lies within the range. |
| Dvl.ScanBeams | Assets/_Project/Scripts/Sensors/DVLPublisher.cs:317-372 | Each validity entry is the beam's classification. The count is the number of true entries and is at most 4. The sum is the total of the valid beams' altitudes, added in beam order, and lies between count times the minimum and count times the maximum. |
| Dvl.AltitudeSumBounds | Assets/_Project/Scripts/Sensors/DVLPublisher.cs:338-363 | For every beam set, the valid beams' altitude total lies between the valid count times the minimum altitude and the valid count times the maximum. |
| Dvl.FrdRoundTrip | Assets/_Project/Scripts/Sensors/DVLPublisher.cs:262-264 | The FRD remap (x, y, z) to (z, x, -y) and its inverse undo each other. |
| Dvl.DiagonalIndices | Assets/_Project/Scripts/Sensors/DVLPublisher.cs:274-284 | The diagonal of a 6x6 row-major matrix is exactly the indices 0, 7, 14, 21, 28 and 35. |
| Dvl.CovarianceShape | Assets/_Project/Scripts/Sensors/DVLPublisher.cs:271-304 | Off-diagonal entries are zero. The angular diagonal is always the unmeasured 10000. On loss of lock every diagonal entry is 10000. With lock, the two horizontal variances agree and are non-negative. |
| Dvl.MessageData | Assets/_Project/Scripts/Sensors/DVLPublisher.cs:253-309 | The angular twist is always zero. Without lock the linear twist is zero. With lock it is the last velocity in FRD. |
| Dvl.UpdateRate | Assets/_Project/Scripts/Sensors/DVLPublisher.cs:219-227 | Without lock or adaptive rate the rate is the 2 Hz search rate. Otherwise it lies in [4, 15]: 15 at the surface and 4 at maximum range. |
| Dvl.SimulateSensor | Assets/_Project/Scripts/Sensors/DVLPublisher.cs:315-413 | Each validity flag is the beam's classification, and the count is the number of valid beams. Lock holds exactly when the count reaches `minBeamsForLock`. With lock, the altitude is the valid beams' altitude total divided by their count, and it lies within range. The velocity is the point velocity rotated into the sensor frame plus the noise. Without lock the velocity is zero and the altitude is -1. The message is built from these values, and the publish time is untouched. |
| Dvl.LockedReading | Assets/_Project/Scripts/Sensors/DVLPublisher.cs:372-412 | For every step with lock, the reported altitude lies in [minAltitude, maxAltitude]. The message's linear velocity, taken back out of FRD, is the sensor-frame point velocity plus noise. |
| Dvl.FixedUpdate | Assets/_Project/Scripts/Sensors/DVLPublisher.cs:200-235 | Nothing changes before the next publish time or without a rigidbody. A message goes out exactly when a rigidbody exists, the time has come and publishing is on. A due step leaves the state `SimulateSensor` computes: validity, lock, altitude, velocity and message. The next publish time is the current time plus 1 over the update rate for the new lock and altitude, so between 1/15 s and 1/2 s later. |
| Zed.FlipVec | Assets/_Project/Scripts/Sensors/ZED2iSimSender.cs:211-213 | Each component is negated exactly when its flag is set. |
| Zed.FlipQuat | Assets/_Project/Scripts/Sensors/ZED2iSimSender.cs:199-203 | Each of x, y and z is negated exactly when its flag is set; w is kept and the norm is preserved. |
| Zed.FlipInvolution | Assets/_Project/Scripts/Sensors/ZED2iSimSender.cs:199-218 | Every flag map applied twice is the identity. |
| Zed.AllFlagsIsConj | Assets/_Project/Scripts/Sensors/ZED2iSimSender.cs:199-203 | With all three rotation flags set, the orientation flip is the conjugate. |
| Zed.Packetize | Assets/_Project/Scripts/Sensors/ZED2iSimSender.cs:190-221 | Without `sendOrientation` the identity is sent. Otherwise, undoing the flags gives the rotation relative to the initial one. Undoing the flags on the acceleration and the angular velocity gives the local values. |
| Zed.AngularUsesRotationFlags | Assets/_Project/Scripts/Sensors/ZED2iSimSender.cs:216-218 | The angular velocity depends on the rotation flags only: changing the acceleration flags leaves it alone. |
| Zed.FixedUpdate | Assets/_Project/Scripts/Sensors/ZED2iSimSender.cs:161-186 | No packet is sent, and nothing changes, exactly when there is no rigidbody, streaming is off or dt ≤ 0. After a packet the remembered velocity is the current one. |
| Depth.ClampedDepth | Assets/_Project/Scripts/Sensors/DepthPublisher.cs:139-140 | Depth is -y below the surface and 0 above it, so it is never negative. |
| Depth.ClampedDepthMonotone | Assets/_Project/Scripts/Sensors/DepthPublisher.cs:139-140 | Going deeper never reads shallower. |
| Depth.Measure | Assets/_Project/Scripts/Sensors/DepthPublisher.cs:137-151 | The clean value is the clamped depth. The noisy value differs from it only by the noise term, which is just the bias when the deviation is not positive. |
| Depth.ErrorIndependentOfPosition | Assets/_Project/Scripts/Sensors/DepthPublisher.cs:143-150 | The measurement error does not depend on where the sensor is. |
| Depth.FixedUpdate | Assets/_Project/Scripts/Sensors/DepthPublisher.cs:122-157 | `LastDepth` stores the clean value. A message is sent exactly when depth and ROS publishing are on and the rate limiter fires, and it carries the value just computed. |
| Pressure.Measure | Assets/_Project/Scripts/Sensors/PressurePublisher.cs:158-181 | The depth is the clamped depth. The pressure is the hydrostatic pressure plus the bias, plus the draw times the deviation when the deviation is positive. |
| Pressure.NoiseShift | Assets/_Project/Scripts/Sensors/PressurePublisher.cs:166-177 | With a positive deviation, a draw shifts the pressure by the draw times the deviation relative to a zero draw, and leaves the depth alone. |
| Pressure.PressureMonotone | Assets/_Project/Scripts/Sensors/PressurePublisher.cs:168 | Without noise, with non-negative density and gravity, pressure never decreases going down. |
| Pressure.SurfacePressure | Assets/_Project/Scripts/Sensors/PressurePublisher.cs:161-171 | At or above the surface, the noise-free pressure is atmospheric plus the bias. |
| Pressure.DepthFromPressure | Assets/_Project/Scripts/Sensors/PressurePublisher.cs:161-168 | From a noise-free, unbiased reading, (P - P_atm) / (rho g) gives back the clamped depth. |
| Pressure.Variance | Assets/_Project/Scripts/Sensors/PressurePublisher.cs:183-191 | The published variance is the squared deviation, never negative, and zero for a noise-free sensor. |
| Pressure.FixedUpdate | Assets/_Project/Scripts/Sensors/PressurePublisher.cs:139-191 | The last depth and pressure are stored. A message is sent exactly when pressure and ROS publishing are on and the limiter fires, and it carries that pressure and the variance. |
| Pinger.ScaleTime | Assets/_Project/Scripts/Sensors/PingerTimeDifference.cs:76 | A non-negative time scales to a tick count below `uint.MaxValue`. |
| Pinger.MinFrom | Assets/_Project/Scripts/Sensors/PingerTimeDifference.cs:52-61 | The result is at most the start value and every travel time, and it is one of them. |
| Pinger.Filled | Assets/_Project/Scripts/Sensors/PingerTimeDifference.cs:69-73 | The fill count is option + 3, capped by the array length. |
| Pinger.Fill | Assets/_Project/Scripts/Sensors/PingerTimeDifference.cs:72-77 | Entries below the count become the scaled arrival time, below `uint.MaxValue`. The other entries keep the reused array's stale values. |
| Pinger.Resized | Assets/_Project/Scripts/Sensors/PingerTimeDifference.cs:63-67 | The reused array is kept when its length matches, and replaced by zeros otherwise. |
| Pinger.FirstFailingAccess | Assets/_Project/Scripts/Sensors/PingerTimeDifference.cs:48-83 | A call fails exactly when fewer than four hydrophones are registered or the pinger index is out of range for the pingers or frequencies. |
| Pinger.CalculateAsWritten | Assets/_Project/Scripts/Sensors/PingerTimeDifference.cs:48-83 | The as-written method errs exactly at the first failing access. On success it returns four slots and the pinger's frequency. |
| Pinger.ThreeHydrophonesAlwaysFail | Assets/_Project/Scripts/Sensors/PingerTimeDifference.cs:34-56 | With the three hydrophones the scene registers, every call with a valid pinger fails at index 3 of a three-element list. |
| Pinger.CalculateTimeDifference | Assets/_Project/Scripts/Sensors/PingerTimeDifference.cs:48-83 | The corrected method succeeds exactly for a valid pinger index. It returns that pinger's frequency and one entry per hydrophone. The filled entries are the scaled arrival times, and the rest keep stale values. |
| Pinger.ArrivalTimesProperties | Assets/_Project/Scripts/Sensors/PingerTimeDifference.cs:52-75 | Arrival times keep the travel-time differences and are never before the current time. With finite travel times, some hydrophone hears the ping exactly at the current time. |
| RosClock.Stamp | Assets/_Project/Scripts/Core/ROSClock.cs:17-19 | A stamp, when one exists, has nanoseconds in [0, 1e9) and seconds in the 32-bit range. Every time in [0, 2^31) can be stamped. |
| RosClock.StampApproximates | Assets/_Project/Scripts/Core/ROSClock.cs:17-19 | For a non-negative time in range, the seconds are its whole part, and seconds plus nanoseconds never exceed the time. |
| RosClock.NegativeFractionUnstamped | Assets/_Project/Scripts/Core/ROSClock.cs:17-19 | A negative time with a fraction yields a negative nanosecond count, which cannot be converted to unsigned. A negative whole time is stamped exactly. |
| RosClock.GetRosTimestamp | Assets/_Project/Scripts/Core/ROSClock.cs:13-22 | Without a clock the timestamp is all zero. With one, it is the clock's split of the time passed: for a time in range, the seconds are its whole part and the nanoseconds round the rest down to within one nanosecond. |
| RosClock.Start | Assets/_Project/Scripts/Core/ROSClock.cs:24-35 | The clock resumes from the saved total when there is one, and from zero otherwise. It publishes through the base rate limiter. |
| RosClock.FixedUpdate | Assets/_Project/Scripts/Core/ROSClock.cs:42-57 | The clock publishes exactly when its base publisher fires. Each publish advances the time passed by one fixed step, and the message sent is the seconds/nanoseconds split of the new total, which is what `GetROSTimestamp` returns for it. Otherwise the time stays where it was and nothing is sent. |
| RosClock.RunClock | Assets/_Project/Scripts/Core/ROSClock.cs:13-57 | Over any run, at most one message goes out per step. A run that sends nothing leaves the total unchanged. The last message sent equals `GetROSTimestamp` at the end of the run. |
| RosClock.ClockCountsPublishes | Assets/_Project/Scripts/Core/ROSClock.cs:47-51 | After any run, the clock has advanced by exactly one fixed step per message published. |
| RosClock.ClockFollowsPublisher | Assets/_Project/Scripts/Core/ROSClock.cs:42-45 | The clock's publisher behaves exactly like a bare publisher on the same steps. |
| RosClock.ClockBoundedByRate | Assets/_Project/Scripts/Core/ROSClock.cs:42-57 | The number of messages times the interval never exceeds the simulated time that passed. |
| RosPublisher.IntervalOf | Assets/_Project/Scripts/Core/ROSPublisher.cs:30 | A zero rate never publishes. A positive rate has a positive interval that is its reciprocal. |
| RosPublisher.Start | Assets/_Project/Scripts/Core/ROSPublisher.cs:50-55 | A started publisher uses its serialized rate unclamped, its timer is zero, and it is active. |
| RosPublisher.SetPublishRate | Assets/_Project/Scripts/Core/ROSPublisher.cs:24-32 | The rate is clamped into [0.1, 100]: kept inside the range, raised to 0.1 below it, lowered to 100 above it. The interval is its reciprocal, in [0.01, 10]. Nothing else changes. |
| RosPublisher.SetActive | Assets/_Project/Scripts/Core/ROSPublisher.cs:91-94 | `IsActive` afterwards is the argument, and nothing else changes. |
| RosPublisher.Tick | Assets/_Project/Scripts/Core/ROSPublisher.cs:57-68 | A publish happens exactly when base limiting is on, the publisher is active, ROS is on and the accumulated time reaches the interval. Without base limiting nothing changes. A publish resets the timer to zero; otherwise the timer grows by dt. |
| RosPublisher.GatedTick | Assets/_Project/Scripts/Core/ROSPublisher.cs:57-68 | A closed gate leaves the publisher alone and sends nothing. An open gate is exactly one step of the limiter. |
| RosPublisher.RateLimit | Assets/_Project/Scripts/Core/ROSPublisher.cs:57-68 | Over any run with non-negative steps, the publish count times the interval, plus the final timer, is at most the starting timer plus the time passed. |
| RosPublisher.InactiveNeverFires | Assets/_Project/Scripts/Core/ROSPublisher.cs:63 | A switched-off publisher never fires and stays off. |
| RosPublisher.LongStepFires | Assets/_Project/Scripts/Core/ROSPublisher.cs:62-67 | An active publisher with a non-negative timer always fires on a step at least as long as its interval. |
| SimOrigin.InitializeOrigin | Assets/_Project/Scripts/Core/SimulationOrigin.cs:108-130 | Once initialized, the origin is unchanged. Otherwise it captures the AUV's x and z at height 0 when capture is on and the AUV is known, and falls back to zero and the identity otherwise. |
| SimOrigin.InitializeIdempotent | Assets/_Project/Scripts/Core/SimulationOrigin.cs:49-67 | `Start` repeating the call made in `Awake` keeps the first capture, wherever the AUV is by then. |
| SimOrigin.Instance | Assets/_Project/Scripts/Core/SimulationOrigin.cs:13-32 | The getter returns an existing component. An auto-created one is initialized at once. |
| SimOrigin.ToLocal | Assets/_Project/Scripts/Core/SimulationOrigin.cs:136-140 | For a unit rotation, rotating the result by the initial rotation gives back the displacement from the origin; with the identity rotation the result is that displacement. |
| SimOrigin.ToWorld | Assets/_Project/Scripts/Core/SimulationOrigin.cs:145-149 | For a unit rotation, the result's displacement from the origin, rotated back, is the local point; with the identity rotation the result is the origin plus the local point. |
| SimOrigin.LocalWorldRoundTrip | Assets/_Project/Scripts/Core/SimulationOrigin.cs:136-149 | For a unit rotation, world to local and local to world are inverse to each other in both directions. |
| SimOrigin.OriginIsLocalZero | Assets/_Project/Scripts/Core/SimulationOrigin.cs:136-140 | The origin itself maps to the local zero. |
| SimOrigin.DefaultOriginIsWorld | Assets/_Project/Scripts/Core/SimulationOrigin.cs:108-149 | Without a captured pose, both transforms are the identity. |
| CameraRender.Start | Assets/_Project/Scripts/Core/CameraRenderManager.cs:56-64 | Both rates come from the settings when they exist; otherwise nothing changes. |
| CameraRender.FrontCameraConsumers | Assets/_Project/Scripts/Core/CameraRenderManager.cs:94-111 | ZED streaming, a UI selection, or ROS front-camera or depth publishing each suffice to need the front camera. With ROS, streaming and the UI all off, it is not needed. |
| CameraRender.NothingWithoutCameraOrSettings | Assets/_Project/Scripts/Core/CameraRenderManager.cs:94-130 | Without its camera or the settings, no camera is needed. The down camera is not needed with ROS off and no UI selection. |
| CameraRender.DownCameraConsumers | Assets/_Project/Scripts/Core/CameraRenderManager.cs:116-130 | With a down camera and settings, it is needed exactly for ROS down-camera publishing or a UI selection. |
| CameraRender.FixedUpdate | Assets/_Project/Scripts/Core/CameraRenderManager.cs:66-89 | A camera renders exactly when it is needed and one interval (1 / rate) has passed since its last render, which then moves to now. The right eye renders only with the front camera while ZED streaming is on. Nothing else changes. |
| CameraRender.FrontRenderSpacing | Assets/_Project/Scripts/Core/CameraRenderManager.cs:71-76 | After a front render, the next one is at least one interval later, and at rate zero it never comes. |
| CameraRender.DownRenderSpacing | Assets/_Project/Scripts/Core/CameraRenderManager.cs:82-87 | The same spacing holds for the down camera. |
| Settings.KeyNameInverse | Assets/_Project/Scripts/Core/SimulationSettings.cs:229-266 | Each persisted setting has its own key name, which maps back to it. |
| Settings.KeyNamesDistinct | Assets/_Project/Scripts/Core/SimulationSettings.cs:324-359 | No two settings share a key. |
| Settings.TextKeysComplete | Assets/_Project/Scripts/Core/SimulationSettings.cs:324-359 | Every setting except the hydrophone option is written as text. |
| Settings.WriteTextsLookup | Assets/_Project/Scripts/Core/SimulationSettings.cs:324-359 | After the writes, every written key holds its own text. |
| Settings.Save | Assets/_Project/Scripts/Core/SimulationSettings.cs:322-362 | The hydrophone option is stored as an integer under its key. The other settings are stored as their texts. |
| Settings.FirstFailure | Assets/_Project/Scripts/Core/SimulationSettings.cs:227-273 | There is no failing key exactly when every key's text parses. |
| Settings.Load | Assets/_Project/Scripts/Core/SimulationSettings.cs:227-273 | Loading fails exactly when some text does not parse, with that key's parse error. On success, every toggle and number is its text's parse and the snapshot path is the validated text. The bearing toggles and the frame rate keep the loading instance's values. |
| Settings.SavedTextReadBack | Assets/_Project/Scripts/Core/SimulationSettings.cs:227-362 | After a save, the loader reads back exactly the text written for each key. |
| Settings.SavedTextsParse | Assets/_Project/Scripts/Core/SimulationSettings.cs:227-362 | Every toggle and number a save writes parses back to its value, and the path is read back unchanged. |
| Settings.NoFailureWhenAllParse | Assets/_Project/Scripts/Core/SimulationSettings.cs:227-273 | If every toggle and number text parses, loading does not fail. |
| Settings.SavedFlagsRestored | Assets/_Project/Scripts/Core/SimulationSettings.cs:227-362 | Loading after a save restores every toggle. |
| Settings.SavedNumbersRestored | Assets/_Project/Scripts/Core/SimulationSettings.cs:227-362 | Loading after a save restores every integer setting. |
| Settings.SavedRestRestored | Assets/_Project/Scripts/Core/SimulationSettings.cs:227-362 | Loading after a save restores the hydrophone option and the validated snapshot path. |
| Settings.SaveLoadRoundTrip | Assets/_Project/Scripts/Core/SimulationSettings.cs:227-362 | Load after save gives back every saved field. The unsaved fields stay as the loading instance has them. |
| Settings.UnsavedFieldsIgnored | Assets/_Project/Scripts/Core/SimulationSettings.cs:322-362 | Saving never depends on the bearing toggles or the target frame rate. |
| Settings.DefaultFlagsLoaded | Assets/_Project/Scripts/Core/SimulationSettings.cs:227-273 | With an empty store, every toggle takes its documented default. |
| Settings.DefaultNumbersLoaded | Assets/_Project/Scripts/Core/SimulationSettings.cs:227-273 | With an empty store, every number takes its documented default. |
| Settings.DefaultRestLoaded | Assets/_Project/Scripts/Core/SimulationSettings.cs:227-273 | With an empty store, the hydrophone option is 0 and the path is the validated default. |
| Settings.LoadDefaults | Assets/_Project/Scripts/Core/SimulationSettings.cs:232-254 | With an empty store loading succeeds with the defaults, for example shadows on and camera rates of 10 Hz. |
| Settings.DefaultTextCanonical | Assets/_Project/Scripts/Core/SimulationSettings.cs:227-273 | Each number's fallback text is exactly what `ToString` writes for its default. |
| Text.ParseBool | Assets/_Project/Scripts/Core/SimulationSettings.cs:229-263 | `bool.Parse` accepts exactly "true" and "false" in any letter case once white space and NUL characters are trimmed from both ends, the value is true exactly for "true", and a failure names the whole input. |
| Text.ParseBoolRoundTrip | Assets/_Project/Scripts/Core/SimulationSettings.cs:229-263 | Both `ToString` spellings and the lower-case fallbacks parse back to their value. |
| Text.ParseBoolPadded | Assets/_Project/Scripts/Core/SimulationSettings.cs:229-263 | Any of those spellings surrounded by white space or NUL characters still parses to its value. |
| Text.ParseBoolRejects | Assets/_Project/Scripts/Core/SimulationSettings.cs:229-263 | Text that is not a boolean, including the empty text and a word with a space inside, is rejected. |
| Text.ParseInt | Assets/_Project/Scripts/Core/SimulationSettings.cs:229-263 | `int.Parse` only ever yields 32-bit values, and a failure is a format error or an overflow naming the whole input. |
| Text.ParseIntRoundTrip | Assets/_Project/Scripts/Core/SimulationSettings.cs:229-263 | Every 32-bit integer survives `ToString` followed by `int.Parse`. |
| Text.ParseIntPadded | Assets/_Project/Scripts/Core/SimulationSettings.cs:229-263 | The decimal text of a 32-bit integer with leading white space, trailing white space and then trailing NUL characters still parses to that integer. |
| Text.ParseIntRejects | Assets/_Project/Scripts/Core/SimulationSettings.cs:229-263 | The empty text, a lone sign, trailing letters and a space after the sign are rejected rather than read as numbers. |
| Text.SplitJoin | Assets/_Project/Scripts/UI/SimulatorHUD.cs:363 | Splitting the newline-joined lines gives back the lines, when no line holds the separator. |
| Thrusters.Contribution | Assets/_Project/Scripts/Actuators/Thrusters.cs:223-306 | W/S/A/D/J/L touch only thrusters 0, 3, 4 and 7, and I/K/U/O/Q/E only 1, 2, 5 and 6. Every non-heave key adds forces summing to zero. The sink key's forces sum to the sink force and the float key's to minus the float force. |
| Thrusters.HandleMovementInput | Assets/_Project/Scripts/Actuators/Thrusters.cs:212-307 | While frozen or typing, the inputs are left as they were. Otherwise they are the sum of the held keys' contributions in key order (`Accumulate`), all zero when no key is held. |
| Thrusters.NoKeysNoForce | Assets/_Project/Scripts/Actuators/Thrusters.cs:219-221 | With no key held, the accumulated input is all zero. |
| Thrusters.InputSupport | Assets/_Project/Scripts/Actuators/Thrusters.cs:223-306 | Holding only horizontal keys leaves the vertical thrusters at zero, and holding only the others leaves the horizontal thrusters at zero. |
| Thrusters.AddHeldKey | Assets/_Project/Scripts/Actuators/Thrusters.cs:223-306 | Holding one more key adds exactly its forces, wherever it sits in the order. |
| Thrusters.OppositeContributions | Assets/_Project/Scripts/Actuators/Thrusters.cs:223-292 | The two keys of each opposite pair (W/S, A/D, I/K, J/L, U/O) add opposite forces on every thruster. |
| Thrusters.OppositePairsCancel | Assets/_Project/Scripts/Actuators/Thrusters.cs:223-292 | Holding both keys of an opposite pair is the same as holding neither. |
| Thrusters.ThrusterStep | Assets/_Project/Scripts/Actuators/Thrusters.cs:139-151 | A thruster at y ≥ 0 is skipped and keeps its level. Otherwise the level moves toward the target by at most rampRate·dt, reaching it when it is that close. The force is the level times the efficiency, clamped to ±max. |
| Thrusters.HandleFreezeInput | Assets/_Project/Scripts/Actuators/Thrusters.cs:203-210 | The freeze key flips the frozen state, and nothing else changes. |
| Thrusters.Update | Assets/_Project/Scripts/Actuators/Thrusters.cs:129-133 | The freeze key toggles the frozen state. The ROS forces and the ramp levels are untouched. While frozen or typing the inputs stay; otherwise they are the held keys' sum. |
| Thrusters.FixedUpdate | Assets/_Project/Scripts/Actuators/Thrusters.cs:135-201 | Thrusters at or above the surface are skipped. Each submerged thruster among the first eight takes one ramp step toward ROS plus keyboard input, and only the levels change. The call throws exactly when some thruster past the eighth is submerged, at the first such index, after the ones before it were handled. |
| Thrusters.SetThrusterForces | Assets/_Project/Scripts/Actuators/Thrusters.cs:309-319 | The message sets the eight ROS forces, and nothing else changes. |
| Thrusters.ForcesMsgRoundTrip | Assets/_Project/Scripts/Actuators/Thrusters.cs:311-318 | The message fields map to indices 0 to 7 bijectively: no field is lost or shared. |
| Torpedo.Start | Assets/_Project/Scripts/Actuators/TorpedoLauncher.cs:78-115 | The launcher starts valid, with no torpedo launched and the index at zero. |
| Torpedo.Launch | Assets/_Project/Scripts/Actuators/TorpedoLauncher.cs:229-273 | Nothing happens when every slot is used or the next slot is empty. Otherwise that torpedo goes and the index grows by exactly one. The launcher stays valid. |
| Torpedo.EmptySlotBlocks | Assets/_Project/Scripts/Actuators/TorpedoLauncher.cs:237-238 | An empty slot blocks every later launch until a reset. |
| Torpedo.LaunchesCount | Assets/_Project/Scripts/Actuators/TorpedoLauncher.cs:229-273 | With every slot filled, n launches advance the index by n, capped at the number of slots. |
| Torpedo.Reset | Assets/_Project/Scripts/Actuators/TorpedoLauncher.cs:276-311 | Every torpedo is back, and the index, the target and the base angle are zero. |
| Torpedo.ResetForgetsHistory | Assets/_Project/Scripts/Actuators/TorpedoLauncher.cs:276-311 | After a reset the launcher is the same whatever was launched before it. |
| Torpedo.Rotate | Assets/_Project/Scripts/Actuators/TorpedoLauncher.cs:123-150 | With both or neither arrow key held, nothing changes. Otherwise the target moves by speed times dt in the key's direction, clamped to the limit, and only the target changes. |
| Torpedo.UpdateRotation | Assets/_Project/Scripts/Actuators/TorpedoLauncher.cs:152-159 | The base turns toward the target by at most speed times dt, never moving away from it and never leaving the limit. When the target is within one step the base reaches it; otherwise the base moves exactly one step. |
| Torpedo.Update | Assets/_Project/Scripts/Actuators/TorpedoLauncher.cs:117-121 | While the HUD has focus, only the base turns. Otherwise the launch key acts as a true launch message, then the reset key as a true reset message, then the rotation keys move the target, then the base turns. A reset key leaves the index at zero. |
| Torpedo.OnRosLaunch | Assets/_Project/Scripts/Actuators/TorpedoLauncher.cs:161-164 | A launch happens only on a true message. |
| Torpedo.OnRosReset | Assets/_Project/Scripts/Actuators/TorpedoLauncher.cs:166-169 | A true message is exactly a reset; a false one changes nothing. |
| Torpedo.OnRosRotate | Assets/_Project/Scripts/Actuators/TorpedoLauncher.cs:171-174 | The target is the requested angle clamped to ±maxRotationAngle, and nothing else changes. |
| VisionViz.RemapRoundTrip | Assets/_Project/Scripts/UI/VisionObjectsVisualizer.cs:154-158 | The ROS-to-Unity remap (x, y, z) to (-y, z, x) and its inverse undo each other and preserve length. |
| VisionViz.ColorLookup | Assets/_Project/Scripts/UI/VisionObjectsVisualizer.cs:84-88 | The colour table has only lower-case keys, and every non-empty class name has an entry. |
| VisionViz.ColorLookupKeys | Assets/_Project/Scripts/UI/VisionObjectsVisualizer.cs:84-88 | Every key of the table is the lower-cased name of some entry with a non-empty name. |
| VisionViz.ColorLookupLast | Assets/_Project/Scripts/UI/VisionObjectsVisualizer.cs:84-88 | A class's colour is that of the last entry whose name lower-cases to it: later entries override earlier ones. |
| VisionViz.ColorFor | Assets/_Project/Scripts/UI/VisionObjectsVisualizer.cs:248-256 | An empty or unknown label gets the default colour; any other label gets the table's colour for its lower-cased form. |
| VisionViz.ColorOfClass | Assets/_Project/Scripts/UI/VisionObjectsVisualizer.cs:250-253 | A label naming a configured class in any letter case is drawn in the colour of the last entry for that class. |
| VisionViz.ColorOfUnknown | Assets/_Project/Scripts/UI/VisionObjectsVisualizer.cs:250-253 | A label that names no configured class is drawn in the default colour. |
| VisionViz.ColorForIgnoresCase | Assets/_Project/Scripts/UI/VisionObjectsVisualizer.cs:237-280 | The colour lookup ignores letter case. |
| VisionViz.Start | Assets/_Project/Scripts/UI/VisionObjectsVisualizer.cs:75-113 | The frame is that of the simulation origin returned by its getter and initialized here: a fresh origin captures the AUV's x and z at the surface with its rotation, or is the Unity frame without an AUV. The colour table is built from the class entries. No marker or sphere exists yet. |
| VisionViz.OnVioPose | Assets/_Project/Scripts/UI/VisionObjectsVisualizer.cs:148-179 | The marker is placed at the remapped pose. With drift fixing on and the AUV found, the marker lands on the AUV. Only the origin and the marker change. |
| VisionViz.FixDrift | Assets/_Project/Scripts/UI/VisionObjectsVisualizer.cs:182-210 | Nothing happens before the first pose or without the AUV. Otherwise the origin moves by exactly the AUV minus the marker. |
| VisionViz.FixDriftAligns | Assets/_Project/Scripts/UI/VisionObjectsVisualizer.cs:203-207 | After a fix, the pose that placed the marker lands on the AUV. |
| VisionViz.Confident | Assets/_Project/Scripts/UI/VisionObjectsVisualizer.cs:220-221 | Only objects at or above the confidence threshold are drawn. |
| VisionViz.ConfidentExact | Assets/_Project/Scripts/UI/VisionObjectsVisualizer.cs:216-229 | An object is drawn exactly when it is in the message and meets the threshold. |
| VisionViz.SpheresFor | Assets/_Project/Scripts/UI/VisionObjectsVisualizer.cs:212-235 | One sphere per confident object, in message order. |
| VisionViz.OnVisionObjects | Assets/_Project/Scripts/UI/VisionObjectsVisualizer.cs:212-235 | The previous spheres are replaced by this message's, and nothing else changes. |
| VisionViz.LatestMessageOnly | Assets/_Project/Scripts/UI/VisionObjectsVisualizer.cs:214-215 | What is drawn depends only on the latest message, because each message first clears the spheres. |
| Beliefs.OnState | Assets/Scripts/UI/VisualizeAUVBeliefs.cs:142-171 | Each state topic writes its own remapped component, and the AUV is shown. |
| Beliefs.CallbacksCommute | Assets/Scripts/UI/VisualizeAUVBeliefs.cs:142-171 | Callbacks on different topics commute, and a repeated topic keeps only its latest value. |
| Beliefs.FullStateRemap | Assets/Scripts/UI/VisualizeAUVBeliefs.cs:142-171 | After one message per topic, the shown pose is position (-Y, Z, X) and rotation x = θy, y = -θz, z = -θx, whatever was shown before. |
| Beliefs.OnObjectMap | Assets/Scripts/UI/VisualizeAUVBeliefs.cs:173-247 | Each slot is shown exactly when the map has enough objects of its kind: one for a first slot, two for a second slot. |
| Beliefs.CountKindZero | Assets/Scripts/UI/VisualizeAUVBeliefs.cs:175-233 | A kind's count is zero exactly when no object of the map has that label. |
| Beliefs.ObjectMapSlots | Assets/Scripts/UI/VisualizeAUVBeliefs.cs:182-246 | Each slot sits where the loop placed it, shown exactly when the map has one object of its kind (two for a second slot). |
| Beliefs.ObjectMapFirst | Assets/Scripts/UI/VisualizeAUVBeliefs.cs:184-196 | A lane marker's, Abydos symbol's or Earth symbol's first slot is shown at the remapped position (-y, z, x) of the map's first object of that kind. |
| Beliefs.ObjectMapSecond | Assets/Scripts/UI/VisualizeAUVBeliefs.cs:184-196 | Their second slot is shown at the remapped position of the map's last object of the kind, when it is not the first. |
| Beliefs.ObjectMapSingle | Assets/Scripts/UI/VisualizeAUVBeliefs.cs:197-218 | The gate, buoy, bin and octagon-table slots are shown at the remapped position of the map's last object of their kind. |
| Beliefs.ObjectMapAbsent | Assets/Scripts/UI/VisualizeAUVBeliefs.cs:235-246 | A kind the map lacks has its slots hidden and left where they were. |
| Beliefs.AddIndicator | Assets/Scripts/UI/VisualizeAUVBeliefs.cs:263-281 | Below the limit a new indicator is appended. At the limit the indicator at `currentIndex % max` is reused. The pool stays valid. |
| Beliefs.PoolBounded | Assets/Scripts/UI/VisualizeAUVBeliefs.cs:268-277 | The pool grows by one indicator per detection up to the limit and never beyond. The newest detection is always on show. |
| Beliefs.OnDetectionFrame | Assets/Scripts/UI/VisualizeAUVBeliefs.cs:262-281 | The pool stays within its limit, never shrinks, and the reuse index never goes back. |
| Beliefs.PoolFromDetections | Assets/Scripts/UI/VisualizeAUVBeliefs.cs:264-279 | Every indicator on show was already there or is one of the frame's detections, remapped. |
| Hud.Latest | Assets/_Project/Scripts/UI/SimulatorHUD.cs:357-361 | The last n lines, in order, or all of them when there are fewer. |
| Hud.Log | Assets/_Project/Scripts/UI/SimulatorHUD.cs:350-373 | Without a text element nothing changes. Otherwise the new line is last, and the buffer is the latest 50 lines. |
| Hud.LogKeepsLatest | Assets/_Project/Scripts/UI/SimulatorHUD.cs:350-373 | However many messages are logged, the buffer holds the latest 50 lines in order, oldest first. |
| Hud.LogTextShowsLines | Assets/_Project/Scripts/UI/SimulatorHUD.cs:363 | The label text splits at newlines back into the buffered lines. |
| Hud.ApplyDrawerState | Assets/_Project/Scripts/UI/SimulatorHUD.cs:216-230 | A missing element is left alone. Otherwise the drawer has exactly one of open and collapsed, matching the argument. |
| Hud.DrawerOfName | Assets/_Project/Scripts/UI/SimulatorHUD.cs:232-246 | A registered name maps to the drawer with that name; an unknown name to none. |
| Hud.SaveDrawerState | Assets/_Project/Scripts/UI/SimulatorHUD.cs:269-283 | A drawer name sets exactly that drawer's toggle. An unknown name or missing settings changes nothing. |
| Hud.ToggleDrawer | Assets/_Project/Scripts/UI/SimulatorHUD.cs:248-267 | A missing drawer is left alone. Otherwise it flips to exactly one class, and the saved toggle is the new state. |
| Hud.DrawerFollowsSettings | Assets/_Project/Scripts/UI/SimulatorHUD.cs:189-267 | Applying the saved state makes a drawer agree with the settings, and every toggle keeps them in agreement. |
| Hud.ToggleTwice | Assets/_Project/Scripts/UI/SimulatorHUD.cs:248-267 | Toggling twice restores the drawer and the settings toggle. |
| Hud.ToggleLogPanel | Assets/_Project/Scripts/UI/SimulatorHUD.cs:285-301 | The collapsed class flips, and the arrow points up when collapsed and down when open. |
| Hud.LogPanelToggleTwice | Assets/_Project/Scripts/UI/SimulatorHUD.cs:285-301 | Two clicks restore the collapse state, and the arrow once a click has set it. |
| CameraFeed.Choices | Assets/_Project/Scripts/UI/CameraFeedController.cs:66-87 | "None" is choice 0, and there are at most five choices. |
| CameraFeed.ChoicesOffer | Assets/_Project/Scripts/UI/CameraFeedController.cs:66-87 | A feed is offered exactly when its source exists. The choices keep the fixed order and none appears twice. |
| CameraFeed.ChoiceNamesDistinct | Assets/_Project/Scripts/UI/CameraFeedController.cs:66-87 | Different choices have different names. |
| CameraFeed.FeedOfName | Assets/_Project/Scripts/UI/CameraFeedController.cs:89-156 | A name maps to the feed with that name; an unknown name to none. |
| CameraFeed.TextureOf | Assets/_Project/Scripts/UI/CameraFeedController.cs:89-156 | A selection shows a feed only when it names one whose source exists. |
| CameraFeed.UpdateCameraFeed | Assets/_Project/Scripts/UI/CameraFeedController.cs:89-156 | At most one render-need flag is set, and the front flag is set exactly for the front selection. "None" clears the images. Any other selection shows its texture. |
| CameraFeed.InitializeCameraDropdown | Assets/_Project/Scripts/UI/CameraFeedController.cs:66-87 | The dropdown gets the choices with "None" selected, no render flag is set, fullscreen is off and no image is shown. |
| CameraFeed.ToggleFullscreen | Assets/_Project/Scripts/UI/CameraFeedController.cs:158-174 | Without a background nothing changes. Otherwise fullscreen flips, the background shows exactly in fullscreen, and the button offers the way back. |
| CameraFeed.ToggleFullscreenTwice | Assets/_Project/Scripts/UI/CameraFeedController.cs:158-174 | Toggling twice restores the fullscreen state. |
| CameraFeed.NextIndex | Assets/_Project/Scripts/UI/CameraFeedController.cs:238 | The next index is within the choices. |
| CameraFeed.CycleCamera | Assets/_Project/Scripts/UI/CameraFeedController.cs:234-243 | With one choice or none nothing happens. Otherwise the selection moves to (i + 1) mod count. Unless the new choice is "None", the feed image shows that choice's texture. The message "Switched to camera: " plus the choice's name is logged, and the front-camera consumer is needed exactly when the new choice is the front camera. |
| CameraFeed.CycleReachesAll | Assets/_Project/Scripts/UI/CameraFeedController.cs:238-239 | k cycles move the selection k places round the list, so every choice is reached and count cycles come back. |
| CameraFeed.RemoveSpaces | Assets/_Project/Scripts/UI/CameraFeedController.cs:176-229 | The snapshot's feed name has no spaces and is no longer than the choice name. |
| CameraFeed.SnapshotName | Assets/_Project/Scripts/UI/CameraFeedController.cs:176-229 | The snapshot file name ends in ".png". |
| CameraFeed.Combine | Assets/_Project/Scripts/UI/CameraFeedController.cs:176-229 | The combined path starts with the folder and ends with the file name. |
| CameraFeed.OnSaveImage | Assets/_Project/Scripts/UI/CameraFeedController.cs:176-229 | Without a texture, or with a texture that cannot be read, nothing is saved and the matching message is given. A render texture is always written to a ".png" path that the message names. |
| Points.AddPoint | Assets/_Project/Scripts/PointsSettings/PointsManager.cs:25-33 | The score grows by exactly the points, whatever the task, and the colour is untouched. With a HUD one line is logged. |
| Points.ResetPoints | Assets/_Project/Scripts/PointsSettings/PointsManager.cs:35-42 | The score is zero and the colour is untouched. |
| Points.ScoreIsTotal | Assets/_Project/Scripts/PointsSettings/PointsManager.cs:25-42 | After a reset, the score is the sum of every award, and awards never change the colour. |
| Buoy.Quadrant | Assets/_Project/Scripts/CompetitionSettings/BuoyCircumnavigate.cs:82-100 | The AUV is in one of four strict quadrants, and in none exactly when it is on an axis through the buoy. |
| Buoy.Mark | Assets/_Project/Scripts/CompetitionSettings/BuoyCircumnavigate.cs:82-100 | A checkpoint is ticked afterwards exactly when it was before or it is the current quadrant. |
| Buoy.CountTrue | Assets/_Project/Scripts/CompetitionSettings/BuoyCircumnavigate.cs:60 | The count is zero exactly when none is ticked, and four exactly when all are. |
| Buoy.IndexOfTrue | Assets/_Project/Scripts/CompetitionSettings/BuoyCircumnavigate.cs:56 | The first ticked checkpoint, or -1 exactly when none is ticked. |
| Buoy.ResetCheckPoints | Assets/_Project/Scripts/CompetitionSettings/BuoyCircumnavigate.cs:146-153 | All checkpoints are cleared and the last-checkpoint flag is off. |
| Buoy.StopScript | Assets/_Project/Scripts/CompetitionSettings/BuoyCircumnavigate.cs:160-165 | Cleared, the direction is to be found afresh, and the task is disabled. |
| Buoy.StartScript | Assets/_Project/Scripts/CompetitionSettings/BuoyCircumnavigate.cs:155-158 | The task is enabled and nothing else changes. |
| Buoy.UpdateAsWritten | Assets/_Project/Scripts/CompetitionSettings/BuoyCircumnavigate.cs:38-80 | The code as written keeps four checkpoints. It agrees with the corrected update on every valid task except the first in-range frame taken on an axis through the buoy; on that frame it records -1 as the first checkpoint, without an error. |
| Buoy.CalculatePoints | Assets/_Project/Scripts/CompetitionSettings/BuoyCircumnavigate.cs:102-144 | Correct points go when the direction matches the colour (clockwise red, anticlockwise blue) or the colour is unset, which the direction then sets. Otherwise the wrong-direction points go. |
| Buoy.AxisStartNeverScores | Assets/_Project/Scripts/CompetitionSettings/BuoyCircumnavigate.cs:56-73 | Entering the circle on an axis records -1 as the first checkpoint, and completing the set then throws at index -1. Every later in-range frame throws the same way, without scoring. |
| Buoy.Update | Assets/_Project/Scripts/CompetitionSettings/BuoyCircumnavigate.cs:38-80 | The corrected update never throws and keeps the task valid. A disabled task ignores the frame. |
| Buoy.LeavingClears | Assets/_Project/Scripts/CompetitionSettings/BuoyCircumnavigate.cs:44-48 | Leaving the circle clears every checkpoint and rearms the capture, but keeps the direction found earlier. |
| Buoy.InRangeOnlyTicks | Assets/_Project/Scripts/CompetitionSettings/BuoyCircumnavigate.cs:50-79 | Within the circle, checkpoints are only ticked, apart from the one-time clearing of the first checkpoint and the reset after scoring. |
| Buoy.DirectionFixed | Assets/_Project/Scripts/CompetitionSettings/BuoyCircumnavigate.cs:60-68 | Once found, the direction stays fixed until the task stops. |
| Buoy.ScoresOnSecondCompletion | Assets/_Project/Scripts/CompetitionSettings/BuoyCircumnavigate.cs:69-79 | Points go only when the set is complete for the second time. The first completion clears the first checkpoint instead. |
| Tricks.StopScript | Assets/_Project/Scripts/CompetitionSettings/TricksChecker.cs:107-113 | The counts go to zero and the task is disabled. The accumulated angles stay. |
| Tricks.StartScript | Assets/_Project/Scripts/CompetitionSettings/TricksChecker.cs:102-105 | The checker is enabled and nothing else changes. |
| Tricks.Accumulate | Assets/_Project/Scripts/CompetitionSettings/TricksChecker.cs:72-97 | A trick is counted exactly when the total reaches a full turn either way, and the total then restarts at zero. Otherwise the delta is added. |
| Tricks.Score | Assets/_Project/Scripts/CompetitionSettings/TricksChecker.cs:77-97 | A trick adds its points and the colour is untouched. |
| Tricks.Update | Assets/_Project/Scripts/CompetitionSettings/TricksChecker.cs:37-100 | A disabled checker ignores the frame, and the checker stays valid. |
| Tricks.OutOfRangeKeepsTotals | Assets/_Project/Scripts/CompetitionSettings/TricksChecker.cs:44-52 | Leaving the prop's range zeroes the counts but keeps the accumulated angles. |
| Tricks.TricksScore | Assets/_Project/Scripts/CompetitionSettings/TricksChecker.cs:37-100 | Within range, reaching the allowance stops the task but the frame still runs. The score grows by exactly this frame's tricks. |
| Tricks.TrickNeedsHalfTurn | Assets/_Project/Scripts/CompetitionSettings/TricksChecker.cs:68-80 | A delta normalised into [-180, 180] completes a turn only from a total of at least 180 degrees. |
| Tricks.FirstFrameNoTrick | Assets/_Project/Scripts/CompetitionSettings/TricksChecker.cs:57-74 | The first in-range frame after a reset measures no rotation, so it never scores. |
| Gate.BoundsSymmetric | Assets/_Project/Scripts/CompetitionSettings/PassThroughGate.cs:57-75 | The bounds test does not depend on which pole is which. In x and z it is the closed interval between the poles. |
| Gate.NoLowerBound | Assets/_Project/Scripts/CompetitionSettings/PassThroughGate.cs:72 | Only an upper y bound is checked: however deep the AUV is, it counts as inside while between the poles. |
| Gate.SetColor | Assets/_Project/Scripts/CompetitionSettings/PassThroughGate.cs:77-91 | The colour is blue exactly when the AUV is strictly nearer the blue sign, and red otherwise, ties included. The score is unchanged. |
| Gate.Update | Assets/_Project/Scripts/CompetitionSettings/PassThroughGate.cs:35-55 | Being inside arms the task. Leaving while armed awards the points once and stops the task. Otherwise nothing happens. |
| Gate.ScoresAtMostOnce | Assets/_Project/Scripts/CompetitionSettings/PassThroughGate.cs:35-55 | Over any run, the score grows by the gate's points at most once, and only if the run ends with the task stopped. |
| Gate.StoppedStays | Assets/_Project/Scripts/CompetitionSettings/PassThroughGate.cs:98-101 | A stopped task ignores every later frame. |
| Gate.StartScript | Assets/_Project/Scripts/CompetitionSettings/PassThroughGate.cs:93-96 | The task is enabled and nothing else changes. |
| Gate.StopScript | Assets/_Project/Scripts/CompetitionSettings/PassThroughGate.cs:98-101 | The task is disabled and nothing else changes. |
| Octagon.PairHoldsBetween | Assets/_Project/Scripts/CompetitionSettings/OctagonSurface.cs:49-61 | Without the division, a pair holds exactly when the projection lies strictly between the two cylinders. |
| Octagon.IsObjectInsidePolygon | Assets/_Project/Scripts/CompetitionSettings/OctagonSurface.cs:46-64 | Inside exactly when every complete pair's projection parameter lies strictly in (0, 1). A trailing odd cylinder is ignored. |
| Octagon.NoPairsInside | Assets/_Project/Scripts/CompetitionSettings/OctagonSurface.cs:48-49 | With fewer than two cylinders the test holds vacuously. |
| Octagon.Update | Assets/_Project/Scripts/CompetitionSettings/OctagonSurface.cs:26-44 | At or below y = -0.3 nothing happens. Near the surface, being inside awards the points once and stops the task. The score grows by the points or not at all. |
| Batch.OnAfterDeserialize | Assets/_Project/Scripts/SynthDataGen/BatchConfig.cs:125-133 | A batch entry with a zero iteration count gets the defaults, so no entry keeps a zero count. Other entries are untouched. |
| Batch.Chain | Assets/_Project/Scripts/SynthDataGen/BatchRunner.cs:113-128 | One range per batch in list order. Each range starts where the last one ended and is that batch's iteration count long. |
| Batch.BuildSchedule | Assets/_Project/Scripts/SynthDataGen/BatchRunner.cs:93-130 | In test mode: the selected batch alone from 0, or nothing when the index is out of range. Otherwise: every batch, chained from 0. |
| Batch.ChainTotal | Assets/_Project/Scripts/SynthDataGen/BatchRunner.cs:113-128 | The last range ends at the start plus the sum of all iteration counts. |
| Batch.ChainOrdered | Assets/_Project/Scripts/SynthDataGen/BatchRunner.cs:113-128 | With no negative counts, ranges follow one another without overlapping. |
| Batch.BatchIndexFor | Assets/_Project/Scripts/SynthDataGen/BatchRunner.cs:132-142 | The first batch whose range holds the iteration, or -1 exactly when no range does. |
| Batch.UniqueOwner | Assets/_Project/Scripts/SynthDataGen/BatchRunner.cs:132-142 | On a chained schedule, the batch found is the only one whose range holds the iteration. |
| Batch.Start | Assets/_Project/Scripts/SynthDataGen/BatchRunner.cs:61-76 | The scenario's iteration count becomes the end of the last range. An empty schedule applies nothing and leaves the count alone. |
| Batch.StartRunsEverything | Assets/_Project/Scripts/SynthDataGen/BatchRunner.cs:61-76 | Outside test mode, the scenario runs the sum of every batch's iterations. |
| Batch.Update | Assets/_Project/Scripts/SynthDataGen/BatchRunner.cs:78-91 | When the first batch owning the current iteration differs from the applied one, that batch becomes current and its configuration is applied. A configuration is applied only on such a change; it is the new batch's configuration, and that batch's range holds the iteration. |
| Yolo.IdMapNumbersSpec | Assets/_Project/Scripts/SynthDataGen/Editor/YoloConverterEditor.cs:148-160 | With one bounding-box definition, the YOLO ids are 0 to n-1 in spec order, and exactly the spec's label ids are mapped. |
| Yolo.IdMapSkips | Assets/_Project/Scripts/SynthDataGen/Editor/YoloConverterEditor.cs:148-161 | Definitions other than "bounding box" add nothing to the id map. |
| Yolo.IdMapKeys | Assets/_Project/Scripts/SynthDataGen/Editor/YoloConverterEditor.cs:148-161 | A label id is mapped exactly when some bounding-box definition lists it, whatever the order, repetition or other definitions. |
| Yolo.VisibilityKnown | Assets/_Project/Scripts/SynthDataGen/Editor/YoloConverterEditor.cs:190-204 | An instance's visibility is known exactly when some occlusion metric lists it. Other metrics are ignored. |
| Yolo.UnlistedKept | Assets/_Project/Scripts/SynthDataGen/Editor/YoloConverterEditor.cs:237-238 | A box that no occlusion metric lists is never filtered out. |
| Yolo.Div | Assets/_Project/Scripts/SynthDataGen/Editor/YoloConverterEditor.cs:247-250 | Division by a zero resolution gives a non-finite value rather than a number. |
| Yolo.NormalizeRoundTrip | Assets/_Project/Scripts/SynthDataGen/Editor/YoloConverterEditor.cs:247-250 | Scaling the normalised values back by the resolution gives the pixel box again. The centre is the origin plus half the size. |
| Yolo.ConvertComplete | Assets/_Project/Scripts/SynthDataGen/Editor/YoloConverterEditor.cs:237-255 | Every visible box with a mapped label appears in the output, normalised with its YOLO id. |
| Yolo.Convert | Assets/_Project/Scripts/SynthDataGen/Editor/YoloConverterEditor.cs:237-255 | At most one entry per box, and every entry carries a YOLO id from the id map. |
| Yolo.ConvertSound | Assets/_Project/Scripts/SynthDataGen/Editor/YoloConverterEditor.cs:237-255 | Every output entry comes from a visible box with a mapped label. |
| Yolo.LineFields | Assets/_Project/Scripts/SynthDataGen/Editor/YoloConverterEditor.cs:254 | Each label line is newline-terminated and splits into exactly the id and the four numbers. |
| Yolo.ContentLines | Assets/_Project/Scripts/SynthDataGen/Editor/YoloConverterEditor.cs:225-259 | The label file splits at newlines into one line per converted box, then a final empty piece. |
| Yolo.AfterLast | Assets/_Project/Scripts/SynthDataGen/Editor/YoloConverterEditor.cs:217-218 | A file or folder name is a suffix of its path that contains no separator. |
| Yolo.NamingFollowsFolder | Assets/_Project/Scripts/SynthDataGen/Editor/YoloConverterEditor.cs:217-218 | The copied image is named after the sequence folder, an underscore and the capture's file name. |
| Yolo.LabelNameReplacesExtension | Assets/_Project/Scripts/SynthDataGen/Editor/YoloConverterEditor.cs:261 | The label file has the image's name with its extension replaced by ".txt". |
| Yolo.ConvertFrame | Assets/_Project/Scripts/SynthDataGen/Editor/YoloConverterEditor.cs:185-264 | A frame without captures writes no files. |
| Yolo.ConvertCaptures | Assets/_Project/Scripts/SynthDataGen/Editor/YoloConverterEditor.cs:210-263 | Exactly one label file per RGB capture and none for any other capture, in capture order: the first RGB capture's image is copied under its unique name. A capture without a type counts as RGB. |
| Yolo.UntypedCaptureConverted | Assets/_Project/Scripts/SynthDataGen/Editor/YoloConverterEditor.cs:212 | A capture without a type is treated as RGB. A typed capture that is not an RGB camera is skipped. |
| PoolFloor.FirstPresent | Assets/_Project/Scripts/SynthDataGen/PoolFloorPlacementRandomizer.cs:164-165 | The first present configuration, or -1 exactly when none is present. |
| PoolFloor.Awake | Assets/_Project/Scripts/SynthDataGen/PoolFloorPlacementRandomizer.cs:71-102 | The randomizer is ready exactly when some configuration is present. Its total weight is then the present configurations' sum. |
| PoolFloor.SampleWeighted | Assets/_Project/Scripts/SynthDataGen/PoolFloorPlacementRandomizer.cs:162-181 | The result is a present configuration, -1 exactly when none is present. With a positive total it is the first present one whose running weight reaches the draw. With a total of zero or less it is the first present one. |
| PoolFloor.Place | Assets/_Project/Scripts/SynthDataGen/PoolFloorPlacementRandomizer.cs:104-148 | Never more objects than the maximum allows. Each object stands at its configuration's spawn height. |
| PoolFloor.Iterate | Assets/_Project/Scripts/SynthDataGen/PoolFloorPlacementRandomizer.cs:104-148 | Nothing is placed before `Awake` succeeded or without configurations. A positive maximum bounds the count. |
| PoolFloor.EverySamplePlaced | Assets/_Project/Scripts/SynthDataGen/PoolFloorPlacementRandomizer.cs:127-144 | Without a maximum, every sample inside the area with a configuration chosen is placed. |
| BoundedCamera.Range | Assets/_Project/Scripts/SynthDataGen/BoundedCameraRandomizer.cs:159-166 | A uniform draw lies between the two ends, in either order. |
| BoundedCamera.RandomPoolPosition | Assets/_Project/Scripts/SynthDataGen/BoundedCameraRandomizer.cs:159-166 | A random pool position lies inside the bounds. |
| BoundedCamera.Candidate | Assets/_Project/Scripts/SynthDataGen/BoundedCameraRandomizer.cs:198-200 | A near-target candidate is clamped inside the bounds. |
| BoundedCamera.PositionNearTarget | Assets/_Project/Scripts/SynthDataGen/BoundedCameraRandomizer.cs:171-216 | At most ten attempts. The first candidate at least half the minimum distance from the target is taken. If none is, the fallback pool position is used after all ten. The result is inside the bounds. It equals `NearTarget`, the recursive definition "first acceptable candidate, else the pool position". |
| BoundedCamera.Spawned | Assets/_Project/Scripts/SynthDataGen/BoundedCameraRandomizer.cs:236-244 | No position is collected exactly when no child is both active and in the scene (x below 9999). |
| BoundedCamera.SpawnedExact | Assets/_Project/Scripts/SynthDataGen/BoundedCameraRandomizer.cs:221-255 | The target candidates are exactly the positions of the container's objects that are in the scene. |
| BoundedCamera.TargetPosition | Assets/_Project/Scripts/SynthDataGen/BoundedCameraRandomizer.cs:221-255 | Without a container or objects, the fallback. Otherwise one of the spawned objects' positions. |
| BoundedCamera.IterationStart | Assets/_Project/Scripts/SynthDataGen/BoundedCameraRandomizer.cs:100-150 | Nothing happens when disabled or without a camera. Otherwise the camera goes inside the bounds. With the distance constraint and look-at both on, the position is the near-target placement for the picked target; otherwise it is a random pool position. The camera aims at the target exactly when look-at is on and the target is more than 0.001 away horizontally (squared). |
| VisualTarget.LabelsOf | Assets/_Project/Scripts/SynthDataGen/VisualTargetRandomizer.cs:92-97 | A configuration leaves one label exactly when its label text is set and non-empty, and none otherwise. |
| VisualTarget.Apply | Assets/_Project/Scripts/SynthDataGen/VisualTargetRandomizer.cs:82-99 | A missing target is untouched. Otherwise the material is the configuration's, and with a labeling the labels are replaced by the configuration's. |
| VisualTarget.ApplyIdempotent | Assets/_Project/Scripts/SynthDataGen/VisualTargetRandomizer.cs:82-99 | Applying the same configuration twice is the same as once. |
| VisualTarget.DrawDifferent | Assets/_Project/Scripts/SynthDataGen/VisualTargetRandomizer.cs:64-72 | The redraw yields a draw different from the first exactly when some draw differs, and that value was drawn. |
| VisualTarget.Randomize | Assets/_Project/Scripts/SynthDataGen/VisualTargetRandomizer.cs:52-80 | Only the first two targets change. With no configurations or no targets, nothing changes. |
| VisualTarget.TwoQuadsDiffer | Assets/_Project/Scripts/SynthDataGen/VisualTargetRandomizer.cs:64-78 | Two present quads get the two drawn configurations: different ones when more than one exists, the same one otherwise. |
| VisualTarget.Update | Assets/_Project/Scripts/SynthDataGen/VisualTargetRandomizer.cs:37-47 | The quads are redrawn, by `Randomize` with this frame's draws, exactly when the scenario's iteration has changed, and the new iteration is remembered. |
| VisualTarget.OncePerIteration | Assets/_Project/Scripts/SynthDataGen/VisualTargetRandomizer.cs:37-47 | A second frame of the same iteration keeps the first frame's draw, whatever it draws. |
| ConditionalLabeling.ShouldLabelIff | Assets/_Project/Scripts/SynthDataGen/ConditionalLabeling.cs:49-71 | An object is labelled exactly when every switched-on filter passes: distance within the maximum, and angle within the view cone. |
| ConditionalLabeling.AngleExtremes | Assets/_Project/Scripts/SynthDataGen/ConditionalLabeling.cs:65-67 | At the widest cone with back faces allowed every angle passes. At a zero cone without back faces only head-on passes. |
| ConditionalLabeling.Start | Assets/_Project/Scripts/SynthDataGen/ConditionalLabeling.cs:37-43 | The component has a camera afterwards exactly when it had one or a main camera exists. |
| ConditionalLabeling.Update | Assets/_Project/Scripts/SynthDataGen/ConditionalLabeling.cs:45-76 | Without camera or labeling nothing changes. Otherwise labeling is enabled exactly when the filters pass, and the flag is written only when its value changes. |
| ConditionalLabeling.UpdateSettles | Assets/_Project/Scripts/SynthDataGen/ConditionalLabeling.cs:74-75 | A second update with the same measurements changes nothing and writes nothing. |
| DragBake.GridBijection | Assets/_Project/Scripts/Physics/Editor/DragLookupBaker.cs:272-275 | The sample counter walks every grid cell exactly once: each sample number below lat times lon names a cell, and each cell's number names that cell. |
| DragBake.LatitudeSpan | Assets/_Project/Scripts/Physics/Editor/DragLookupBaker.cs:278 | The rows run from the upper pole (+pi/2) strictly downward to the lower pole (-pi/2). |
| DragBake.Latitude | Assets/_Project/Scripts/Physics/Editor/DragLookupBaker.cs:278 | With a single row the latitude is 0/0, which is not a number. |
| DragBake.CountCovered | Assets/_Project/Scripts/Physics/Editor/DragLookupBaker.cs:310-318 | The pixel loop counts exactly the covered pixels, and sums their columns and rows. |
| DragBake.ColumnsBounded | Assets/_Project/Scripts/Physics/Editor/DragLookupBaker.cs:310-318 | The column sum is at most the covered count times the last column. |
| DragBake.EntryOf | Assets/_Project/Scripts/Physics/Editor/DragLookupBaker.cs:318-325 | The area is the covered count times the pixel area, never negative. With nothing covered both offsets are zero. Otherwise each offset is the mean covered column (or row) minus half the resolution, times the pixel size. |
| DragBake.EntryOffsetInFrame | Assets/_Project/Scripts/Physics/Editor/DragLookupBaker.cs:318-325 | For a non-negative pixel size, the column offset lies between minus half the image width and half the width less one pixel. |
| DragBake.MeanColumnInImage | Assets/_Project/Scripts/Physics/Editor/DragLookupBaker.cs:320-325 | The mean covered column lies within the image. |
| DragBake.Advance | Assets/_Project/Scripts/Physics/Editor/DragLookupBaker.cs:272 | A frame never moves past the total, and it makes progress while samples remain. |
| DragBake.FramesDone | Assets/_Project/Scripts/Physics/Editor/DragLookupBaker.cs:272-342 | After k frames, min(start + k times the per-frame count, total) samples are done. |
| DragBake.MinPositive | Assets/_Project/Scripts/Physics/Editor/DragLookupBaker.cs:365-369 | The smallest positive area, ignoring empty silhouettes. It stays at the float maximum when no area is positive. |
| DragBake.MaxArea | Assets/_Project/Scripts/Physics/Editor/DragLookupBaker.cs:365-368 | The largest area: at least zero, at least every area, and one of them unless zero. |
| OrbitCamera.ClampAngle | Assets/_Project/Scripts/UserCamera/OrbitFollowCamera.cs:163-168 | The result is within the limits, and an angle already within them and within one turn is unchanged. |
| OrbitCamera.Signed | Assets/_Project/Scripts/UserCamera/OrbitFollowCamera.cs:66-91 | An Euler angle in [0, 360) maps into (-180, 180] by subtracting at most one turn. |
| OrbitCamera.Enable | Assets/_Project/Scripts/UserCamera/OrbitFollowCamera.cs:66-91 | Without a target nothing changes. On the first enable, or when reset is asked for, the initial angles are used. Otherwise the current view angles are kept. |
| OrbitCamera.Zoom | Assets/_Project/Scripts/UserCamera/OrbitFollowCamera.cs:121 | Without scrolling the distance is unchanged. With scrolling it stays within the zoom limits. |
| OrbitCamera.CollisionDistance | Assets/_Project/Scripts/UserCamera/OrbitFollowCamera.cs:145 | Without a hit, the zoom distance. With one, the hit distance less the buffer, kept between the minimum and the zoom distance. |
| OrbitCamera.LateUpdate | Assets/_Project/Scripts/UserCamera/OrbitFollowCamera.cs:101-161 | Without a target nothing changes. The pitch stays within its limits. Zoom is ignored over the UI. The smoothed distance moves toward the collision distance without overshooting. |
| OrbitCamera.LateUpdateKeepsLimits | Assets/_Project/Scripts/UserCamera/OrbitFollowCamera.cs:101-161 | When the zoom distance and the smoothed distance are within the zoom limits, a frame keeps both there. |

## Left out

- Noise generation (`Assets/_Project/Scripts/Utils/Stochastic.cs`: Box-Muller, Gauss-Markov drift) is transcendental and random. Every noise term, bias drift and random draw is a parameter of the operation that uses it.
- Euler extraction and rotation construction are foreign library calls: `euler_from_quaternion` in the bridge, Unity's `eulerAngles`, `Quaternion.Euler`, `LookRotation`, `Slerp`, `RotateTowards`, and the `To<FLU>`/`To<RUF>`/`To<NED>` conversions. Their results are parameters. `StatePublisher.cs` and `PIDManager.cs` are thin wrappers over them and are not part of this model.
- Unity physics is not part of this model: buoyancy, drag forces, raycasts, `GetPointVelocity`, rigidbody forces and `PingerBearingVisualizer.cs`. Raycast hits, velocities and accelerations enter as parameters.
- Rendering and GPU readback are engine-side: camera publishers, depth capture, the ZED native library, underwater effects, and the render-texture half of `DragLookupBaker.cs`. Its pixel buffer is an input.
- The ROS transport (publish and subscribe), generated message classes, the wall clock, JSON parsing and all file reads, writes and copies are I/O. The model returns what would be published or written, including the clock message `RosClock.FixedUpdate` sends. `SimulationSettings.ValidateAndGetSavePath` is filesystem I/O.
- UI Toolkit glue is not modelled: element lookup, styles, callbacks registration, `SettingsController`, `SensorDataController`, `TelemetryController`, `FreeCameraController`. The HUD and camera-feed models keep only the state those elements show.
- Float formatting (`F6` in the YOLO label line) is a parameter, `format`, assumed to produce plain text without separators. Single-precision rounding is not modelled. The settings' whole numbers are written with `Text.IntToString`, which is modelled.
- Distances the source computes with a square root are compared squared: the gate's sign distances, the buoy's 3 m range (`Buoy.OutOfRange`) and the tricks' range (`Tricks.OutOfRange`). The conditional-labeling distance and angle come from the engine and are parameters.
- Points.AddPoint: the score is an unbounded integer. The source's 32-bit `int` would wrap after about two billion points, which no competition run reaches.
- Batch.Chain: iteration counts are unbounded integers. The 32-bit overflow of a schedule longer than `int.MaxValue` iterations is not modelled.
- Torpedo.UpdateRotation: the base's `Quaternion.RotateTowards` about the yaw axis is modelled as a step of the yaw angle. The two agree for rotations about one fixed axis.
- Beliefs.OnState: the shown rotation is the Euler-angle triple handed to `Quaternion.Euler`, not the quaternion it builds.
- `BatchConfig.UpdateBatchConfig`'s per-batch sampler settings are engine objects. The model applies a batch's configuration as a value and does not look inside it.
- Paths use '/' as the only separator (`Path.GetFileName`, `DirectoryInfo.Name`, `Path.Combine`), as on the Linux and macOS editors.
- PoolFloor.Place: the Poisson-disk samples and the prefab choices are inputs. The sampler and the random draw behind the choice are not modelled.
- BoundedCamera.IterationStart: the camera's yaw and aim rotation come from `Atan2` and `LookRotation` and are not modelled. The random pick of a target object is the parameter `pick`.
- VisualTarget.DrawDifferent: the source's redraw loop runs until a different index comes up. The model takes a finite list of draws and returns `None` if it runs out, which the source's loop never does when at least two configurations exist.
- DragBake.MinPositive: the status strings and the largest centre-of-pressure offset, which needs a square root, are not modelled.
- OrbitCamera.LateUpdate: the smoothed rotation (`Slerp`) and the resulting camera position are not modelled. The collision raycast's hit distance is an `Option` input.
- `AngleBasedLabeling.cs` repeats ConditionalLabeling's angle rule and is modelled once, as `ConditionalLabeling`.
- The legacy copies under `Assets/Scripts/` are older duplicates and are not part of this model, except `VisualizeAUVBeliefs.cs`, which has no newer counterpart. `src/unity_bridge.py` is a no-op callback.
- Settings.Load: when a stored value fails to parse, the source has already assigned the fields read before it. The model returns only the error and not that partially updated state.
- Text.ParseBool: letter case is folded for the ASCII letters only. .NET's case-insensitive comparison also folds other letters, which the two accepted words do not contain.
- Text.ParseInt: only the invariant-culture form is modelled (ASCII digits, '-' and '+' signs). Culture-specific signs and the parenthesised or hexadecimal forms, which `NumberStyles.Integer` rejects anyway, are not modelled.
- VisionViz.ColorLookup: the class names are lower-cased with ASCII folding only. The source's `ToLower` uses the current culture, which also folds non-ASCII letters.
- VisionViz.ColorForIgnoresCase: case is ignored for ASCII letters only, for the same reason.
- Settings: the camera field of view is saved as a float and parsed with `float.Parse`; that field is not modelled.
- Yolo: the copy of each image file is I/O. Only its destination name is modelled (`Yolo.NamingFollowsFolder`).

## Findings

| source | as written | input that shows it | evidently intended | confidence | as-written member | corrected member |
|---|---|---|---|---|---|---|
| Assets/_Project/Scripts/Sensors/PingerTimeDifference.cs:53-56 | The arrival-time loop runs to `hydrophoneToPingerDistances.Length`, which is 4. `Start` registers only three hydrophones (lines 34-36), so `hydrophoneList[3]` is out of range. | Any call of `CalculateTimeDifference` with a valid pinger index. | Loop over the registered hydrophones only and fill three arrival times. | not executed; high | `Pinger.CalculateAsWritten`, `Pinger.ThreeHydrophonesAlwaysFail` | `Pinger.CalculateTimeDifference` |
| Assets/_Project/Scripts/CompetitionSettings/BuoyCircumnavigate.cs:56 | On the first frame within range, `firstCheckPoint = checkPoints.IndexOf(true)` is -1 when the AUV is exactly on an axis through the buoy, since no quadrant is ticked. When all four quadrants are later ticked, line 73 `checkPoints[firstCheckPoint] = false` throws. No points are ever awarded until the AUV leaves the circle. | Enter the circle on the buoy's x line (AUV at offset (0, 1) from the buoy), then visit quadrants 0, 2, 1 and 3. | Capture the first quadrant actually ticked, on the first frame that ticks one. | not executed; high | `Buoy.UpdateAsWritten`, `Buoy.AxisStartNeverScores` | `Buoy.Update` |

=== FILE: batch.dfy ===
/** The synthetic-data batch runner: chains the configured batches into
    one schedule of iteration ranges, sizes the scenario to the whole
    schedule, and applies a batch's configuration when the scenario's
    iteration moves into that batch's range.
 */
module Batch {
  import opened Wrappers

  /** The parts of a batch configuration the runner itself reads; the
      sampler ranges it hands to the randomizers are carried as they are. */
  datatype Config = Config(batchName: string, iterations: int, spawnObjects: bool, ranges: seq<real>)

  /** `SetDefaults`, for the fields modelled. */
  function Defaults(ranges: seq<real>): Config
  {
    Config("NewBatch", 1000, true, ranges)
  }

  /** `OnAfterDeserialize`: a zero iteration count marks a fresh list
      entry, which gets the defaults. */
  function OnAfterDeserialize(c: Config, defaultRanges: seq<real>): (r: Config)
    ensures r.iterations != 0
    ensures c.iterations != 0 ==> r == c
  {
    if c.iterations == 0 then Defaults(defaultRanges) else c
  }

  /** One scheduled batch: iterations `start` up to but not including `end`. */
  datatype Info = Info(start: int, end: int, config: Config)

  predicate Owns(b: Info, iteration: int)
  {
    b.start <= iteration < b.end
  }

  /** The batches chained from `start`, each beginning where the last one
      ended. */
  function Chain(configs: seq<Config>, start: int): (r: seq<Info>)
    ensures |r| == |configs|
    ensures |r| > 0 ==> r[0].start == start
    ensures forall i :: 0 <= i < |r| ==> r[i].config == configs[i] && r[i].end == r[i].start + configs[i].iterations
    ensures forall i :: 0 <= i < |r| - 1 ==> r[i + 1].start == r[i].end
    decreases |configs|
  {
    if |configs| == 0 then []
    else [Info(start, start + configs[0].iterations, configs[0])] + Chain(configs[1..], start + configs[0].iterations)
  }

  /** `BuildSchedule`: in test mode the one selected batch from 0, or
      nothing when the index is out of range; otherwise the chain from 0. */
  function BuildSchedule(configs: seq<Config>, testMode: bool, testIndex: int): (r: seq<Info>)
    ensures testMode && 0 <= testIndex < |configs| ==> r == [Info(0, configs[testIndex].iterations, configs[testIndex])]
    ensures testMode && !(0 <= testIndex < |configs|) ==> r == []
    ensures !testMode ==> |r| == |configs| && (|r| > 0 ==> r[0].start == 0)
  {
    if testMode then
      if 0 <= testIndex < |configs| then [Info(0, configs[testIndex].iterations, configs[testIndex])] else []
    else Chain(configs, 0)
  }

  function SumIterations(configs: seq<Config>): int
    decreases |configs|
  {
    if |configs| == 0 then 0 else configs[0].iterations + SumIterations(configs[1..])
  }

  /** The chain's last batch ends at the total of all iteration counts. */
  lemma {:induction false} ChainTotal(configs: seq<Config>, start: int)
    requires |configs| > 0
    ensures Chain(configs, start)[|configs| - 1].end == start + SumIterations(configs)
    decreases |configs|
  {
    if |configs| > 1 {
      ChainTotal(configs[1..], start + configs[0].iterations);
      ChainLast(configs, start);
    }
  }

  /** The chain's last range is the last range of the chain after the first. */
  lemma ChainLast(configs: seq<Config>, start: int)
    requires |configs| > 1
    ensures Chain(configs, start)[|configs| - 1]
            == Chain(configs[1..], start + configs[0].iterations)[|configs| - 2]
  {
    var next := start + configs[0].iterations;
    assert Chain(configs, start) == [Info(start, next, configs[0])] + Chain(configs[1..], next);
  }

  predicate NonNegative(configs: seq<Config>)
  {
    forall i :: 0 <= i < |configs| ==> configs[i].iterations >= 0
  }

  /** Consecutive ranges meet, and none runs backwards. */
  predicate Linked(r: seq<Info>)
  {
    (forall i :: 0 <= i < |r| - 1 ==> r[i + 1].start == r[i].end)
    && (forall i :: 0 <= i < |r| ==> r[i].start <= r[i].end)
  }

  lemma {:induction false} LinkedOrdered(r: seq<Info>, i: int, j: int)
    requires Linked(r) && 0 <= i < j < |r|
    ensures r[i].end <= r[j].start
    decreases j - i
  {
    if j > i + 1 {
      LinkedOrdered(r, i, j - 1);
      assert r[j].start == r[j - 1].end;
    }
  }

  /** With no negative counts the ranges follow one another without
      overlapping, so no iteration is owned by two batches. */
  lemma ChainOrdered(configs: seq<Config>, start: int)
    requires NonNegative(configs)
    ensures var r := Chain(configs, start);
            forall i, j :: 0 <= i < j < |r| ==> r[i].end <= r[j].start
  {
    var r := Chain(configs, start);
    assert Linked(r);
    forall i, j | 0 <= i < j < |r|
      ensures r[i].end <= r[j].start
    {
      LinkedOrdered(r, i, j);
    }
  }

  /** `GetBatchIndexForIteration`: the first batch owning the iteration,
      or -1. */
  method BatchIndexFor(schedule: seq<Info>, iteration: int) returns (index: int)
    ensures -1 <= index < |schedule|
    ensures index == -1 <==> forall i :: 0 <= i < |schedule| ==> !Owns(schedule[i], iteration)
    ensures index >= 0 ==> Owns(schedule[index], iteration)
                           && forall i :: 0 <= i < index ==> !Owns(schedule[i], iteration)
  {
    var i := 0;
    while i < |schedule|
      invariant 0 <= i <= |schedule|
      invariant forall k :: 0 <= k < i ==> !Owns(schedule[k], iteration)
    {
      if iteration >= schedule[i].start && iteration < schedule[i].end {
        return i;
      }
      i := i + 1;
    }
    return -1;
  }

  /** On a chained schedule the batch found is the only one owning the
      iteration. */
  method UniqueOwner(configs: seq<Config>, iteration: int) returns (index: int)
    requires NonNegative(configs)
    ensures index >= 0 ==> forall i :: 0 <= i < |configs| && Owns(Chain(configs, 0)[i], iteration) ==> i == index
    ensures index == -1 <==> forall i :: 0 <= i < |configs| ==> !Owns(Chain(configs, 0)[i], iteration)
  {
    var schedule := Chain(configs, 0);
    index := BatchIndexFor(schedule, iteration);
    assert |schedule| == |configs|;
    ChainOrdered(configs, 0);
  }

  /** The runner: the schedule, the scenario's iteration count and the
      batch whose configuration is applied (-1 before any). */
  datatype Runner = Runner(schedule: seq<Info>, iterationCount: int, currentBatchIndex: int)

  /** `Start`: build the schedule; when it is not empty, size the scenario
      to the last batch's end and apply the first batch. The applied
      configuration is returned. */
  function Start(configs: seq<Config>, testMode: bool, testIndex: int, iterationCount: int)
    : (r: (Runner, Option<Config>))
    ensures r.0.schedule == BuildSchedule(configs, testMode, testIndex)
    ensures |r.0.schedule| == 0 ==> r.1.None? && r.0.currentBatchIndex == -1 && r.0.iterationCount == iterationCount
    ensures |r.0.schedule| > 0 ==>
              r.0.iterationCount == r.0.schedule[|r.0.schedule| - 1].end
              && r.0.currentBatchIndex == 0 && r.1 == Some(r.0.schedule[0].config)
  {
    var s := BuildSchedule(configs, testMode, testIndex);
    if |s| > 0 then (Runner(s, s[|s| - 1].end, 0), Some(s[0].config))
    else (Runner(s, iterationCount, -1), None)
  }

  /** Outside test mode the scenario runs every batch's iterations. */
  lemma StartRunsEverything(configs: seq<Config>, testIndex: int, iterationCount: int)
    requires |configs| > 0
    ensures Start(configs, false, testIndex, iterationCount).0.iterationCount == SumIterations(configs)
  {
    ChainTotal(configs, 0);
  }

  /** `Update`: when the current iteration belongs to a batch other than
      the applied one, that batch's configuration is applied. */
  method Update(r: Runner, currentIteration: int) returns (next: Runner, applied: Option<Config>)
    ensures next.schedule == r.schedule && next.iterationCount == r.iterationCount
    ensures applied.Some? <==> next.currentBatchIndex != r.currentBatchIndex
    ensures applied.Some? ==> 0 <= next.currentBatchIndex < |r.schedule|
                              && Owns(r.schedule[next.currentBatchIndex], currentIteration)
                              && applied.value == r.schedule[next.currentBatchIndex].config
    ensures applied.None? ==> next == r
    ensures forall k :: 0 <= k < |r.schedule| && Owns(r.schedule[k], currentIteration)
                        && (forall j :: 0 <= j < k ==> !Owns(r.schedule[j], currentIteration))
                        && k != r.currentBatchIndex
                        ==> next.currentBatchIndex == k && applied == Some(r.schedule[k].config)
  {
    var index := BatchIndexFor(r.schedule, currentIteration);
    if index != -1 && index != r.currentBatchIndex {
      next := r.(currentBatchIndex := index);
      applied := Some(r.schedule[index].config);
    } else {
      next := r;
      applied := None;
    }
  }
}

=== FILE: beliefs.dfy ===
/** The AUV-beliefs visualizer: shows the pose the AUV's state estimator
    publishes, the objects of its object map in fixed slots, and the
    detections of the latest frames in a bounded pool of indicators.
 */
module Beliefs {
  import opened Geometry

  /** The six state topics. */
  datatype StateField = ThetaX | ThetaY | ThetaZ | PosX | PosY | PosZ

  /** The estimated pose as shown: Unity position and Euler angles in
      radians, and whether the model has been shown yet. */
  datatype Pose = Pose(position: Vec3, rotation: Vec3, visible: bool)

  const Hidden: Pose := Pose(Zero, Zero, false)

  /** One state callback: each writes one Unity component, converting from
      the ROS frame: position (x, y, z) = (-Y, Z, X), rotation
      (x, y, z) = (theta_y, -theta_z, -theta_x). */
  function OnState(p: Pose, f: StateField, d: real): (r: Pose)
    ensures r.visible
    ensures f.PosX? || f.PosY? || f.PosZ? ==> r.rotation == p.rotation
    ensures f.ThetaX? || f.ThetaY? || f.ThetaZ? ==> r.position == p.position
  {
    match f
    case ThetaX => p.(rotation := p.rotation.(z := -d), visible := true)
    case ThetaY => p.(rotation := p.rotation.(x := d), visible := true)
    case ThetaZ => p.(rotation := p.rotation.(y := -d), visible := true)
    case PosX => p.(position := p.position.(z := d), visible := true)
    case PosY => p.(position := p.position.(x := -d), visible := true)
    case PosZ => p.(position := p.position.(y := d), visible := true)
  }

  /** Each topic owns its own component, so callbacks on different topics
      commute and a repeated topic keeps only its latest value. */
  lemma CallbacksCommute(p: Pose, f: StateField, g: StateField, a: real, b: real)
    ensures f != g ==> OnState(OnState(p, f, a), g, b) == OnState(OnState(p, g, b), f, a)
    ensures OnState(OnState(p, f, a), f, b) == OnState(p, f, b)
  {
  }

  /** After one message on each topic the shown pose is the remapped state,
      whatever was shown before. */
  lemma FullStateRemap(p: Pose, tx: real, ty: real, tz: real, x: real, y: real, z: real)
    ensures var r := OnState(OnState(OnState(OnState(OnState(OnState(p,
                       ThetaX, tx), ThetaY, ty), ThetaZ, tz), PosX, x), PosY, y), PosZ, z);
            r.position == Vec3(-y, z, x) && r.rotation == Vec3(ty, -tz, -tx) && r.visible
  {
  }

  /** The object-map labels with visualization slots. */
  datatype Kind = LaneMarker | Gate | Buoy | Bin | OctagonTable | AbydosSymbol | EarthSymbol | Other

  function KindOf(labelName: string): Kind
  {
    if labelName == "Lane Marker" then LaneMarker
    else if labelName == "Gate" then Gate
    else if labelName == "Buoy" then Buoy
    else if labelName == "Bin" then Bin
    else if labelName == "Octagon Table" then OctagonTable
    else if labelName == "Abydos Symbol" then AbydosSymbol
    else if labelName == "Earth Symbol" then EarthSymbol
    else Other
  }

  datatype Detection = Detection(labelName: string, x: real, y: real, z: real)

  function PositionOf(d: Detection): Vec3
  {
    Vec3(-d.y, d.z, d.x)
  }

  /** A visualization slot: its last position and whether it is shown. */
  datatype Slot = Slot(position: Vec3, active: bool)

  /** The slots. The lane markers, Abydos symbols and Earth symbols have a
      first and a second slot; the map's later objects of the kind all go
      to the second. */
  datatype Slots = Slots(
    lane1: Slot, lane2: Slot, gate: Slot, buoy: Slot, bin: Slot, octagon: Slot,
    abydos1: Slot, abydos2: Slot, earth1: Slot, earth2: Slot)

  /** How many of the map's objects are of kind `k`. */
  function CountKind(ds: seq<Detection>, k: Kind): (n: nat)
    ensures n <= |ds|
    decreases |ds|
  {
    if |ds| == 0 then 0
    else CountKind(ds[..|ds| - 1], k) + (if KindOf(ds[|ds| - 1].labelName) == k then 1 else 0)
  }

  /** The count is zero exactly when no object of the map is of the kind. */
  lemma {:induction false} CountKindZero(ds: seq<Detection>, k: Kind)
    ensures CountKind(ds, k) == 0 <==> forall i :: 0 <= i < |ds| ==> KindOf(ds[i].labelName) != k
    decreases |ds|
  {
    if |ds| > 0 {
      var init := ds[..|ds| - 1];
      CountKindZero(init, k);
      assert forall i :: 0 <= i < |init| ==> init[i] == ds[i];
    }
  }

  function MoveFirst(s: Slot, d: Detection, count: nat): Slot
  {
    if count == 0 then s.(position := PositionOf(d)) else s
  }

  function MoveSecond(s: Slot, d: Detection, count: nat): Slot
  {
    if count > 0 then s.(position := PositionOf(d)) else s
  }

  /** The positions after the loop over the map's objects. */
  function Place(s: Slots, ds: seq<Detection>): (r: Slots)
    decreases |ds|
  {
    if |ds| == 0 then s
    else
      var init := ds[..|ds| - 1];
      var d := ds[|ds| - 1];
      var p := Place(s, init);
      match KindOf(d.labelName)
      case LaneMarker =>
        var n := CountKind(init, LaneMarker);
        p.(lane1 := MoveFirst(p.lane1, d, n), lane2 := MoveSecond(p.lane2, d, n))
      case Gate => p.(gate := p.gate.(position := PositionOf(d)))
      case Buoy => p.(buoy := p.buoy.(position := PositionOf(d)))
      case Bin => p.(bin := p.bin.(position := PositionOf(d)))
      case OctagonTable => p.(octagon := p.octagon.(position := PositionOf(d)))
      case AbydosSymbol =>
        var n := CountKind(init, AbydosSymbol);
        p.(abydos1 := MoveFirst(p.abydos1, d, n), abydos2 := MoveSecond(p.abydos2, d, n))
      case EarthSymbol =>
        var n := CountKind(init, EarthSymbol);
        p.(earth1 := MoveFirst(p.earth1, d, n), earth2 := MoveSecond(p.earth2, d, n))
      case Other => p
  }

  /** `objectMapCallback`: place every object, then show a slot exactly
      when the map has enough objects of its kind to fill it. */
  function OnObjectMap(s: Slots, ds: seq<Detection>): (r: Slots)
    ensures r.lane1.active <==> CountKind(ds, LaneMarker) >= 1
    ensures r.lane2.active <==> CountKind(ds, LaneMarker) >= 2
    ensures r.abydos1.active <==> CountKind(ds, AbydosSymbol) >= 1
    ensures r.abydos2.active <==> CountKind(ds, AbydosSymbol) >= 2
    ensures r.earth1.active <==> CountKind(ds, EarthSymbol) >= 1
    ensures r.earth2.active <==> CountKind(ds, EarthSymbol) >= 2
    ensures r.gate.active <==> CountKind(ds, Gate) >= 1
    ensures r.buoy.active <==> CountKind(ds, Buoy) >= 1
    ensures r.bin.active <==> CountKind(ds, Bin) >= 1
    ensures r.octagon.active <==> CountKind(ds, OctagonTable) >= 1
  {
    var p := Place(s, ds);
    p.(lane1 := p.lane1.(active := CountKind(ds, LaneMarker) > 0),
       lane2 := p.lane2.(active := CountKind(ds, LaneMarker) > 1),
       buoy := p.buoy.(active := CountKind(ds, Buoy) > 0),
       gate := p.gate.(active := CountKind(ds, Gate) > 0),
       bin := p.bin.(active := CountKind(ds, Bin) > 0),
       octagon := p.octagon.(active := CountKind(ds, OctagonTable) > 0),
       abydos1 := p.abydos1.(active := CountKind(ds, AbydosSymbol) > 0),
       abydos2 := p.abydos2.(active := CountKind(ds, AbydosSymbol) > 1),
       earth1 := p.earth1.(active := CountKind(ds, EarthSymbol) > 0),
       earth2 := p.earth2.(active := CountKind(ds, EarthSymbol) > 1))
  }

  /** The kinds with a first and a second slot. */
  predicate Paired(k: Kind) { k == LaneMarker || k == AbydosSymbol || k == EarthSymbol }

  /** The slot of a single kind, or the first slot of a paired one. */
  function FirstSlot(r: Slots, k: Kind): Slot
    requires k != Other
  {
    match k
    case LaneMarker => r.lane1
    case Gate => r.gate
    case Buoy => r.buoy
    case Bin => r.bin
    case OctagonTable => r.octagon
    case AbydosSymbol => r.abydos1
    case EarthSymbol => r.earth1
  }

  function SecondSlot(r: Slots, k: Kind): Slot
    requires Paired(k)
  {
    match k
    case LaneMarker => r.lane2
    case AbydosSymbol => r.abydos2
    case EarthSymbol => r.earth2
  }

  /** An object of another kind leaves a kind's slots where they were. */
  lemma PlaceOtherKind(s: Slots, ds: seq<Detection>, k: Kind)
    requires |ds| > 0 && k != Other && KindOf(ds[|ds| - 1].labelName) != k
    ensures FirstSlot(Place(s, ds), k) == FirstSlot(Place(s, ds[..|ds| - 1]), k)
    ensures Paired(k) ==> SecondSlot(Place(s, ds), k) == SecondSlot(Place(s, ds[..|ds| - 1]), k)
  {
  }

  /** A paired kind's first slot holds the map's first object of that kind. */
  lemma {:induction false} FirstSlotPosition(s: Slots, ds: seq<Detection>, k: Kind, first: nat)
    requires Paired(k)
    requires first < |ds| && KindOf(ds[first].labelName) == k
    requires CountKind(ds[..first], k) == 0
    ensures FirstSlot(Place(s, ds), k).position == PositionOf(ds[first])
    decreases |ds|
  {
    var init := ds[..|ds| - 1];
    if first < |ds| - 1 {
      assert init[..first] == ds[..first];
      FirstSlotPosition(s, init, k, first);
      EarlierCounted(ds, k, first);
      if KindOf(ds[|ds| - 1].labelName) == k {
        LaterSameKindKeepsFirst(s, ds, k);
      } else {
        PlaceOtherKind(s, ds, k);
      }
    } else {
      assert init == ds[..first];
    }
  }

  /** An object of the kind before the last one makes the count before
      the last one positive. */
  lemma EarlierCounted(ds: seq<Detection>, k: Kind, first: nat)
    requires first < |ds| - 1 && KindOf(ds[first].labelName) == k
    ensures CountKind(ds[..|ds| - 1], k) > 0
  {
    var init := ds[..|ds| - 1];
    CountPrefixMonotone(init, first + 1, k);
    assert init[..first + 1][..first] == init[..first];
    assert init[..first + 1][first] == ds[first];
  }

  /** A later object of a paired kind leaves its first slot alone. */
  lemma LaterSameKindKeepsFirst(s: Slots, ds: seq<Detection>, k: Kind)
    requires Paired(k) && |ds| > 0 && KindOf(ds[|ds| - 1].labelName) == k
    requires CountKind(ds[..|ds| - 1], k) > 0
    ensures FirstSlot(Place(s, ds), k) == FirstSlot(Place(s, ds[..|ds| - 1]), k)
  {
  }

  /** A paired kind's second slot holds the map's last object of that kind,
      once there are two or more. */
  lemma {:induction false} SecondSlotPosition(s: Slots, ds: seq<Detection>, k: Kind, last: nat)
    requires Paired(k)
    requires last < |ds| && KindOf(ds[last].labelName) == k
    requires CountKind(ds[..last], k) >= 1
    requires forall j :: last < j < |ds| ==> KindOf(ds[j].labelName) != k
    ensures SecondSlot(Place(s, ds), k).position == PositionOf(ds[last])
    decreases |ds|
  {
    var init := ds[..|ds| - 1];
    if last < |ds| - 1 {
      assert init[..last] == ds[..last];
      SecondSlotPosition(s, init, k, last);
      PlaceOtherKind(s, ds, k);
    } else {
      assert init == ds[..last];
    }
  }

  /** A single kind's slot holds the map's last object of that kind. */
  lemma {:induction false} SingleSlotPosition(s: Slots, ds: seq<Detection>, k: Kind, last: nat)
    requires k != Other && !Paired(k)
    requires last < |ds| && KindOf(ds[last].labelName) == k
    requires forall j :: last < j < |ds| ==> KindOf(ds[j].labelName) != k
    ensures FirstSlot(Place(s, ds), k).position == PositionOf(ds[last])
    decreases |ds|
  {
    var init := ds[..|ds| - 1];
    if last < |ds| - 1 {
      SingleSlotPosition(s, init, k, last);
      PlaceOtherKind(s, ds, k);
    }
  }

  /** A kind absent from the map leaves its slots where they were. */
  lemma {:induction false} AbsentKindStays(s: Slots, ds: seq<Detection>, k: Kind)
    requires k != Other && CountKind(ds, k) == 0
    ensures FirstSlot(Place(s, ds), k) == FirstSlot(s, k)
    ensures Paired(k) ==> SecondSlot(Place(s, ds), k) == SecondSlot(s, k)
    decreases |ds|
  {
    if |ds| > 0 {
      var init := ds[..|ds| - 1];
      assert CountKind(init, k) == 0;
      AbsentKindStays(s, init, k);
      PlaceOtherKind(s, ds, k);
    }
  }

  /** The callback shows each slot at its placed position, active exactly
      when the map has enough objects of its kind. */
  lemma ObjectMapSlots(s: Slots, ds: seq<Detection>, k: Kind)
    requires k != Other
    ensures FirstSlot(OnObjectMap(s, ds), k) == FirstSlot(Place(s, ds), k).(active := CountKind(ds, k) >= 1)
    ensures Paired(k) ==> SecondSlot(OnObjectMap(s, ds), k) == SecondSlot(Place(s, ds), k).(active := CountKind(ds, k) >= 2)
  {
  }

  /** What `objectMapCallback` shows for a paired kind: the first slot at
      the remapped first object of the kind. */
  lemma ObjectMapFirst(s: Slots, ds: seq<Detection>, k: Kind, i: nat)
    requires Paired(k) && i < |ds| && KindOf(ds[i].labelName) == k
    requires CountKind(ds[..i], k) == 0
    ensures FirstSlot(OnObjectMap(s, ds), k) == Slot(PositionOf(ds[i]), true)
  {
    CountKindZero(ds, k);
    ObjectMapSlots(s, ds, k);
    FirstSlotPosition(s, ds, k, i);
  }

  /** ... and the second slot at the remapped last object, once there are two. */
  lemma ObjectMapSecond(s: Slots, ds: seq<Detection>, k: Kind, i: nat)
    requires Paired(k) && i < |ds| && KindOf(ds[i].labelName) == k
    requires CountKind(ds[..i], k) >= 1
    requires forall j :: i < j < |ds| ==> KindOf(ds[j].labelName) != k
    ensures SecondSlot(OnObjectMap(s, ds), k) == Slot(PositionOf(ds[i]), true)
  {
    assert CountKind(ds, k) >= 2 by {
      CountPrefixMonotone(ds, i + 1, k);
      CountExtend(ds, i, k);
    }
    assert SecondSlot(Place(s, ds), k).position == PositionOf(ds[i]) by {
      SecondSlotPosition(s, ds, k, i);
    }
    ObjectMapSlots(s, ds, k);
  }

  /** Counting one more object of the map. */
  lemma CountExtend(ds: seq<Detection>, i: nat, k: Kind)
    requires i < |ds|
    ensures CountKind(ds[..i + 1], k) == CountKind(ds[..i], k) + (if KindOf(ds[i].labelName) == k then 1 else 0)
  {
    assert ds[..i + 1][..i] == ds[..i];
  }

  /** A single kind's slot is shown at the remapped last object of the kind. */
  lemma ObjectMapSingle(s: Slots, ds: seq<Detection>, k: Kind, i: nat)
    requires k != Other && !Paired(k) && i < |ds| && KindOf(ds[i].labelName) == k
    requires forall j :: i < j < |ds| ==> KindOf(ds[j].labelName) != k
    ensures FirstSlot(OnObjectMap(s, ds), k) == Slot(PositionOf(ds[i]), true)
  {
    CountKindZero(ds, k);
    ObjectMapSlots(s, ds, k);
    SingleSlotPosition(s, ds, k, i);
  }

  /** A kind the map lacks is hidden where it was. */
  lemma ObjectMapAbsent(s: Slots, ds: seq<Detection>, k: Kind)
    requires k != Other && forall i :: 0 <= i < |ds| ==> KindOf(ds[i].labelName) != k
    ensures FirstSlot(OnObjectMap(s, ds), k) == FirstSlot(s, k).(active := false)
    ensures Paired(k) ==> SecondSlot(OnObjectMap(s, ds), k) == SecondSlot(s, k).(active := false)
  {
    CountKindZero(ds, k);
    AbsentKindStays(s, ds, k);
  }

  lemma {:induction false} CountPrefixMonotone(ds: seq<Detection>, j: nat, k: Kind)
    requires j <= |ds|
    ensures CountKind(ds[..j], k) <= CountKind(ds, k)
    decreases |ds|
  {
    if j < |ds| {
      assert ds[..|ds| - 1][..j] == ds[..j];
      CountPrefixMonotone(ds[..|ds| - 1], j, k);
    } else {
      assert ds[..j] == ds;
    }
  }

  /** The pool of detection-frame indicators: once `max` exist they are
      reused round robin from `currentIndex`. */
  datatype Indicators = Indicators(positions: seq<Vec3>, currentIndex: nat, max: int)

  predicate ValidPool(p: Indicators)
  {
    p.max >= 1 && |p.positions| <= p.max
  }

  /** One detection of `detectionFrameCallback`. */
  function AddIndicator(p: Indicators, d: Detection): (r: Indicators)
    requires ValidPool(p)
    ensures ValidPool(r) && r.max == p.max
    ensures |p.positions| < p.max ==> r.positions == p.positions + [PositionOf(d)] && r.currentIndex == p.currentIndex
    ensures |p.positions| >= p.max ==>
              r.positions == p.positions[p.currentIndex % p.max := PositionOf(d)]
              && r.currentIndex == p.currentIndex + 1
  {
    if |p.positions| >= p.max then
      p.(positions := p.positions[p.currentIndex % p.max := PositionOf(d)], currentIndex := p.currentIndex + 1)
    else p.(positions := p.positions + [PositionOf(d)])
  }

  /** `detectionFrameCallback`: each detection of the frame in turn. */
  function OnDetectionFrame(p: Indicators, ds: seq<Detection>): (r: Indicators)
    requires ValidPool(p)
    ensures ValidPool(r) && r.max == p.max
    ensures |r.positions| >= |p.positions| && r.currentIndex >= p.currentIndex
    decreases |ds|
  {
    if |ds| == 0 then p else OnDetectionFrame(AddIndicator(p, ds[0]), ds[1..])
  }

  /** The pool grows one indicator per detection up to the limit and never
      beyond; the newest detection is always on show. */
  lemma {:induction false} PoolBounded(p: Indicators, ds: seq<Detection>)
    requires ValidPool(p)
    ensures |OnDetectionFrame(p, ds).positions|
         == if |p.positions| + |ds| <= p.max then |p.positions| + |ds| else p.max
    ensures |ds| > 0 ==> PositionOf(ds[|ds| - 1]) in OnDetectionFrame(p, ds).positions
    decreases |ds|
  {
    if |ds| > 0 {
      var q := AddIndicator(p, ds[0]);
      PoolBounded(q, ds[1..]);
      if |ds| == 1 {
        assert OnDetectionFrame(q, ds[1..]) == q;
        if |p.positions| >= p.max {
          assert q.positions[p.currentIndex % p.max] == PositionOf(ds[0]);
        } else {
          assert q.positions[|p.positions|] == PositionOf(ds[0]);
        }
      } else {
        assert ds[1..][|ds[1..]| - 1] == ds[|ds| - 1];
      }
    }
  }

  /** Every indicator on show is one that was already there or one of
      the frame's detections, remapped. */
  lemma {:induction false} PoolFromDetections(p: Indicators, ds: seq<Detection>, j: nat)
    requires ValidPool(p)
    requires j < |OnDetectionFrame(p, ds).positions|
    ensures OnDetectionFrame(p, ds).positions[j] in p.positions
            || exists i :: 0 <= i < |ds| && OnDetectionFrame(p, ds).positions[j] == PositionOf(ds[i])
    decreases |ds|
  {
    if |ds| > 0 {
      var q := AddIndicator(p, ds[0]);
      var v := OnDetectionFrame(p, ds).positions[j];
      PoolFromDetections(q, ds[1..], j);
      if v in q.positions {
        var k :| 0 <= k < |q.positions| && q.positions[k] == v;
        if v != PositionOf(ds[0]) {
          if |p.positions| >= p.max {
            assert k != p.currentIndex % p.max;
            assert p.positions[k] == v;
          } else {
            assert k < |p.positions|;
            assert p.positions[k] == v;
          }
        }
      } else {
        var i :| 0 <= i < |ds[1..]| && v == PositionOf(ds[1..][i]);
        assert ds[i + 1] == ds[1..][i];
      }
    }
  }
}

=== FILE: bounded_camera.dfy ===
/** The bounded camera randomizer: each iteration picks a spawned object
    to look at, places the camera in the pool's safe volume (near the
    target when asked), and aims it. Random draws are parameters.
 */
module BoundedCamera {
  import opened Wrappers
  import opened Geometry

  /** The safe volume: lower and upper corners. */
  datatype Bounds = Bounds(lo: Vec3, hi: Vec3)

  /** Inspector defaults. */
  const DefaultBounds: Bounds := Bounds(Vec3(-12.0, -2.0, -24.0), Vec3(12.0, -0.16, 24.0))
  const DefaultFallbackTarget: Vec3 := Vec3(0.0, -2.1, 0.0)
  const DefaultMinDistance: real := 2.0
  const DefaultMaxDistance: real := 8.0
  const MaxPositionAttempts: nat := 10

  predicate Ordered(b: Bounds)
  {
    b.lo.x <= b.hi.x && b.lo.y <= b.hi.y && b.lo.z <= b.hi.z
  }

  predicate Inside(b: Bounds, p: Vec3)
  {
    b.lo.x <= p.x <= b.hi.x && b.lo.y <= p.y <= b.hi.y && b.lo.z <= p.z <= b.hi.z
  }

  /** `Random.Range(a, b)` for a uniform fraction `u`: a value between the
      two ends. */
  function Range(a: real, b: real, u: real): (r: real)
    requires 0.0 <= u <= 1.0
    ensures a <= b ==> a <= r <= b
    ensures b <= a ==> b <= r <= a
  {
    LerpBetween(a, b, u);
    a + (b - a) * u
  }

  /** Three fractions drawn for one random point. */
  datatype Draw3 = Draw3(u: real, v: real, w: real)

  predicate Fractions(d: Draw3)
  {
    0.0 <= d.u <= 1.0 && 0.0 <= d.v <= 1.0 && 0.0 <= d.w <= 1.0
  }

  /** `GenerateRandomPoolPosition`. */
  function RandomPoolPosition(b: Bounds, d: Draw3): (r: Vec3)
    requires Fractions(d)
    ensures Ordered(b) ==> Inside(b, r)
  {
    Vec3(Range(b.lo.x, b.hi.x, d.u), Range(b.lo.y, b.hi.y, d.v), Range(b.lo.z, b.hi.z, d.w))
  }

  /** One attempt's draws: the horizontal offset (distance times the sine
      and cosine of a random heading) and the height fraction. */
  datatype Attempt = Attempt(offsetX: real, offsetZ: real, heightFraction: real)

  /** The attempt's candidate, clamped into the volume. */
  function Candidate(b: Bounds, target: Vec3, a: Attempt): (r: Vec3)
    requires 0.0 <= a.heightFraction <= 1.0
    ensures Ordered(b) ==> Inside(b, r)
  {
    Vec3(Clamp(target.x + a.offsetX, b.lo.x, b.hi.x),
         Clamp(Range(b.lo.y, b.hi.y, a.heightFraction), b.lo.y, b.hi.y),
         Clamp(target.z + a.offsetZ, b.lo.z, b.hi.z))
  }

  /** A candidate is kept when its horizontal distance to the target is at
      least half the minimum distance (squared on both sides, as both are
      non-negative). */
  predicate Acceptable(c: Vec3, target: Vec3, minDistance: real)
  {
    var dx := c.x - target.x;
    var dz := c.z - target.z;
    minDistance * 0.5 <= 0.0 || dx * dx + dz * dz >= (minDistance * 0.5) * (minDistance * 0.5)
  }

  predicate AttemptsValid(attempts: seq<Attempt>)
  {
    forall i :: 0 <= i < |attempts| ==> 0.0 <= attempts[i].heightFraction <= 1.0
  }

  /** The reference placement: the first acceptable candidate from attempt
      `i` on, or the random pool position when none is. */
  function NearTarget(b: Bounds, target: Vec3, minDistance: real, attempts: seq<Attempt>, fallback: Draw3, i: nat): (r: Vec3)
    requires i <= |attempts| && AttemptsValid(attempts) && Fractions(fallback)
    decreases |attempts| - i
  {
    if i == |attempts| then RandomPoolPosition(b, fallback)
    else if Acceptable(Candidate(b, target, attempts[i]), target, minDistance) then Candidate(b, target, attempts[i])
    else NearTarget(b, target, minDistance, attempts, fallback, i + 1)
  }

  /** `GeneratePositionNearTarget`: the first of at most ten attempts whose
      clamped candidate is acceptable, else a random pool position. Also
      returns how many attempts were drawn. */
  method PositionNearTarget(b: Bounds, target: Vec3, minDistance: real, attempts: seq<Attempt>, fallback: Draw3)
    returns (p: Vec3, used: nat)
    requires |attempts| == MaxPositionAttempts && AttemptsValid(attempts) && Fractions(fallback)
    ensures 1 <= used <= MaxPositionAttempts
    ensures Ordered(b) ==> Inside(b, p)
    ensures forall i :: 0 <= i < used - 1 ==> !Acceptable(Candidate(b, target, attempts[i]), target, minDistance)
    ensures Acceptable(Candidate(b, target, attempts[used - 1]), target, minDistance)
            ==> p == Candidate(b, target, attempts[used - 1])
    ensures !Acceptable(Candidate(b, target, attempts[used - 1]), target, minDistance)
            ==> used == MaxPositionAttempts && p == RandomPoolPosition(b, fallback)
    ensures p == NearTarget(b, target, minDistance, attempts, fallback, 0)
  {
    var i := 0;
    while i < MaxPositionAttempts
      invariant 0 <= i <= MaxPositionAttempts
      invariant forall j :: 0 <= j < i ==> !Acceptable(Candidate(b, target, attempts[j]), target, minDistance)
      invariant NearTarget(b, target, minDistance, attempts, fallback, 0) == NearTarget(b, target, minDistance, attempts, fallback, i)
    {
      var c := Candidate(b, target, attempts[i]);
      if Acceptable(c, target, minDistance) {
        return c, i + 1;
      }
      i := i + 1;
    }
    return RandomPoolPosition(b, fallback), MaxPositionAttempts;
  }

  /** A child of the foreground container. The object cache parks unused
      objects at x = 10000. */
  datatype Child = Child(active: bool, position: Vec3)

  predicate InScene(c: Child)
  {
    c.active && c.position.x < 9999.0
  }

  /** The positions of the container's children that are in the scene, in
      child order. */
  function Spawned(children: seq<Child>): (r: seq<Vec3>)
    ensures |r| <= |children|
    ensures |r| == 0 <==> forall i :: 0 <= i < |children| ==> !InScene(children[i])
    decreases |children|
  {
    if |children| == 0 then []
    else
      var rest := Spawned(children[1..]);
      assert forall i :: 1 <= i < |children| ==> children[i] == children[1..][i - 1];
      (if InScene(children[0]) then [children[0].position] else []) + rest
  }

  /** Every target candidate is an object in the scene, and every object in
      the scene is a candidate. */
  lemma {:induction false} SpawnedExact(children: seq<Child>)
    ensures forall p :: p in Spawned(children) <==> exists i :: 0 <= i < |children| && InScene(children[i]) && children[i].position == p
    decreases |children|
  {
    if |children| > 0 {
      var tail := children[1..];
      SpawnedExact(tail);
      forall p
        ensures p in Spawned(children) <==> exists i :: 0 <= i < |children| && InScene(children[i]) && children[i].position == p
      {
        if exists i :: 0 <= i < |children| && InScene(children[i]) && children[i].position == p {
          var i :| 0 <= i < |children| && InScene(children[i]) && children[i].position == p;
          if i > 0 {
            assert tail[i - 1] == children[i];
          }
        }
        if exists i :: 0 <= i < |tail| && InScene(tail[i]) && tail[i].position == p {
          var i :| 0 <= i < |tail| && InScene(tail[i]) && tail[i].position == p;
          assert children[i + 1] == tail[i];
        }
      }
    }
  }

  /** `GetRandomSpawnedObjectPosition`: the fallback without a container or
      without objects in the scene; otherwise the object the integer draw
      `pick` selects (any index below the count is reachable). */
  function TargetPosition(container: Option<seq<Child>>, fallback: Vec3, pick: nat): (r: Vec3)
    ensures container.None? ==> r == fallback
    ensures container.Some? && |Spawned(container.value)| == 0 ==> r == fallback
    ensures container.Some? && |Spawned(container.value)| > 0 ==> r in Spawned(container.value)
  {
    match container
    case None => fallback
    case Some(children) =>
      var objects := Spawned(children);
      if |objects| == 0 then fallback else objects[pick % |objects|]
  }

  /** How the yaw is chosen: toward the target (plus jitter) or at random. */
  datatype Aim = TowardTarget | RandomYaw

  datatype Pose = Pose(position: Vec3, aim: Aim)

  /** The randomizer's settings. */
  datatype Settings = Settings(
    enabled: bool,
    hasCamera: bool,
    bounds: Bounds,
    constrainDistanceToTarget: bool,
    minDistance: real,
    lookAtSpawnedObject: bool,
    fallbackTarget: Vec3)

  /** The squared distance between two points, ignoring height. */
  function HorizontalDistSq(a: Vec3, b: Vec3): real
  {
    (a.x - b.x) * (a.x - b.x) + (a.z - b.z) * (a.z - b.z)
  }

  /** `OnIterationStart`: nothing when disabled or without a camera; the
      near-target placement only when both the distance constraint and
      the look-at are on; aiming at the target only when looking at it and
      it is more than sqrt(0.001) away horizontally. Rotation angles come
      from trigonometry and samplers and are left out. */
  method IterationStart(s: Settings, container: Option<seq<Child>>, pick: nat,
                        attempts: seq<Attempt>, poolDraw: Draw3) returns (r: Option<Pose>)
    requires |attempts| == MaxPositionAttempts && AttemptsValid(attempts) && Fractions(poolDraw)
    ensures r.None? <==> !s.enabled || !s.hasCamera
    ensures r.Some? && Ordered(s.bounds) ==> Inside(s.bounds, r.value.position)
    ensures r.Some? && !(s.constrainDistanceToTarget && s.lookAtSpawnedObject)
            ==> r.value.position == RandomPoolPosition(s.bounds, poolDraw)
    ensures r.Some? && s.constrainDistanceToTarget && s.lookAtSpawnedObject
            ==> r.value.position == NearTarget(s.bounds, TargetPosition(container, s.fallbackTarget, pick),
                                               s.minDistance, attempts, poolDraw, 0)
    ensures r.Some? ==>
              (r.value.aim == TowardTarget <==>
                 s.lookAtSpawnedObject
                 && HorizontalDistSq(TargetPosition(container, s.fallbackTarget, pick), r.value.position) > 0.001)
  {
    if !s.enabled || !s.hasCamera {
      return None;
    }
    var target := TargetPosition(container, s.fallbackTarget, pick);
    var position;
    if s.constrainDistanceToTarget && s.lookAtSpawnedObject {
      var used;
      position, used := PositionNearTarget(s.bounds, target, s.minDistance, attempts, poolDraw);
    } else {
      position := RandomPoolPosition(s.bounds, poolDraw);
    }
    var aim := if s.lookAtSpawnedObject && HorizontalDistSq(target, position) > 0.001 then TowardTarget else RandomYaw;
    return Some(Pose(position, aim));
  }
}

=== FILE: bridge.dfy ===
/** The Python bypass bridge: one `UnityState` sample fans out to scalar
    position topics, Euler-angle topics, velocity vectors, a pose, three
    health flags and a pair of TF transforms. The bridge itself applies no
    sign flip or axis swap; every frame conversion lives in the C# publishers.
 */
module Bridge {
  import opened Geometry

  /** The fields of the incoming `UnityState` message the bridge reads. */
  datatype UnityState = UnityState(
    position: Vec3,
    orientation: Quat,
    velocity: Vec3,
    angularVelocity: Vec3)

  datatype Pose = Pose(position: Vec3, orientation: Quat)

  /** A `TransformStamped` message; the stamp is seconds since the epoch. */
  datatype Transform = Transform(
    stamp: real,
    frameId: string,
    childFrameId: string,
    translation: Vec3,
    rotation: Quat)

  /** Roll, pitch and yaw as returned by `euler_from_quaternion`; that call
      is a foreign library function, so its results arrive as an input. */
  datatype Euler = Euler(roll: real, pitch: real, yaw: real)

  /** Everything one callback publishes or broadcasts. */
  datatype Fanout = Fanout(
    x: real, y: real, z: real,
    theta: Euler,
    angularVelocity: Vec3,
    linearVelocity: Vec3,
    pose: Pose,
    transforms: seq<Transform>,
    imuStatus: bool,
    depthStatus: bool,
    dvlStatus: bool)

  const WorldFrame: string := "world"
  const BaseFrame: string := "auv_base"
  const WorldRotationFrame: string := "world_rotation"
  const RotationFrame: string := "auv_rotation"

  /** The invariant every fan-out satisfies: the scalar topics agree with the
      pose, both transforms rotate by the pose orientation, the first one
      translates by the pose position and the second one not at all, and
      every health flag is raised. */
  predicate Consistent(f: Fanout)
  {
    && f.x == f.pose.position.x && f.y == f.pose.position.y && f.z == f.pose.position.z
    && |f.transforms| == 2
    && f.transforms[0].frameId == WorldFrame && f.transforms[0].childFrameId == BaseFrame
    && f.transforms[1].frameId == WorldRotationFrame && f.transforms[1].childFrameId == RotationFrame
    && f.transforms[0].translation == f.pose.position
    && f.transforms[1].translation == Zero
    && f.transforms[0].rotation == f.pose.orientation
    && f.transforms[1].rotation == f.pose.orientation
    && f.imuStatus && f.depthStatus && f.dvlStatus
  }

  /** Reads the original sample back out of a fan-out. */
  function Recover(f: Fanout): UnityState
  {
    UnityState(f.pose.position, f.pose.orientation, f.linearVelocity, f.angularVelocity)
  }

  /** `broadcast_auv_pose`: the two transforms, stamped by two separate
      clock reads `stamp1` and `stamp2`. */
  function BroadcastAuvPose(pose: Pose, stamp1: real, stamp2: real): (ts: seq<Transform>)
    ensures |ts| == 2
    ensures ts[0].rotation == ts[1].rotation == pose.orientation
    ensures ts[0].translation == pose.position && ts[1].translation == Zero
    ensures ts[0].stamp == stamp1 && ts[1].stamp == stamp2
  {
    [ Transform(stamp1, WorldFrame, BaseFrame, pose.position, pose.orientation),
      Transform(stamp2, WorldRotationFrame, RotationFrame, Zero, pose.orientation) ]
  }

  /** `cb_unity_state`. The fan-out is consistent and loses nothing: the
      sample can be read back unchanged, so no component was flipped. */
  function OnUnityState(msg: UnityState, theta: Euler, stamp1: real, stamp2: real): (f: Fanout)
    ensures Consistent(f)
    ensures Recover(f) == msg
    ensures f.theta == theta
  {
    var pose := Pose(msg.position, msg.orientation);
    Fanout(
      msg.position.x, msg.position.y, msg.position.z,
      theta,
      msg.angularVelocity,
      msg.velocity,
      pose,
      BroadcastAuvPose(pose, stamp1, stamp2),
      true, true, true)
  }

  /** Two callbacks produce the same fan-out only for the same sample, Euler
      angles and stamps: the bridge is injective in its inputs. */
  lemma OnUnityStateInjective(m1: UnityState, t1: Euler, a1: real, b1: real,
                              m2: UnityState, t2: Euler, a2: real, b2: real)
    requires OnUnityState(m1, t1, a1, b1) == OnUnityState(m2, t2, a2, b2)
    ensures m1 == m2 && t1 == t2 && a1 == a2 && b1 == b2
  {
    var f := OnUnityState(m1, t1, a1, b1);
    assert f.transforms[0].stamp == a1 && f.transforms[1].stamp == b1;
  }

  /** The two stamps are independent clock reads: nothing forces them to agree. */
  lemma StampsMayDiffer(msg: UnityState, theta: Euler)
    ensures OnUnityState(msg, theta, 0.0, 1.0).transforms[0].stamp
         != OnUnityState(msg, theta, 0.0, 1.0).transforms[1].stamp
  {
  }
}

=== FILE: buoy.dfy ===
/** The buoy circumnavigation task: while the AUV stays within 3 m of the
    buoy (measured in the horizontal plane) it ticks off the four quadrants
    around it, fixes the direction of travel once two are ticked, and
    scores once every quadrant, and then the first one again, has been
    visited.
 */
module Buoy {
  import opened Wrappers
  import opened Geometry
  import Text
  import Points

  const DistanceThreshold: real := 3.0
  const QuadrantCount: nat := 4

  /** The task's fields. `checkPoints[q]` says quadrant `q` was visited:
      0 is (+x, +z), 1 is (-x, -z), 2 is (+x, -z), 3 is (-x, +z), relative
      to the buoy. */
  datatype Task = Task(
    enabled: bool,
    isFirst: bool,
    initialX: real,
    initialZ: real,
    checkPoints: seq<bool>,
    firstCheckPoint: int,
    isClockWise: bool,
    calculateDirection: bool,
    isLastCheckPoint: bool)

  const NoCheckPoints: seq<bool> := [false, false, false, false]

  /** The task after `Start`, and after `StartScript`. */
  const Initial: Task := Task(false, true, 0.0, 0.0, NoCheckPoints, 0, false, true, false)

  /** `StartScript`: only `enabled` changes. */
  function StartScript(t: Task): (r: Task)
    ensures r.enabled && r.(enabled := t.enabled) == t
  {
    t.(enabled := true)
  }

  /** One frame's input: the AUV's and buoy's horizontal positions, and the
      angle in degrees between the start and current offsets from the buoy
      (`Vector3.Angle`, an arc cosine left to the caller). */
  datatype Frame = Frame(auvX: real, auvZ: real, buoyX: real, buoyZ: real, angle: real)

  /** The 3 m test, on squared distances. */
  predicate OutOfRange(f: Frame)
  {
    (f.auvX - f.buoyX) * (f.auvX - f.buoyX) + (f.auvZ - f.buoyZ) * (f.auvZ - f.buoyZ)
      > DistanceThreshold * DistanceThreshold
  }

  /** The strict quadrant of the AUV; none on either axis through the buoy. */
  function Quadrant(f: Frame): (r: Option<nat>)
    ensures r.Some? ==> r.value < QuadrantCount
    ensures r.None? <==> f.auvX == f.buoyX || f.auvZ == f.buoyZ
  {
    if f.auvX > f.buoyX && f.auvZ > f.buoyZ then Some(0)
    else if f.auvX < f.buoyX && f.auvZ < f.buoyZ then Some(1)
    else if f.auvX > f.buoyX && f.auvZ < f.buoyZ then Some(2)
    else if f.auvX < f.buoyX && f.auvZ > f.buoyZ then Some(3)
    else None
  }

  /** `UpdateCheckPoints`: tick the current quadrant, if any. */
  function Mark(cps: seq<bool>, f: Frame): (r: seq<bool>)
    requires |cps| == QuadrantCount
    ensures |r| == QuadrantCount
    ensures forall i :: 0 <= i < QuadrantCount ==> (r[i] <==> cps[i] || Quadrant(f) == Some(i))
  {
    match Quadrant(f)
    case None => cps
    case Some(q) => cps[q := true]
  }

  /** `checkPoints.Count(value => value)`. */
  function CountTrue(cps: seq<bool>): (n: nat)
    requires |cps| == QuadrantCount
    ensures n <= QuadrantCount
    ensures n == 0 <==> forall i :: 0 <= i < QuadrantCount ==> !cps[i]
    ensures n == QuadrantCount <==> forall i :: 0 <= i < QuadrantCount ==> cps[i]
  {
    (if cps[0] then 1 else 0) + (if cps[1] then 1 else 0) + (if cps[2] then 1 else 0) + (if cps[3] then 1 else 0)
  }

  /** `List.IndexOf(true)`: the first ticked quadrant, or -1. */
  function IndexOfTrue(cps: seq<bool>): (r: int)
    ensures -1 <= r < |cps|
    ensures r >= 0 ==> cps[r] && forall i :: 0 <= i < r ==> !cps[i]
    ensures r == -1 <==> forall i :: 0 <= i < |cps| ==> !cps[i]
    decreases |cps|
  {
    if |cps| == 0 then -1
    else if cps[0] then 0
    else
      var k := IndexOfTrue(cps[1..]);
      if k == -1 then -1 else k + 1
  }

  /** The direction test: the sign of the cross product's y component
      applied to the angle; a positive result is clockwise. */
  function Clockwise(initialX: real, initialZ: real, f: Frame): bool
  {
    var ix := initialX - f.buoyX;
    var iz := initialZ - f.buoyZ;
    var cx := f.auvX - f.buoyX;
    var cz := f.auvZ - f.buoyZ;
    Sign(iz * cx - ix * cz) * f.angle > 0.0
  }

  /** `ResetCheckPoints`. */
  function ResetCheckPoints(t: Task): (r: Task)
    ensures r.checkPoints == NoCheckPoints && !r.isLastCheckPoint
    ensures CountTrue(r.checkPoints) == 0
  {
    t.(checkPoints := NoCheckPoints, isLastCheckPoint := false)
  }

  /** `StopScript`: cleared, direction to be found afresh, disabled. */
  function StopScript(t: Task): (r: Task)
    ensures r.checkPoints == NoCheckPoints && !r.isLastCheckPoint && r.calculateDirection && !r.enabled
  {
    ResetCheckPoints(t).(calculateDirection := true, enabled := false)
  }

  function Message(correct: bool, clockwise: bool, points: int): string
  {
    "Buoy Circumnavigate " + (if correct then "correct" else "wrong")
    + (if clockwise then " (clockwise) +" else " (counterclockwise) +") + Text.IntToString(points) + "pts"
  }

  /** Whether an award in this direction is the correct one: clockwise
      belongs to red and counterclockwise to blue, and an unset colour
      accepts either. */
  predicate Correct(color: string, clockwise: bool)
  {
    if clockwise then color != "blue" else color != "red"
  }

  /** `CalculatePoints`. The wrong-direction messages name the direction the
      colour asked for, as the source's text does. */
  function CalculatePoints(clockwise: bool, pm: Points.Manager, correct: int, wrong: int, hud: bool)
    : (r: (Points.Manager, seq<string>))
    ensures Correct(pm.color, clockwise) ==> r.0.currentScore == pm.currentScore + correct
    ensures !Correct(pm.color, clockwise) ==> r.0.currentScore == pm.currentScore + wrong
    ensures pm.color == "red" || pm.color == "blue" ==> r.0.color == pm.color
    ensures pm.color != "red" && pm.color != "blue" ==> r.0.color == (if clockwise then "red" else "blue")
  {
    if clockwise then
      if pm.color == "red" then
        var a := Points.AddPoint(pm, correct, "Buoy", hud);
        (a.0, a.1 + [Message(true, true, correct)])
      else if pm.color == "blue" then
        var a := Points.AddPoint(pm, wrong, "Buoy", hud);
        (a.0, a.1 + [Message(false, false, wrong)])
      else
        var a := Points.AddPoint(pm.(color := "red"), correct, "Buoy", hud);
        (a.0, a.1 + [Message(true, true, correct), "Setting competition color to RED"])
    else
      if pm.color == "blue" then
        var a := Points.AddPoint(pm, correct, "Buoy", hud);
        (a.0, a.1 + [Message(true, false, correct)])
      else if pm.color == "red" then
        var a := Points.AddPoint(pm, wrong, "Buoy", hud);
        (a.0, a.1 + [Message(false, true, wrong)])
      else
        var a := Points.AddPoint(pm.(color := "blue"), correct, "Buoy", hud);
        (a.0, a.1 + [Message(true, false, correct), "Setting competition color to BLUE"])
  }

  /** The outcome of a frame; `error` is an exception that ends the frame. */
  datatype Outcome = Outcome(task: Task, points: Points.Manager, log: seq<string>, error: Option<Error>)

  /** The award, the point values and the HUD's presence. */
  datatype Award = Award(correct: int, wrong: int, hud: bool)

  /** The part of `Update` after the first-frame capture, shared by both
      versions below. */
  function AfterCapture(t: Task, pm: Points.Manager, f: Frame, a: Award): (r: Outcome)
    requires |t.checkPoints| == QuadrantCount
    ensures |r.task.checkPoints| == QuadrantCount
  {
    var n := CountTrue(t.checkPoints);
    if n == 2 && t.calculateDirection then
      Outcome(t.(isClockWise := Clockwise(t.initialX, t.initialZ, f), calculateDirection := false), pm, [], None)
    else if n == QuadrantCount then
      if !t.isLastCheckPoint then
        if 0 <= t.firstCheckPoint < QuadrantCount then
          Outcome(t.(checkPoints := t.checkPoints[t.firstCheckPoint := false], isLastCheckPoint := true), pm, [], None)
        else Outcome(t, pm, [], Some(IndexOutOfRange(t.firstCheckPoint, QuadrantCount)))
      else
        var s := CalculatePoints(t.isClockWise, pm, a.correct, a.wrong, a.hud);
        Outcome(StopScript(t), s.0, s.1, None)
    else Outcome(t, pm, [], None)
  }

  /** `Update` as written: the first in-range frame records the first
      ticked quadrant even when the AUV is on an axis and none is ticked,
      so the index is -1 and clearing it later throws. */
  function UpdateAsWritten(t: Task, pm: Points.Manager, f: Frame, a: Award): (r: Outcome)
    requires |t.checkPoints| == QuadrantCount
    ensures |r.task.checkPoints| == QuadrantCount
    ensures Valid(t) && (!t.isFirst || Quadrant(f).Some?) ==> r == Update(t, pm, f, a)
    ensures Valid(t) && t.enabled && t.isFirst && !OutOfRange(f) && Quadrant(f).None?
            ==> !r.task.isFirst && r.task.firstCheckPoint == -1 && r.error.None?
  {
    if !t.enabled then Outcome(t, pm, [], None)
    else if OutOfRange(f) then Outcome(ResetCheckPoints(t).(isFirst := true), pm, [], None)
    else
      var cps := Mark(t.checkPoints, f);
      var t1 := if t.isFirst
                then t.(checkPoints := cps, initialX := f.auvX, initialZ := f.auvZ,
                        firstCheckPoint := IndexOfTrue(cps), isFirst := false)
                else t.(checkPoints := cps);
      AfterCapture(t1, pm, f, a)
  }

  /** A run of the as-written version that enters the circle exactly on
      the buoy's x line and then visits the quadrants 0, 2, 1, 3. */
  const Start0: Task := StartScript(Initial)
  const AxisFrame: Frame := Frame(0.0, 1.0, 0.0, 0.0, 0.0)
  const Visit0: Frame := Frame(1.0, 1.0, 0.0, 0.0, 45.0)
  const Visit2: Frame := Frame(1.0, -1.0, 0.0, 0.0, 135.0)
  const Visit1: Frame := Frame(-1.0, -1.0, 0.0, 0.0, 135.0)
  const Visit3: Frame := Frame(-1.0, 1.0, 0.0, 0.0, 45.0)

  const Axis1: Task := Task(true, false, 0.0, 1.0, [false, false, false, false], -1, false, true, false)
  const Axis2: Task := Axis1.(checkPoints := [true, false, false, false])
  const Axis3: Task := Axis1.(checkPoints := [true, false, true, false], isClockWise := true, calculateDirection := false)
  const Axis4: Task := Axis3.(checkPoints := [true, true, true, false])
  const Axis5: Task := Axis3.(checkPoints := [true, true, true, true])

  lemma AxisCapture(pm: Points.Manager, a: Award)
    ensures UpdateAsWritten(Start0, pm, AxisFrame, a) == Outcome(Axis1, pm, [], None)
  {
    assert Mark(Start0.checkPoints, AxisFrame) == NoCheckPoints;
  }

  lemma AxisVisit0(pm: Points.Manager, a: Award)
    ensures UpdateAsWritten(Axis1, pm, Visit0, a) == Outcome(Axis2, pm, [], None)
  {
    assert Mark(Axis1.checkPoints, Visit0) == [true, false, false, false];
  }

  lemma AxisVisit2(pm: Points.Manager, a: Award)
    ensures UpdateAsWritten(Axis2, pm, Visit2, a) == Outcome(Axis3, pm, [], None)
  {
    assert Mark(Axis2.checkPoints, Visit2) == [true, false, true, false];
    assert Clockwise(0.0, 1.0, Visit2);
  }

  lemma AxisVisit1(pm: Points.Manager, a: Award)
    ensures UpdateAsWritten(Axis3, pm, Visit1, a) == Outcome(Axis4, pm, [], None)
  {
    assert Mark(Axis3.checkPoints, Visit1) == [true, true, true, false];
  }

  lemma AxisVisit3(pm: Points.Manager, a: Award)
    ensures UpdateAsWritten(Axis4, pm, Visit3, a) == Outcome(Axis5, pm, [], Some(IndexOutOfRange(-1, 4)))
  {
    assert Mark(Axis4.checkPoints, Visit3) == [true, true, true, true];
  }

  /** Entering the 3 m circle exactly on the buoy's x line records index -1;
      once all four quadrants are ticked the frame throws, and so does
      every later frame inside the circle, so the task can never score
      until the AUV leaves it. */
  lemma AxisStartNeverScores(f: Frame, a: Award, pm: Points.Manager)
    ensures UpdateAsWritten(Start0, pm, AxisFrame, a).task.firstCheckPoint == -1
    ensures UpdateAsWritten(Axis4, pm, Visit3, a).error == Some(IndexOutOfRange(-1, 4))
    ensures !OutOfRange(f) ==> UpdateAsWritten(Axis5, pm, f, a).error.Some?
                               && UpdateAsWritten(Axis5, pm, f, a).points == pm
  {
    AxisCapture(pm, a);
    AxisVisit3(pm, a);
    if !OutOfRange(f) {
      var cps := Mark(Axis5.checkPoints, f);
      assert cps == [true, true, true, true];
      assert CountTrue(cps) == 4;
    }
  }

  /** The corrected task: the first quadrant is the first one actually
      ticked, so the first-frame capture waits for a quadrant. */
  predicate Valid(t: Task)
  {
    |t.checkPoints| == QuadrantCount
    && (!t.isFirst ==> 0 <= t.firstCheckPoint < QuadrantCount)
    && (t.isFirst ==> CountTrue(t.checkPoints) == 0)
  }

  function Update(t: Task, pm: Points.Manager, f: Frame, a: Award): (r: Outcome)
    requires Valid(t)
    ensures Valid(r.task) && r.error.None?
    ensures !t.enabled ==> r == Outcome(t, pm, [], None)
  {
    if !t.enabled then Outcome(t, pm, [], None)
    else if OutOfRange(f) then Outcome(ResetCheckPoints(t).(isFirst := true), pm, [], None)
    else
      var cps := Mark(t.checkPoints, f);
      var capture := t.isFirst && Quadrant(f).Some?;
      var t1 := if capture
                then t.(checkPoints := cps, initialX := f.auvX, initialZ := f.auvZ,
                        firstCheckPoint := IndexOfTrue(cps), isFirst := false)
                else t.(checkPoints := cps);
      assert t1.isFirst ==> cps == t.checkPoints;
      AfterCapture(t1, pm, f, a)
  }

  /** Leaving the circle clears every checkpoint and rearms the capture,
      but keeps the direction found earlier in this activation. */
  lemma LeavingClears(t: Task, pm: Points.Manager, f: Frame, a: Award)
    requires Valid(t) && t.enabled && OutOfRange(f)
    ensures var r := Update(t, pm, f, a).task;
            r.checkPoints == NoCheckPoints && r.isFirst && !r.isLastCheckPoint
            && r.calculateDirection == t.calculateDirection && r.isClockWise == t.isClockWise
  {
  }

  /** Within the circle checkpoints are only ever ticked, at most the
      current quadrant, except for the one-time clearing of the first
      checkpoint and the reset after scoring. */
  lemma InRangeOnlyTicks(t: Task, pm: Points.Manager, f: Frame, a: Award)
    requires Valid(t) && t.enabled && !OutOfRange(f)
    ensures var r := Update(t, pm, f, a).task;
            r.checkPoints == Mark(t.checkPoints, f)
            || (r.checkPoints == Mark(t.checkPoints, f)[r.firstCheckPoint := false]
                && r.isLastCheckPoint && !t.isLastCheckPoint)
            || (r.checkPoints == NoCheckPoints && !r.enabled)
  {
  }

  /** Once found, the direction stays fixed until the task stops. */
  lemma DirectionFixed(t: Task, pm: Points.Manager, f: Frame, a: Award)
    requires Valid(t) && !t.calculateDirection
    ensures var r := Update(t, pm, f, a).task;
            r.isClockWise == t.isClockWise && (r.calculateDirection ==> !r.enabled)
  {
  }

  /** Points come only on a frame that finds all four quadrants ticked
      after the first one was cleared and revisited; the frame that first
      completes the set clears the first checkpoint instead. */
  lemma ScoresOnSecondCompletion(t: Task, pm: Points.Manager, f: Frame, a: Award)
    requires Valid(t) && t.enabled && !OutOfRange(f)
    ensures var r := Update(t, pm, f, a);
            var n := CountTrue(Mark(t.checkPoints, f));
            !r.task.enabled <==> n == QuadrantCount && t.isLastCheckPoint && !(n == 2 && t.calculateDirection)
    ensures var r := Update(t, pm, f, a);
            CountTrue(Mark(t.checkPoints, f)) == QuadrantCount && !t.isLastCheckPoint
            ==> r.task.isLastCheckPoint && r.points == pm && r.task.enabled
  {
  }
}

=== FILE: camera_feed.dfy ===
/** The HUD's camera drawer: the feed dropdown, which camera the camera
    render manager must render for it, the fullscreen view, cycling through
    the feeds, and the snapshot file name.
 */
module CameraFeed {
  import opened Wrappers
  import Text
  import CameraRender

  /** The feeds the dropdown can offer besides "None". */
  datatype Feed = FrontLeft | Down | FrontDepth | FrontEnhanced

  function FeedName(f: Feed): string
  {
    match f
    case FrontLeft => "Front Left"
    case Down => "Down"
    case FrontDepth => "Front Depth"
    case FrontEnhanced => "Front Enhanced"
  }

  /** A dropdown entry: "None" or a feed. */
  datatype Choice = NoFeed | FeedChoice(feed: Feed)

  function ChoiceName(c: Choice): string
  {
    match c
    case NoFeed => "None"
    case FeedChoice(f) => FeedName(f)
  }

  /** Which sources exist: the two cameras handed to the controller and
      the depth publisher and enhanced-image subscriber found at start. */
  datatype Sources = Sources(frontLeft: bool, down: bool, depth: bool, enhanced: bool)

  predicate Available(s: Sources, f: Feed)
  {
    match f
    case FrontLeft => s.frontLeft
    case Down => s.down
    case FrontDepth => s.depth
    case FrontEnhanced => s.enhanced
  }

  /** A choice is offered when it is "None" or its source exists. */
  predicate Offered(s: Sources, c: Choice)
  {
    c.NoFeed? || Available(s, c.feed)
  }

  /** Every entry in dropdown order. */
  const AllChoices: seq<Choice> :=
    [NoFeed, FeedChoice(FrontLeft), FeedChoice(Down), FeedChoice(FrontDepth), FeedChoice(FrontEnhanced)]

  function Keep(s: Sources, cs: seq<Choice>): (r: seq<Choice>)
    ensures |r| <= |cs|
    decreases |cs|
  {
    if |cs| == 0 then []
    else if Offered(s, cs[0]) then [cs[0]] + Keep(s, cs[1..])
    else Keep(s, cs[1..])
  }

  /** The dropdown's choices: "None" first, then each available feed in
      a fixed order. */
  function Choices(s: Sources): (r: seq<Choice>)
    ensures 1 <= |r| <= 5 && r[0] == NoFeed
  {
    Keep(s, AllChoices)
  }

  lemma {:induction false} KeepMember(s: Sources, cs: seq<Choice>, c: Choice)
    ensures c in Keep(s, cs) <==> c in cs && Offered(s, c)
    decreases |cs|
  {
    if |cs| > 0 {
      KeepMember(s, cs[1..], c);
      assert cs == [cs[0]] + cs[1..];
    }
  }

  /** Entries keep a fixed rank order, so none appears twice. */
  function Rank(c: Choice): nat
  {
    match c
    case NoFeed => 0
    case FeedChoice(FrontLeft) => 1
    case FeedChoice(Down) => 2
    case FeedChoice(FrontDepth) => 3
    case FeedChoice(FrontEnhanced) => 4
  }

  predicate Ascending(cs: seq<Choice>)
  {
    forall i, j :: 0 <= i < j < |cs| ==> Rank(cs[i]) < Rank(cs[j])
  }

  lemma {:induction false} KeepAscending(s: Sources, cs: seq<Choice>)
    requires Ascending(cs)
    ensures Ascending(Keep(s, cs))
    decreases |cs|
  {
    if |cs| > 0 {
      var rest := Keep(s, cs[1..]);
      KeepAscending(s, cs[1..]);
      if Offered(s, cs[0]) {
        forall j | 0 <= j < |rest|
          ensures Rank(cs[0]) < Rank(rest[j])
        {
          KeepMember(s, cs[1..], rest[j]);
        }
      }
    }
  }

  /** A feed is offered exactly when its source exists; "None" is offered
      once, first; and no entry appears twice. */
  lemma ChoicesOffer(s: Sources, c: Choice)
    ensures c in Choices(s) <==> Offered(s, c)
    ensures Ascending(Choices(s))
    ensures forall i, j :: 0 <= i < j < |Choices(s)| ==> Choices(s)[i] != Choices(s)[j]
  {
    KeepMember(s, AllChoices, c);
    KeepAscending(s, AllChoices);
  }

  /** Different entries have different names. */
  lemma ChoiceNamesDistinct(a: Choice, b: Choice)
    ensures ChoiceName(a) == ChoiceName(b) <==> a == b
  {
  }

  /** The feed a selected name stands for. */
  function FeedOfName(name: string): (r: Option<Feed>)
    ensures r.Some? ==> FeedName(r.value) == name
    ensures r.None? ==> forall f: Feed :: FeedName(f) != name
  {
    if name == "Front Left" then Some(FrontLeft)
    else if name == "Down" then Some(Down)
    else if name == "Front Depth" then Some(FrontDepth)
    else if name == "Front Enhanced" then Some(FrontEnhanced)
    else None
  }

  /** An image element: missing, or showing a feed's texture or nothing. */
  datatype Image = Missing | Shows(texture: Option<Feed>)

  function Show(i: Image, t: Option<Feed>): Image
  {
    if i.Missing? then Missing else Shows(t)
  }

  datatype Dropdown = Dropdown(choices: seq<Choice>, index: int)

  datatype Controller = Controller(
    sources: Sources,
    dropdown: Option<Dropdown>,
    feedImage: Image,
    background: Image,
    isFullscreen: bool,
    backgroundDisplayed: bool,
    fullscreenButton: Option<string>)

  /** Fullscreen is only ever entered through an existing background. */
  predicate Valid(c: Controller)
  {
    c.isFullscreen ==> !c.background.Missing?
  }

  const CloseGlyph: string := "\U{2715}"
  const ExpandGlyph: string := "\U{26F6}"

  /** `ToggleFullscreenCamera`: nothing without a background; otherwise
      fullscreen flips, the background shows exactly while fullscreen, and
      the button offers the way back. */
  function ToggleFullscreen(c: Controller): (r: Controller)
    requires Valid(c)
    ensures Valid(r)
    ensures c.background.Missing? ==> r == c
    ensures !c.background.Missing? ==>
              r.isFullscreen == !c.isFullscreen && r.backgroundDisplayed == r.isFullscreen
    ensures !c.background.Missing? && c.fullscreenButton.Some? ==>
              r.fullscreenButton == Some(if r.isFullscreen then CloseGlyph else ExpandGlyph)
    ensures r.(isFullscreen := c.isFullscreen, backgroundDisplayed := c.backgroundDisplayed,
               fullscreenButton := c.fullscreenButton) == c
  {
    if c.background.Missing? then c
    else
      var full := !c.isFullscreen;
      c.(isFullscreen := full, backgroundDisplayed := full,
         fullscreenButton := if c.fullscreenButton.Some? then Some(if full then CloseGlyph else ExpandGlyph) else None)
  }

  lemma ToggleFullscreenTwice(c: Controller)
    requires Valid(c)
    ensures ToggleFullscreen(ToggleFullscreen(c)).isFullscreen == c.isFullscreen
    ensures ToggleFullscreen(ToggleFullscreen(c)).backgroundDisplayed == c.backgroundDisplayed
            || c.background.Missing? || c.backgroundDisplayed != c.isFullscreen
  {
  }

  /** The texture a selection shows: that feed's, when its source exists. */
  function TextureOf(s: Sources, selection: string): (r: Option<Feed>)
    ensures r.Some? ==> FeedName(r.value) == selection && Available(s, r.value)
    ensures (forall f: Feed :: FeedName(f) == selection ==> !Available(s, f)) ==> r.None?
  {
    match FeedOfName(selection)
    case None => None
    case Some(f) => if Available(s, f) then Some(f) else None
  }

  function CountTrue(m: CameraRender.Manager): nat
  {
    (if m.frontCameraUINeeded then 1 else 0)
    + (if m.frontDepthUINeeded then 1 else 0)
    + (if m.downCameraUINeeded then 1 else 0)
  }

  /** `UpdateCameraFeed`: the render manager (when there is one) is asked
      for exactly the camera the selection shows, and "None" clears both
      images and leaves fullscreen. */
  function UpdateCameraFeed(c: Controller, m: Option<CameraRender.Manager>, selection: string)
    : (r: (Controller, Option<CameraRender.Manager>))
    requires Valid(c)
    ensures Valid(r.0)
    ensures r.1.Some? <==> m.Some?
    ensures r.1.Some? ==> CountTrue(r.1.value) <= 1
    ensures r.1.Some? ==>
              (r.1.value.frontCameraUINeeded <==> selection == FeedName(FrontLeft))
              && (r.1.value.frontDepthUINeeded <==> selection == FeedName(FrontDepth))
              && (r.1.value.downCameraUINeeded <==> selection == FeedName(Down))
    ensures selection == ChoiceName(NoFeed) ==>
              r.0.feedImage == Show(c.feedImage, None) && r.0.background == Show(c.background, None)
              && !r.0.isFullscreen
    ensures selection != ChoiceName(NoFeed) ==>
              r.0.feedImage == Show(c.feedImage, TextureOf(c.sources, selection))
              && r.0.background == Show(c.background, TextureOf(c.sources, selection))
              && r.0.isFullscreen == c.isFullscreen
    ensures r.1.Some? ==>
              r.1.value.(frontCameraUINeeded := false, frontDepthUINeeded := false, downCameraUINeeded := false)
              == m.value.(frontCameraUINeeded := false, frontDepthUINeeded := false, downCameraUINeeded := false)
  {
    var cleared := c.(feedImage := Show(c.feedImage, None), background := Show(c.background, None));
    if selection == "None" then
      var m1 := match m
                case None => None
                case Some(mm) => Some(mm.(frontCameraUINeeded := false, frontDepthUINeeded := false, downCameraUINeeded := false));
      (if cleared.isFullscreen then ToggleFullscreen(cleared) else cleared, m1)
    else
      var m1 := match m
                case None => None
                case Some(mm) => Some(mm.(frontCameraUINeeded := selection == "Front Left",
                                          frontDepthUINeeded := selection == "Front Depth",
                                          downCameraUINeeded := selection == "Down"));
      var t := TextureOf(c.sources, selection);
      (cleared.(feedImage := Show(c.feedImage, t), background := Show(c.background, t)), m1)
  }

  /** `InitializeCameraDropdown`: the choices are filled in, "None" is
      selected and nothing is shown or rendered for the HUD. */
  function InitializeCameraDropdown(c: Controller, depth: bool, enhanced: bool, m: Option<CameraRender.Manager>)
    : (r: (Controller, Option<CameraRender.Manager>))
    requires Valid(c)
    ensures Valid(r.0)
    ensures r.0.sources == c.sources.(depth := depth, enhanced := enhanced)
    ensures c.dropdown.Some? ==> r.0.dropdown == Some(Dropdown(Choices(r.0.sources), 0))
    ensures c.dropdown.None? ==> r.0.dropdown.None?
    ensures r.1.Some? ==> CountTrue(r.1.value) == 0
    ensures !r.0.isFullscreen
    ensures !r.0.feedImage.Missing? ==> r.0.feedImage == Shows(None)
  {
    var s := c.sources.(depth := depth, enhanced := enhanced);
    var choices := Choices(s);
    var c1 := c.(sources := s, dropdown := if c.dropdown.Some? then Some(Dropdown(choices, 0)) else None);
    UpdateCameraFeed(c1, m, ChoiceName(choices[0]))
  }

  /** The next dropdown index when cycling over `count` choices. */
  function NextIndex(index: int, count: nat): (r: int)
    requires count >= 1
    ensures 0 <= r < count
  {
    (index + 1) % count
  }

  /** `CycleCamera`: with a dropdown of two or more choices the selection
      moves to the next one, wrapping around, and the change shows that
      feed and logs its name; otherwise nothing happens. */
  function CycleCamera(c: Controller, m: Option<CameraRender.Manager>)
    : (r: (Controller, Option<CameraRender.Manager>, Option<string>))
    requires Valid(c)
    ensures Valid(r.0)
    ensures c.dropdown.None? || |c.dropdown.value.choices| <= 1 ==> r == (c, m, None)
    ensures c.dropdown.Some? && |c.dropdown.value.choices| > 1 ==>
              var d := c.dropdown.value;
              var next := NextIndex(d.index, |d.choices|);
              r.0.dropdown == Some(d.(index := next))
              && r.2 == Some("Switched to camera: " + ChoiceName(d.choices[next]))
              && (r.1.Some? ==> (r.1.value.frontCameraUINeeded <==> d.choices[next] == FeedChoice(FrontLeft)))
              && (d.choices[next] != NoFeed ==>
                    r.0.feedImage == Show(c.feedImage, TextureOf(c.sources, ChoiceName(d.choices[next]))))
  {
    if c.dropdown.None? || |c.dropdown.value.choices| <= 1 then (c, m, None)
    else
      var d := c.dropdown.value;
      var next := NextIndex(d.index, |d.choices|);
      var value := ChoiceName(d.choices[next]);
      var u := UpdateCameraFeed(c.(dropdown := Some(d.(index := next))), m, value);
      (u.0, u.1, Some("Switched to camera: " + value))
  }

  function CycleTimes(index: int, count: nat, k: nat): (r: int)
    requires count >= 1
    decreases k
  {
    if k == 0 then index else NextIndex(CycleTimes(index, count, k - 1), count)
  }

  /** Cycling `k <= count` times from a valid index lands `k` places
      further on, wrapping past the last choice, so every choice is
      reached and `count` cycles come back. */
  lemma {:induction false} CycleReachesAll(index: int, count: nat, k: nat)
    requires count >= 1 && 0 <= index < count && k <= count
    ensures CycleTimes(index, count, k) == if index + k < count then index + k else index + k - count
    decreases k
  {
    if k > 0 {
      CycleReachesAll(index, count, k - 1);
      var x := CycleTimes(index, count, k - 1);
      assert 0 <= x < count;
      if x + 1 < count {
        ModSmall(x + 1, count);
      } else {
        ModSelf(count);
      }
    }
  }

  lemma ModSmall(a: int, n: int)
    requires 0 <= a < n
    ensures a % n == a
  {
  }

  lemma ModSelf(n: int)
    requires n >= 1
    ensures n % n == 0
  {
  }

  /** The snapshot's feed name: the selected choice without spaces. */
  function RemoveSpaces(s: string): (r: string)
    ensures forall i :: 0 <= i < |r| ==> r[i] != ' '
    ensures |r| <= |s|
    decreases |s|
  {
    if |s| == 0 then ""
    else (if s[0] == ' ' then "" else [s[0]]) + RemoveSpaces(s[1..])
  }

  lemma {:induction false} RemoveSpacesKeeps(s: string)
    requires forall i :: 0 <= i < |s| ==> s[i] != ' '
    ensures RemoveSpaces(s) == s
    decreases |s|
  {
    if |s| > 0 {
      RemoveSpacesKeeps(s[1..]);
    }
  }

  predicate EndsWith(s: string, suffix: string)
  {
    |suffix| <= |s| && s[|s| - |suffix|..] == suffix
  }

  lemma EndsWithTrans(s: string, t: string, u: string)
    requires EndsWith(s, t) && EndsWith(t, u)
    ensures EndsWith(s, u)
  {
    assert s[|s| - |u|..] == s[|s| - |t|..][|t| - |u|..];
  }

  /** The snapshot file name: feed, size and local time stamp. */
  function SnapshotName(c: Controller, width: nat, height: nat, timestamp: string): (r: string)
    ensures EndsWith(r, ".png")
  {
    var feed := match c.dropdown
                case None => "Camera"
                case Some(d) => if 0 <= d.index < |d.choices| then RemoveSpaces(ChoiceName(d.choices[d.index])) else "";
    feed + "_" + Text.IntToString(width) + "x" + Text.IntToString(height) + "_" + timestamp + ".png"
  }

  /** What `OnSaveImage` does: a log line when there is nothing it can
      save, or the PNG written to the settings' snapshot folder. */
  datatype SaveOutcome = NothingToSave(message: string) | Written(path: string, message: string)

  /** The texture kinds a feed image can hold. */
  datatype Texture = RenderTexture(width: nat, height: nat) | OtherTexture

  /** `Path.Combine` for a relative file name on a '/' platform. */
  function Combine(folder: string, name: string): (r: string)
    ensures EndsWith(r, name)
    ensures |folder| <= |r| && r[..|folder|] == folder
  {
    if |folder| == 0 then name
    else if folder[|folder| - 1] == '/' then folder + name
    else folder + "/" + name
  }

  function OnSaveImage(c: Controller, texture: Option<Texture>, timestamp: string, savePath: string): (r: SaveOutcome)
    ensures texture.None? ==> r == NothingToSave("No camera feed to save.")
    ensures texture == Some(OtherTexture) ==> r == NothingToSave("Cannot save this type of texture.")
    ensures r.Written? ==>
              texture.Some? && texture.value.RenderTexture? && r.message == "Snapshot saved to: " + r.path
    ensures texture.Some? && texture.value.RenderTexture? ==> r.Written? && EndsWith(r.path, ".png")
  {
    match texture
    case None => NothingToSave("No camera feed to save.")
    case Some(OtherTexture) => NothingToSave("Cannot save this type of texture.")
    case Some(RenderTexture(w, h)) =>
      var name := SnapshotName(c, w, h, timestamp);
      var path := Combine(savePath, name);
      EndsWithTrans(path, name, ".png");
      Written(path, "Snapshot saved to: " + path)
  }
}

=== FILE: camera_render.dfy ===
/** Camera render manager: decides each physics step whether the front and
    down cameras are needed by ROS, the ZED stream or the on-screen feed,
    and renders each at most once per interval of its frame rate.
 */
module CameraRender {
  import opened Wrappers
  import RosPublisher

  /** The settings singleton's fields the manager reads. */
  datatype Settings = Settings(
    publishRos: bool,
    publishFrontCam: bool,
    publishDepth: bool,
    streamZedCamera: bool,
    publishDownCam: bool,
    frontCamRate: real,
    downCamRate: real)

  datatype Manager = Manager(
    hasFrontCamera: bool,
    hasFrontRightCamera: bool,
    hasDownCamera: bool,
    frontCameraRate: real,
    downCameraRate: real,
    frontCameraUINeeded: bool,
    frontDepthUINeeded: bool,
    downCameraUINeeded: bool,
    frontCameraLastRender: real,
    downCameraLastRender: real)

  /** `Start`: both rates come from the settings when they exist. */
  function Start(m: Manager, s: Option<Settings>): (r: Manager)
    ensures s.Some? ==> r.frontCameraRate == s.value.frontCamRate && r.downCameraRate == s.value.downCamRate
    ensures s.None? ==> r == m
    ensures r.(frontCameraRate := m.frontCameraRate, downCameraRate := m.downCameraRate) == m
  {
    match s
    case None => m
    case Some(st) => m.(frontCameraRate := st.frontCamRate, downCameraRate := st.downCamRate)
  }

  /** `NeedsFrontCamera`: ROS image or depth publishing, ZED streaming, or a
      UI selection, given a camera and the settings. */
  predicate NeedsFrontCamera(m: Manager, s: Option<Settings>)
  {
    m.hasFrontCamera && s.Some?
    && ((s.value.publishRos && (s.value.publishFrontCam || s.value.publishDepth))
        || s.value.streamZedCamera
        || m.frontCameraUINeeded || m.frontDepthUINeeded)
  }

  /** `NeedsDownCamera`: ROS down-camera publishing or a UI selection. */
  predicate NeedsDownCamera(m: Manager, s: Option<Settings>)
  {
    m.hasDownCamera && s.Some?
    && ((s.value.publishRos && s.value.publishDownCam) || m.downCameraUINeeded)
  }

  /** Each consumer alone is enough to need the front camera, and with
      ROS off, no stream and no UI selection it is not needed. */
  lemma FrontCameraConsumers(m: Manager, s: Settings)
    requires m.hasFrontCamera
    ensures s.streamZedCamera ==> NeedsFrontCamera(m, Some(s))
    ensures m.frontCameraUINeeded || m.frontDepthUINeeded ==> NeedsFrontCamera(m, Some(s))
    ensures s.publishRos && s.publishDepth ==> NeedsFrontCamera(m, Some(s))
    ensures s.publishRos && s.publishFrontCam ==> NeedsFrontCamera(m, Some(s))
    ensures !s.publishRos && !s.streamZedCamera && !m.frontCameraUINeeded && !m.frontDepthUINeeded
            ==> !NeedsFrontCamera(m, Some(s))
  {
  }

  /** The down camera is needed exactly for ROS down-camera publishing or
      a UI selection. */
  lemma DownCameraConsumers(m: Manager, s: Settings)
    requires m.hasDownCamera
    ensures s.publishRos && s.publishDownCam ==> NeedsDownCamera(m, Some(s))
    ensures m.downCameraUINeeded ==> NeedsDownCamera(m, Some(s))
    ensures !(s.publishRos && s.publishDownCam) && !m.downCameraUINeeded ==> !NeedsDownCamera(m, Some(s))
  {
  }

  /** Without its camera or without the settings, no camera is needed. */
  lemma NothingWithoutCameraOrSettings(m: Manager, s: Option<Settings>)
    ensures !m.hasFrontCamera || s.None? ==> !NeedsFrontCamera(m, s)
    ensures !m.hasDownCamera || s.None? ==> !NeedsDownCamera(m, s)
    ensures s.Some? && !s.value.publishRos && !m.downCameraUINeeded ==> !NeedsDownCamera(m, s)
  {
  }

  /** What a physics step renders. */
  datatype Renders = Renders(front: bool, frontRight: bool, down: bool)

  /** `FixedUpdate`: each camera renders when needed and at least one
      interval (1 / rate) has passed since its last render, which is then
      moved to now. The right eye renders with the front camera only while
      ZED streaming is on. */
  function FixedUpdate(m: Manager, s: Option<Settings>, now: real): (res: (Manager, Renders))
    ensures res.1.front <==> NeedsFrontCamera(m, s)
                             && RosPublisher.Due(RosPublisher.IntervalOf(m.frontCameraRate), now - m.frontCameraLastRender)
    ensures res.1.down <==> NeedsDownCamera(m, s)
                            && RosPublisher.Due(RosPublisher.IntervalOf(m.downCameraRate), now - m.downCameraLastRender)
    ensures res.1.frontRight <==> res.1.front && m.hasFrontRightCamera && s.value.streamZedCamera
    ensures res.0.frontCameraLastRender == (if res.1.front then now else m.frontCameraLastRender)
    ensures res.0.downCameraLastRender == (if res.1.down then now else m.downCameraLastRender)
    ensures res.0.(frontCameraLastRender := m.frontCameraLastRender, downCameraLastRender := m.downCameraLastRender) == m
  {
    var front := NeedsFrontCamera(m, s)
                 && RosPublisher.Due(RosPublisher.IntervalOf(m.frontCameraRate), now - m.frontCameraLastRender);
    var down := NeedsDownCamera(m, s)
                && RosPublisher.Due(RosPublisher.IntervalOf(m.downCameraRate), now - m.downCameraLastRender);
    var right := front && m.hasFrontRightCamera && s.value.streamZedCamera;
    var m1 := m.(frontCameraLastRender := if front then now else m.frontCameraLastRender,
                 downCameraLastRender := if down then now else m.downCameraLastRender);
    (m1, Renders(front, right, down))
  }

  /** Renders are throttled: after a front render at `t1`, the next one
      comes at least one interval later, and at a zero rate it never comes. */
  lemma FrontRenderSpacing(m: Manager, s: Option<Settings>, t1: real, t2: real)
    requires FixedUpdate(m, s, t1).1.front
    ensures FixedUpdate(FixedUpdate(m, s, t1).0, s, t2).1.front
            ==> m.frontCameraRate != 0.0 && t2 - t1 >= 1.0 / m.frontCameraRate
  {
  }

  /** The same spacing for the down camera. */
  lemma DownRenderSpacing(m: Manager, s: Option<Settings>, t1: real, t2: real)
    requires FixedUpdate(m, s, t1).1.down
    ensures FixedUpdate(FixedUpdate(m, s, t1).0, s, t2).1.down
            ==> m.downCameraRate != 0.0 && t2 - t1 >= 1.0 / m.downCameraRate
  {
  }
}

=== FILE: conditional_labeling.dfy ===
/** Conditional labeling: an object's labeling is enabled only while the
    perception camera is close enough and sees the object's front face,
    or its back face when allowed, within the viewing angle.
 */
module ConditionalLabeling {
  /** Inspector settings. `maxViewAngle` is in degrees, 0 to 90. */
  datatype Settings = Settings(
    useDistanceFilter: bool,
    maxDistance: real,
    useAngleFilter: bool,
    maxViewAngle: real,
    allowBackFace: bool)

  const Defaults: Settings := Settings(true, 15.0, true, 60.0, true)

  /** The angle test: near head-on, or near the reverse when the back face
      counts. */
  predicate AngleValid(s: Settings, angle: real)
  {
    angle <= s.maxViewAngle || (s.allowBackFace && angle >= 180.0 - s.maxViewAngle)
  }

  /** The decision as the component computes it, step by step: the
      distance check, then the angle check only while still passing.
      `distance` and `angle` are the engine's vector distance and angle
      between the object's forward axis and the direction to the camera. */
  function ShouldLabel(s: Settings, distance: real, angle: real): bool
  {
    var afterDistance := !(s.useDistanceFilter && distance > s.maxDistance);
    if afterDistance && s.useAngleFilter then
      var valid := if angle <= s.maxViewAngle then true
                   else if s.allowBackFace then angle >= 180.0 - s.maxViewAngle
                   else false;
      valid
    else afterDistance
  }

  /** Both filters must pass, each only when it is switched on. */
  lemma ShouldLabelIff(s: Settings, distance: real, angle: real)
    ensures ShouldLabel(s, distance, angle)
            <==> (!s.useDistanceFilter || distance <= s.maxDistance) && (!s.useAngleFilter || AngleValid(s, angle))
  {
  }

  /** At the widest setting with the back face allowed, every angle
      passes; with a zero angle and no back face only head-on passes. */
  lemma AngleExtremes(s: Settings, angle: real)
    requires 0.0 <= angle <= 180.0
    ensures s.maxViewAngle == 90.0 && s.allowBackFace ==> AngleValid(s, angle)
    ensures s.maxViewAngle == 0.0 && !s.allowBackFace ==> (AngleValid(s, angle) <==> angle == 0.0)
  {
  }

  /** The component's state: which references exist and the labeling's
      enabled flag. `writes` counts assignments to that flag. */
  datatype Component = Component(hasCamera: bool, hasLabeling: bool, enabled: bool, writes: nat)

  /** `Start`: an unset camera falls back to the main camera when there is
      one. */
  function Start(c: Component, mainCamera: bool): (r: Component)
    ensures r.hasCamera <==> c.hasCamera || mainCamera
    ensures r.(hasCamera := c.hasCamera) == c
  {
    if !c.hasCamera && mainCamera then c.(hasCamera := true) else c
  }

  /** `Update`: no change without camera or labeling; otherwise the flag
      takes the decision, written only when it differs. */
  function Update(c: Component, s: Settings, distance: real, angle: real): (r: Component)
    ensures !c.hasCamera || !c.hasLabeling ==> r == c
    ensures c.hasCamera && c.hasLabeling ==> (r.enabled <==> ShouldLabel(s, distance, angle))
    ensures r.writes == c.writes || (r.writes == c.writes + 1 && r.enabled != c.enabled)
    ensures r.(enabled := c.enabled, writes := c.writes) == c
  {
    if !c.hasCamera || !c.hasLabeling then c
    else
      var should := ShouldLabel(s, distance, angle);
      if c.enabled != should then c.(enabled := should, writes := c.writes + 1) else c
  }

  /** A second update with the same measurements writes nothing. */
  lemma UpdateSettles(c: Component, s: Settings, distance: real, angle: real)
    ensures Update(Update(c, s, distance, angle), s, distance, angle) == Update(c, s, distance, angle)
  {
  }
}

=== FILE: depth.dfy ===
/** Depth sensor: the positive-down depth of the sensor's own position,
    clamped at the surface, with a bias and a white-noise term added to the
    value sent to ROS.
 */
module Depth {
  import opened Wrappers
  import opened Geometry
  import RosPublisher

  datatype Config = Config(noiseStdDev: real, bias: real)

  /** Inspector defaults (metres). */
  const DefaultConfig: Config := Config(0.01, 0.0)

  /** Depth is -y, and never negative: above the surface it reads zero. */
  function ClampedDepth(y: real): (d: real)
    ensures d >= 0.0
    ensures y <= 0.0 ==> d == -y
    ensures y >= 0.0 ==> d == 0.0
  {
    Max(0.0, -y)
  }

  /** Going deeper never reads shallower. */
  lemma ClampedDepthMonotone(y1: real, y2: real)
    requires y1 <= y2
    ensures ClampedDepth(y1) >= ClampedDepth(y2)
  {
  }

  /** The reading for one step: the clean depth (kept for display) and the
      noisy value sent to ROS. `gaussian` is one standard normal draw; it is
      only used when the deviation is positive. */
  datatype Reading = Reading(clean: real, noisy: real)

  /** The noise added to the clean depth. */
  function NoiseTerm(c: Config, gaussian: real): real
  {
    c.bias + (if c.noiseStdDev > 0.0 then gaussian * c.noiseStdDev else 0.0)
  }

  /** `CalculateDepth`. */
  function Measure(c: Config, y: real, gaussian: real): (r: Reading)
    ensures r.clean == ClampedDepth(y)
    ensures r.noisy - r.clean == NoiseTerm(c, gaussian)
    ensures c.noiseStdDev <= 0.0 ==> r.noisy == r.clean + c.bias
  {
    var depth := ClampedDepth(y);
    var noisy := depth + c.bias;
    Reading(depth, if c.noiseStdDev > 0.0 then noisy + gaussian * c.noiseStdDev else noisy)
  }

  /** The measurement error does not depend on where the sensor is. */
  lemma ErrorIndependentOfPosition(c: Config, y1: real, y2: real, gaussian: real)
    ensures Measure(c, y1, gaussian).noisy - Measure(c, y1, gaussian).clean
         == Measure(c, y2, gaussian).noisy - Measure(c, y2, gaussian).clean
  {
  }

  /** Component state: the publisher base, the last clean depth and the
      message's data field. */
  datatype State = State(publisher: RosPublisher.Publisher, lastDepth: real, data: real)

  /** `FixedUpdate`: the depth is computed every step; the base limiter only
      runs while depth publishing and ROS publishing are on, and a publish
      sends the value just computed. */
  function FixedUpdate(c: Config, s: State, y: real, gaussian: real,
                       publishDepth: bool, publishRos: bool, dt: real): (res: (State, Option<real>))
    ensures res.0.lastDepth == ClampedDepth(y)
    ensures res.1.Some? ==> res.1.value == res.0.data == Measure(c, y, gaussian).noisy
    ensures res.1.Some? <==> (publishDepth && publishRos
                              && RosPublisher.Tick(s.publisher, dt, publishRos).1)
    ensures !(publishDepth && publishRos) ==> res.0.publisher == s.publisher
  {
    var r := Measure(c, y, gaussian);
    var (p, fired) := RosPublisher.GatedTick(s.publisher, publishDepth && publishRos, dt, publishRos);
    (State(p, r.clean, r.noisy), if fired then Some(r.noisy) else None)
  }
}

=== FILE: drag_bake.dfy ===
/** The drag lookup baker's arithmetic: the walk over the latitude and
    longitude grid, the projected area and centre-of-pressure offset of
    one rendered silhouette, the per-frame progress, and the final
    statistics. Rendering and file output are not modelled.
 */
module DragBake {
  import opened Wrappers

  /** Window defaults. */
  const DefaultResolution: nat := 256
  const DefaultLongitudeSamples: nat := 64
  const DefaultLatitudeSamples: nat := 32
  const DefaultSamplesPerFrame: nat := 5

  /** The largest single-precision value, the starting minimum. */
  const FloatMax: real := 340282346638528859811704183484516925440.0

  /** Sample `s` is row `s / lon`, column `s % lon`. */
  function GridCell(s: nat, lon: nat): (nat, nat)
    requires lon > 0
  {
    (s / lon, s % lon)
  }

  function Flatten(lat: nat, lonIdx: nat, lon: nat): nat
  {
    lat * lon + lonIdx
  }

  lemma FlattenBelow(lat: nat, lonIdx: nat, latN: nat, lon: nat)
    requires lat < latN && lonIdx < lon
    ensures Flatten(lat, lonIdx, lon) < latN * lon
  {
    assert lat * lon + lonIdx < lat * lon + lon == (lat + 1) * lon;
    assert (lat + 1) * lon <= latN * lon;
  }

  /** The grid walk is a bijection between sample numbers below
      lat * lon and the cells of the grid. */
  lemma GridBijection(latN: nat, lon: nat)
    requires lon > 0
    ensures forall s :: 0 <= s < latN * lon ==>
              GridCell(s, lon).0 < latN && GridCell(s, lon).1 < lon
              && Flatten(GridCell(s, lon).0, GridCell(s, lon).1, lon) == s
    ensures forall a, b :: 0 <= a < latN && 0 <= b < lon ==>
              Flatten(a, b, lon) < latN * lon && GridCell(Flatten(a, b, lon), lon) == (a, b)
  {
    forall s | 0 <= s < latN * lon
      ensures GridCell(s, lon).0 < latN && GridCell(s, lon).1 < lon
              && Flatten(GridCell(s, lon).0, GridCell(s, lon).1, lon) == s
    {
      var q, r := s / lon, s % lon;
      assert q * lon + r == s;
      MulLe(latN, q, lon);
    }
    forall a, b | 0 <= a < latN && 0 <= b < lon
      ensures Flatten(a, b, lon) < latN * lon && GridCell(Flatten(a, b, lon), lon) == (a, b)
    {
      FlattenBelow(a, b, latN, lon);
      DivModUnique(a * lon + b, lon, a, b);
    }
  }

  lemma DivModUnique(s: nat, lon: nat, a: nat, b: nat)
    requires lon > 0 && b < lon && s == a * lon + b
    ensures s / lon == a && s % lon == b
  {
    var q, r := s / lon, s % lon;
    assert q * lon + r == a * lon + b && 0 <= r < lon;
    MulLe(a + 1, q, lon);
    MulLe(q + 1, a, lon);
    assert (a + 1) * lon == a * lon + lon && (q + 1) * lon == q * lon + lon;
  }

  lemma {:induction false} MulLe(x: nat, y: nat, c: nat)
    ensures x <= y ==> x * c <= y * c
    decreases c
  {
    if c > 0 {
      MulLe(x, y, c - 1);
      assert x * c == x * (c - 1) + x && y * c == y * (c - 1) + y;
    }
  }

  /** The latitude in units of pi: +1/2 at row 0 down to -1/2 at the last
      row. A single row divides zero by zero, which is not a number. */
  function Latitude(row: nat, latN: nat): (r: Option<real>)
    ensures r.None? <==> latN == 1
  {
    if latN == 1 then None else Some(0.5 - row as real / (latN as real - 1.0))
  }

  /** The rows run from the top pole to the bottom pole, strictly
      downward. */
  lemma LatitudeSpan(latN: nat, a: nat, b: nat)
    requires latN >= 2
    ensures Latitude(0, latN) == Some(0.5)
    ensures Latitude(latN - 1, latN) == Some(-0.5)
    ensures a < b ==> Latitude(a, latN).value > Latitude(b, latN).value
  {
    var d := latN as real - 1.0;
    assert (0 as real) / d == 0.0;
    assert (latN - 1) as real / d == 1.0;
    if a < b {
      DivLess(a as real, b as real, d);
    }
  }

  lemma DivLess(x: real, y: real, d: real)
    requires x < y && d > 0.0
    ensures x / d < y / d
  {
    assert y / d - x / d == (y - x) / d;
  }

  /** A read-back pixel's colour channels. */
  datatype Pixel = Pixel(r: nat, g: nat, b: nat)

  /** A pixel counts as covered when any channel is above 50. */
  predicate Covered(p: Pixel)
  {
    p.r > 50 || p.g > 50 || p.b > 50
  }

  function CoveredCount(ps: seq<Pixel>): (n: nat)
    ensures n <= |ps|
  {
    if |ps| == 0 then 0 else CoveredCount(ps[..|ps| - 1]) + (if Covered(ps[|ps| - 1]) then 1 else 0)
  }

  /** The sums of the covered pixels' columns and rows, pixel `i` being at
      column `i % res`, row `i / res`. */
  function SumColumns(ps: seq<Pixel>, res: nat): nat
    requires res > 0
  {
    if |ps| == 0 then 0
    else SumColumns(ps[..|ps| - 1], res) + (if Covered(ps[|ps| - 1]) then (|ps| - 1) % res else 0)
  }

  function SumRows(ps: seq<Pixel>, res: nat): nat
    requires res > 0
  {
    if |ps| == 0 then 0
    else SumRows(ps[..|ps| - 1], res) + (if Covered(ps[|ps| - 1]) then (|ps| - 1) / res else 0)
  }

  /** The pixel loop of `BakeUpdate`. */
  method CountCovered(ps: seq<Pixel>, res: nat) returns (count: nat, sumX: nat, sumY: nat)
    requires res > 0
    ensures count == CoveredCount(ps)
    ensures sumX == SumColumns(ps, res) && sumY == SumRows(ps, res)
  {
    count, sumX, sumY := 0, 0, 0;
    var i := 0;
    while i < |ps|
      invariant 0 <= i <= |ps|
      invariant count == CoveredCount(ps[..i])
      invariant sumX == SumColumns(ps[..i], res) && sumY == SumRows(ps[..i], res)
    {
      SumsStep(ps, i, res);
      if Covered(ps[i]) {
        count := count + 1;
        sumX := sumX + i % res;
        sumY := sumY + i / res;
      }
      i := i + 1;
    }
    assert ps[..|ps|] == ps;
  }

  /** Extending the prefix by pixel `i` adds that pixel's share to each sum. */
  lemma SumsStep(ps: seq<Pixel>, i: nat, res: nat)
    requires res > 0 && i < |ps|
    ensures CoveredCount(ps[..i + 1]) == CoveredCount(ps[..i]) + (if Covered(ps[i]) then 1 else 0)
    ensures SumColumns(ps[..i + 1], res) == SumColumns(ps[..i], res) + (if Covered(ps[i]) then i % res else 0)
    ensures SumRows(ps[..i + 1], res) == SumRows(ps[..i], res) + (if Covered(ps[i]) then i / res else 0)
  {
    var p := ps[..i + 1];
    assert p[..|p| - 1] == ps[..i] && p[|p| - 1] == ps[i] && |p| - 1 == i;
  }

  /** Every covered pixel's column is below the resolution, so the column
      sum is at most the count times `res - 1`. */
  lemma {:induction false} ColumnsBounded(ps: seq<Pixel>, res: nat)
    requires res > 0
    ensures SumColumns(ps, res) <= CoveredCount(ps) * (res - 1)
    decreases |ps|
  {
    if |ps| > 0 {
      var init := ps[..|ps| - 1];
      ColumnsBounded(init, res);
      if Covered(ps[|ps| - 1]) {
        assert (CoveredCount(init) + 1) * (res - 1) == CoveredCount(init) * (res - 1) + (res - 1);
      }
    }
  }

  /** One table entry: projected area and the two offsets. */
  datatype Entry = Entry(area: real, offsetX: real, offsetY: real)

  /** The pixel scale: the orthographic frustum is three maximum extents
      wide, split into `res` pixels. */
  function PixelSize(maxExtent: real, res: nat): real
    requires res > 0
  {
    maxExtent * 1.5 * 2.0 / res as real
  }

  /** The entry for one silhouette: the covered pixel count times the
      pixel area, and the mean covered pixel's offset from the image
      centre, scaled to world units, or zero with nothing covered. */
  function EntryOf(count: nat, sumX: nat, sumY: nat, res: nat, pixelSize: real): (e: Entry)
    requires res > 0
    ensures e.area >= 0.0
    ensures count == 0 ==> e.offsetX == 0.0 && e.offsetY == 0.0
    ensures e.area == count as real * pixelSize * pixelSize
    ensures count > 0 ==> e.offsetX == (sumX as real / count as real - res as real / 2.0) * pixelSize
    ensures count > 0 ==> e.offsetY == (sumY as real / count as real - res as real / 2.0) * pixelSize
  {
    var area := count as real * (pixelSize * pixelSize);
    NonNegProduct(count as real, pixelSize);
    if count == 0 then Entry(area, 0.0, 0.0)
    else
      var half := res as real / 2.0;
      Entry(area, (sumX as real / count as real - half) * pixelSize, (sumY as real / count as real - half) * pixelSize)
  }

  lemma NonNegProduct(a: real, size: real)
    requires a >= 0.0
    ensures a * (size * size) >= 0.0
  {
    assert size * size >= 0.0;
  }

  /** The mean covered column lies within the image. */
  lemma MeanColumnInImage(ps: seq<Pixel>, res: nat)
    requires res > 0 && CoveredCount(ps) > 0
    ensures 0.0 <= SumColumns(ps, res) as real / CoveredCount(ps) as real <= (res - 1) as real
  {
    ColumnsBounded(ps, res);
    MeanBounded(SumColumns(ps, res), CoveredCount(ps), res - 1);
  }

  /** The column offset of a table entry stays within the frustum: at most
      half the image width left of centre and less than half right of it. */
  lemma EntryOffsetInFrame(ps: seq<Pixel>, res: nat, pixelSize: real)
    requires res > 0 && CoveredCount(ps) > 0 && pixelSize >= 0.0
    ensures var e := EntryOf(CoveredCount(ps), SumColumns(ps, res), SumRows(ps, res), res, pixelSize);
            -(res as real / 2.0) * pixelSize <= e.offsetX <= (res as real / 2.0 - 1.0) * pixelSize
  {
    ColumnsBounded(ps, res);
    OffsetBounds(CoveredCount(ps), SumColumns(ps, res), SumRows(ps, res), res, pixelSize);
  }

  lemma OffsetBounds(count: nat, sumX: nat, sumY: nat, res: nat, pixelSize: real)
    requires res > 0 && count > 0 && pixelSize >= 0.0 && sumX <= count * (res - 1)
    ensures var e := EntryOf(count, sumX, sumY, res, pixelSize);
            -(res as real / 2.0) * pixelSize <= e.offsetX <= (res as real / 2.0 - 1.0) * pixelSize
  {
    CentredMean(count, sumX, res);
    ScaledOffset(EntryOf(count, sumX, sumY, res, pixelSize).offsetX,
                 sumX as real / count as real - res as real / 2.0, res as real / 2.0, pixelSize);
  }

  lemma ScaledOffset(o: real, m: real, half: real, k: real)
    requires o == m * k && -half <= m <= half - 1.0 && k >= 0.0
    ensures -half * k <= o <= (half - 1.0) * k
  {
    ScaleBetween(m, -half, half - 1.0, k);
  }

  /** The mean column, measured from the centre, lies in [-res/2, res/2 - 1]. */
  lemma CentredMean(count: nat, sumX: nat, res: nat)
    requires res > 0 && count > 0 && sumX <= count * (res - 1)
    ensures -(res as real / 2.0) <= sumX as real / count as real - res as real / 2.0 <= res as real / 2.0 - 1.0
  {
    MeanBounded(sumX, count, res - 1);
    assert (res - 1) as real == res as real - 1.0;
  }

  lemma ScaleBetween(a: real, lo: real, hi: real, k: real)
    requires lo <= a <= hi && k >= 0.0
    ensures lo * k <= a * k <= hi * k
  {
    assert a * k - lo * k == (a - lo) * k;
    assert hi * k - a * k == (hi - a) * k;
  }

  lemma MeanBounded(s: nat, n: nat, c: nat)
    requires n > 0 && s <= n * c
    ensures 0.0 <= s as real / n as real <= c as real
  {
    var q := s as real / n as real;
    assert q * n as real == s as real;
    assert (n * c) as real == n as real * c as real;
    RealMulLe(c as real, q, n as real);
    RealMulLe(q, 0.0, n as real);
  }

  lemma RealMulLe(x: real, y: real, n: real)
    requires n > 0.0
    ensures y < x ==> y * n < x * n
  {
    if y < x {
      assert x * n - y * n == (x - y) * n;
    }
  }

  /** `BakeUpdate`'s progress: up to `perFrame` samples a frame, never
      past the total. */
  function Advance(current: nat, total: nat, perFrame: nat): (r: nat)
    ensures current <= total ==> current <= r <= total
    ensures current < total && perFrame > 0 ==> r > current
  {
    if current >= total then current
    else if current + perFrame <= total then current + perFrame
    else total
  }

  function AdvanceTimes(current: nat, total: nat, perFrame: nat, frames: nat): nat
    decreases frames
  {
    if frames == 0 then current else AdvanceTimes(Advance(current, total, perFrame), total, perFrame, frames - 1)
  }

  /** After `k` frames from the start, `min(k * perFrame, total)` samples
      are done. */
  lemma {:induction false} FramesDone(total: nat, perFrame: nat, k: nat, start: nat)
    requires start <= total
    ensures AdvanceTimes(start, total, perFrame, k)
            == if start + k * perFrame <= total then start + k * perFrame else total
    decreases k
  {
    if k > 0 {
      var next := Advance(start, total, perFrame);
      FramesDone(total, perFrame, k - 1, next);
      assert k * perFrame == (k - 1) * perFrame + perFrame;
    }
  }

  /** `FinishBaking`'s smallest area, ignoring empty silhouettes; the
      starting maximum when every area is zero. */
  function MinPositive(areas: seq<real>): (m: real)
    ensures forall i :: 0 <= i < |areas| && areas[i] > 0.0 && areas[i] < FloatMax ==> m <= areas[i]
    ensures m == FloatMax || exists i :: 0 <= i < |areas| && areas[i] > 0.0 && m == areas[i]
    ensures (forall i :: 0 <= i < |areas| ==> areas[i] <= 0.0) ==> m == FloatMax
  {
    if |areas| == 0 then FloatMax
    else
      var m := MinPositive(areas[..|areas| - 1]);
      var a := areas[|areas| - 1];
      assert forall i :: 0 <= i < |areas| - 1 ==> areas[..|areas| - 1][i] == areas[i];
      if a < m && a > 0.0 then a else m
  }

  /** The largest area, starting from zero. */
  function MaxArea(areas: seq<real>): (m: real)
    ensures m >= 0.0
    ensures forall i :: 0 <= i < |areas| ==> areas[i] <= m
    ensures m == 0.0 || exists i :: 0 <= i < |areas| && m == areas[i]
  {
    if |areas| == 0 then 0.0
    else
      var m := MaxArea(areas[..|areas| - 1]);
      var a := areas[|areas| - 1];
      assert forall i :: 0 <= i < |areas| - 1 ==> areas[..|areas| - 1][i] == areas[i];
      if a > m then a else m
  }
}

=== FILE: dvl.dfy ===
/** DVL publisher: four-beam bottom lock, FRD velocity with a 6x6 covariance,
    and an update rate that adapts to altitude. Raycasts are inputs: each
    beam either misses or reports an incidence angle and a slant range.
 */
module Dvl {
  import opened Geometry

  datatype Config = Config(
    minAltitude: real,
    maxAltitude: real,
    minBeamsForLock: int,
    sigmaVelocityHorizontal: real,
    sigmaVelocityVertical: real,
    simulateAdaptiveRate: bool,
    maxGrazingAngle: real)

  /** Inspector defaults. */
  const DefaultConfig: Config := Config(0.05, 50.0, 3, 0.01, 0.004, true, 60.0)

  /** The inspector ranges the computation relies on: a positive range and a
      lock threshold of 1 to 4 beams. */
  predicate WellFormed(c: Config)
  {
    c.maxAltitude > 0.0 && 1 <= c.minBeamsForLock <= 4
  }

  const BeamCount: nat := 4

  /** One raycast: no return, or the incidence angle against the surface
      normal (degrees) and the slant range (metres). */
  datatype Beam = Miss | Hit(incidenceAngle: real, slantRange: real)

  datatype Outcome = Valid(altitude: real) | Grazing | DeadZone | OutOfRange | NoReturn

  /** Vertical altitude from slant range; `cosTilt` is cos(beamTiltAngle). */
  function VerticalAltitude(b: Beam, cosTilt: real): real
    requires b.Hit?
  {
    b.slantRange * cosTilt
  }

  /** The per-beam checks, in the source's order. */
  function Classify(c: Config, cosTilt: real, b: Beam): (o: Outcome)
    ensures o.Valid? ==> c.minAltitude <= o.altitude <= c.maxAltitude
  {
    match b
    case Miss => NoReturn
    case Hit(incidence, _) =>
      var alt := VerticalAltitude(b, cosTilt);
      if incidence > c.maxGrazingAngle then Grazing
      else if alt < c.minAltitude then DeadZone
      else if alt > c.maxAltitude then OutOfRange
      else Valid(alt)
  }

  /** A beam is valid exactly when it hit, the incidence is not grazing, and
      the vertical altitude lies in [minAltitude, maxAltitude]. */
  lemma ClassifyValidIff(c: Config, cosTilt: real, b: Beam)
    ensures Classify(c, cosTilt, b).Valid?
        <==> (b.Hit? && b.incidenceAngle <= c.maxGrazingAngle
              && c.minAltitude <= VerticalAltitude(b, cosTilt) <= c.maxAltitude)
  {
  }

  /** Number of true entries. */
  function CountTrue(s: seq<bool>): (n: nat)
    ensures n <= |s|
  {
    if |s| == 0 then 0 else CountTrue(s[..|s| - 1]) + (if s[|s| - 1] then 1 else 0)
  }

  /** An average of between one and four values bounded by lo and hi is itself bounded. */
  lemma AverageBounds(sum: real, n: nat, lo: real, hi: real)
    requires 1 <= n <= 4
    requires Times(n, lo) <= sum <= Times(n, hi)
    ensures lo <= sum / (n as real) <= hi
  {
    assert Times(1, lo) == lo && Times(1, hi) == hi;
    assert Times(2, lo) == lo + lo && Times(2, hi) == hi + hi;
    assert Times(3, lo) == lo + lo + lo && Times(3, hi) == hi + hi + hi;
    assert Times(4, lo) == lo + lo + lo + lo && Times(4, hi) == hi + hi + hi + hi;
  }

  /** The total of the valid beams' altitudes, added in beam order. */
  function ValidAltitudeSum(c: Config, cosTilt: real, beams: seq<Beam>): real
  {
    if |beams| == 0 then 0.0
    else
      var o := Classify(c, cosTilt, beams[|beams| - 1]);
      ValidAltitudeSum(c, cosTilt, beams[..|beams| - 1]) + (if o.Valid? then o.altitude else 0.0)
  }

  /** The raycast loop of `SimulateSensor`: per-beam validity, the number of
      valid beams and the sum of their altitudes. */
  method ScanBeams(c: Config, cosTilt: real, beams: seq<Beam>) returns (valid: seq<bool>, count: nat, sum: real)
    requires |beams| == BeamCount
    ensures |valid| == BeamCount
    ensures forall i :: 0 <= i < BeamCount ==> (valid[i] <==> Classify(c, cosTilt, beams[i]).Valid?)
    ensures count == CountTrue(valid) && count <= BeamCount
    ensures sum == ValidAltitudeSum(c, cosTilt, beams)
    ensures Times(count, c.minAltitude) <= sum <= Times(count, c.maxAltitude)
  {
    valid := [];
    count := 0;
    sum := 0.0;
    var i := 0;
    while i < BeamCount
      invariant 0 <= i <= BeamCount
      invariant |valid| == i
      invariant forall j :: 0 <= j < i ==> (valid[j] <==> Classify(c, cosTilt, beams[j]).Valid?)
      invariant count == CountTrue(valid)
      invariant sum == ValidAltitudeSum(c, cosTilt, beams[..i])
      invariant Times(count, c.minAltitude) <= sum <= Times(count, c.maxAltitude)
    {
      var o := Classify(c, cosTilt, beams[i]);
      assert (valid + [o.Valid?])[..i] == valid;
      assert beams[..i + 1][..i] == beams[..i] && beams[..i + 1][i] == beams[i];
      if o.Valid? {
        sum := sum + o.altitude;
        count := count + 1;
      }
      valid := valid + [o.Valid?];
      i := i + 1;
    }
    assert beams[..BeamCount] == beams;
  }

  // ------------------------------------------------------------------ message

  datatype Msg = Msg(linear: Vec3, angular: Vec3, covariance: seq<real>)

  /** Unity (x right, y up, z forward) into the DVL's FRD frame. */
  function ToFrd(v: Vec3): Vec3 { Vec3(v.z, v.x, -v.y) }

  function FromFrd(f: Vec3): Vec3 { Vec3(f.y, -f.z, f.x) }

  lemma FrdRoundTrip(v: Vec3, f: Vec3)
    ensures FromFrd(ToFrd(v)) == v
    ensures ToFrd(FromFrd(f)) == f
  {
  }

  const Unmeasured: real := 10000.0

  /** Index i of a row-major 6x6 matrix lies on the diagonal. */
  predicate OnDiagonal6(i: int) { 0 <= i < 36 && i / 6 == i % 6 }

  lemma DiagonalIndices(i: int)
    requires 0 <= i < 36
    ensures OnDiagonal6(i) <==> i in {0, 7, 14, 21, 28, 35}
  {
  }

  /** The covariance array: zeroed, then the six diagonal entries written. */
  function Covariance(isValid: bool, c: Config): (cov: seq<real>)
    ensures |cov| == 36
  {
    var h := c.sigmaVelocityHorizontal * c.sigmaVelocityHorizontal;
    var v := c.sigmaVelocityVertical * c.sigmaVelocityVertical;
    var zeros := seq(36, _ => 0.0);
    if isValid then
      zeros[0 := h][7 := h][14 := v][21 := Unmeasured][28 := Unmeasured][35 := Unmeasured]
    else
      zeros[0 := Unmeasured][7 := Unmeasured][14 := Unmeasured][21 := Unmeasured][28 := Unmeasured][35 := Unmeasured]
  }

  /** Only the diagonal carries variance; the angular block is always
      unmeasured; on loss of lock every diagonal entry is unmeasured. */
  lemma CovarianceShape(isValid: bool, c: Config)
    ensures forall i :: 0 <= i < 36 && !OnDiagonal6(i) ==> Covariance(isValid, c)[i] == 0.0
    ensures forall i :: 18 <= i < 36 && OnDiagonal6(i) ==> Covariance(isValid, c)[i] == Unmeasured
    ensures !isValid ==> forall i :: 0 <= i < 36 && OnDiagonal6(i) ==> Covariance(isValid, c)[i] == Unmeasured
    ensures isValid ==> Covariance(isValid, c)[0] == Covariance(isValid, c)[7] >= 0.0
  {
    var cov := Covariance(isValid, c);
    forall i | 0 <= i < 36
      ensures !OnDiagonal6(i) ==> cov[i] == 0.0
      ensures 18 <= i && OnDiagonal6(i) ==> cov[i] == Unmeasured
      ensures !isValid && OnDiagonal6(i) ==> cov[i] == Unmeasured
    {
      DiagonalIndices(i);
    }
  }

  /** `UpdateDvlMessageData`. */
  function MessageData(isValid: bool, lastVelocity: Vec3, c: Config): (m: Msg)
    ensures m.angular == Zero
    ensures !isValid ==> m.linear == Zero
    ensures isValid ==> FromFrd(m.linear) == lastVelocity
  {
    Msg(if isValid then ToFrd(lastVelocity) else Zero, Zero, Covariance(isValid, c))
  }

  // ------------------------------------------------------------------ timing

  const SearchRate: real := 2.0

  /** Update rate: 2 Hz while searching, otherwise 15 Hz shallow to 4 Hz at
      maximum range. */
  function UpdateRate(c: Config, isValid: bool, lastAltitude: real): (rate: real)
    requires WellFormed(c)
    ensures !(c.simulateAdaptiveRate && isValid) ==> rate == SearchRate
    ensures c.simulateAdaptiveRate && isValid ==> 4.0 <= rate <= 15.0
    ensures c.simulateAdaptiveRate && isValid && lastAltitude <= 0.0 ==> rate == 15.0
    ensures c.simulateAdaptiveRate && isValid && lastAltitude >= c.maxAltitude ==> rate == 4.0
  {
    if c.simulateAdaptiveRate && isValid then
      assert lastAltitude >= c.maxAltitude ==> lastAltitude / c.maxAltitude >= 1.0;
      assert lastAltitude <= 0.0 ==> lastAltitude / c.maxAltitude <= 0.0;
      Lerp(15.0, 4.0, lastAltitude / c.maxAltitude)
    else SearchRate
  }

  // ------------------------------------------------------------------ state

  datatype State = State(
    nextPublishTime: real,
    lastVelocity: Vec3,
    lastAltitude: real,
    isValid: bool,
    validBeamCount: nat,
    beamValid: seq<bool>,
    msg: Msg)

  /** What one physics step reads from the world. `noise` is the sum of the
      white-noise, bias and outlier samples. */
  datatype Inputs = Inputs(
    time: real,
    beams: seq<Beam>,
    cosTilt: real,
    sensorRotation: Quat,
    pointVelocity: Vec3,
    noise: Vec3)

  /** What one simulation step leaves, given what it read: each beam's
      validity, the valid-beam count, lock when enough beams are valid, and
      with lock the mean altitude of the valid beams and the sensor-frame
      point velocity plus noise; without lock zero velocity and altitude
      -1; and the message built from these. */
  predicate Simulated(c: Config, inp: Inputs, t: State)
  {
    |inp.beams| == BeamCount
    && |t.beamValid| == BeamCount
    && (forall i :: 0 <= i < BeamCount ==> (t.beamValid[i] <==> Classify(c, inp.cosTilt, inp.beams[i]).Valid?))
    && t.validBeamCount == CountTrue(t.beamValid)
    && (t.isValid <==> t.validBeamCount >= c.minBeamsForLock)
    && (t.isValid ==>
          t.validBeamCount >= 1
          && t.lastAltitude == ValidAltitudeSum(c, inp.cosTilt, inp.beams) / t.validBeamCount as real
          && t.lastVelocity == Add(Rotate(Conj(inp.sensorRotation), inp.pointVelocity), inp.noise))
    && (!t.isValid ==> t.lastVelocity == Zero && t.lastAltitude == -1.0)
    && t.msg == MessageData(t.isValid, t.lastVelocity, c)
  }

  /** The valid altitudes each lie in [minAltitude, maxAltitude], so their
      total lies between the count times each end. */
  lemma {:induction false} AltitudeSumBounds(c: Config, cosTilt: real, beams: seq<Beam>, valid: seq<bool>)
    requires |valid| == |beams|
    requires forall i :: 0 <= i < |beams| ==> (valid[i] <==> Classify(c, cosTilt, beams[i]).Valid?)
    ensures Times(CountTrue(valid), c.minAltitude) <= ValidAltitudeSum(c, cosTilt, beams)
            <= Times(CountTrue(valid), c.maxAltitude)
    decreases |beams|
  {
    if |beams| > 0 {
      var n := |beams| - 1;
      AltitudeSumBounds(c, cosTilt, beams[..n], valid[..n]);
      assert valid[..n] == valid[..|valid| - 1];
    }
  }

  /** With lock, the altitude a step reports lies in the configured range
      and the published velocity, taken back out of FRD, is the simulated
      one. */
  lemma LockedReading(c: Config, inp: Inputs, t: State)
    requires Simulated(c, inp, t) && t.isValid
    ensures c.minAltitude <= t.lastAltitude <= c.maxAltitude
    ensures FromFrd(t.msg.linear) == Add(Rotate(Conj(inp.sensorRotation), inp.pointVelocity), inp.noise)
  {
    AltitudeSumBounds(c, inp.cosTilt, inp.beams, t.beamValid);
    AverageBounds(ValidAltitudeSum(c, inp.cosTilt, inp.beams), t.validBeamCount, c.minAltitude, c.maxAltitude);
  }

  /** `SimulateSensor`. */
  method SimulateSensor(c: Config, inp: Inputs, s: State) returns (t: State)
    requires WellFormed(c)
    requires |inp.beams| == BeamCount
    ensures Simulated(c, inp, t)
    ensures t.validBeamCount <= BeamCount
    ensures t.isValid ==> c.minAltitude <= t.lastAltitude <= c.maxAltitude
    ensures t.nextPublishTime == s.nextPublishTime
  {
    var valid, count, sum := ScanBeams(c, inp.cosTilt, inp.beams);
    var isValid := count >= c.minBeamsForLock;
    var localVel := Rotate(Conj(inp.sensorRotation), inp.pointVelocity);
    var velocity, altitude;
    if isValid {
      AverageBounds(sum, count, c.minAltitude, c.maxAltitude);
      altitude := sum / (count as real);
      velocity := Add(localVel, inp.noise);
    } else {
      altitude := -1.0;
      velocity := Zero;
    }
    t := State(s.nextPublishTime, velocity, altitude, isValid, count, valid,
               MessageData(isValid, velocity, c));
  }

  /** `FixedUpdate`: when the next update time has come, simulate, publish
      when enabled, and schedule the next update one period later. Returns
      whether a message was published. */
  method FixedUpdate(c: Config, hasBody: bool, publishEnabled: bool, inp: Inputs, s: State)
    returns (t: State, published: bool)
    requires WellFormed(c)
    requires |inp.beams| == BeamCount
    ensures (!hasBody || inp.time < s.nextPublishTime) ==> t == s && !published
    ensures published <==> hasBody && inp.time >= s.nextPublishTime && publishEnabled
    ensures hasBody && inp.time >= s.nextPublishTime ==>
              inp.time + 1.0 / 15.0 <= t.nextPublishTime <= inp.time + 1.0 / SearchRate
    ensures hasBody && inp.time >= s.nextPublishTime ==>
              Simulated(c, inp, t)
              && t.nextPublishTime == inp.time + 1.0 / UpdateRate(c, t.isValid, t.lastAltitude)
  {
    if !hasBody || inp.time < s.nextPublishTime {
      return s, false;
    }
    t := SimulateSensor(c, inp, s);
    published := publishEnabled;
    var rate := UpdateRate(c, t.isValid, t.lastAltitude);
    PeriodBounds(rate);
    t := t.(nextPublishTime := inp.time + 1.0 / rate);
  }

  lemma PeriodBounds(rate: real)
    requires rate == SearchRate || 4.0 <= rate <= 15.0
    ensures 1.0 / 15.0 <= 1.0 / rate <= 1.0 / SearchRate
  {
  }
}

=== FILE: gate.dfy ===
/** The gate task: the AUV must pass between the gate's poles, below the
    gate's height; leaving that box after entering it scores once, and the
    side the AUV passes on decides the team colour.
 */
module Gate {
  import opened Geometry
  import Text
  import Points

  datatype Task = Task(enabled: bool, hasEnteredGate: bool)

  const Initial: Task := Task(false, false)

  /** `StartScript`: only `enabled` changes. */
  function StartScript(t: Task): (r: Task)
    ensures r.enabled && r.(enabled := t.enabled) == t
  {
    t.(enabled := true)
  }

  /** `StopScript`: only `enabled` changes. */
  function StopScript(t: Task): (r: Task)
    ensures !r.enabled && r.(enabled := t.enabled) == t
  {
    t.(enabled := false)
  }

  /** One frame's positions. */
  datatype Frame = Frame(auv: Vec3, gate: Vec3, pole1: Vec3, pole2: Vec3, blueSign: Vec3, redSign: Vec3)

  predicate Between(v: real, a: real, b: real)
  {
    v <= Max(a, b) && v >= Min(a, b)
  }

  /** `IsWithinGateBounds`: between the poles in x and z, and no higher
      than the gate; there is no lower bound. */
  predicate WithinGateBounds(f: Frame)
  {
    Between(f.auv.z, f.pole1.z, f.pole2.z) && Between(f.auv.x, f.pole1.x, f.pole2.x) && f.auv.y <= f.gate.y
  }

  /** The test does not depend on which pole is which, and in x and z it is
      the closed interval between the poles. */
  lemma BoundsSymmetric(f: Frame)
    ensures WithinGateBounds(f) == WithinGateBounds(f.(pole1 := f.pole2, pole2 := f.pole1))
    ensures f.pole1.x <= f.pole2.x && f.pole1.z <= f.pole2.z ==>
              (WithinGateBounds(f) <==>
                 f.pole1.x <= f.auv.x <= f.pole2.x && f.pole1.z <= f.auv.z <= f.pole2.z && f.auv.y <= f.gate.y)
  {
  }

  /** However deep the AUV is, it counts as inside while between the poles. */
  lemma NoLowerBound(f: Frame, depth: real)
    requires WithinGateBounds(f) && depth >= 0.0
    ensures WithinGateBounds(f.(auv := f.auv.(y := f.auv.y - depth)))
  {
  }

  function DistSq(a: Vec3, b: Vec3): real
  {
    var d := Sub(a, b);
    Dot(d, d)
  }

  /** `SetColor`: blue when strictly nearer the blue sign, red otherwise.
      The distances are compared squared. */
  function SetColor(pm: Points.Manager, f: Frame): (r: (Points.Manager, seq<string>))
    ensures r.0.color == "blue" <==> DistSq(f.auv, f.blueSign) < DistSq(f.auv, f.redSign)
    ensures r.0.color == "red" <==> !(DistSq(f.auv, f.blueSign) < DistSq(f.auv, f.redSign))
    ensures r.0.currentScore == pm.currentScore
  {
    if DistSq(f.auv, f.blueSign) < DistSq(f.auv, f.redSign) then
      (pm.(color := "blue"), ["Setting competition color to BLUE"])
    else (pm.(color := "red"), ["Setting competition color to RED"])
  }

  datatype Outcome = Outcome(task: Task, points: Points.Manager, log: seq<string>)

  /** `CheckGatePassage`: entering arms the task; leaving when armed scores,
      sets the colour and stops the task. */
  function Update(t: Task, pm: Points.Manager, f: Frame, points: int, hud: bool): (r: Outcome)
    ensures !t.enabled ==> r == Outcome(t, pm, [])
    ensures t.enabled && WithinGateBounds(f) ==> r.task == t.(hasEnteredGate := true) && r.points == pm
    ensures t.enabled && !WithinGateBounds(f) && !t.hasEnteredGate ==> r == Outcome(t, pm, [])
    ensures t.enabled && !WithinGateBounds(f) && t.hasEnteredGate ==>
              r.task == Task(false, false) && r.points.currentScore == pm.currentScore + points
              && (r.points.color == "blue" <==> DistSq(f.auv, f.blueSign) < DistSq(f.auv, f.redSign))
  {
    if !t.enabled then Outcome(t, pm, [])
    else if WithinGateBounds(f) then Outcome(t.(hasEnteredGate := true), pm, [])
    else if t.hasEnteredGate then
      var a := Points.AddPoint(pm, points, "Gate", hud);
      var c := SetColor(a.0, f);
      Outcome(Task(false, false), c.0, a.1 + ["Gate Pass Through +" + Text.IntToString(points) + "pts"] + c.1)
    else Outcome(t, pm, [])
  }

  function Run(t: Task, pm: Points.Manager, fs: seq<Frame>, points: int, hud: bool): Outcome
    decreases |fs|
  {
    if |fs| == 0 then Outcome(t, pm, [])
    else
      var o := Update(t, pm, fs[0], points, hud);
      var rest := Run(o.task, o.points, fs[1..], points, hud);
      Outcome(rest.task, rest.points, o.log + rest.log)
  }

  /** Over any run, the score grows by the gate's points at most once, and
      only if the run ends with the task stopped. */
  lemma {:induction false} ScoresAtMostOnce(t: Task, pm: Points.Manager, fs: seq<Frame>, points: int, hud: bool)
    ensures var r := Run(t, pm, fs, points, hud);
            r.points.currentScore == pm.currentScore
            || (r.points.currentScore == pm.currentScore + points && !r.task.enabled && t.enabled)
    decreases |fs|
  {
    if |fs| > 0 {
      var o := Update(t, pm, fs[0], points, hud);
      ScoresAtMostOnce(o.task, o.points, fs[1..], points, hud);
      if o.points.currentScore != pm.currentScore {
        StoppedStays(o.task, o.points, fs[1..], points, hud);
      }
    }
  }

  /** A stopped task ignores every later frame. */
  lemma {:induction false} StoppedStays(t: Task, pm: Points.Manager, fs: seq<Frame>, points: int, hud: bool)
    requires !t.enabled
    ensures Run(t, pm, fs, points, hud).points == pm && Run(t, pm, fs, points, hud).task == t
    decreases |fs|
  {
    if |fs| > 0 {
      StoppedStays(t, pm, fs[1..], points, hud);
    }
  }
}

=== FILE: geometry.dfy ===
/**
 * Unity's vector, quaternion and Mathf arithmetic over the reals.
 *
 * Vectors and quaternions are plain value records.  `Rotate` is Unity's
 * `Quaternion * Vector3` operator, written with the same nine products the
 * engine uses, and `Conj` is what `Quaternion.Inverse` returns for the unit
 * quaternions the engine keeps.  The Mathf helpers follow the engine's
 * definitions branch for branch (`Sign(0) == 1`, `Clamp` tests the lower
 * bound first, `Lerp` clamps its parameter).
 */
module Geometry {

  datatype Vec3 = Vec3(x: real, y: real, z: real)

  datatype Quat = Quat(x: real, y: real, z: real, w: real)

  /** A 3x3 matrix by rows. */
  datatype Mat3 = Mat3(r0: Vec3, r1: Vec3, r2: Vec3)

  const Zero: Vec3 := Vec3(0.0, 0.0, 0.0)

  const Identity: Quat := Quat(0.0, 0.0, 0.0, 1.0)

  /** Mathf.Rad2Deg and Mathf.Deg2Rad as single-precision literals. */
  const Rad2Deg: real := 57.29578
  const Deg2Rad: real := 0.01745329

  function Add(a: Vec3, b: Vec3): Vec3 { Vec3(a.x + b.x, a.y + b.y, a.z + b.z) }

  function Sub(a: Vec3, b: Vec3): Vec3 { Vec3(a.x - b.x, a.y - b.y, a.z - b.z) }

  function Neg(a: Vec3): Vec3 { Vec3(-a.x, -a.y, -a.z) }

  function Scale(k: real, a: Vec3): Vec3 { Vec3(k * a.x, k * a.y, k * a.z) }

  function Dot(a: Vec3, b: Vec3): real { a.x * b.x + a.y * b.y + a.z * b.z }

  function NormSq(q: Quat): real { q.x * q.x + q.y * q.y + q.z * q.z + q.w * q.w }

  predicate IsUnit(q: Quat) { NormSq(q) == 1.0 }

  /** The conjugate; `Quaternion.Inverse` of a unit quaternion. */
  function Conj(q: Quat): Quat { Quat(-q.x, -q.y, -q.z, q.w) }

  /** Unity's `Quaternion * Quaternion` (Hamilton product). */
  function QMul(a: Quat, b: Quat): Quat
  {
    Quat(a.w * b.x + a.x * b.w + a.y * b.z - a.z * b.y,
         a.w * b.y + a.y * b.w + a.z * b.x - a.x * b.z,
         a.w * b.z + a.z * b.w + a.x * b.y - a.y * b.x,
         a.w * b.w - a.x * b.x - a.y * b.y - a.z * b.z)
  }

  /**
   * The matrix Unity's `Quaternion * Vector3` multiplies by: with
   * num = 2x, num2 = 2y, num3 = 2z the engine forms the same nine products.
   */
  function Matrix(q: Quat): Mat3
  {
    Mat3(Row0(q.x, q.y, q.z, q.w), Row1(q.x, q.y, q.z, q.w), Row2(q.x, q.y, q.z, q.w))
  }

  function Row0(x: real, y: real, z: real, w: real): Vec3
  {
    Vec3(1.0 - (y * y * 2.0 + z * z * 2.0), x * y * 2.0 - w * z * 2.0, x * z * 2.0 + w * y * 2.0)
  }

  function Row1(x: real, y: real, z: real, w: real): Vec3
  {
    Vec3(x * y * 2.0 + w * z * 2.0, 1.0 - (x * x * 2.0 + z * z * 2.0), y * z * 2.0 - w * x * 2.0)
  }

  function Row2(x: real, y: real, z: real, w: real): Vec3
  {
    Vec3(x * z * 2.0 - w * y * 2.0, y * z * 2.0 + w * x * 2.0, 1.0 - (x * x * 2.0 + y * y * 2.0))
  }

  function Apply(m: Mat3, v: Vec3): Vec3 { Vec3(Dot(m.r0, v), Dot(m.r1, v), Dot(m.r2, v)) }

  function Transpose(m: Mat3): Mat3
  {
    Mat3(Vec3(m.r0.x, m.r1.x, m.r2.x), Vec3(m.r0.y, m.r1.y, m.r2.y), Vec3(m.r0.z, m.r1.z, m.r2.z))
  }

  /** `q * v`: rotate v by q. */
  function Rotate(q: Quat, v: Vec3): Vec3 { Apply(Matrix(q), v) }

  // ---------------------------------------------------------------- Mathf

  function Abs(a: real): real { if a < 0.0 then -a else a }

  function Max(a: real, b: real): real { if a >= b then a else b }

  function Min(a: real, b: real): real { if a <= b then a else b }

  /** Mathf.Sign: 1 for zero and positive values. */
  function Sign(a: real): real { if a >= 0.0 then 1.0 else -1.0 }

  /** C#'s `(int)` cast of a floating value: truncation toward zero. */
  function Trunc(a: real): (r: int)
    ensures a >= 0.0 ==> r as real <= a < r as real + 1.0 && r >= 0
    ensures a < 0.0 ==> r as real - 1.0 < a <= r as real && r <= 0
  {
    if a >= 0.0 then a.Floor else -((-a).Floor)
  }

  /** `n` copies of `x` added up: a product kept linear for the solver. */
  function Times(n: nat, x: real): real
  {
    if n == 0 then 0.0 else Times(n - 1, x) + x
  }

  /** Mathf.Clamp. */
  function Clamp(v: real, lo: real, hi: real): (r: real)
    ensures lo <= hi ==> lo <= r <= hi
    ensures lo <= v <= hi ==> r == v
    ensures r == v || r == lo || r == hi
  {
    if v < lo then lo else if v > hi then hi else v
  }

  function Clamp01(t: real): (r: real)
    ensures 0.0 <= r <= 1.0
    ensures 0.0 <= t <= 1.0 ==> r == t
  {
    Clamp(t, 0.0, 1.0)
  }

  /** Mathf.Lerp: the parameter is clamped to [0, 1] first. */
  function Lerp(a: real, b: real, t: real): (r: real)
    ensures Min(a, b) <= r <= Max(a, b)
    ensures t <= 0.0 ==> r == a
    ensures t >= 1.0 ==> r == b
  {
    var u := Clamp01(t);
    LerpBetween(a, b, u);
    a + (b - a) * u
  }

  /** Scaling by a factor in [0, 1] keeps a value between 0 and itself. */
  lemma ScaleWithinUnit(d: real, u: real)
    requires 0.0 <= u <= 1.0
    ensures d >= 0.0 ==> 0.0 <= d * u <= d
    ensures d < 0.0 ==> d <= d * u <= 0.0
  {
  }

  lemma LerpBetween(a: real, b: real, u: real)
    requires 0.0 <= u <= 1.0
    ensures Min(a, b) <= a + (b - a) * u <= Max(a, b)
  {
    var d := b - a;
    ScaleWithinUnit(d, u);
    OffsetBetween(a, b, d * u);
  }

  /** Linear core of `LerpBetween`: an offset no longer than b - a, in its direction. */
  lemma OffsetBetween(a: real, b: real, p: real)
    requires b - a >= 0.0 ==> 0.0 <= p <= b - a
    requires b - a < 0.0 ==> b - a <= p <= 0.0
    ensures Min(a, b) <= a + p <= Max(a, b)
  {
  }

  /** Mathf.MoveTowards: step from `current` towards `target` by at most `maxDelta`. */
  function MoveTowards(current: real, target: real, maxDelta: real): (r: real)
    ensures maxDelta >= 0.0 ==> Abs(r - current) <= maxDelta
    ensures maxDelta >= 0.0 ==> Abs(target - r) <= Abs(target - current)
    ensures Abs(target - current) <= maxDelta ==> r == target
    ensures maxDelta >= 0.0 && Abs(target - current) > maxDelta ==> Abs(r - current) == maxDelta
    ensures maxDelta >= 0.0 ==> Min(current, target) <= r <= Max(current, target)
  {
    if Abs(target - current) <= maxDelta then target
    else current + Sign(target - current) * maxDelta
  }

  /** Mathf.Repeat(t, 360). */
  function Repeat360(t: real): (r: real)
    ensures 0.0 <= r < 360.0
    ensures IsWholeTurns(t - r)
  {
    var k := (t / 360.0).Floor;
    FloorTurns(t, k);
    t - (k as real) * 360.0
  }

  /** `a` is an integer number of full turns. */
  predicate IsWholeTurns(a: real) { (a / 360.0).Floor as real == a / 360.0 }

  lemma FloorTurns(t: real, k: int)
    requires k == (t / 360.0).Floor
    ensures 0.0 <= t - (k as real) * 360.0 < 360.0
    ensures IsWholeTurns(t - (t - (k as real) * 360.0))
  {
    assert k as real <= t / 360.0 < k as real + 1.0;
    assert (t - (t - (k as real) * 360.0)) / 360.0 == k as real;
  }

  /** Adding one full turn keeps a whole number of turns. */
  lemma WholeTurnsShift(a: real, b: real)
    requires IsWholeTurns(a - b)
    ensures IsWholeTurns(a - (b - 360.0))
  {
    var k := ((a - b) / 360.0).Floor;
    assert (a - (b - 360.0)) / 360.0 == (k + 1) as real;
  }

  /**
   * Mathf.DeltaAngle: the signed difference `target - current`, reduced to
   * the half-open interval (-180, 180].
   */
  function DeltaAngle(current: real, target: real): (r: real)
    ensures -180.0 < r <= 180.0
    ensures IsWholeTurns((target - current) - r)
  {
    var n := Repeat360(target - current);
    if n > 180.0 then
      WholeTurnsShift(target - current, n);
      n - 360.0
    else n
  }

  // --------------------------------------------------------- rotation lemmas

  predicate RowsOrthonormal(m: Mat3)
  {
    && Dot(m.r0, m.r0) == 1.0 && Dot(m.r1, m.r1) == 1.0 && Dot(m.r2, m.r2) == 1.0
    && Dot(m.r0, m.r1) == 0.0 && Dot(m.r0, m.r2) == 0.0 && Dot(m.r1, m.r2) == 0.0
  }

  lemma NegMul(a: real, b: real)
    ensures (-a) * (-b) == a * b
    ensures a * (-b) == -(a * b)
  {
  }

  /** Conjugating a quaternion transposes its rotation matrix. */
  lemma ConjTransposes(q: Quat)
    ensures Matrix(Conj(q)) == Transpose(Matrix(q))
  {
    var x, y, z, w := q.x, q.y, q.z, q.w;
    ConjRow0(x, y, z, w);
    ConjRow1(x, y, z, w);
    ConjRow2(x, y, z, w);
    assert Matrix(Conj(q)) == Mat3(Row0(-x, -y, -z, w), Row1(-x, -y, -z, w), Row2(-x, -y, -z, w));
    var r0, r1, r2 := Row0(x, y, z, w), Row1(x, y, z, w), Row2(x, y, z, w);
    assert Matrix(q) == Mat3(r0, r1, r2);
    assert Transpose(Mat3(r0, r1, r2)) == Mat3(Vec3(r0.x, r1.x, r2.x), Vec3(r0.y, r1.y, r2.y), Vec3(r0.z, r1.z, r2.z));
  }

  lemma ConjRow0(x: real, y: real, z: real, w: real)
    ensures Row0(-x, -y, -z, w) == Vec3(Row0(x, y, z, w).x, Row1(x, y, z, w).x, Row2(x, y, z, w).x)
  {
    NegMul(y, y); NegMul(z, z); NegMul(x, y); NegMul(x, z);
    NegMul(w, z); NegMul(w, y);
  }

  lemma ConjRow1(x: real, y: real, z: real, w: real)
    ensures Row1(-x, -y, -z, w) == Vec3(Row0(x, y, z, w).y, Row1(x, y, z, w).y, Row2(x, y, z, w).y)
  {
    NegMul(x, x); NegMul(z, z); NegMul(x, y); NegMul(y, z);
    NegMul(w, z); NegMul(w, x);
  }

  lemma ConjRow2(x: real, y: real, z: real, w: real)
    ensures Row2(-x, -y, -z, w) == Vec3(Row0(x, y, z, w).z, Row1(x, y, z, w).z, Row2(x, y, z, w).z)
  {
    NegMul(x, x); NegMul(y, y); NegMul(x, z); NegMul(y, z);
    NegMul(w, y); NegMul(w, x);
  }

  /** Squared length of row 0, as a polynomial in the components and the squared norm n. */
  lemma RowNorm0(x: real, y: real, z: real, w: real, n: real)
    requires n == x * x + y * y + z * z + w * w
    ensures Dot(Row0(x, y, z, w), Row0(x, y, z, w)) == 1.0 - 4.0 * (y * y + z * z) + 4.0 * (y * y + z * z) * n
  {
    var s := y * y + z * z;
    var a := 1.0 - (y * y * 2.0 + z * z * 2.0);
    var b := x * y * 2.0 - w * z * 2.0;
    var c := x * z * 2.0 + w * y * 2.0;
    assert a * a == 1.0 - 4.0 * s + 4.0 * s * s;
    assert b * b == 4.0 * x * x * y * y - 8.0 * x * y * w * z + 4.0 * w * w * z * z;
    assert c * c == 4.0 * x * x * z * z + 8.0 * x * z * w * y + 4.0 * w * w * y * y;
    assert b * b + c * c == 4.0 * (x * x + w * w) * s;
  }

  /** Squared length of row 1. */
  lemma RowNorm1(x: real, y: real, z: real, w: real, n: real)
    requires n == x * x + y * y + z * z + w * w
    ensures Dot(Row1(x, y, z, w), Row1(x, y, z, w)) == 1.0 - 4.0 * (x * x + z * z) + 4.0 * (x * x + z * z) * n
  {
    var s := x * x + z * z;
    var a := x * y * 2.0 + w * z * 2.0;
    var b := 1.0 - (x * x * 2.0 + z * z * 2.0);
    var c := y * z * 2.0 - w * x * 2.0;
    assert b * b == 1.0 - 4.0 * s + 4.0 * s * s;
    assert a * a == 4.0 * x * x * y * y + 8.0 * x * y * w * z + 4.0 * w * w * z * z;
    assert c * c == 4.0 * y * y * z * z - 8.0 * y * z * w * x + 4.0 * w * w * x * x;
    assert a * a + c * c == 4.0 * (y * y + w * w) * s;
  }

  /** Squared length of row 2. */
  lemma RowNorm2(x: real, y: real, z: real, w: real, n: real)
    requires n == x * x + y * y + z * z + w * w
    ensures Dot(Row2(x, y, z, w), Row2(x, y, z, w)) == 1.0 - 4.0 * (x * x + y * y) + 4.0 * (x * x + y * y) * n
  {
    var s := x * x + y * y;
    var a := x * z * 2.0 - w * y * 2.0;
    var b := y * z * 2.0 + w * x * 2.0;
    var c := 1.0 - (x * x * 2.0 + y * y * 2.0);
    assert c * c == 1.0 - 4.0 * s + 4.0 * s * s;
    assert a * a == 4.0 * x * x * z * z - 8.0 * x * z * w * y + 4.0 * w * w * y * y;
    assert b * b == 4.0 * y * y * z * z + 8.0 * y * z * w * x + 4.0 * w * w * x * x;
    assert a * a + b * b == 4.0 * (z * z + w * w) * s;
  }

  /** Dot product of rows 0 and 1; zero exactly when n is one (or x y is zero). */
  lemma RowDot01(x: real, y: real, z: real, w: real, n: real)
    requires n == x * x + y * y + z * z + w * w
    ensures Dot(Row0(x, y, z, w), Row1(x, y, z, w)) == x * y * 4.0 * (1.0 - n)
  {
    assert (1.0 - (y * y * 2.0 + z * z * 2.0)) * (x * y * 2.0 + w * z * 2.0)
        == (x * y * 2.0 + w * z * 2.0) - 4.0 * (y * y + z * z) * (x * y + w * z);
    assert (x * y * 2.0 - w * z * 2.0) * (1.0 - (x * x * 2.0 + z * z * 2.0))
        == (x * y * 2.0 - w * z * 2.0) - 4.0 * (x * x + z * z) * (x * y - w * z);
    assert (x * z * 2.0 + w * y * 2.0) * (y * z * 2.0 - w * x * 2.0)
        == 4.0 * (x * z + w * y) * (y * z - w * x);
    assert 4.0 * (x * z + w * y) * (y * z - w * x)
        == 4.0 * (x * y * z * z - w * x * x * z + w * y * y * z - w * w * x * y);
    assert 4.0 * (y * y + z * z) * (x * y + w * z)
        == 4.0 * (x * y * y * y + w * y * y * z + x * y * z * z + w * z * z * z);
    assert 4.0 * (x * x + z * z) * (x * y - w * z)
        == 4.0 * (x * x * x * y - w * x * x * z + x * y * z * z - w * z * z * z);
  }

  /** Dot product of rows 0 and 2. */
  lemma RowDot02(x: real, y: real, z: real, w: real, n: real)
    requires n == x * x + y * y + z * z + w * w
    ensures Dot(Row0(x, y, z, w), Row2(x, y, z, w)) == x * z * 4.0 * (1.0 - n)
  {
    assert (1.0 - (y * y * 2.0 + z * z * 2.0)) * (x * z * 2.0 - w * y * 2.0)
        == (x * z * 2.0 - w * y * 2.0) - 4.0 * (y * y + z * z) * (x * z - w * y);
    assert (x * z * 2.0 + w * y * 2.0) * (1.0 - (x * x * 2.0 + y * y * 2.0))
        == (x * z * 2.0 + w * y * 2.0) - 4.0 * (x * x + y * y) * (x * z + w * y);
    assert (x * y * 2.0 - w * z * 2.0) * (y * z * 2.0 + w * x * 2.0)
        == 4.0 * (x * y - w * z) * (y * z + w * x);
    assert 4.0 * (x * y - w * z) * (y * z + w * x)
        == 4.0 * (x * y * y * z + w * x * x * y - w * y * z * z - w * w * x * z);
    assert 4.0 * (y * y + z * z) * (x * z - w * y)
        == 4.0 * (x * y * y * z - w * y * y * y + x * z * z * z - w * y * z * z);
    assert 4.0 * (x * x + y * y) * (x * z + w * y)
        == 4.0 * (x * x * x * z + w * x * x * y + x * y * y * z + w * y * y * y);
  }

  /** Dot product of rows 1 and 2. */
  lemma RowDot12(x: real, y: real, z: real, w: real, n: real)
    requires n == x * x + y * y + z * z + w * w
    ensures Dot(Row1(x, y, z, w), Row2(x, y, z, w)) == y * z * 4.0 * (1.0 - n)
  {
    assert (x * y * 2.0 + w * z * 2.0) * (x * z * 2.0 - w * y * 2.0)
        == 4.0 * (x * y + w * z) * (x * z - w * y);
    assert (1.0 - (x * x * 2.0 + z * z * 2.0)) * (y * z * 2.0 + w * x * 2.0)
        == (y * z * 2.0 + w * x * 2.0) - 4.0 * (x * x + z * z) * (y * z + w * x);
    assert (y * z * 2.0 - w * x * 2.0) * (1.0 - (x * x * 2.0 + y * y * 2.0))
        == (y * z * 2.0 - w * x * 2.0) - 4.0 * (x * x + y * y) * (y * z - w * x);
    assert 4.0 * (x * y + w * z) * (x * z - w * y)
        == 4.0 * (x * x * y * z - w * x * y * y + w * x * z * z - w * w * y * z);
    assert 4.0 * (x * x + z * z) * (y * z + w * x)
        == 4.0 * (x * x * y * z + w * x * x * x + y * z * z * z + w * x * z * z);
    assert 4.0 * (x * x + y * y) * (y * z - w * x)
        == 4.0 * (x * x * y * z - w * x * x * x + y * y * y * z - w * x * y * y);
  }

  /** A unit quaternion's matrix has orthonormal rows. */
  lemma UnitRowsOrthonormal(q: Quat)
    requires IsUnit(q)
    ensures RowsOrthonormal(Matrix(q))
  {
    var x, y, z, w := q.x, q.y, q.z, q.w;
    assert x * x + y * y + z * z + w * w == 1.0;
    UnitRowNorms(x, y, z, w);
    UnitRowDots(x, y, z, w);
    var r0, r1, r2 := Row0(x, y, z, w), Row1(x, y, z, w), Row2(x, y, z, w);
    assert Matrix(q) == Mat3(r0, r1, r2);
    assert RowsOrthonormal(Mat3(r0, r1, r2));
  }

  lemma UnitRowNorms(x: real, y: real, z: real, w: real)
    requires x * x + y * y + z * z + w * w == 1.0
    ensures Dot(Row0(x, y, z, w), Row0(x, y, z, w)) == 1.0
    ensures Dot(Row1(x, y, z, w), Row1(x, y, z, w)) == 1.0
    ensures Dot(Row2(x, y, z, w), Row2(x, y, z, w)) == 1.0
  {
    RowNorm0(x, y, z, w, 1.0);
    RowNorm1(x, y, z, w, 1.0);
    RowNorm2(x, y, z, w, 1.0);
  }

  lemma UnitRowDots(x: real, y: real, z: real, w: real)
    requires x * x + y * y + z * z + w * w == 1.0
    ensures Dot(Row0(x, y, z, w), Row1(x, y, z, w)) == 0.0
    ensures Dot(Row0(x, y, z, w), Row2(x, y, z, w)) == 0.0
    ensures Dot(Row1(x, y, z, w), Row2(x, y, z, w)) == 0.0
  {
    RowDot01(x, y, z, w, 1.0);
    RowDot02(x, y, z, w, 1.0);
    RowDot12(x, y, z, w, 1.0);
  }

  lemma DotLinear(a: Vec3, b: Vec3, c: Vec3, d: Vec3, p: real, q: real, r: real)
    ensures Dot(a, Add(Add(Scale(p, b), Scale(q, c)), Scale(r, d)))
         == p * Dot(a, b) + q * Dot(a, c) + r * Dot(a, d)
  {
  }

  /** M (Mᵀ v) == v when the rows of M are orthonormal. */
  lemma ApplyAfterTranspose(m: Mat3, v: Vec3)
    requires RowsOrthonormal(m)
    ensures Apply(m, Apply(Transpose(m), v)) == v
  {
    assert Apply(Transpose(m), v) == Add(Add(Scale(v.x, m.r0), Scale(v.y, m.r1)), Scale(v.z, m.r2));
    DotLinear(m.r0, m.r0, m.r1, m.r2, v.x, v.y, v.z);
    DotLinear(m.r1, m.r0, m.r1, m.r2, v.x, v.y, v.z);
    DotLinear(m.r2, m.r0, m.r1, m.r2, v.x, v.y, v.z);
    assert Dot(m.r1, m.r0) == Dot(m.r0, m.r1);
    assert Dot(m.r2, m.r0) == Dot(m.r0, m.r2);
    assert Dot(m.r2, m.r1) == Dot(m.r1, m.r2);
  }

  /** Rotating by the inverse of a unit quaternion undoes the rotation, in both orders. */
  lemma RotateConjInverse(q: Quat, v: Vec3)
    requires IsUnit(q)
    ensures Rotate(q, Rotate(Conj(q), v)) == v
    ensures Rotate(Conj(q), Rotate(q, v)) == v
  {
    ConjTransposes(q);
    UnitRowsOrthonormal(q);
    ApplyAfterTranspose(Matrix(q), v);
    var c := Conj(q);
    assert IsUnit(c);
    ConjTransposes(c);
    UnitRowsOrthonormal(c);
    assert Conj(c) == q;
    ApplyAfterTranspose(Matrix(c), v);
  }

  /** Rotation is linear, so it distributes over vector subtraction. */
  lemma RotateSub(q: Quat, a: Vec3, b: Vec3)
    ensures Rotate(q, Sub(a, b)) == Sub(Rotate(q, a), Rotate(q, b))
  {
  }

  /** The identity quaternion leaves every vector unchanged. */
  lemma RotateIdentity(v: Vec3)
    ensures Rotate(Identity, v) == v
  {
    IdentityMatrix();
    ApplyUnitMatrix(Matrix(Identity), v);
  }

  lemma IdentityMatrix()
    ensures Matrix(Identity) == Mat3(Vec3(1.0, 0.0, 0.0), Vec3(0.0, 1.0, 0.0), Vec3(0.0, 0.0, 1.0))
  {
  }

  lemma ApplyUnitMatrix(m: Mat3, v: Vec3)
    requires m == Mat3(Vec3(1.0, 0.0, 0.0), Vec3(0.0, 1.0, 0.0), Vec3(0.0, 0.0, 1.0))
    ensures Apply(m, v) == v
  {
  }
  lemma DotNeg(a: Vec3, b: Vec3)
    ensures Dot(a, Neg(b)) == -Dot(a, b)
  {
    NegMul(a.x, b.x);
    NegMul(a.y, b.y);
    NegMul(a.z, b.z);
  }

  /** Rotation commutes with negation. */
  lemma RotateNeg(q: Quat, v: Vec3)
    ensures Rotate(q, Neg(v)) == Neg(Rotate(q, v))
  {
    var m := Matrix(q);
    DotNeg(m.r0, v);
    DotNeg(m.r1, v);
    DotNeg(m.r2, v);
  }

  /** Every rotation fixes the zero vector. */
  lemma RotateZero(q: Quat)
    ensures Rotate(q, Zero) == Zero
  {
  }
}

=== FILE: ground_truth.dfy ===
/** Ground-truth publisher: body-frame twist and acceleration, a right-handed
    orientation and a positive-down depth, computed from the AUV rigidbody
    every physics step.
 */
module GroundTruth {
  import opened Wrappers
  import opened Geometry

  /** What the publisher reads from the rigidbody in one physics step. */
  datatype Body = Body(position: Vec3, rotation: Quat, linearVelocity: Vec3, angularVelocity: Vec3)

  /** Velocities remembered for the finite-difference acceleration. */
  datatype Memory = Memory(prevVelocity: Vec3, prevAngularVelocity: Vec3)

  datatype Twist = Twist(linear: Vec3, angular: Vec3)

  datatype Messages = Messages(twist: Twist, accel: Twist, orientation: Quat, depth: real)

  /** Unity's `InverseTransformDirection`: world direction into the body frame. */
  function ToBody(rotation: Quat, v: Vec3): Vec3 { Rotate(Conj(rotation), v) }

  /** The handedness change applied to the orientation negates x, y and z and
      keeps w, which is exactly the conjugate (the inverse rotation). */
  function RightHanded(q: Quat): (r: Quat)
    ensures r.x == -q.x && r.y == -q.y && r.z == -q.z && r.w == q.w
    ensures NormSq(r) == NormSq(q)
  {
    Conj(q)
  }

  lemma RightHandedInvolution(q: Quat)
    ensures RightHanded(RightHanded(q)) == q
    ensures IsUnit(q) <==> IsUnit(RightHanded(q))
  {
  }

  /** Body-frame twist with the angular part negated for the right-hand rule. */
  function BodyTwist(rotation: Quat, linearWorld: Vec3, angularWorld: Vec3): Twist
  {
    Twist(ToBody(rotation, linearWorld), Neg(ToBody(rotation, angularWorld)))
  }

  /** Start: remember the current velocities when a rigidbody exists. */
  function Start(body: Option<Body>, mem: Memory): (m: Memory)
    ensures body.None? ==> m == mem
    ensures body.Some? ==> (m.prevVelocity == body.value.linearVelocity
                            && m.prevAngularVelocity == body.value.angularVelocity)
  {
    match body
    case None => mem
    case Some(b) => Memory(b.linearVelocity, b.angularVelocity)
  }

  /** `PublishMessage`. Without a rigidbody nothing is published and the
      memory is unchanged; otherwise the four messages are produced and the
      memory moves to the current velocities. `dt` is Unity's fixed time step. */
  function Publish(body: Option<Body>, mem: Memory, dt: real): (res: (Option<Messages>, Memory))
    requires dt > 0.0
    ensures body.None? <==> res.0.None?
    ensures body.None? ==> res.1 == mem
    ensures body.Some? ==> res.1 == Memory(body.value.linearVelocity, body.value.angularVelocity)
    ensures body.Some? ==> res.0.value.orientation == RightHanded(body.value.rotation)
    ensures body.Some? ==> res.0.value.depth == -body.value.position.y
  {
    match body
    case None => (None, mem)
    case Some(b) =>
      var linearAccelWorld := Scale(1.0 / dt, Sub(b.linearVelocity, mem.prevVelocity));
      var angularAccelWorld := Scale(1.0 / dt, Sub(b.angularVelocity, mem.prevAngularVelocity));
      var msgs := Messages(
        BodyTwist(b.rotation, b.linearVelocity, b.angularVelocity),
        BodyTwist(b.rotation, linearAccelWorld, angularAccelWorld),
        RightHanded(b.rotation),
        -b.position.y);
      (Some(msgs), Memory(b.linearVelocity, b.angularVelocity))
  }

  /** Rotating the published twist back by the body rotation recovers the
      world velocities: the linear part unchanged, the angular part negated. */
  lemma TwistRecoversWorld(b: Body, mem: Memory, dt: real)
    requires dt > 0.0
    requires IsUnit(b.rotation)
    ensures Rotate(b.rotation, Publish(Some(b), mem, dt).0.value.twist.linear) == b.linearVelocity
    ensures Rotate(b.rotation, Publish(Some(b), mem, dt).0.value.twist.angular) == Neg(b.angularVelocity)
  {
    RotateConjInverse(b.rotation, b.linearVelocity);
    RotateConjInverse(b.rotation, b.angularVelocity);
    RotateNeg(b.rotation, ToBody(b.rotation, b.angularVelocity));
  }

  /** The published acceleration is the body-frame finite difference: rotated
      back to the world it is the velocity change over dt, angular part negated. */
  lemma AccelRecoversWorld(b: Body, mem: Memory, dt: real)
    requires dt > 0.0
    requires IsUnit(b.rotation)
    ensures Rotate(b.rotation, Publish(Some(b), mem, dt).0.value.accel.linear)
         == Scale(1.0 / dt, Sub(b.linearVelocity, mem.prevVelocity))
    ensures Rotate(b.rotation, Publish(Some(b), mem, dt).0.value.accel.angular)
         == Neg(Scale(1.0 / dt, Sub(b.angularVelocity, mem.prevAngularVelocity)))
  {
    var la := Scale(1.0 / dt, Sub(b.linearVelocity, mem.prevVelocity));
    var aa := Scale(1.0 / dt, Sub(b.angularVelocity, mem.prevAngularVelocity));
    RotateConjInverse(b.rotation, la);
    RotateConjInverse(b.rotation, aa);
    RotateNeg(b.rotation, ToBody(b.rotation, aa));
  }

  /** Because each publish stores the velocities it saw, publishing the same
      rigidbody state twice reports zero acceleration the second time. */
  lemma SteadyStateZeroAccel(b: Body, mem: Memory, dt: real)
    requires dt > 0.0
    ensures var mem1 := Publish(Some(b), mem, dt).1;
            Publish(Some(b), mem1, dt).0.value.accel == Twist(Zero, Zero)
  {
    var mem1 := Publish(Some(b), mem, dt).1;
    assert Sub(b.linearVelocity, mem1.prevVelocity) == Zero;
    assert Sub(b.angularVelocity, mem1.prevAngularVelocity) == Zero;
    assert Scale(1.0 / dt, Zero) == Zero;
    RotateZero(Conj(b.rotation));
  }

  /** Depth is positive exactly when the AUV is below y = 0. */
  lemma DepthPositiveBelowSurface(b: Body, mem: Memory, dt: real)
    requires dt > 0.0
    ensures Publish(Some(b), mem, dt).0.value.depth > 0.0 <==> b.position.y < 0.0
  {
  }
}

=== FILE: hud.dfy ===
/** The simulator HUD's own logic: the rolling log shown in its log panel,
    the five collapsible drawers whose open state is kept in the settings,
    and the log panel's collapse toggle.
 */
module Hud {
  import opened Wrappers
  import Text
  import Settings

  /** The log keeps at most this many lines. */
  const MaxLogLines: nat := 50

  /** Each logged message is shown behind a prompt. */
  function LogLine(message: string): string
  {
    "> " + message
  }

  /** The last `n` elements of `s` (all of them when there are fewer). */
  function Latest(s: seq<string>, n: nat): (r: seq<string>)
    ensures |r| == if |s| <= n then |s| else n
    ensures forall i :: 0 <= i < |r| ==> r[i] == s[|s| - |r| + i]
  {
    if |s| <= n then s else s[|s| - n..]
  }

  /** The log label's state: whether the label exists, the kept lines and
      the text shown. */
  datatype LogView = LogView(hasTextLog: bool, lines: seq<string>, text: string)

  /** `Log`: without a label nothing is kept; otherwise the new line goes
      last, the oldest line goes once the limit is passed, and the label
      shows the lines joined by newlines. */
  function Log(v: LogView, message: string): (r: LogView)
    ensures !v.hasTextLog ==> r == v
    ensures v.hasTextLog ==> |r.lines| >= 1 && r.lines[|r.lines| - 1] == LogLine(message)
    ensures v.hasTextLog && |v.lines| <= MaxLogLines ==>
              r.lines == Latest(v.lines + [LogLine(message)], MaxLogLines)
    ensures r.hasTextLog == v.hasTextLog
  {
    if !v.hasTextLog then v
    else
      var added := v.lines + [LogLine(message)];
      var kept := if |added| > MaxLogLines then added[1..] else added;
      v.(lines := kept, text := Text.Join('\n', kept))
  }

  function LogAll(v: LogView, messages: seq<string>): (r: LogView)
    ensures r.hasTextLog == v.hasTextLog
    decreases |messages|
  {
    if |messages| == 0 then v else Log(LogAll(v, messages[..|messages| - 1]), messages[|messages| - 1])
  }

  function LinesOf(messages: seq<string>): (r: seq<string>)
    ensures |r| == |messages|
    ensures forall i :: 0 <= i < |r| ==> r[i] == LogLine(messages[i])
    decreases |messages|
  {
    if |messages| == 0 then []
    else LinesOf(messages[..|messages| - 1]) + [LogLine(messages[|messages| - 1])]
  }

  lemma LatestAppend(s: seq<string>, x: string, n: nat)
    requires n >= 1
    ensures Latest(Latest(s, n) + [x], n) == Latest(s + [x], n)
  {
  }

  /** However many messages are logged, the log holds the latest 50 lines
      in order, oldest first. */
  lemma {:induction false} LogKeepsLatest(v: LogView, messages: seq<string>)
    requires v.hasTextLog && |v.lines| <= MaxLogLines
    ensures LogAll(v, messages).lines == Latest(v.lines + LinesOf(messages), MaxLogLines)
    ensures |LogAll(v, messages).lines| <= MaxLogLines
    decreases |messages|
  {
    if |messages| == 0 {
      assert v.lines + LinesOf(messages) == v.lines;
    } else {
      var init := messages[..|messages| - 1];
      var l := LogLine(messages[|messages| - 1]);
      var a := v.lines + LinesOf(init);
      LogKeepsLatest(v, init);
      var w := LogAll(v, init);
      assert w.lines == Latest(a, MaxLogLines);
      assert LogAll(v, messages).lines == Latest(w.lines + [l], MaxLogLines);
      LatestAppend(a, l, MaxLogLines);
      assert LinesOf(messages) == LinesOf(init) + [l];
      assert v.lines + LinesOf(messages) == a + [l];
    }
  }

  /** The label text splits back into the kept lines when no message holds
      a newline. */
  lemma LogTextShowsLines(v: LogView, message: string)
    requires v.hasTextLog
    requires forall i :: 0 <= i < |v.lines| ==> Text.NoSep('\n', v.lines[i])
    requires Text.NoSep('\n', message)
    ensures Text.Split('\n', Log(v, message).text) == Log(v, message).lines
  {
    var r := Log(v, message);
    assert Text.NoSep('\n', LogLine(message)) by {
      assert forall i :: 2 <= i < |LogLine(message)| ==> LogLine(message)[i] == message[i - 2];
    }
    assert forall i :: 0 <= i < |r.lines| ==> Text.NoSep('\n', r.lines[i]) by {
      var added := v.lines + [LogLine(message)];
      assert forall i :: 0 <= i < |added| ==> Text.NoSep('\n', added[i]);
    }
    Text.SplitJoin('\n', r.lines);
  }

  /** The five drawers, their names as registered, and the settings flag
      that remembers each. */
  datatype Drawer = ConfigDrawer | ControlsDrawer | TelemetryDrawer | SensorsDrawer | CameraDrawer

  function DrawerName(d: Drawer): string
  {
    match d
    case ConfigDrawer => "Config"
    case ControlsDrawer => "Controls"
    case TelemetryDrawer => "Telemetry"
    case SensorsDrawer => "Sensors"
    case CameraDrawer => "Camera"
  }

  function DrawerFlag(d: Drawer): Settings.Flag
  {
    match d
    case ConfigDrawer => Settings.DrawerConfigOpen
    case ControlsDrawer => Settings.DrawerControlsOpen
    case TelemetryDrawer => Settings.DrawerTelemetryOpen
    case SensorsDrawer => Settings.DrawerSensorsOpen
    case CameraDrawer => Settings.DrawerCameraOpen
  }

  /** The two style classes of a drawer element. */
  datatype Classes = Classes(open: bool, collapsed: bool)

  predicate OneClass(c: Classes)
  {
    c.open != c.collapsed
  }

  /** `ApplyDrawerState`: a missing element is left alone. */
  function ApplyDrawerState(c: Option<Classes>, isOpen: bool): (r: Option<Classes>)
    ensures r.Some? <==> c.Some?
    ensures r.Some? ==> OneClass(r.value) && r.value.open == isOpen
  {
    match c
    case None => None
    case Some(_) => Some(Classes(isOpen, !isOpen))
  }

  /** The drawer a registered name stands for. */
  function DrawerOfName(name: string): (r: Option<Drawer>)
    ensures r.Some? ==> DrawerName(r.value) == name
    ensures r.None? ==> forall d: Drawer :: DrawerName(d) != name
  {
    if name == "Config" then Some(ConfigDrawer)
    else if name == "Controls" then Some(ControlsDrawer)
    else if name == "Telemetry" then Some(TelemetryDrawer)
    else if name == "Sensors" then Some(SensorsDrawer)
    else if name == "Camera" then Some(CameraDrawer)
    else None
  }

  /** `SaveDrawerState`: record a drawer's new state in the settings, if
      they exist, under the flag its name selects; another name records
      nothing. Persisting the settings afterwards is `Settings.Save`. */
  function SaveDrawerState(s: Option<Settings.Settings>, name: string, isOpen: bool): (r: Option<Settings.Settings>)
    ensures r.Some? <==> s.Some?
    ensures forall d: Drawer :: s.Some? && name == DrawerName(d) ==>
              r.value == s.value.(flags := s.value.flags[DrawerFlag(d) := isOpen])
    ensures (forall d: Drawer :: name != DrawerName(d)) ==> r == s
  {
    match s
    case None => None
    case Some(st) =>
      match DrawerOfName(name)
      case None => s
      case Some(d) => Some(st.(flags := st.flags[DrawerFlag(d) := isOpen]))
  }

  /** `ToggleDrawer`: the drawer flips between open and collapsed and its
      new state is saved. A drawer that is not open opens, whatever its
      classes were. */
  function ToggleDrawer(c: Option<Classes>, d: Drawer, s: Option<Settings.Settings>)
    : (r: (Option<Classes>, Option<Settings.Settings>))
    ensures c.None? ==> r == (c, s)
    ensures c.Some? ==> r.0.Some? && OneClass(r.0.value) && r.0.value.open == !c.value.open
    ensures c.Some? && s.Some? ==>
              r.1 == Some(s.value.(flags := s.value.flags[DrawerFlag(d) := !c.value.open]))
  {
    match c
    case None => (c, s)
    case Some(cl) =>
      var newState := !cl.open;
      var toggled := if cl.open then Classes(false, true) else Classes(true, false);
      (Some(toggled), SaveDrawerState(s, DrawerName(d), newState))
  }

  /** The drawer on screen agrees with its saved flag. */
  predicate Agrees(c: Classes, s: Settings.Settings, d: Drawer)
  {
    DrawerFlag(d) in s.flags && OneClass(c) && c.open == s.flags[DrawerFlag(d)]
  }

  /** Applying the saved state at start-up makes the drawer agree with the
      settings, and every toggle keeps them in agreement. */
  lemma DrawerFollowsSettings(c: Classes, s: Settings.Settings, d: Drawer)
    requires Settings.Complete(s)
    ensures Agrees(ApplyDrawerState(Some(c), s.flags[DrawerFlag(d)]).value, s, d)
    ensures Agrees(c, s, d) ==>
              var r := ToggleDrawer(Some(c), d, Some(s));
              Agrees(r.0.value, r.1.value, d)
  {
  }

  /** Toggling twice restores a drawer that had exactly one class, and the
      settings flag ends where it began. */
  lemma ToggleTwice(c: Classes, d: Drawer, s: Settings.Settings)
    requires OneClass(c)
    requires Agrees(c, s, d)
    ensures var r1 := ToggleDrawer(Some(c), d, Some(s));
            var r2 := ToggleDrawer(r1.0, d, r1.1);
            r2.0 == Some(c) && r2.1 == Some(s)
  {
    var r1 := ToggleDrawer(Some(c), d, Some(s));
    var r2 := ToggleDrawer(r1.0, d, r1.1);
    assert r2.1.value.flags == s.flags;
  }

  /** The log panel's collapse class and the arrow on its toggle label. */
  datatype LogPanel = LogPanel(collapsed: bool, toggleText: Option<string>)

  const ArrowDown: string := "\U{25BC} LOGS"
  const ArrowUp: string := "\U{25B2} LOGS"

  /** `ToggleLogPanel`: a missing panel is left alone; otherwise the
      collapsed class flips and the label, if any, points the way the panel
      will open next. */
  function ToggleLogPanel(p: Option<LogPanel>): (r: Option<LogPanel>)
    ensures p.None? ==> r.None?
    ensures p.Some? ==> r.Some? && r.value.collapsed == !p.value.collapsed
    ensures p.Some? ==> (r.value.toggleText.Some? <==> p.value.toggleText.Some?)
    ensures p.Some? && p.value.toggleText.Some? ==>
              r.value.toggleText.value == (if r.value.collapsed then ArrowUp else ArrowDown)
  {
    match p
    case None => None
    case Some(panel) =>
      var text := if panel.toggleText.Some? then Some(if panel.collapsed then ArrowDown else ArrowUp) else None;
      Some(LogPanel(!panel.collapsed, text))
  }

  /** Two clicks bring back the collapse state, and the arrow once it has
      been set by a click. */
  lemma LogPanelToggleTwice(p: LogPanel)
    ensures ToggleLogPanel(ToggleLogPanel(Some(p))).value.collapsed == p.collapsed
    ensures var once := ToggleLogPanel(Some(p));
            ToggleLogPanel(ToggleLogPanel(once)) == once
  {
  }
}

=== FILE: imu.dfy ===
/** IMU publisher: gyroscope and accelerometer readings in the sensor frame,
    an optional start-relative orientation, and the three covariance arrays.
    The FLU conversion of the acceleration and orientation is a library call
    and is not part of this model, so those two fields hold the Unity-frame
    values that are handed to it.
 */
module Imu {
  import opened Geometry

  /** Noise settings and output mode. */
  datatype Config = Config(
    enableNoise: bool,
    accelNoise: real,
    gyroNoise: real,
    publishOrientation: bool,
    simulateAHRS: bool,
    orientationNoiseRoll: real,
    orientationNoisePitch: real,
    orientationNoiseYaw: real)

  /** Inspector defaults. */
  const DefaultConfig: Config := Config(true, 0.1, 0.05, true, true, 0.5, 0.5, 2.0)

  /** What one physics step reads from the world. The random draws (white
      noise, Gauss-Markov bias, AHRS noise rotation) arrive as samples. */
  datatype Inputs = Inputs(
    sensorRotation: Quat,
    worldAngularVelocity: Vec3,
    pointVelocity: Vec3,
    gravity: Vec3,
    gyroWhite: Vec3, gyroBias: Vec3,
    accelWhite: Vec3, accelBias: Vec3,
    ahrsNoise: Quat,
    originRotation: Quat,
    originInitialized: bool)

  /** Orientation field of the message: a quaternion, or all zeros in raw mode. */
  datatype Reading = Reading(
    angularVelocity: Vec3,
    accelUnity: Vec3,
    orientation: Quat,
    lastOrientation: Quat,
    lastAngularVelocity: Vec3)

  const ZeroQuat: Quat := Quat(0.0, 0.0, 0.0, 0.0)

  /** Angular velocity is a pseudovector: Unity (x, y, z) becomes FLU
      (-z, x, -y) under the right-hand rule. */
  function GyroToFlu(v: Vec3): (r: Vec3)
    ensures Dot(r, r) == Dot(v, v)
  {
    Vec3(-v.z, v.x, -v.y)
  }

  /** The inverse remap, FLU back to Unity. */
  function GyroFromFlu(r: Vec3): Vec3 { Vec3(r.y, -r.z, -r.x) }

  lemma GyroRemapRoundTrip(v: Vec3, r: Vec3)
    ensures GyroFromFlu(GyroToFlu(v)) == v
    ensures GyroToFlu(GyroFromFlu(r)) == r
  {
  }

  function AddNoise(enable: bool, v: Vec3, white: Vec3, bias: Vec3): (r: Vec3)
    ensures !enable ==> r == v
  {
    if enable then Add(Add(v, white), bias) else v
  }

  /** `SimulateSensor`: one step, returning the reading and the new
      remembered point velocity. `dt` is Unity's fixed time step. */
  function Simulate(c: Config, inp: Inputs, lastPointVelocity: Vec3, dt: real): (res: (Reading, Vec3))
    requires dt > 0.0
    ensures res.1 == inp.pointVelocity
    ensures res.0.angularVelocity == GyroToFlu(res.0.lastAngularVelocity)
    ensures !c.publishOrientation ==> res.0.orientation == ZeroQuat && res.0.lastOrientation == Identity
    ensures c.publishOrientation ==> res.0.orientation == res.0.lastOrientation
  {
    var sensorAngVel := Rotate(Conj(inp.sensorRotation), inp.worldAngularVelocity);
    var angVel := AddNoise(c.enableNoise, sensorAngVel, inp.gyroWhite, inp.gyroBias);
    var worldAccel := Scale(1.0 / dt, Sub(inp.pointVelocity, lastPointVelocity));
    var properAccel := Sub(worldAccel, inp.gravity);
    var accel := AddNoise(c.enableNoise, Rotate(Conj(inp.sensorRotation), properAccel), inp.accelWhite, inp.accelBias);
    var absolute := if c.simulateAHRS && c.enableNoise then QMul(inp.sensorRotation, inp.ahrsNoise)
                    else inp.sensorRotation;
    var relative := if inp.originInitialized then QMul(Conj(inp.originRotation), absolute) else absolute;
    var reading :=
      if c.publishOrientation then Reading(GyroToFlu(angVel), accel, relative, relative, angVel)
      else Reading(GyroToFlu(angVel), accel, ZeroQuat, Identity, angVel);
    (reading, inp.pointVelocity)
  }

  /** With noise off the published rate is the exact remapped sensor rate. */
  lemma NoiseFreeGyro(c: Config, inp: Inputs, last: Vec3, dt: real)
    requires dt > 0.0
    requires !c.enableNoise
    ensures Simulate(c, inp, last, dt).0.angularVelocity
         == GyroToFlu(Rotate(Conj(inp.sensorRotation), inp.worldAngularVelocity))
  {
  }

  /** Hence, mapped back to Unity and rotated into the world, the noise-free
      rate is the body's angular velocity. */
  lemma NoiseFreeGyroExact(c: Config, inp: Inputs, last: Vec3, dt: real)
    requires dt > 0.0
    requires !c.enableNoise
    requires IsUnit(inp.sensorRotation)
    ensures Rotate(inp.sensorRotation, GyroFromFlu(Simulate(c, inp, last, dt).0.angularVelocity))
         == inp.worldAngularVelocity
  {
    var sensorAngVel := Rotate(Conj(inp.sensorRotation), inp.worldAngularVelocity);
    NoiseFreeGyro(c, inp, last, dt);
    GyroRemapRoundTrip(sensorAngVel, Zero);
    RotateConjInverse(inp.sensorRotation, inp.worldAngularVelocity);
  }

  /** In raw mode the orientation ignores the rotation and the origin entirely. */
  lemma RawModeIgnoresRotation(c: Config, a: Inputs, b: Inputs, last: Vec3, dt: real)
    requires dt > 0.0
    requires !c.publishOrientation
    ensures Simulate(c, a, last, dt).0.orientation == Simulate(c, b, last, dt).0.orientation
  {
  }

  // ---------------------------------------------------------------- covariance

  /** Index i of a row-major 3x3 matrix lies on the diagonal. */
  predicate OnDiagonal3(i: int) { 0 <= i < 9 && i / 3 == i % 3 }

  /** The source's `i % 4 == 0` test picks exactly the diagonal of a 3x3. */
  lemma ModFourIsDiagonal(i: int)
    requires 0 <= i < 9
    ensures i % 4 == 0 <==> OnDiagonal3(i)
  {
    assert i == 0 || i == 1 || i == 2 || i == 3 || i == 4 || i == 5 || i == 6 || i == 7 || i == 8;
  }

  /** The gyroscope and accelerometer covariance loop: `variance` where
      i % 4 == 0, zero elsewhere. */
  method DiagonalCovariance(variance: real) returns (cov: seq<real>)
    ensures |cov| == 9
    ensures forall i :: 0 <= i < 9 ==> cov[i] == (if OnDiagonal3(i) then variance else 0.0)
  {
    cov := [];
    var i := 0;
    while i < 9
      invariant 0 <= i <= 9
      invariant |cov| == i
      invariant forall j :: 0 <= j < i ==> cov[j] == (if OnDiagonal3(j) then variance else 0.0)
    {
      ModFourIsDiagonal(i);
      cov := cov + [if i % 4 == 0 then variance else 0.0];
      i := i + 1;
    }
  }

  function Square(a: real): real { a * a }

  /** Orientation covariance written into the freshly allocated zero array:
      the three angle variances (in rad^2) on the diagonal, or -1 at index 0
      in raw mode to mark the orientation as unknown. */
  function OrientationCovariance(c: Config): (cov: seq<real>)
    ensures |cov| == 9
    ensures c.publishOrientation ==> forall i :: 0 <= i < 9 && !OnDiagonal3(i) ==> cov[i] == 0.0
    ensures c.publishOrientation ==> cov[0] >= 0.0 && cov[4] >= 0.0 && cov[8] >= 0.0
    ensures !c.publishOrientation ==> cov[0] == -1.0 && forall i :: 1 <= i < 9 ==> cov[i] == 0.0
  {
    var zeros := seq(9, _ => 0.0);
    if c.publishOrientation then
      zeros[0 := Square(c.orientationNoiseRoll * Deg2Rad)]
           [4 := Square(c.orientationNoisePitch * Deg2Rad)]
           [8 := Square(c.orientationNoiseYaw * Deg2Rad)]
    else zeros[0 := -1.0]
  }

  /** `SetCovarianceMatrices`, all three arrays. */
  method SetCovarianceMatrices(c: Config) returns (orientation: seq<real>, gyro: seq<real>, accel: seq<real>)
    ensures orientation == OrientationCovariance(c)
    ensures |gyro| == 9 && |accel| == 9
    ensures forall i :: 0 <= i < 9 ==> gyro[i] == (if i % 4 == 0 then c.gyroNoise * c.gyroNoise else 0.0)
    ensures forall i :: 0 <= i < 9 ==> accel[i] == (if i % 4 == 0 then c.accelNoise * c.accelNoise else 0.0)
  {
    orientation := OrientationCovariance(c);
    gyro := DiagonalCovariance(c.gyroNoise * c.gyroNoise);
    accel := DiagonalCovariance(c.accelNoise * c.accelNoise);
    forall i | 0 <= i < 9
      ensures gyro[i] == (if i % 4 == 0 then c.gyroNoise * c.gyroNoise else 0.0)
      ensures accel[i] == (if i % 4 == 0 then c.accelNoise * c.accelNoise else 0.0)
    {
      ModFourIsDiagonal(i);
    }
  }
}

=== FILE: octagon.dfy ===
/** The octagon task: surfacing inside the octagon scores once. The
    octagon is given by pairs of cylinders; the AUV is inside when its
    projection onto the segment of every pair falls strictly between the
    pair.
 */
module Octagon {
  import opened Geometry
  import Text
  import Points

  /** The surface test's depth limit (metres, Unity y). */
  const SurfaceY: real := -0.3

  datatype Task = Task(enabled: bool)

  function Flatten(v: Vec3): Vec3
  {
    v.(y := 0.0)
  }

  /** One pair's test: the projection parameter `d` of the AUV onto the
      segment from `a` to `b`, flattened to the surface, lies strictly in
      (0, 1). Coincident cylinders divide by zero, which makes `d`
      infinite or not a number, and every comparison with it false. */
  predicate PairHolds(p: Vec3, a: Vec3, b: Vec3)
  {
    var ab := Sub(Flatten(b), Flatten(a));
    var ap := Sub(p, Flatten(a));
    var distSqr := Dot(ab, ab);
    distSqr != 0.0 && 0.0 < Dot(ap, ab) / distSqr < 1.0
  }

  /** The pair with index `i` holds: cylinders 2i and 2i + 1. */
  predicate PairAt(p: Vec3, cs: seq<Vec3>, i: int)
    requires 0 <= i < |cs| / 2
  {
    PairHolds(p, cs[2 * i], cs[2 * i + 1])
  }

  /** The same test without the division: the projection lies strictly
      between the two cylinders. */
  lemma PairHoldsBetween(p: Vec3, a: Vec3, b: Vec3)
    ensures var ab := Sub(Flatten(b), Flatten(a));
            var ap := Sub(p, Flatten(a));
            PairHolds(p, a, b) <==> 0.0 < Dot(ap, ab) < Dot(ab, ab)
  {
    var ab := Sub(Flatten(b), Flatten(a));
    var ap := Sub(p, Flatten(a));
    var n := Dot(ab, ab);
    var t := Dot(ap, ab);
    if n != 0.0 {
      assert n > 0.0 by {
        assert ab.x * ab.x >= 0.0 && ab.y * ab.y >= 0.0 && ab.z * ab.z >= 0.0;
      }
      DivBetween(t, n);
    }
  }

  lemma DivBetween(t: real, n: real)
    requires n > 0.0
    ensures 0.0 < t / n < 1.0 <==> 0.0 < t < n
  {
    var q := t / n;
    assert t == q * n;
    var u := 1.0 - q;
    assert n - t == u * n;
    if q > 0.0 { Positive(q, n); } else { NonPositive(q, n); }
    if u > 0.0 { Positive(u, n); } else { NonPositive(u, n); }
  }

  lemma Positive(a: real, b: real)
    requires a > 0.0 && b > 0.0
    ensures a * b > 0.0
  {
  }

  lemma NonPositive(a: real, b: real)
    requires a <= 0.0 && b > 0.0
    ensures a * b <= 0.0
  {
  }

  /** `IsObjectInsidePolygon`: every complete pair holds; a trailing odd
      cylinder is ignored. */
  method IsObjectInsidePolygon(p: Vec3, cs: seq<Vec3>) returns (isInside: bool)
    ensures isInside <==> forall i :: 0 <= i < |cs| / 2 ==> PairAt(p, cs, i)
  {
    isInside := true;
    var i := 0;
    while i < |cs| / 2
      invariant 0 <= i <= |cs| / 2
      invariant isInside <==> forall k :: 0 <= k < i ==> PairAt(p, cs, k)
    {
      var a := Flatten(cs[i * 2]);
      var b := Flatten(cs[i * 2 + 1]);
      var ab := Sub(b, a);
      var ap := Sub(p, a);
      var distSqr := Dot(ab, ab);
      var holds := distSqr != 0.0 && 0.0 < Dot(ap, ab) / distSqr < 1.0;
      assert holds == PairAt(p, cs, i);
      isInside := isInside && holds;
      i := i + 1;
    }
  }

  /** With fewer than two cylinders there is no pair, so any position on
      the surface counts as inside. */
  method NoPairsInside(p: Vec3, cs: seq<Vec3>) returns (isInside: bool)
    requires |cs| < 2
    ensures isInside
  {
    isInside := IsObjectInsidePolygon(p, cs);
  }

  datatype Outcome = Outcome(task: Task, points: Points.Manager, log: seq<string>)

  /** `Update`: below the surface limit nothing happens; near the surface
      the flattened position is checked and inside scores once and stops. */
  method Update(t: Task, pm: Points.Manager, auv: Vec3, cs: seq<Vec3>, points: int, hud: bool)
    returns (r: Outcome)
    ensures !t.enabled || auv.y <= SurfaceY ==> r == Outcome(t, pm, [])
    ensures t.enabled && auv.y > SurfaceY ==>
              ((forall i :: 0 <= i < |cs| / 2 ==> PairAt(Flatten(auv), cs, i))
               <==> r.points.currentScore == pm.currentScore + points && !r.task.enabled)
    ensures r.points.currentScore == pm.currentScore || r.points.currentScore == pm.currentScore + points
    ensures r.task.enabled ==> r.points == pm
  {
    if !t.enabled || auv.y <= SurfaceY {
      return Outcome(t, pm, []);
    }
    var inside := IsObjectInsidePolygon(Flatten(auv), cs);
    if inside {
      var a := Points.AddPoint(pm, points, "Octagon", hud);
      r := Outcome(Task(false), a.0, a.1 + ["Octagon Surface +" + Text.IntToString(points) + "pts"]);
    } else {
      r := Outcome(t, pm, []);
    }
  }
}

=== FILE: orbit_camera.dfy ===
/** The orbit-follow user camera: yaw and pitch driven by the mouse, a
    scroll-wheel zoom distance, a pitch clamp, a collision-shortened
    distance and a smoothed approach to it. Rotations and the raycast are
    engine calls; their results are parameters.
 */
module OrbitCamera {
  import opened Wrappers
  import opened Geometry

  /** Inspector settings. */
  datatype Settings = Settings(
    minDistance: real,
    maxDistance: real,
    zoomSpeed: real,
    xSpeed: real,
    ySpeed: real,
    yMinLimit: real,
    yMaxLimit: real,
    initialYaw: real,
    initialPitch: real,
    resetOnEnable: bool,
    movementSmoothing: real,
    collisionBuffer: real)

  const Defaults: Settings := Settings(2.0, 30.0, 5.0, 200.0, 120.0, -20.0, 80.0, 0.0, 20.0, false, 10.0, 0.2)
  const DefaultDistance: real := 3.0

  /** The camera's state: yaw `x`, pitch `y`, the zoom distance and the
      smoothed distance. */
  datatype Orbit = Orbit(x: real, y: real, distance: real, currentDistance: real, initialized: bool)

  /** `ClampAngle`: one turn added or removed outside [-360, 360], then
      clamped. */
  function ClampAngle(angle: real, min: real, max: real): (r: real)
    ensures min <= max ==> min <= r <= max
    ensures min <= angle <= max && -360.0 <= angle <= 360.0 ==> r == angle
  {
    var a := if angle < -360.0 then angle + 360.0 else angle;
    var b := if a > 360.0 then a - 360.0 else a;
    Clamp(b, min, max)
  }

  /** The euler-angle normalisation of `OnEnable`: [0, 360) into
      (-180, 180]. */
  function Signed(angle: real): (r: real)
    ensures 0.0 <= angle < 360.0 ==> -180.0 < r <= 180.0
    ensures r == angle || r == angle - 360.0
  {
    if angle > 180.0 then angle - 360.0 else angle
  }

  /** `OnEnable`. `target` is false when there is neither an override nor
      the AUV; `relative` are the euler angles of the camera relative to
      the target, `targetDistance` the current distance to it. */
  function Enable(o: Orbit, s: Settings, target: bool, relative: Vec3, targetDistance: real): (r: Orbit)
    ensures !target ==> r == o
    ensures target && (!o.initialized || s.resetOnEnable) ==> r.x == s.initialYaw && r.y == s.initialPitch
    ensures target && o.initialized && !s.resetOnEnable ==> r.x == Signed(relative.y) && r.y == Signed(relative.x)
    ensures target ==> r.initialized && r.currentDistance == targetDistance && r.distance == o.distance
  {
    if !target then o
    else if !o.initialized || s.resetOnEnable then
      o.(x := s.initialYaw, y := s.initialPitch, initialized := true, currentDistance := targetDistance)
    else o.(x := Signed(relative.y), y := Signed(relative.x), currentDistance := targetDistance)
  }

  /** One frame's mouse input. */
  datatype Input = Input(overUI: bool, rightButton: bool, mouseX: real, mouseY: real, scroll: real)

  /** The zoom: the distance moves against the scroll, within the limits. */
  function Zoom(distance: real, s: Settings, scroll: real): (r: real)
    ensures scroll == 0.0 ==> r == distance
    ensures scroll != 0.0 && s.minDistance <= s.maxDistance ==> s.minDistance <= r <= s.maxDistance
  {
    if scroll != 0.0 then Clamp(distance - scroll * s.zoomSpeed, s.minDistance, s.maxDistance) else distance
  }

  /** The collision distance: the hit distance less the buffer, between
      the minimum and the zoom distance; the zoom distance without a hit. */
  function CollisionDistance(s: Settings, distance: real, hit: Option<real>): (r: real)
    ensures hit.None? ==> r == distance
    ensures hit.Some? && s.minDistance <= distance ==> s.minDistance <= r <= distance
    ensures hit.Some? && s.minDistance <= hit.value - s.collisionBuffer <= distance ==> r == hit.value - s.collisionBuffer
  {
    match hit
    case None => distance
    case Some(h) => Clamp(h - s.collisionBuffer, s.minDistance, distance)
  }

  /** `LateUpdate`: nothing without a target; input only away from the UI;
      then the pitch clamp, the collision distance and one smoothing step. */
  function LateUpdate(o: Orbit, s: Settings, target: bool, i: Input, hit: Option<real>, dt: real): (r: Orbit)
    ensures !target ==> r == o
    ensures target && s.yMinLimit <= s.yMaxLimit ==> s.yMinLimit <= r.y <= s.yMaxLimit
    ensures target && i.overUI ==> r.distance == o.distance
    ensures target ==> Min(o.currentDistance, CollisionDistance(s, r.distance, hit)) <= r.currentDistance
                       <= Max(o.currentDistance, CollisionDistance(s, r.distance, hit))
  {
    if !target then o
    else
      var turning := !i.overUI && i.rightButton;
      var x := if turning then o.x + i.mouseX * s.xSpeed * 0.02 else o.x;
      var y0 := if turning then o.y - i.mouseY * s.ySpeed * 0.02 else o.y;
      var distance := if i.overUI then o.distance else Zoom(o.distance, s, i.scroll);
      var y := ClampAngle(y0, s.yMinLimit, s.yMaxLimit);
      var targetDist := CollisionDistance(s, distance, hit);
      o.(x := x, y := y, distance := distance, currentDistance := Lerp(o.currentDistance, targetDist, dt * s.movementSmoothing))
  }

  /** The zoom distance stays within the limits once it is within them,
      and the smoothed distance stays between the minimum and the largest
      distance seen, whatever the input and hits. */
  predicate InLimits(o: Orbit, s: Settings)
  {
    s.minDistance <= o.distance <= s.maxDistance && s.minDistance <= o.currentDistance <= s.maxDistance
  }

  lemma LateUpdateKeepsLimits(o: Orbit, s: Settings, target: bool, i: Input, hit: Option<real>, dt: real)
    requires InLimits(o, s)
    ensures InLimits(LateUpdate(o, s, target, i, hit, dt), s)
  {
    if target {
      var r := LateUpdate(o, s, target, i, hit, dt);
      var t := CollisionDistance(s, r.distance, hit);
      assert s.minDistance <= t <= s.maxDistance;
    }
  }
}

=== FILE: pinger.dfy ===
/** Hydrophone arrival times: for one pinger, the time each hydrophone hears
    the ping, offset so that the earliest hears it at the current time,
    scaled to ticks of 100 ns and wrapped into the unsigned 32-bit range.
 */
module Pinger {
  import opened Wrappers
  import opened Geometry

  const SpeedOfSound: real := 1480.0
  const TicksPerSecond: real := 10_000_000.0
  /** `uint.MaxValue`; the wrap is modulo this value, not 2^32. */
  const UintMax: int := 0xFFFF_FFFF
  const UintMaxReal: real := 4294967295.0
  /** `double.MaxValue`, exactly 2^1024 - 2^971: the minimum search's starting point. */
  const DoubleMax: real := 179769313486231570814527423731704356798070567525844996598917476803157260780028538760589558632766878171540458953514382464234321326889464182768467546703537516986049910576551282076245490090389328944075868508455133942304583236903222948165808559332123348274797826204144723168738177180919299881250404026184124858368.0
  /** Length of the per-hydrophone time arrays. */
  const SlotCount: nat := 4

  /** The scene: registered hydrophone and pinger positions and the pinger
      frequencies, in registration order. */
  datatype Rig = Rig(hydrophones: seq<Vec3>, pingers: seq<Vec3>, frequencies: seq<int>)

  /** One answer: the shared array of scaled times and the pinger's frequency. */
  datatype Output = Output(scaledTimes: seq<int>, frequency: int)

  /** C#'s `%` on doubles: the remainder takes the dividend's sign. */
  function FMod(x: real, m: real): real
    requires m > 0.0
  {
    x - (Trunc(x / m) as real) * m
  }

  lemma FModRange(x: real)
    requires x >= 0.0
    ensures 0.0 <= FMod(x, UintMaxReal) < UintMaxReal
  {
    var k := Trunc(x / UintMaxReal);
    assert k as real <= x / UintMaxReal < k as real + 1.0;
  }

  /** One arrival time in seconds to wrapped 100 ns ticks. */
  function ScaleTime(h: real): (r: int)
    ensures h >= 0.0 ==> 0 <= r < UintMax
  {
    var wrapped := FMod(h * TicksPerSecond, UintMaxReal);
    if h >= 0.0 then FModRange(h * TicksPerSecond); Trunc(wrapped) else Trunc(wrapped)
  }

  /** The search for the smallest travel time, started from `init`. */
  function MinFrom(init: real, s: seq<real>): (m: real)
    ensures m <= init
    ensures forall i :: 0 <= i < |s| ==> m <= s[i]
    ensures m == init || exists i :: 0 <= i < |s| && m == s[i]
    decreases |s|
  {
    if |s| == 0 then init
    else
      var rest := MinFrom(if s[0] < init then s[0] else init, s[1..]);
      assert forall i :: 1 <= i < |s| ==> s[i] == s[1..][i - 1];
      rest
  }

  /** Travel time from each of the given hydrophones to the pinger; the
      distance (a square root) is supplied by `dist`. */
  function TravelTimes(hydrophones: seq<Vec3>, pinger: Vec3, dist: (Vec3, Vec3) -> real): (t: seq<real>)
    ensures |t| == |hydrophones|
  {
    seq(|hydrophones|, i requires 0 <= i < |hydrophones| => dist(hydrophones[i], pinger) / SpeedOfSound)
  }

  /** Number of entries the fill loop writes: option + 3, capped by the array length. */
  function Filled(option: int, length: nat): (n: nat)
    ensures n <= length
    ensures 0 <= option + 3 <= length ==> n == option + 3
  {
    if option + 3 <= 0 then 0 else if option + 3 <= length then option + 3 else length
  }

  /** What the population loop leaves: entries below the count hold the
      scaled offset time, the others what the reused array held. */
  predicate FillsTimes(scaled: seq<int>, prev: seq<int>, times: seq<real>, minTime: real, currentTime: real, option: int)
  {
    |scaled| == |times| == |prev|
    && (forall i :: 0 <= i < Filled(option, |times|) ==>
          scaled[i] == ScaleTime(currentTime + (times[i] - minTime)) && 0 <= scaled[i] < UintMax)
    && (forall i :: Filled(option, |times|) <= i < |times| ==> scaled[i] == prev[i])
  }

  /** The population loop: entries below the count become the scaled offset
      time, the others keep what the reused array held. */
  method Fill(prev: seq<int>, times: seq<real>, minTime: real, currentTime: real, option: int)
    returns (scaled: seq<int>)
    requires |prev| == |times|
    requires currentTime >= 0.0
    requires forall i :: 0 <= i < |times| ==> minTime <= times[i]
    ensures FillsTimes(scaled, prev, times, minTime, currentTime, option)
  {
    scaled := prev;
    var count := option + 3;
    var i := 0;
    while i < count && i < |times|
      invariant 0 <= i <= |times|
      invariant i <= Filled(option, |times|)
      invariant i < Filled(option, |times|) <==> (i < count && i < |times|)
      invariant |scaled| == |times|
      invariant forall j :: 0 <= j < i ==>
                  scaled[j] == ScaleTime(currentTime + (times[j] - minTime)) && 0 <= scaled[j] < UintMax
      invariant forall j :: i <= j < |times| ==> scaled[j] == prev[j]
    {
      scaled := scaled[i := ScaleTime(currentTime + (times[i] - minTime))];
      i := i + 1;
    }
  }

  /** The reused array after its length check: replaced by zeros when its
      length differs from the time array's. */
  function Resized(prev: seq<int>, n: nat): (r: seq<int>)
    ensures |r| == n
    ensures |prev| == n ==> r == prev
    ensures |prev| != n ==> forall i :: 0 <= i < n ==> r[i] == 0
  {
    if |prev| == n then prev else seq(n, _ => 0)
  }

  /** The first list or array access of the as-written call that throws:
      the loop runs over four slots, reading the hydrophone first and the
      pinger second, and the frequency is read after the loop. */
  function FirstFailingAccess(rig: Rig, pingerIndex: int): (e: Option<Error>)
    ensures e.None? <==> |rig.hydrophones| >= SlotCount && 0 <= pingerIndex < |rig.pingers|
                         && pingerIndex < |rig.frequencies|
  {
    if |rig.hydrophones| == 0 then Some(IndexOutOfRange(0, 0))
    else if !(0 <= pingerIndex < |rig.pingers|) then Some(IndexOutOfRange(pingerIndex, |rig.pingers|))
    else if |rig.hydrophones| < SlotCount then Some(IndexOutOfRange(|rig.hydrophones|, |rig.hydrophones|))
    else if !(pingerIndex < |rig.frequencies|) then Some(IndexOutOfRange(pingerIndex, |rig.frequencies|))
    else None
  }

  /** `CalculateTimeDifference` as written: four slots whatever the number
      of registered hydrophones. */
  method CalculateAsWritten(rig: Rig, pingerIndex: int, dist: (Vec3, Vec3) -> real,
                            currentTime: real, option: int, prev: seq<int>)
    returns (r: Result<Output>)
    requires currentTime >= 0.0
    ensures r.Err? <==> FirstFailingAccess(rig, pingerIndex).Some?
    ensures r.Err? ==> r.error == FirstFailingAccess(rig, pingerIndex).value
    ensures r.Ok? ==> |r.value.scaledTimes| == SlotCount && r.value.frequency == rig.frequencies[pingerIndex]
  {
    var failure := FirstFailingAccess(rig, pingerIndex);
    if failure.Some? {
      return Err(failure.value);
    }
    var times := TravelTimes(rig.hydrophones[..SlotCount], rig.pingers[pingerIndex], dist);
    var minTime := MinFrom(DoubleMax, times);
    var scaled := Fill(Resized(prev, SlotCount), times, minTime, currentTime, option);
    return Ok(Output(scaled, rig.frequencies[pingerIndex]));
  }

  /** With the three hydrophones the scene registers, every call with a
      valid pinger throws at slot 3 of a three-element list. */
  lemma ThreeHydrophonesAlwaysFail(rig: Rig, pingerIndex: int)
    requires |rig.hydrophones| == 3 && 0 <= pingerIndex < |rig.pingers|
    ensures FirstFailingAccess(rig, pingerIndex) == Some(IndexOutOfRange(3, 3))
  {
  }

  /** The corrected computation: one slot per registered hydrophone. The
      earliest hydrophone hears the ping at the current time, every other
      one later by its extra travel time. */
  method CalculateTimeDifference(rig: Rig, pingerIndex: int, dist: (Vec3, Vec3) -> real,
                                 currentTime: real, option: int, prev: seq<int>)
    returns (r: Result<Output>)
    requires currentTime >= 0.0
    ensures r.Ok? <==> 0 <= pingerIndex < |rig.pingers| && pingerIndex < |rig.frequencies|
    ensures r.Ok? ==> r.value.frequency == rig.frequencies[pingerIndex]
    ensures r.Ok? ==> |r.value.scaledTimes| == |rig.hydrophones|
    ensures r.Ok? ==>
              var times := TravelTimes(rig.hydrophones, rig.pingers[pingerIndex], dist);
              FillsTimes(r.value.scaledTimes, Resized(prev, |rig.hydrophones|), times,
                         MinFrom(DoubleMax, times), currentTime, option)
  {
    if !(0 <= pingerIndex < |rig.pingers|) {
      return Err(IndexOutOfRange(pingerIndex, |rig.pingers|));
    }
    if !(pingerIndex < |rig.frequencies|) {
      return Err(IndexOutOfRange(pingerIndex, |rig.frequencies|));
    }
    var times := TravelTimes(rig.hydrophones, rig.pingers[pingerIndex], dist);
    var minTime := MinFrom(DoubleMax, times);
    var scaled := Fill(Resized(prev, |times|), times, minTime, currentTime, option);
    return Ok(Output(scaled, rig.frequencies[pingerIndex]));
  }

  /** The unscaled arrival times: current time plus the extra travel time. */
  function ArrivalTimes(times: seq<real>, currentTime: real): (h: seq<real>)
    ensures |h| == |times|
  {
    var m := MinFrom(DoubleMax, times);
    seq(|times|, i requires 0 <= i < |times| => currentTime + (times[i] - m))
  }

  /** The offsets keep the differences between hydrophones exactly, every
      hydrophone hears the ping no earlier than the current time, and when
      all travel times are finite one of them hears it exactly then. */
  lemma ArrivalTimesProperties(times: seq<real>, currentTime: real)
    ensures forall i, j :: 0 <= i < |times| && 0 <= j < |times| ==>
              ArrivalTimes(times, currentTime)[i] - ArrivalTimes(times, currentTime)[j] == times[i] - times[j]
    ensures forall i :: 0 <= i < |times| ==> ArrivalTimes(times, currentTime)[i] >= currentTime
    ensures 0 < |times| && (forall i :: 0 <= i < |times| ==> times[i] < DoubleMax)
            ==> exists i :: 0 <= i < |times| && ArrivalTimes(times, currentTime)[i] == currentTime
  {
    if 0 < |times| && (forall i :: 0 <= i < |times| ==> times[i] < DoubleMax) {
      var m := MinFrom(DoubleMax, times);
      assert m <= times[0] < DoubleMax;
      var k :| 0 <= k < |times| && m == times[k];
      assert ArrivalTimes(times, currentTime)[k] == currentTime;
    }
  }
}

=== FILE: points.dfy ===
/** The points manager: the competition score and the team colour that
    the gate and buoy tasks decide.
 */
module Points {
  import Text

  /** `color` is "none" until a task sets it to "red" or "blue". */
  datatype Manager = Manager(color: string, currentScore: int)

  const Initial: Manager := Manager("none", 0)

  /** `AddPoint`: the score grows by exactly `points`, whatever the task;
      with a HUD, the new score is shown and a line is logged. */
  function AddPoint(m: Manager, points: int, taskName: string, hud: bool): (r: (Manager, seq<string>))
    ensures r.0.currentScore == m.currentScore + points
    ensures r.0.color == m.color
    ensures hud ==> r.1 == ["Task Complete: " + taskName + " (+" + Text.IntToString(points) + " pts)"]
    ensures !hud ==> r.1 == []
  {
    var score := m.currentScore + points;
    (m.(currentScore := score),
     if hud then ["Task Complete: " + taskName + " (+" + Text.IntToString(points) + " pts)"] else [])
  }

  /** `ResetPoints`. */
  function ResetPoints(m: Manager): (r: Manager)
    ensures r.currentScore == 0 && r.color == m.color
  {
    m.(currentScore := 0)
  }

  function Sum(ps: seq<int>): int
    decreases |ps|
  {
    if |ps| == 0 then 0 else Sum(ps[..|ps| - 1]) + ps[|ps| - 1]
  }

  function AddAll(m: Manager, ps: seq<int>): Manager
    decreases |ps|
  {
    if |ps| == 0 then m else AddPoint(AddAll(m, ps[..|ps| - 1]), ps[|ps| - 1], "", false).0
  }

  /** The score is the running total of every award since the last reset,
      and awards never touch the colour. */
  lemma {:induction false} ScoreIsTotal(m: Manager, ps: seq<int>)
    ensures AddAll(ResetPoints(m), ps).currentScore == Sum(ps)
    ensures AddAll(m, ps).color == m.color
    decreases |ps|
  {
    if |ps| > 0 {
      ScoreIsTotal(m, ps[..|ps| - 1]);
    }
  }
}

=== FILE: pool_floor.dfy ===
/** The pool-floor placement randomizer: each iteration places one object
    per Poisson-disk sample, up to an optional maximum, choosing the prefab
    by weight and lifting it to that prefab's spawn height.
 */
module PoolFloor {
  import opened Geometry

  /** One prefab configuration. `present` is false for a missing entry or
      a missing prefab; the source treats both alike. */
  datatype Config = Config(present: bool, spawnHeight: real, weight: real)

  /** Inspector defaults. */
  const DefaultSpawnHeight: real := -2.1
  const DefaultWeight: real := 1.0
  const DefaultAreaX: real := 20.0
  const DefaultAreaZ: real := 40.0
  const DefaultSeparation: real := 2.5

  datatype Randomizer = Randomizer(
    areaX: real,
    areaZ: real,
    maxObjectCount: int,
    configs: seq<Config>,
    totalWeight: real,
    ready: bool)

  /** The sum of the present configurations' weights among the first `n`. */
  function Cumulative(cs: seq<Config>, n: nat): real
    requires n <= |cs|
  {
    if n == 0 then 0.0 else Cumulative(cs, n - 1) + (if cs[n - 1].present then cs[n - 1].weight else 0.0)
  }

  predicate AnyPresent(cs: seq<Config>)
  {
    exists i :: 0 <= i < |cs| && cs[i].present
  }

  /** `FirstOrDefault` over present configurations: its index, or -1. */
  function FirstPresent(cs: seq<Config>): (r: int)
    ensures -1 <= r < |cs|
    ensures r == -1 <==> !AnyPresent(cs)
    ensures r >= 0 ==> cs[r].present && forall j :: 0 <= j < r ==> !cs[j].present
    decreases |cs|
  {
    if |cs| == 0 then -1
    else if cs[0].present then 0
    else
      var t := FirstPresent(cs[1..]);
      assert forall j :: 1 <= j < |cs| ==> cs[j] == cs[1..][j - 1];
      if t == -1 then -1 else t + 1
  }

  /** `OnAwake`: with no configuration, or none with a prefab, the cache is
      not built and iterations do nothing; otherwise the total weight is
      the present configurations' sum. */
  function Awake(areaX: real, areaZ: real, maxObjectCount: int, cs: seq<Config>): (r: Randomizer)
    ensures r.ready <==> AnyPresent(cs)
    ensures r.ready ==> r.totalWeight == Cumulative(cs, |cs|)
    ensures r.configs == cs
  {
    Randomizer(areaX, areaZ, maxObjectCount, cs,
               if AnyPresent(cs) then Cumulative(cs, |cs|) else 0.0, AnyPresent(cs))
  }

  /** `SampleWeightedPrefab` for the drawn value `draw`: the first present
      configuration whose running weight reaches it; the first present one
      when the total is not positive or no running weight reaches it; -1
      when none is present. */
  method SampleWeighted(cs: seq<Config>, totalWeight: real, draw: real) returns (r: int)
    ensures -1 <= r < |cs|
    ensures r == -1 <==> !AnyPresent(cs)
    ensures r >= 0 ==> cs[r].present
    ensures totalWeight <= 0.0 ==> r == FirstPresent(cs)
    ensures totalWeight > 0.0 && r >= 0 ==>
              (draw <= Cumulative(cs, r + 1) && forall j :: 0 <= j < r && cs[j].present ==> draw > Cumulative(cs, j + 1))
              || (r == FirstPresent(cs) && draw > Cumulative(cs, |cs|))
    ensures totalWeight > 0.0 && draw <= Cumulative(cs, |cs|) && r >= 0 ==> draw <= Cumulative(cs, r + 1)
  {
    if totalWeight <= 0.0 {
      return FirstPresent(cs);
    }
    var cumulative := 0.0;
    var i := 0;
    while i < |cs|
      invariant 0 <= i <= |cs|
      invariant cumulative == Cumulative(cs, i)
      invariant forall j :: 0 <= j < i && cs[j].present ==> draw > Cumulative(cs, j + 1)
      invariant (exists j :: 0 <= j < i && cs[j].present) ==> draw > cumulative
    {
      if cs[i].present {
        cumulative := cumulative + cs[i].weight;
        if draw <= cumulative {
          return i;
        }
      }
      i := i + 1;
    }
    return FirstPresent(cs);
  }

  /** One placed object: the configuration used and its position. */
  datatype Placement = Placement(config: nat, position: Vec3)

  /** A Poisson-disk sample in the area's own coordinates. */
  datatype Sample = Sample(x: real, y: real)

  /** `OnIterationStart`: `choices[i]` is the configuration sampled for
      sample i (-1 for none). The area is centred on the origin, the
      height is the configuration's, and placing stops at a positive
      maximum. */
  function Place(rz: Randomizer, samples: seq<Sample>, choices: seq<int>, placed: nat): (r: seq<Placement>)
    requires |choices| == |samples|
    requires forall i :: 0 <= i < |choices| ==> -1 <= choices[i] < |rz.configs|
    ensures rz.maxObjectCount > 0 && placed <= rz.maxObjectCount ==> placed + |r| <= rz.maxObjectCount
    ensures |r| <= |samples|
    ensures forall k :: 0 <= k < |r| ==>
              (r[k].config < |rz.configs| && r[k].position.y == rz.configs[r[k].config].spawnHeight)
    decreases |samples|
  {
    if |samples| == 0 then []
    else if rz.maxObjectCount > 0 && placed >= rz.maxObjectCount then []
    else if choices[0] < 0 then Place(rz, samples[1..], choices[1..], placed)
    else
      var s := samples[0];
      var p := Placement(choices[0], Vec3(s.x - rz.areaX * 0.5, rz.configs[choices[0]].spawnHeight, s.y - rz.areaZ * 0.5));
      [p] + Place(rz, samples[1..], choices[1..], placed + 1)
  }

  function Iterate(rz: Randomizer, samples: seq<Sample>, choices: seq<int>): (r: seq<Placement>)
    requires |choices| == |samples|
    requires forall i :: 0 <= i < |choices| ==> -1 <= choices[i] < |rz.configs|
    ensures !rz.ready || |rz.configs| == 0 ==> r == []
    ensures rz.maxObjectCount > 0 ==> |r| <= rz.maxObjectCount
  {
    if !rz.ready || |rz.configs| == 0 then [] else Place(rz, samples, choices, 0)
  }

  /** Without a maximum and with a configuration for every sample, every
      sample gets an object, each inside the centred area when the sample
      is inside the area. */
  lemma {:induction false} EverySamplePlaced(rz: Randomizer, samples: seq<Sample>, choices: seq<int>, placed: nat)
    requires |choices| == |samples|
    requires forall i :: 0 <= i < |choices| ==> 0 <= choices[i] < |rz.configs|
    requires rz.maxObjectCount <= 0
    requires forall i :: 0 <= i < |samples| ==> 0.0 <= samples[i].x <= rz.areaX && 0.0 <= samples[i].y <= rz.areaZ
    ensures var r := Place(rz, samples, choices, placed);
            |r| == |samples|
            && forall k :: 0 <= k < |r| ==>
                 (-rz.areaX * 0.5 <= r[k].position.x <= rz.areaX * 0.5 && -rz.areaZ * 0.5 <= r[k].position.z <= rz.areaZ * 0.5)
    decreases |samples|
  {
    if |samples| > 0 {
      var tail := samples[1..];
      assert forall i :: 0 <= i < |tail| ==> tail[i] == samples[i + 1];
      assert forall i :: 0 <= i < |choices[1..]| ==> choices[1..][i] == choices[i + 1];
      EverySamplePlaced(rz, tail, choices[1..], placed + 1);
      var r := Place(rz, samples, choices, placed);
      assert forall k :: 1 <= k < |r| ==> r[k] == Place(rz, tail, choices[1..], placed + 1)[k - 1];
    }
  }
}

=== FILE: pressure.dfy ===
/** Pressure sensor: hydrostatic pressure at the sensor's clamped depth,
    P = P_atm + rho * g * depth, with white noise and a bias added.
 */
module Pressure {
  import opened Wrappers
  import opened Geometry
  import RosPublisher
  import Depth

  datatype Config = Config(
    atmosphericPressure: real,
    waterDensity: real,
    gravity: real,
    noiseStdDev: real,
    bias: real)

  /** Inspector defaults (Pa, kg/m^3, m/s^2, Pa, Pa). */
  const DefaultConfig: Config := Config(101325.0, 1000.0, 9.81, 100.0, 0.0)

  /** The inspector ranges: fresh to sea water density, a non-negative deviation. */
  predicate WellFormed(c: Config)
  {
    990.0 <= c.waterDensity <= 1050.0 && c.gravity >= 0.0 && c.noiseStdDev >= 0.0
  }

  /** Multiplying by a non-negative factor keeps order. */
  lemma ScaleMonotone(k: real, a: real, b: real)
    requires k >= 0.0 && a <= b
    ensures k * a <= k * b
  {
  }

  /** The noise-free pressure at a depth. */
  function Hydrostatic(c: Config, depth: real): real
  {
    c.atmosphericPressure + c.waterDensity * c.gravity * depth
  }

  /** One step's output: the clean depth and the noisy pressure. */
  datatype Reading = Reading(depth: real, pressure: real)

  /** `CalculateDepthAndPressure`. `gaussian` is one standard normal draw,
      used only when the deviation is positive. */
  function Measure(c: Config, y: real, gaussian: real): (r: Reading)
    ensures r.depth == Depth.ClampedDepth(y)
    ensures c.noiseStdDev <= 0.0 ==> r.pressure == Hydrostatic(c, r.depth) + c.bias
    ensures c.noiseStdDev > 0.0 ==> r.pressure == Hydrostatic(c, r.depth) + gaussian * c.noiseStdDev + c.bias
  {
    var depth := Depth.ClampedDepth(y);
    var pressure := Hydrostatic(c, depth);
    var noisy := if c.noiseStdDev > 0.0 then pressure + gaussian * c.noiseStdDev else pressure;
    Reading(depth, noisy + c.bias)
  }

  /** Without noise, the pressure never decreases going down. */
  lemma PressureMonotone(c: Config, y1: real, y2: real, gaussian: real)
    requires WellFormed(c) && c.noiseStdDev == 0.0
    requires y1 <= y2
    ensures Measure(c, y1, gaussian).pressure >= Measure(c, y2, gaussian).pressure
  {
    var k := c.waterDensity * c.gravity;
    var d1 := Depth.ClampedDepth(y1);
    var d2 := Depth.ClampedDepth(y2);
    Depth.ClampedDepthMonotone(y1, y2);
    ScaleMonotone(k, d2, d1);
    assert c.waterDensity * c.gravity * d1 == k * d1;
    assert c.waterDensity * c.gravity * d2 == k * d2;
  }

  /** The draw moves the reading by exactly the draw times the deviation,
      away from the reading a zero draw gives. */
  lemma NoiseShift(c: Config, y: real, gaussian: real)
    requires c.noiseStdDev > 0.0
    ensures Measure(c, y, gaussian).pressure - Measure(c, y, 0.0).pressure == gaussian * c.noiseStdDev
    ensures Measure(c, y, gaussian).depth == Measure(c, y, 0.0).depth
  {
  }

  /** At or above the surface the pressure is atmospheric plus the bias. */
  lemma SurfacePressure(c: Config, y: real, gaussian: real)
    requires c.noiseStdDev <= 0.0 && y >= 0.0
    ensures Measure(c, y, gaussian).pressure == c.atmosphericPressure + c.bias
  {
    var d := Depth.ClampedDepth(y);
    assert d == 0.0;
    assert c.waterDensity * c.gravity * d == 0.0;
  }

  /** The depth can be read back from a noise-free, unbiased pressure:
      (P - P_atm) / (rho * g) is the clamped depth. */
  lemma DepthFromPressure(c: Config, y: real, gaussian: real)
    requires c.noiseStdDev <= 0.0 && c.bias == 0.0
    requires c.waterDensity * c.gravity > 0.0
    ensures (Measure(c, y, gaussian).pressure - c.atmosphericPressure) / (c.waterDensity * c.gravity)
         == Depth.ClampedDepth(y)
  {
    var k := c.waterDensity * c.gravity;
    var d := Depth.ClampedDepth(y);
    assert Measure(c, y, gaussian).pressure - c.atmosphericPressure == k * d;
  }

  /** The variance reported in every message: the square of the deviation,
      never negative, and zero for a noise-free sensor. */
  function Variance(c: Config): (v: real)
    ensures v >= 0.0
    ensures c.noiseStdDev == 0.0 ==> v == 0.0
  {
    c.noiseStdDev * c.noiseStdDev
  }

  /** The `FluidPressure` message fields. */
  datatype Msg = Msg(fluidPressure: real, variance: real)

  datatype State = State(publisher: RosPublisher.Publisher, lastDepth: real, lastPressure: real)

  /** `FixedUpdate` and `PublishMessage`: computed every step; the base
      limiter runs only while pressure and ROS publishing are on; a publish
      sends the pressure just computed and the variance. */
  function FixedUpdate(c: Config, s: State, y: real, gaussian: real,
                       publishPressure: bool, publishRos: bool, dt: real): (res: (State, Option<Msg>))
    ensures res.0.lastDepth == Depth.ClampedDepth(y)
    ensures res.0.lastPressure == Measure(c, y, gaussian).pressure
    ensures res.1.Some? ==> res.1.value == Msg(res.0.lastPressure, Variance(c))
    ensures res.1.Some? <==> (publishPressure && publishRos
                              && RosPublisher.Tick(s.publisher, dt, publishRos).1)
    ensures !(publishPressure && publishRos) ==> res.0.publisher == s.publisher
  {
    var r := Measure(c, y, gaussian);
    var (p, fired) := RosPublisher.GatedTick(s.publisher, publishPressure && publishRos, dt, publishRos);
    (State(p, r.depth, r.pressure), if fired then Some(Msg(r.pressure, Variance(c))) else None)
  }
}

=== FILE: ros_clock.dfy ===
/** The simulation clock: a running total of seconds that advances by one
    fixed time step per publish, split into whole seconds and nanoseconds
    for the ROS time message that every other publisher stamps with.
 */
module RosClock {
  import opened Wrappers
  import opened Geometry
  import RosPublisher

  /** `builtin_interfaces/Time`: a signed 32-bit second count and an unsigned
      32-bit nanosecond count. */
  datatype TimeMsg = TimeMsg(sec: int, nanosec: int)

  const Int32Min: int := -0x8000_0000
  const Int32Max: int := 0x7FFF_FFFF
  const NanosPerSecond: int := 1_000_000_000

  /** The split into seconds and nanoseconds, both C# casts truncating. A cast
      whose value does not fit its target type (a time beyond the 32-bit
      second range, or a negative time with a fractional part, whose negative
      nanosecond count the unsigned cast cannot hold) has no specified result
      and gives None. */
  function Stamp(t: real): (m: Option<TimeMsg>)
    ensures m.Some? ==> 0 <= m.value.nanosec < NanosPerSecond
    ensures m.Some? ==> Int32Min <= m.value.sec <= Int32Max
    ensures 0.0 <= t < (Int32Max + 1) as real ==> m.Some?
  {
    var sec := Trunc(t);
    if sec < Int32Min || sec > Int32Max then None
    else
      var nanos := Trunc((t - sec as real) * 1_000_000_000.0);
      if nanos < 0 then None else Some(TimeMsg(sec, nanos))
  }

  /** The split loses less than a nanosecond: for a non-negative time in
      range, seconds plus nanoseconds is the time rounded down to the
      nanosecond. */
  lemma StampApproximates(t: real)
    requires 0.0 <= t < (Int32Max + 1) as real
    ensures Stamp(t).Some?
    ensures Stamp(t).value.sec == t.Floor
    ensures var m := Stamp(t).value;
            m.sec as real + m.nanosec as real / 1_000_000_000.0 <= t
            < m.sec as real + (m.nanosec + 1) as real / 1_000_000_000.0
  {
    var sec := Trunc(t);
    var frac := (t - sec as real) * 1_000_000_000.0;
    assert 0.0 <= frac < 1_000_000_000.0;
    var nanos := Trunc(frac);
    assert nanos as real <= frac < nanos as real + 1.0;
  }

  /** A negative time with a fractional part cannot be stamped. */
  lemma NegativeFractionUnstamped()
    ensures Stamp(-0.5).None?
    ensures Stamp(-2.0) == Some(TimeMsg(-2, 0))
  {
    assert Trunc(-0.5) == 0;
    assert Trunc(-0.5 * 1_000_000_000.0) == -500_000_000;
    assert Trunc(-2.0) == -2;
  }

  /** The clock component: its running total and its publisher base. */
  datatype Clock = Clock(timePassed: real, publisher: RosPublisher.Publisher)

  /** `GetROSTimestamp`: the split of the running clock, or an all-zero
      message while no clock exists. */
  function GetRosTimestamp(instance: Option<Clock>): (m: Option<TimeMsg>)
    ensures instance.None? ==> m == Some(TimeMsg(0, 0))
    ensures instance.Some? ==> m == Stamp(instance.value.timePassed)
    ensures instance.Some? && 0.0 <= instance.value.timePassed < (Int32Max + 1) as real
            ==> m.Some? && m.value.sec == instance.value.timePassed.Floor
    ensures instance.Some? && 0.0 <= instance.value.timePassed < (Int32Max + 1) as real
            ==> var t := instance.value.timePassed;
                m.value.sec as real + m.value.nanosec as real / 1_000_000_000.0 <= t
                < m.value.sec as real + (m.value.nanosec + 1) as real / 1_000_000_000.0
  {
    match instance
    case None => Some(TimeMsg(0, 0))
    case Some(c) =>
      if 0.0 <= c.timePassed < (Int32Max + 1) as real then
        StampApproximates(c.timePassed);
        Stamp(c.timePassed)
      else Stamp(c.timePassed)
  }

  /** `Start`: the total restored from the saved preference when one exists
      (already parsed), zero otherwise; publishing through the base limiter. */
  function Start(publishRate: real, saved: Option<real>): (c: Clock)
    ensures c.timePassed == saved.GetOr(0.0)
    ensures c.publisher == RosPublisher.Start(publishRate, true)
  {
    Clock(saved.GetOr(0.0), RosPublisher.Start(publishRate, true))
  }

  /** `FixedUpdate`: the base limiter ticks; when it fires, `PublishMessage`
      adds one fixed step to the total and publishes its split. The second
      component is the message sent, if any; the message itself is None
      when the split has no specified value (see `Stamp`). */
  function FixedUpdate(c: Clock, dt: real, publishRos: bool): (res: (Clock, Option<Option<TimeMsg>>))
    ensures res.1.Some? == RosPublisher.Tick(c.publisher, dt, publishRos).1
    ensures res.0.publisher == RosPublisher.Tick(c.publisher, dt, publishRos).0
    ensures res.1.Some? ==> res.0.timePassed == c.timePassed + dt
    ensures res.1.None? ==> res.0.timePassed == c.timePassed
    ensures res.1.Some? ==> res.1.value == GetRosTimestamp(Some(res.0))
  {
    var (p, fired) := RosPublisher.Tick(c.publisher, dt, publishRos);
    if fired then
      var next := Clock(c.timePassed + dt, p);
      (next, Some(Stamp(next.timePassed)))
    else (Clock(c.timePassed, p), None)
  }

  /** `n` physics steps of the same fixed step: the final clock and the
      messages published, in order. The last message is what
      `GetROSTimestamp` reports at the end of the run, and a run that
      publishes nothing leaves the total alone. */
  function RunClock(c: Clock, n: nat, dt: real, publishRos: bool): (res: (Clock, seq<Option<TimeMsg>>))
    ensures |res.1| <= n
    ensures |res.1| == 0 ==> res.0.timePassed == c.timePassed
    ensures |res.1| > 0 ==> res.1[|res.1| - 1] == GetRosTimestamp(Some(res.0))
    decreases n
  {
    if n == 0 then (c, [])
    else
      var (c1, sent) := FixedUpdate(c, dt, publishRos);
      var (d, ms) := RunClock(c1, n - 1, dt, publishRos);
      if sent.Some? then
        assert |ms| == 0 ==> GetRosTimestamp(Some(d)) == GetRosTimestamp(Some(c1));
        (d, [sent.value] + ms)
      else (d, ms)
  }

  /** The clock counts publishes, not physics steps: after any run it has
      advanced by exactly one fixed step per message. */
  lemma {:induction false} ClockCountsPublishes(c: Clock, n: nat, dt: real, publishRos: bool)
    ensures RunClock(c, n, dt, publishRos).0.timePassed
         == c.timePassed + Times(|RunClock(c, n, dt, publishRos).1|, dt)
    decreases n
  {
    if n > 0 {
      var (c1, sent) := FixedUpdate(c, dt, publishRos);
      ClockCountsPublishes(c1, n - 1, dt, publishRos);
      var k := |RunClock(c1, n - 1, dt, publishRos).1|;
      if sent.Some? {
        assert Times(k + 1, dt) == Times(k, dt) + dt;
      }
    }
  }

  /** Its publisher runs exactly as a bare publisher would on the same steps. */
  lemma {:induction false} ClockFollowsPublisher(c: Clock, n: nat, dt: real, publishRos: bool)
    ensures |RunClock(c, n, dt, publishRos).1| == RosPublisher.Run(c.publisher, seq(n, _ => dt), publishRos).1
    ensures RunClock(c, n, dt, publishRos).0.publisher == RosPublisher.Run(c.publisher, seq(n, _ => dt), publishRos).0
    decreases n
  {
    if n > 0 {
      var (c1, sent) := FixedUpdate(c, dt, publishRos);
      ClockFollowsPublisher(c1, n - 1, dt, publishRos);
      assert seq(n, _ => dt)[1..] == seq(n - 1, _ => dt);
    }
  }

  /** Hence the clock's messages are bounded by the publish rate: the count
      times the interval never exceeds the simulated time that passed plus
      the timer's start, so at a rate below the physics rate the clock
      advances more slowly than simulated time. */
  lemma ClockBoundedByRate(c: Clock, n: nat, dt: real, publishRos: bool)
    requires dt >= 0.0
    requires c.publisher.interval.Every?
    ensures Times(|RunClock(c, n, dt, publishRos).1|, c.publisher.interval.seconds)
         + RunClock(c, n, dt, publishRos).0.publisher.timeSinceLastPublish
         <= c.publisher.timeSinceLastPublish + RosPublisher.Sum(seq(n, _ => dt))
  {
    ClockFollowsPublisher(c, n, dt, publishRos);
    RosPublisher.RateLimit(c.publisher, seq(n, _ => dt), publishRos);
  }
}

=== FILE: ros_publisher.dfy ===
/** The base of every rate-limited publisher: a publish rate, the interval
    it implies, a timer that accumulates the fixed time step, and an
    on/off switch.
 */
module RosPublisher {
  import opened Geometry

  /** The interval between publishes. `1f / 0` is infinite in C#, and no
      finite timer ever reaches it. */
  datatype Interval = Every(seconds: real) | Never

  datatype Publisher = Publisher(
    publishRate: real,
    interval: Interval,
    timeSinceLastPublish: real,
    shouldPublish: bool,
    useBaseRateLimiting: bool)

  const DefaultRate: real := 10.0
  const MinRate: real := 0.1
  const MaxRate: real := 100.0

  /** The interval a rate implies. */
  function IntervalOf(rate: real): (i: Interval)
    ensures rate == 0.0 <==> i.Never?
    ensures rate > 0.0 ==> i.seconds > 0.0 && i.seconds * rate == 1.0
  {
    if rate == 0.0 then Never else Every(1.0 / rate)
  }

  /** A publisher as constructed and then started: the serialized rate is
      used unclamped, the timer is zero and publishing is on. */
  function Start(publishRate: real, useBaseRateLimiting: bool): (p: Publisher)
    ensures p.interval == IntervalOf(publishRate)
    ensures p.timeSinceLastPublish == 0.0 && p.shouldPublish
  {
    Publisher(publishRate, IntervalOf(publishRate), 0.0, true, useBaseRateLimiting)
  }

  /** The reciprocal of a rate in [0.1, 100] lies in [0.01, 10]. */
  lemma ReciprocalBounds(r: real)
    requires MinRate <= r <= MaxRate
    ensures 0.01 <= 1.0 / r <= 10.0
  {
    var i := 1.0 / r;
    assert i * r == 1.0;
  }

  /** The `PublishRate` setter (and `SetPublishRate`): the rate is clamped to
      [0.1, 100] Hz and the interval is its reciprocal. */
  function SetPublishRate(p: Publisher, rate: real): (q: Publisher)
    ensures MinRate <= q.publishRate <= MaxRate
    ensures MinRate <= rate <= MaxRate ==> q.publishRate == rate
    ensures rate < MinRate ==> q.publishRate == MinRate
    ensures rate > MaxRate ==> q.publishRate == MaxRate
    ensures q.interval.Every? && 0.01 <= q.interval.seconds <= 10.0
    ensures q.interval.seconds * q.publishRate == 1.0
    ensures q.(publishRate := p.publishRate, interval := p.interval) == p
  {
    var r := Clamp(rate, MinRate, MaxRate);
    ReciprocalBounds(r);
    p.(publishRate := r, interval := IntervalOf(r))
  }

  /** `IsActive`. */
  predicate IsActive(p: Publisher) { p.shouldPublish }

  /** `SetActive`: only the switch changes. */
  function SetActive(p: Publisher, active: bool): (q: Publisher)
    ensures IsActive(q) == active
    ensures q.(shouldPublish := p.shouldPublish) == p
  {
    p.(shouldPublish := active)
  }

  /** Whether a timer value has reached the interval. */
  predicate Due(i: Interval, elapsed: real)
  {
    i.Every? && elapsed >= i.seconds
  }

  /** The base `FixedUpdate`: with base rate limiting the timer advances by
      the step, and the publisher fires (and the timer restarts at zero)
      once it is on, ROS publishing is on and the interval has elapsed. */
  function Tick(p: Publisher, dt: real, publishRos: bool): (res: (Publisher, bool))
    ensures res.1 <==> (p.useBaseRateLimiting && p.shouldPublish && publishRos
                         && Due(p.interval, p.timeSinceLastPublish + dt))
    ensures !p.useBaseRateLimiting ==> res.0 == p
    ensures res.1 ==> res.0.timeSinceLastPublish == 0.0
    ensures p.useBaseRateLimiting && !res.1 ==> res.0.timeSinceLastPublish == p.timeSinceLastPublish + dt
    ensures res.0.(timeSinceLastPublish := p.timeSinceLastPublish) == p
  {
    if !p.useBaseRateLimiting then (p, false)
    else
      var elapsed := p.timeSinceLastPublish + dt;
      if p.shouldPublish && publishRos && Due(p.interval, elapsed) then (p.(timeSinceLastPublish := 0.0), true)
      else (p.(timeSinceLastPublish := elapsed), false)
  }

  /** A subclass `FixedUpdate` that calls the base only while its own
      publish switch and ROS publishing are on: while the gate is shut the
      timer does not advance. */
  function GatedTick(p: Publisher, gate: bool, dt: real, publishRos: bool): (res: (Publisher, bool))
    ensures !gate ==> res == (p, false)
    ensures res.1 ==> gate && Tick(p, dt, publishRos).1
    ensures gate ==> res == Tick(p, dt, publishRos)
  {
    if gate then Tick(p, dt, publishRos) else (p, false)
  }

  /** A run of physics steps: the final publisher and the number of publishes. */
  function Run(p: Publisher, dts: seq<real>, publishRos: bool): (res: (Publisher, nat))
    ensures res.1 <= |dts|
    decreases |dts|
  {
    if |dts| == 0 then (p, 0)
    else
      var (p1, fired) := Tick(p, dts[0], publishRos);
      var (q, n) := Run(p1, dts[1..], publishRos);
      (q, n + (if fired then 1 else 0))
  }

  function Sum(s: seq<real>): real
  {
    if |s| == 0 then 0.0 else s[0] + Sum(s[1..])
  }

  predicate NonNegative(s: seq<real>) { forall i :: 0 <= i < |s| ==> s[i] >= 0.0 }

  /** The limiter never exceeds its rate: over any run of non-negative steps,
      the publishes times the interval, plus what is left on the timer, is at
      most the timer's start plus the time that passed. */
  lemma {:induction false} RateLimit(p: Publisher, dts: seq<real>, publishRos: bool)
    requires p.interval.Every?
    requires NonNegative(dts)
    ensures Times(Run(p, dts, publishRos).1, p.interval.seconds) + Run(p, dts, publishRos).0.timeSinceLastPublish
         <= p.timeSinceLastPublish + Sum(dts)
    decreases |dts|
  {
    if |dts| > 0 {
      var (p1, fired) := Tick(p, dts[0], publishRos);
      assert NonNegative(dts[1..]) by {
        forall i | 0 <= i < |dts[1..]| ensures dts[1..][i] >= 0.0 {
          assert dts[1..][i] == dts[i + 1];
        }
      }
      RateLimit(p1, dts[1..], publishRos);
    }
  }

  /** A switched-off publisher never fires, however long it runs, and the
      switch stays off. */
  lemma {:induction false} InactiveNeverFires(p: Publisher, dts: seq<real>, publishRos: bool)
    requires !IsActive(p)
    ensures Run(p, dts, publishRos).1 == 0
    ensures !IsActive(Run(p, dts, publishRos).0)
    decreases |dts|
  {
    if |dts| > 0 {
      var (p1, fired) := Tick(p, dts[0], publishRos);
      InactiveNeverFires(p1, dts[1..], publishRos);
    }
  }

  /** At a positive rate, a step at least as long as the interval always
      publishes when the publisher and ROS are on and the timer is not negative. */
  lemma LongStepFires(p: Publisher, dt: real)
    requires p.useBaseRateLimiting && IsActive(p)
    requires p.interval.Every? && dt >= p.interval.seconds
    requires p.timeSinceLastPublish >= 0.0
    ensures Tick(p, dt, true).1
  {
  }
}

=== FILE: settings.dfy ===
/** The settings singleton's persistence: every toggle and number is saved
    to the player preferences under its own key as text, and loaded back
    with a documented default for a missing key.
 */
module Settings {
  import opened Wrappers
  import opened Text

  /** The persisted toggles, in the order the loader reads them. */
  datatype Flag =
    | PublishRos | DisplaySimObjects | NoWaterMode | EnableShadows
    | PublishDvl | PublishImu | PublishDepth | PublishPressure | PublishHydrophones
    | PublishFrontCam | PublishDownCam | StreamZedCamera
    | VisualizeDvl | VisualizeImu | VisualizePressure
    | DrawerConfigOpen | DrawerControlsOpen | DrawerTelemetryOpen | DrawerSensorsOpen | DrawerCameraOpen

  /** The persisted integers stored as text. */
  datatype Number =
    | FrontCamRate | DownCamRate | FrontCamWidth | FrontCamHeight
    | DownCamWidth | DownCamHeight | PoseRate | QualityLevel

  /** Every player-preference key the settings use. The hydrophone option is
      the one value stored as an integer rather than as text. */
  datatype Key = FlagKey(flag: Flag) | NumberKey(number: Number) | HydrophonesOptionKey | SnapshotPathKey

  function FlagName(f: Flag): string
  {
    match f
    case PublishRos => "PublishROSToggle"
    case DisplaySimObjects => "DisplaySimToggle"
    case NoWaterMode => "NoWaterModeToggle"
    case EnableShadows => "EnableShadowsToggle"
    case PublishDvl => "PublishDVLToggle"
    case PublishImu => "PublishIMUToggle"
    case PublishDepth => "PublishDepthToggle"
    case PublishPressure => "PublishPressureToggle"
    case PublishHydrophones => "PublishHydrophonesToggle"
    case PublishFrontCam => "PublishFrontCamToggle"
    case PublishDownCam => "PublishDownCamToggle"
    case StreamZedCamera => "StreamZEDCameraToggle"
    case VisualizeDvl => "VisualizeDVLToggle"
    case VisualizeImu => "VisualizeIMUToggle"
    case VisualizePressure => "VisualizePressureToggle"
    case DrawerConfigOpen => "DrawerConfigOpen"
    case DrawerControlsOpen => "DrawerControlsOpen"
    case DrawerTelemetryOpen => "DrawerTelemetryOpen"
    case DrawerSensorsOpen => "DrawerSensorsOpen"
    case DrawerCameraOpen => "DrawerCameraOpen"
  }

  function NumberName(n: Number): string
  {
    match n
    case FrontCamRate => "frontCamRate"
    case DownCamRate => "downCamRate"
    case FrontCamWidth => "frontCamWidth"
    case FrontCamHeight => "frontCamHeight"
    case DownCamWidth => "downCamWidth"
    case DownCamHeight => "downCamHeight"
    case PoseRate => "poseRate"
    case QualityLevel => "qualityLevel"
  }

  function KeyName(k: Key): string
  {
    match k
    case FlagKey(f) => FlagName(f)
    case NumberKey(n) => NumberName(n)
    case HydrophonesOptionKey => "HydrophonesNumberOption"
    case SnapshotPathKey => "SnapshotSavePath"
  }

  /** The default of a missing toggle: shadows, sensor visualizations and
      every drawer are on, everything else off. */
  function DefaultFlag(f: Flag): bool
  {
    f in {EnableShadows, VisualizeDvl, VisualizeImu, VisualizePressure,
          DrawerConfigOpen, DrawerControlsOpen, DrawerTelemetryOpen, DrawerSensorsOpen, DrawerCameraOpen}
  }

  /** The default of a missing number, as the loader's fallback text. */
  function DefaultNumberText(n: Number): string
  {
    match n
    case FrontCamRate => "10"
    case DownCamRate => "10"
    case FrontCamWidth => "960"
    case FrontCamHeight => "600"
    case DownCamWidth => "640"
    case DownCamHeight => "480"
    case PoseRate => "50"
    case QualityLevel => "3"
  }

  function DefaultNumber(n: Number): int
  {
    match n
    case FrontCamRate => 10
    case DownCamRate => 10
    case FrontCamWidth => 960
    case FrontCamHeight => 600
    case DownCamWidth => 640
    case DownCamHeight => 480
    case PoseRate => 50
    case QualityLevel => 3
  }

  const AllFlags: seq<Flag> :=
    [PublishRos, DisplaySimObjects, NoWaterMode, EnableShadows,
     PublishDvl, PublishImu, PublishDepth, PublishPressure, PublishHydrophones,
     PublishFrontCam, PublishDownCam, StreamZedCamera,
     VisualizeDvl, VisualizeImu, VisualizePressure,
     DrawerConfigOpen, DrawerControlsOpen, DrawerTelemetryOpen, DrawerSensorsOpen, DrawerCameraOpen]

  const AllNumbers: seq<Number> :=
    [FrontCamRate, DownCamRate, FrontCamWidth, FrontCamHeight, DownCamWidth, DownCamHeight, PoseRate, QualityLevel]

  lemma AllFlagsListed(f: Flag)
    ensures f in AllFlags
  {
  }

  lemma AllNumbersListed(n: Number)
    ensures n in AllNumbers
  {
  }

  /** The toggle a name belongs to, if any, looked up by length first. */
  function FlagOfName(name: string): Option<Flag>
  {
    if |name| == 16 then
      if name == "PublishROSToggle" then Some(PublishRos)
      else if name == "DisplaySimToggle" then Some(DisplaySimObjects)
      else if name == "PublishDVLToggle" then Some(PublishDvl)
      else if name == "PublishIMUToggle" then Some(PublishImu)
      else if name == "DrawerConfigOpen" then Some(DrawerConfigOpen)
      else if name == "DrawerCameraOpen" then Some(DrawerCameraOpen)
      else None
    else if |name| == 17 then
      if name == "NoWaterModeToggle" then Some(NoWaterMode)
      else if name == "DrawerSensorsOpen" then Some(DrawerSensorsOpen)
      else None
    else if |name| == 18 then
      if name == "PublishDepthToggle" then Some(PublishDepth)
      else if name == "VisualizeDVLToggle" then Some(VisualizeDvl)
      else if name == "VisualizeIMUToggle" then Some(VisualizeImu)
      else if name == "DrawerControlsOpen" then Some(DrawerControlsOpen)
      else None
    else if |name| == 19 then
      if name == "EnableShadowsToggle" then Some(EnableShadows)
      else if name == "DrawerTelemetryOpen" then Some(DrawerTelemetryOpen)
      else None
    else if |name| == 20 then
      if name == "PublishDownCamToggle" then Some(PublishDownCam) else None
    else if |name| == 21 then
      if name == "PublishPressureToggle" then Some(PublishPressure)
      else if name == "PublishFrontCamToggle" then Some(PublishFrontCam)
      else if name == "StreamZEDCameraToggle" then Some(StreamZedCamera)
      else None
    else if |name| == 23 then
      if name == "VisualizePressureToggle" then Some(VisualizePressure) else None
    else if |name| == 24 then
      if name == "PublishHydrophonesToggle" then Some(PublishHydrophones) else None
    else None
  }

  /** The number a name belongs to, if any. */
  function NumberOfName(name: string): Option<Number>
  {
    if name == "frontCamRate" then Some(FrontCamRate)
    else if name == "downCamRate" then Some(DownCamRate)
    else if name == "frontCamWidth" then Some(FrontCamWidth)
    else if name == "frontCamHeight" then Some(FrontCamHeight)
    else if name == "downCamWidth" then Some(DownCamWidth)
    else if name == "downCamHeight" then Some(DownCamHeight)
    else if name == "poseRate" then Some(PoseRate)
    else if name == "qualityLevel" then Some(QualityLevel)
    else None
  }

  /** The key a name belongs to, if any. The integer keys are the only ones
      starting with a lower-case letter. */
  function KeyOfName(name: string): Option<Key>
  {
    if name == "HydrophonesNumberOption" then Some(HydrophonesOptionKey)
    else if name == "SnapshotSavePath" then Some(SnapshotPathKey)
    else if |name| > 0 && 'a' <= name[0] <= 'z' then
      match NumberOfName(name)
      case Some(n) => Some(NumberKey(n))
      case None => None
    else
      match FlagOfName(name)
      case Some(f) => Some(FlagKey(f))
      case None => None
  }

  lemma FlagNameInverse(f: Flag)
    ensures FlagOfName(FlagName(f)) == Some(f)
  {
  }

  lemma FlagNameShape(f: Flag)
    ensures 'A' <= FlagName(f)[0] <= 'Z'
  {
  }

  lemma FlagNameNotSpecial(f: Flag)
    ensures FlagName(f) != "HydrophonesNumberOption" && FlagName(f) != "SnapshotSavePath"
  {
  }

  lemma NumberNameInverse(n: Number)
    ensures NumberOfName(NumberName(n)) == Some(n)
    ensures 'a' <= NumberName(n)[0] <= 'z'
  {
  }

  /** No two settings share a key: the name determines the setting. */
  lemma KeyNameInverse(k: Key)
    ensures KeyOfName(KeyName(k)) == Some(k)
  {
    match k
    case FlagKey(f) => FlagNameInverse(f); FlagNameShape(f); FlagNameNotSpecial(f);
    case NumberKey(n) => NumberNameInverse(n);
    case HydrophonesOptionKey =>
    case SnapshotPathKey =>
  }

  lemma KeyNamesDistinct(a: Key, b: Key)
    requires KeyName(a) == KeyName(b)
    ensures a == b
  {
    KeyNameInverse(a);
    KeyNameInverse(b);
  }

  /** A stored preference: Unity keeps the value's type with it. */
  datatype Pref = TextPref(text: string) | IntPref(number: int)

  type Prefs = map<string, Pref>

  /** `PlayerPrefs.GetString`: the default when the key is missing or holds
      a non-text value. */
  function GetString(p: Prefs, key: string, default: string): string
  {
    if key in p && p[key].TextPref? then p[key].text else default
  }

  /** `PlayerPrefs.GetInt`. */
  function GetInt(p: Prefs, key: string, default: int): int
  {
    if key in p && p[key].IntPref? then p[key].number else default
  }

  /** The settings fields involved in persistence, plus the bearing toggles
      and the target frame rate, which are never saved. */
  datatype Settings = Settings(
    flags: map<Flag, bool>,
    numbers: map<Number, int>,
    hydrophonesNumberOption: int,
    snapshotSavePath: string,
    visualizeBearing: seq<bool>,
    simulationTargetFrameRate: int)

  /** Every toggle and every number has a value. */
  predicate Complete(s: Settings)
  {
    (forall f: Flag :: f in s.flags) && (forall n: Number :: n in s.numbers)
  }

  predicate NumbersFit(s: Settings)
    requires Complete(s)
  {
    forall n: Number :: IsInt32(s.numbers[n])
  }

  /** The text `SaveSettings` writes for a key. */
  function SavedText(s: Settings, k: Key): string
    requires Complete(s)
  {
    match k
    case FlagKey(f) => BoolToString(s.flags[f])
    case NumberKey(n) => IntToString(s.numbers[n])
    case HydrophonesOptionKey => ""
    case SnapshotPathKey => s.snapshotSavePath
  }

  /** The keys `SaveSettings` writes as text, in order. */
  function TextKeys(): (ks: seq<Key>)
    ensures forall i :: 0 <= i < |ks| ==> !ks[i].HydrophonesOptionKey?
  {
    seq(|AllFlags|, i requires 0 <= i < |AllFlags| => FlagKey(AllFlags[i]))
    + seq(|AllNumbers|, i requires 0 <= i < |AllNumbers| => NumberKey(AllNumbers[i]))
    + [SnapshotPathKey]
  }

  lemma TextKeysComplete(k: Key)
    requires !k.HydrophonesOptionKey?
    ensures k in TextKeys()
  {
    var ks := TextKeys();
    match k
    case FlagKey(f) =>
      AllFlagsListed(f);
      var i :| 0 <= i < |AllFlags| && AllFlags[i] == f;
      assert ks[i] == k;
    case NumberKey(n) =>
      AllNumbersListed(n);
      var i :| 0 <= i < |AllNumbers| && AllNumbers[i] == n;
      assert ks[|AllFlags| + i] == k;
    case SnapshotPathKey =>
      assert ks[|ks| - 1] == k;
  }

  /** Writing a list of keys as text, one `SetString` after another. */
  function WriteTexts(p: Prefs, s: Settings, ks: seq<Key>): (q: Prefs)
    requires Complete(s)
    ensures forall name :: name in q <==> name in p || exists i :: 0 <= i < |ks| && KeyName(ks[i]) == name
    decreases |ks|
  {
    if |ks| == 0 then p
    else
      var last := ks[|ks| - 1];
      WriteTexts(p, s, ks[..|ks| - 1])[KeyName(last) := TextPref(SavedText(s, last))]
  }

  /** After the writes, every written key holds its own text. */
  lemma {:induction false} WriteTextsLookup(p: Prefs, s: Settings, ks: seq<Key>, k: Key)
    requires Complete(s)
    requires k in ks
    ensures KeyName(k) in WriteTexts(p, s, ks)
    ensures WriteTexts(p, s, ks)[KeyName(k)] == TextPref(SavedText(s, k))
    decreases |ks|
  {
    var last := ks[|ks| - 1];
    if k != last {
      assert k in ks[..|ks| - 1] by {
        var i :| 0 <= i < |ks| && ks[i] == k;
        assert i < |ks| - 1;
        assert ks[..|ks| - 1][i] == k;
      }
      WriteTextsLookup(p, s, ks[..|ks| - 1], k);
      if KeyName(k) == KeyName(last) {
        KeyNamesDistinct(k, last);
      }
    }
  }

  /** `SaveSettings`. */
  function Save(s: Settings, p: Prefs): (q: Prefs)
    requires Complete(s)
    ensures KeyName(HydrophonesOptionKey) in q && q[KeyName(HydrophonesOptionKey)] == IntPref(s.hydrophonesNumberOption)
  {
    WriteTexts(p, s, TextKeys())[KeyName(HydrophonesOptionKey) := IntPref(s.hydrophonesNumberOption)]
  }

  /** The text the loader reads for a key, with its fallback. */
  function LoadedText(p: Prefs, k: Key, defaultPath: string): string
  {
    match k
    case FlagKey(f) => GetString(p, FlagName(f), if DefaultFlag(f) then "true" else "false")
    case NumberKey(n) => GetString(p, NumberName(n), DefaultNumberText(n))
    case HydrophonesOptionKey => ""
    case SnapshotPathKey => GetString(p, KeyName(k), defaultPath)
  }

  /** Whether a key's text parses as its type. */
  predicate Parses(p: Prefs, k: Key, defaultPath: string)
  {
    match k
    case FlagKey(_) => ParseBool(LoadedText(p, k, defaultPath)).Ok?
    case NumberKey(_) => ParseInt(LoadedText(p, k, defaultPath)).Ok?
    case _ => true
  }

  /** The parse exception of a key whose text does not parse. */
  function KeyError(p: Prefs, k: Key, defaultPath: string): Error
    requires !Parses(p, k, defaultPath)
  {
    match k
    case FlagKey(_) => ParseBool(LoadedText(p, k, defaultPath)).error
    case NumberKey(_) => ParseInt(LoadedText(p, k, defaultPath)).error
  }

  /** The first key in load order whose text does not parse; its parse
      exception ends `LoadSettings`. */
  function FirstFailure(p: Prefs, ks: seq<Key>, defaultPath: string): (e: Option<Error>)
    ensures e.None? <==> forall i :: 0 <= i < |ks| ==> Parses(p, ks[i], defaultPath)
    decreases |ks|
  {
    if |ks| == 0 then None
    else if !Parses(p, ks[0], defaultPath) then Some(KeyError(p, ks[0], defaultPath))
    else
      TailParses(p, ks, defaultPath);
      FirstFailure(p, ks[1..], defaultPath)
  }

  /** Once the first key parses, all of them parse exactly when the rest do. */
  lemma TailParses(p: Prefs, ks: seq<Key>, defaultPath: string)
    requires |ks| > 0 && Parses(p, ks[0], defaultPath)
    ensures (forall i :: 0 <= i < |ks| ==> Parses(p, ks[i], defaultPath))
            <==> (forall i :: 0 <= i < |ks[1..]| ==> Parses(p, ks[1..][i], defaultPath))
  {
    assert forall i :: 1 <= i < |ks| ==> ks[i] == ks[1..][i - 1];
  }

  lemma EveryKeyParses(p: Prefs, defaultPath: string, k: Key)
    requires FirstFailure(p, TextKeys(), defaultPath).None?
    requires !k.HydrophonesOptionKey?
    ensures Parses(p, k, defaultPath)
  {
    TextKeysComplete(k);
  }

  /** `LoadSettings`: every persisted field is replaced by what its stored
      text (or the fallback) parses to, the others are kept. The save path
      passes through `validate`, the directory check and fallback, which is
      file-system I/O. */
  function Load(current: Settings, p: Prefs, defaultPath: string, validate: string -> string): (r: Result<Settings>)
    ensures r.Err? <==> FirstFailure(p, TextKeys(), defaultPath).Some?
    ensures r.Err? ==> Some(r.error) == FirstFailure(p, TextKeys(), defaultPath)
    ensures r.Ok? ==> Complete(r.value)
    ensures r.Ok? ==> forall f: Flag :: ParseBool(LoadedText(p, FlagKey(f), defaultPath)) == Ok(r.value.flags[f])
    ensures r.Ok? ==> forall n: Number :: ParseInt(LoadedText(p, NumberKey(n), defaultPath)) == Ok(r.value.numbers[n])
    ensures r.Ok? ==> r.value.hydrophonesNumberOption == GetInt(p, KeyName(HydrophonesOptionKey), 0)
    ensures r.Ok? ==> r.value.snapshotSavePath == validate(LoadedText(p, SnapshotPathKey, defaultPath))
    ensures r.Ok? ==> r.value.visualizeBearing == current.visualizeBearing
                      && r.value.simulationTargetFrameRate == current.simulationTargetFrameRate
  {
    match FirstFailure(p, TextKeys(), defaultPath)
    case Some(e) => Err(e)
    case None =>
      var flags := map f: Flag | f in AllFlags ::
        (EveryKeyParses(p, defaultPath, FlagKey(f)); ParseBool(LoadedText(p, FlagKey(f), defaultPath)).value);
      var numbers := map n: Number | n in AllNumbers ::
        (EveryKeyParses(p, defaultPath, NumberKey(n)); ParseInt(LoadedText(p, NumberKey(n), defaultPath)).value);
      assert forall f: Flag :: f in flags && ParseBool(LoadedText(p, FlagKey(f), defaultPath)) == Ok(flags[f]) by {
        forall f: Flag ensures f in flags && ParseBool(LoadedText(p, FlagKey(f), defaultPath)) == Ok(flags[f]) {
          AllFlagsListed(f);
          EveryKeyParses(p, defaultPath, FlagKey(f));
        }
      }
      assert forall n: Number :: n in numbers && ParseInt(LoadedText(p, NumberKey(n), defaultPath)) == Ok(numbers[n]) by {
        forall n: Number ensures n in numbers && ParseInt(LoadedText(p, NumberKey(n), defaultPath)) == Ok(numbers[n]) {
          AllNumbersListed(n);
          EveryKeyParses(p, defaultPath, NumberKey(n));
        }
      }
      Ok(current.(
        flags := flags,
        numbers := numbers,
        hydrophonesNumberOption := GetInt(p, KeyName(HydrophonesOptionKey), 0),
        snapshotSavePath := validate(LoadedText(p, SnapshotPathKey, defaultPath))))
  }

  /** After a save, the loader reads back exactly the text written for
      each key. */
  lemma SavedTextReadBack(s: Settings, p: Prefs, k: Key, defaultPath: string)
    requires Complete(s)
    requires !k.HydrophonesOptionKey?
    ensures LoadedText(Save(s, p), k, defaultPath) == SavedText(s, k)
  {
    TextKeysComplete(k);
    WriteTextsLookup(p, s, TextKeys(), k);
    if KeyName(k) == KeyName(HydrophonesOptionKey) {
      KeyNamesDistinct(k, HydrophonesOptionKey);
    }
    var q := Save(s, p);
    assert KeyName(k) in q && q[KeyName(k)] == TextPref(SavedText(s, k));
  }

  /** Every text a save writes parses back to its value. */
  lemma SavedTextsParse(s: Settings, p: Prefs, defaultPath: string)
    requires Complete(s) && NumbersFit(s)
    ensures forall f: Flag :: ParseBool(LoadedText(Save(s, p), FlagKey(f), defaultPath)) == Ok(s.flags[f])
    ensures forall n: Number :: ParseInt(LoadedText(Save(s, p), NumberKey(n), defaultPath)) == Ok(s.numbers[n])
    ensures LoadedText(Save(s, p), SnapshotPathKey, defaultPath) == s.snapshotSavePath
  {
    forall f: Flag
      ensures ParseBool(LoadedText(Save(s, p), FlagKey(f), defaultPath)) == Ok(s.flags[f])
    {
      SavedTextReadBack(s, p, FlagKey(f), defaultPath);
      ParseBoolRoundTrip(s.flags[f]);
    }
    forall n: Number
      ensures ParseInt(LoadedText(Save(s, p), NumberKey(n), defaultPath)) == Ok(s.numbers[n])
    {
      SavedTextReadBack(s, p, NumberKey(n), defaultPath);
      ParseIntRoundTrip(s.numbers[n]);
    }
    SavedTextReadBack(s, p, SnapshotPathKey, defaultPath);
  }

  /** A key whose toggles and numbers all parse produces no failure. */
  lemma NoFailureWhenAllParse(p: Prefs, defaultPath: string)
    requires forall f: Flag :: ParseBool(LoadedText(p, FlagKey(f), defaultPath)).Ok?
    requires forall n: Number :: ParseInt(LoadedText(p, NumberKey(n), defaultPath)).Ok?
    ensures FirstFailure(p, TextKeys(), defaultPath).None?
  {
    var ks := TextKeys();
    forall i | 0 <= i < |ks| ensures Parses(p, ks[i], defaultPath) {
      match ks[i]
      case FlagKey(f) =>
      case NumberKey(n) =>
      case SnapshotPathKey =>
    }
  }

  lemma SavedFlagRestored(s: Settings, current: Settings, p: Prefs, defaultPath: string, validate: string -> string, f: Flag)
    requires Complete(s) && NumbersFit(s)
    ensures Load(current, Save(s, p), defaultPath, validate).Ok?
    ensures f in Load(current, Save(s, p), defaultPath, validate).value.flags
    ensures Load(current, Save(s, p), defaultPath, validate).value.flags[f] == s.flags[f]
  {
    var q := Save(s, p);
    SavedTextsParse(s, p, defaultPath);
    NoFailureWhenAllParse(q, defaultPath);
    var v := Load(current, q, defaultPath, validate).value;
    var t := LoadedText(q, FlagKey(f), defaultPath);
    assert ParseBool(t) == Ok(v.flags[f]);
    assert ParseBool(t) == Ok(s.flags[f]);
  }

  lemma SavedFlagsRestored(s: Settings, current: Settings, p: Prefs, defaultPath: string, validate: string -> string)
    requires Complete(s) && NumbersFit(s)
    ensures Load(current, Save(s, p), defaultPath, validate).Ok?
    ensures Load(current, Save(s, p), defaultPath, validate).value.flags == s.flags
  {
    SavedFlagRestored(s, current, p, defaultPath, validate, PublishRos);
    var v := Load(current, Save(s, p), defaultPath, validate).value;
    forall f: Flag ensures f in v.flags && v.flags[f] == s.flags[f] {
      SavedFlagRestored(s, current, p, defaultPath, validate, f);
    }
    FlagMapsEqual(v.flags, s.flags);
  }

  lemma FlagMapsEqual(a: map<Flag, bool>, b: map<Flag, bool>)
    requires forall f: Flag :: f in a && f in b && a[f] == b[f]
    ensures a == b
  {
  }

  lemma SavedNumberRestored(s: Settings, current: Settings, p: Prefs, defaultPath: string, validate: string -> string, n: Number)
    requires Complete(s) && NumbersFit(s)
    ensures Load(current, Save(s, p), defaultPath, validate).Ok?
    ensures n in Load(current, Save(s, p), defaultPath, validate).value.numbers
    ensures Load(current, Save(s, p), defaultPath, validate).value.numbers[n] == s.numbers[n]
  {
    var q := Save(s, p);
    SavedTextsParse(s, p, defaultPath);
    NoFailureWhenAllParse(q, defaultPath);
    var v := Load(current, q, defaultPath, validate).value;
    var t := LoadedText(q, NumberKey(n), defaultPath);
    assert ParseInt(t) == Ok(v.numbers[n]);
    assert ParseInt(t) == Ok(s.numbers[n]);
  }

  lemma SavedNumbersRestored(s: Settings, current: Settings, p: Prefs, defaultPath: string, validate: string -> string)
    requires Complete(s) && NumbersFit(s)
    ensures Load(current, Save(s, p), defaultPath, validate).Ok?
    ensures Load(current, Save(s, p), defaultPath, validate).value.numbers == s.numbers
  {
    SavedNumberRestored(s, current, p, defaultPath, validate, PoseRate);
    var v := Load(current, Save(s, p), defaultPath, validate).value;
    forall n: Number ensures n in v.numbers && v.numbers[n] == s.numbers[n] {
      SavedNumberRestored(s, current, p, defaultPath, validate, n);
    }
    NumberMapsEqual(v.numbers, s.numbers);
  }

  lemma NumberMapsEqual(a: map<Number, int>, b: map<Number, int>)
    requires forall n: Number :: n in a && n in b && a[n] == b[n]
    ensures a == b
  {
  }

  lemma SavedRestRestored(s: Settings, current: Settings, p: Prefs, defaultPath: string, validate: string -> string)
    requires Complete(s) && NumbersFit(s)
    ensures Load(current, Save(s, p), defaultPath, validate).Ok?
    ensures Load(current, Save(s, p), defaultPath, validate).value.snapshotSavePath == validate(s.snapshotSavePath)
    ensures Load(current, Save(s, p), defaultPath, validate).value.hydrophonesNumberOption == s.hydrophonesNumberOption
  {
    SavedTextsParse(s, p, defaultPath);
    NoFailureWhenAllParse(Save(s, p), defaultPath);
  }

  /** Loading what was saved restores every toggle, every number and the
      hydrophone option, and hands the saved path to the validator; the
      unsaved fields stay as the loading instance has them. */
  lemma SaveLoadRoundTrip(s: Settings, current: Settings, p: Prefs, defaultPath: string, validate: string -> string)
    requires Complete(s) && NumbersFit(s)
    ensures Load(current, Save(s, p), defaultPath, validate)
         == Ok(current.(flags := s.flags, numbers := s.numbers,
                        hydrophonesNumberOption := s.hydrophonesNumberOption,
                        snapshotSavePath := validate(s.snapshotSavePath)))
  {
    SavedFlagsRestored(s, current, p, defaultPath, validate);
    SavedNumbersRestored(s, current, p, defaultPath, validate);
    SavedRestRestored(s, current, p, defaultPath, validate);
    var v := Load(current, Save(s, p), defaultPath, validate).value;
    assert v == current.(flags := s.flags, numbers := s.numbers,
                         hydrophonesNumberOption := s.hydrophonesNumberOption,
                         snapshotSavePath := validate(s.snapshotSavePath));
  }

  /** Saving never depends on the bearing toggles or the target frame rate. */
  lemma UnsavedFieldsIgnored(s: Settings, p: Prefs, bearing: seq<bool>, frameRate: int)
    requires Complete(s)
    ensures Save(s, p) == Save(s.(visualizeBearing := bearing, simulationTargetFrameRate := frameRate), p)
  {
    var t := s.(visualizeBearing := bearing, simulationTargetFrameRate := frameRate);
    assert forall k: Key :: SavedText(s, k) == SavedText(t, k);
    WriteTextsSame(p, s, t, TextKeys());
  }

  lemma {:induction false} WriteTextsSame(p: Prefs, s: Settings, t: Settings, ks: seq<Key>)
    requires Complete(s) && Complete(t)
    requires forall k: Key :: SavedText(s, k) == SavedText(t, k)
    ensures WriteTexts(p, s, ks) == WriteTexts(p, t, ks)
    decreases |ks|
  {
    if |ks| > 0 {
      WriteTextsSame(p, s, t, ks[..|ks| - 1]);
    }
  }

  lemma DefaultFlagParses(f: Flag, defaultPath: string)
    ensures ParseBool(LoadedText(map[], FlagKey(f), defaultPath)) == Ok(DefaultFlag(f))
  {
    ParseBoolRoundTrip(DefaultFlag(f));
  }

  lemma DefaultNumberParses(n: Number, defaultPath: string)
    ensures ParseInt(LoadedText(map[], NumberKey(n), defaultPath)) == Ok(DefaultNumber(n))
  {
    assert LoadedText(map[], NumberKey(n), defaultPath) == DefaultNumberText(n);
    DefaultTextCanonical(n);
    ParseIntRoundTrip(DefaultNumber(n));
  }

  lemma DefaultTextsParse(defaultPath: string)
    ensures forall f: Flag :: ParseBool(LoadedText(map[], FlagKey(f), defaultPath)) == Ok(DefaultFlag(f))
    ensures forall n: Number :: ParseInt(LoadedText(map[], NumberKey(n), defaultPath)) == Ok(DefaultNumber(n))
  {
    forall f: Flag
      ensures ParseBool(LoadedText(map[], FlagKey(f), defaultPath)) == Ok(DefaultFlag(f))
    {
      DefaultFlagParses(f, defaultPath);
    }
    forall n: Number
      ensures ParseInt(LoadedText(map[], NumberKey(n), defaultPath)) == Ok(DefaultNumber(n))
    {
      DefaultNumberParses(n, defaultPath);
    }
  }

  lemma DefaultFlagLoaded(current: Settings, defaultPath: string, validate: string -> string, f: Flag)
    ensures Load(current, map[], defaultPath, validate).Ok?
    ensures Load(current, map[], defaultPath, validate).value.flags[f] == DefaultFlag(f)
  {
    DefaultTextsParse(defaultPath);
    NoFailureWhenAllParse(map[], defaultPath);
    var v := Load(current, map[], defaultPath, validate).value;
    var t := LoadedText(map[], FlagKey(f), defaultPath);
    assert ParseBool(t) == Ok(v.flags[f]);
  }

  lemma DefaultNumberLoaded(current: Settings, defaultPath: string, validate: string -> string, n: Number)
    ensures Load(current, map[], defaultPath, validate).Ok?
    ensures Load(current, map[], defaultPath, validate).value.numbers[n] == DefaultNumber(n)
  {
    DefaultTextsParse(defaultPath);
    NoFailureWhenAllParse(map[], defaultPath);
    var v := Load(current, map[], defaultPath, validate).value;
    var t := LoadedText(map[], NumberKey(n), defaultPath);
    assert ParseInt(t) == Ok(v.numbers[n]);
  }

  lemma DefaultFlagsLoaded(current: Settings, defaultPath: string, validate: string -> string)
    ensures Load(current, map[], defaultPath, validate).Ok?
    ensures forall f: Flag :: Load(current, map[], defaultPath, validate).value.flags[f] == DefaultFlag(f)
  {
    DefaultFlagLoaded(current, defaultPath, validate, PublishRos);
    forall f: Flag ensures Load(current, map[], defaultPath, validate).value.flags[f] == DefaultFlag(f) {
      DefaultFlagLoaded(current, defaultPath, validate, f);
    }
  }

  lemma DefaultNumbersLoaded(current: Settings, defaultPath: string, validate: string -> string)
    ensures Load(current, map[], defaultPath, validate).Ok?
    ensures forall n: Number :: Load(current, map[], defaultPath, validate).value.numbers[n] == DefaultNumber(n)
  {
    DefaultNumberLoaded(current, defaultPath, validate, PoseRate);
    forall n: Number ensures Load(current, map[], defaultPath, validate).value.numbers[n] == DefaultNumber(n) {
      DefaultNumberLoaded(current, defaultPath, validate, n);
    }
  }

  /** With an empty store every field takes its documented default:
      shadows on, camera rates 10 Hz, hydrophone option 0, and so on. */
  lemma LoadDefaults(current: Settings, defaultPath: string, validate: string -> string)
    ensures var r := Load(current, map[], defaultPath, validate);
            r.Ok?
            && (forall f: Flag :: r.value.flags[f] == DefaultFlag(f))
            && (forall n: Number :: r.value.numbers[n] == DefaultNumber(n))
            && r.value.hydrophonesNumberOption == 0
            && r.value.snapshotSavePath == validate(defaultPath)
  {
    DefaultFlagsLoaded(current, defaultPath, validate);
    DefaultNumbersLoaded(current, defaultPath, validate);
    DefaultRestLoaded(current, defaultPath, validate);
  }

  lemma DefaultRestLoaded(current: Settings, defaultPath: string, validate: string -> string)
    ensures Load(current, map[], defaultPath, validate).Ok?
    ensures Load(current, map[], defaultPath, validate).value.hydrophonesNumberOption == 0
    ensures Load(current, map[], defaultPath, validate).value.snapshotSavePath == validate(defaultPath)
  {
    DefaultFlagLoaded(current, defaultPath, validate, PublishRos);
    EmptyStoreRest(defaultPath);
  }

  lemma EmptyStoreRest(defaultPath: string)
    ensures GetInt(map[], KeyName(HydrophonesOptionKey), 0) == 0
    ensures LoadedText(map[], SnapshotPathKey, defaultPath) == defaultPath
  {
  }

  /** Each default number's fallback text is exactly what `ToString` would
      write for it. */
  lemma DefaultTextCanonical(n: Number)
    ensures DefaultNumberText(n) == IntToString(DefaultNumber(n))
  {
    match n
    case FrontCamRate =>
      assert NatDigits(10) == NatDigits(1) + ['0'];
    case DownCamRate =>
      assert NatDigits(10) == NatDigits(1) + ['0'];
    case FrontCamWidth =>
      assert NatDigits(96) == NatDigits(9) + ['6'];
      assert NatDigits(960) == NatDigits(96) + ['0'];
    case FrontCamHeight =>
      assert NatDigits(60) == NatDigits(6) + ['0'];
      assert NatDigits(600) == NatDigits(60) + ['0'];
    case DownCamWidth =>
      assert NatDigits(64) == NatDigits(6) + ['4'];
      assert NatDigits(640) == NatDigits(64) + ['0'];
    case DownCamHeight =>
      assert NatDigits(48) == NatDigits(4) + ['8'];
      assert NatDigits(480) == NatDigits(48) + ['0'];
    case PoseRate =>
      assert NatDigits(50) == NatDigits(5) + ['0'];
    case QualityLevel =>
  }
}

=== FILE: sim_origin.dfy ===
/** The simulation origin: the odometry frame, captured once from the AUV's
    start pose projected to the water surface, and the two point transforms
    between the Unity world and that frame.
 */
module SimOrigin {
  import opened Wrappers
  import opened Geometry

  datatype Origin = Origin(
    initialPosition: Vec3,
    initialRotation: Quat,
    isInitialized: bool,
    captureAuvStartPose: bool)

  /** The AUV transform as found through the settings singleton. */
  datatype AuvPose = AuvPose(position: Vec3, rotation: Quat)

  /** A component before initialization, with the inspector default of
      capturing the AUV start pose. */
  const Fresh: Origin := Origin(Zero, Identity, false, true)

  /** `InitializeOrigin`. `auv` is None when the settings singleton or its
      AUV transform is missing. */
  function InitializeOrigin(o: Origin, auv: Option<AuvPose>): (r: Origin)
    ensures o.isInitialized ==> r == o
    ensures r.isInitialized && r.captureAuvStartPose == o.captureAuvStartPose
    ensures !o.isInitialized && o.captureAuvStartPose && auv.Some? ==>
              r.initialPosition == Vec3(auv.value.position.x, 0.0, auv.value.position.z)
              && r.initialRotation == auv.value.rotation
    ensures !o.isInitialized && !(o.captureAuvStartPose && auv.Some?) ==>
              r.initialPosition == Zero && r.initialRotation == Identity
    ensures r.initialPosition.y == 0.0 || o.isInitialized
  {
    if o.isInitialized then o
    else if o.captureAuvStartPose && auv.Some? then
      var p := auv.value.position;
      o.(initialPosition := Vec3(p.x, 0.0, p.z), initialRotation := auv.value.rotation, isInitialized := true)
    else o.(initialPosition := Zero, initialRotation := Identity, isInitialized := true)
  }

  /** Once initialized the origin never moves: `Start` repeating the call
      made in `Awake` keeps the first capture, wherever the AUV is by then. */
  lemma InitializeIdempotent(o: Origin, first: Option<AuvPose>, second: Option<AuvPose>)
    ensures InitializeOrigin(InitializeOrigin(o, first), second) == InitializeOrigin(o, first)
  {
  }

  /** The `Instance` getter: an existing component, or an auto-created one
      that is initialized at once. */
  function Instance(existing: Option<Origin>, auv: Option<AuvPose>): (r: Origin)
    ensures existing.Some? ==> r == existing.value
    ensures existing.None? ==> r.isInitialized
  {
    match existing
    case Some(o) => o
    case None => InitializeOrigin(Fresh, auv)
  }

  /** A unit rotation and its conjugate undo each other, and the identity
      rotation, conjugated or not, moves nothing. */
  lemma UndoRotation(q: Quat, v: Vec3)
    ensures IsUnit(q) ==> Rotate(q, Rotate(Conj(q), v)) == v && Rotate(Conj(q), Rotate(q, v)) == v
    ensures q == Identity ==> Rotate(Conj(q), v) == v && Rotate(q, v) == v
  {
    if IsUnit(q) {
      RotateConjInverse(q, v);
    }
    if q == Identity {
      assert Conj(Identity) == Identity;
      RotateIdentity(v);
    }
  }

  /** `TransformPointToLocal`: the displacement from the origin, rotated
      into the initial frame. */
  function ToLocal(o: Origin, worldPos: Vec3): (r: Vec3)
    ensures IsUnit(o.initialRotation) ==> Rotate(o.initialRotation, r) == Sub(worldPos, o.initialPosition)
    ensures o.initialRotation == Identity ==> r == Sub(worldPos, o.initialPosition)
  {
    var d := Sub(worldPos, o.initialPosition);
    UndoRotation(o.initialRotation, d);
    Rotate(Conj(o.initialRotation), d)
  }

  /** `TransformPointToWorld`. */
  function ToWorld(o: Origin, localPos: Vec3): (r: Vec3)
    ensures IsUnit(o.initialRotation) ==> Rotate(Conj(o.initialRotation), Sub(r, o.initialPosition)) == localPos
    ensures o.initialRotation == Identity ==> r == Add(o.initialPosition, localPos)
  {
    var w := Rotate(o.initialRotation, localPos);
    assert Sub(Add(o.initialPosition, w), o.initialPosition) == w;
    UndoRotation(o.initialRotation, localPos);
    Add(o.initialPosition, w)
  }

  /** The two transforms are inverse to each other for a unit rotation. */
  lemma LocalWorldRoundTrip(o: Origin, p: Vec3, l: Vec3)
    requires IsUnit(o.initialRotation)
    ensures ToWorld(o, ToLocal(o, p)) == p
    ensures ToLocal(o, ToWorld(o, l)) == l
  {
    var d := Sub(p, o.initialPosition);
    RotateConjInverse(o.initialRotation, d);
    var w := Rotate(o.initialRotation, l);
    assert Sub(Add(o.initialPosition, w), o.initialPosition) == w;
    RotateConjInverse(o.initialRotation, l);
  }

  /** The origin itself is the local zero, whatever the rotation. */
  lemma OriginIsLocalZero(o: Origin)
    ensures ToLocal(o, o.initialPosition) == Zero
  {
    assert Sub(o.initialPosition, o.initialPosition) == Zero;
    RotateZero(Conj(o.initialRotation));
  }

  /** Without a captured pose the local frame is the world frame. */
  lemma DefaultOriginIsWorld(o: Origin, p: Vec3)
    requires !o.isInitialized && !o.captureAuvStartPose
    ensures ToLocal(InitializeOrigin(o, None), p) == p
    ensures ToWorld(InitializeOrigin(o, None), p) == p
  {
    var r := InitializeOrigin(o, None);
    assert Sub(p, Zero) == p;
    assert Conj(Identity) == Identity;
    RotateIdentity(p);
    assert Add(Zero, p) == p;
  }
}

=== FILE: text.dfy ===
/** The .NET text conversions the settings store relies on: `bool.ToString`
    and `bool.Parse`, `int.ToString` and `int.Parse`, with the white space
    each parser tolerates; letter case is folded for ASCII letters.
 */
module Text {
  import opened Wrappers

  const Int32Min: int := -0x8000_0000
  const Int32Max: int := 0x7FFF_FFFF

  predicate IsInt32(n: int) { Int32Min <= n <= Int32Max }

  function LowerChar(c: char): char
  {
    if 'A' <= c <= 'Z' then (c as int - 'A' as int + 'a' as int) as char else c
  }

  /** ASCII lower-casing, for the case-insensitive comparisons of `bool.Parse`. */
  function Lower(s: string): (r: string)
    ensures |r| == |s|
    ensures forall i :: 0 <= i < |s| ==> r[i] == LowerChar(s[i])
  {
    seq(|s|, i requires 0 <= i < |s| => LowerChar(s[i]))
  }

  /** Lower-casing twice is lower-casing once. */
  lemma LowerIdempotent(s: string)
    ensures Lower(Lower(s)) == Lower(s)
  {
  }

  /** `bool.ToString`. */
  function BoolToString(b: bool): string
  {
    if b then "True" else "False"
  }

  /** `char.IsWhiteSpace`: the Unicode space, line and paragraph
      separators, the controls U+0009 to U+000D, and U+0085. */
  predicate IsWhiteSpace(c: char)
  {
    c == ' ' || '\t' <= c <= '\r' || c == '\U{0085}' || c == '\U{00A0}' || c == '\U{1680}'
    || '\U{2000}' <= c <= '\U{200A}' || c == '\U{2028}' || c == '\U{2029}'
    || c == '\U{202F}' || c == '\U{205F}' || c == '\U{3000}'
  }

  /** What `bool.Parse` trims from both ends: white space and NUL. */
  predicate IsWhiteOrNul(c: char) { IsWhiteSpace(c) || c == '\0' }

  /** The white space `int.Parse` skips: U+0009 to U+000D and the space. */
  predicate IsNumberWhite(c: char) { c == ' ' || '\t' <= c <= '\r' }

  predicate IsNul(c: char) { c == '\0' }

  /** `s` without its leading characters that satisfy `drop`. */
  function TrimLeading(s: string, drop: char -> bool): (r: string)
    ensures |r| <= |s| && r == s[|s| - |r|..]
    ensures |r| > 0 ==> !drop(r[0])
    ensures forall i :: 0 <= i < |s| - |r| ==> drop(s[i])
    decreases |s|
  {
    if |s| > 0 && drop(s[0]) then
      var r := TrimLeading(s[1..], drop);
      assert s[1..][|s| - 1 - |r|..] == s[|s| - |r|..];
      assert forall i :: 1 <= i < |s| - |r| ==> s[i] == s[1..][i - 1];
      r
    else s
  }

  /** `s` without its trailing characters that satisfy `drop`. */
  function TrimTrailing(s: string, drop: char -> bool): (r: string)
    ensures |r| <= |s| && r == s[..|r|]
    ensures |r| > 0 ==> !drop(r[|r| - 1])
    ensures forall i :: |r| <= i < |s| ==> drop(s[i])
    decreases |s|
  {
    if |s| > 0 && drop(s[|s| - 1]) then TrimTrailing(s[..|s| - 1], drop) else s
  }

  /** Characters that `drop` accepts in front of `x` are all trimmed. */
  lemma {:induction false} TrimLeadingSkips(pre: string, x: string, drop: char -> bool)
    requires forall i :: 0 <= i < |pre| ==> drop(pre[i])
    ensures TrimLeading(pre + x, drop) == TrimLeading(x, drop)
    decreases |pre|
  {
    if |pre| > 0 {
      assert (pre + x)[1..] == pre[1..] + x;
      TrimLeadingSkips(pre[1..], x, drop);
    } else {
      assert pre + x == x;
    }
  }

  /** Characters that `drop` accepts behind `x` are all trimmed. */
  lemma {:induction false} TrimTrailingSkips(x: string, post: string, drop: char -> bool)
    requires forall i :: 0 <= i < |post| ==> drop(post[i])
    ensures TrimTrailing(x + post, drop) == TrimTrailing(x, drop)
    decreases |post|
  {
    if |post| > 0 {
      var p' := post[..|post| - 1];
      assert (x + post)[..|x + post| - 1] == x + p';
      TrimTrailingSkips(x, p', drop);
    } else {
      assert x + post == x;
    }
  }

  /** Leading padding in front of a character `drop` keeps is trimmed exactly. */
  lemma TrimLeadingKeeps(pre: string, x: string, drop: char -> bool)
    requires |x| > 0 && !drop(x[0])
    requires forall i :: 0 <= i < |pre| ==> drop(pre[i])
    ensures TrimLeading(pre + x, drop) == x
  {
    TrimLeadingSkips(pre, x, drop);
  }

  /** Trailing padding behind a character `drop` keeps is trimmed exactly. */
  lemma TrimTrailingKeeps(x: string, post: string, drop: char -> bool)
    requires |x| > 0 && !drop(x[|x| - 1])
    requires forall i :: 0 <= i < |post| ==> drop(post[i])
    ensures TrimTrailing(x + post, drop) == x
  {
    TrimTrailingSkips(x, post, drop);
  }

  /** Padding that `drop` accepts on both sides of a word that starts and
      ends with characters `drop` keeps is trimmed back to the word. */
  lemma TrimBothKeeps(pre: string, t: string, post: string, drop: char -> bool)
    requires |t| > 0 && !drop(t[0]) && !drop(t[|t| - 1])
    requires forall i :: 0 <= i < |pre| ==> drop(pre[i])
    requires forall i :: 0 <= i < |post| ==> drop(post[i])
    ensures TrimTrailing(TrimLeading(pre + t + post, drop), drop) == t
  {
    assert pre + t + post == pre + (t + post);
    TrimLeadingSkips(pre, t + post, drop);
    assert (t + post)[0] == t[0];
    assert TrimLeading(t + post, drop) == t + post;
    TrimTrailingSkips(t, post, drop);
    assert TrimTrailing(t, drop) == t;
  }

  /** The text `bool.Parse` compares: trimmed of white space and NUL. */
  function BoolCore(s: string): string
  {
    TrimTrailing(TrimLeading(s, IsWhiteOrNul), IsWhiteOrNul)
  }

  /** `bool.Parse`: "true" or "false" in any letter case once white space
      and NUL characters are trimmed from both ends; anything else throws. */
  function ParseBool(s: string): (r: Result<bool>)
    ensures r.Ok? <==> Lower(BoolCore(s)) == "true" || Lower(BoolCore(s)) == "false"
    ensures r.Ok? ==> (r.value <==> Lower(BoolCore(s)) == "true")
    ensures r.Err? ==> r.error == FormatError(s)
  {
    var t := Lower(BoolCore(s));
    if t == "true" then Ok(true)
    else if t == "false" then Ok(false)
    else Err(FormatError(s))
  }

  /** Both spellings that `ToString` produces, and the lower-case defaults
      the loader falls back to, parse back to their value. */
  lemma ParseBoolRoundTrip(b: bool)
    ensures ParseBool(BoolToString(b)) == Ok(b)
    ensures ParseBool(if b then "true" else "false") == Ok(b)
  {
    SpellingParses(b, BoolToString(b));
    SpellingParses(b, if b then "true" else "false");
  }

  lemma SpellingParses(b: bool, t: string)
    requires t == BoolToString(b) || t == (if b then "true" else "false")
    ensures ParseBool(t) == Ok(b)
  {
    ParseBoolPadded(b, t, "", "");
    assert "" + t + "" == t;
  }

  /** A spelling of `b` surrounded by white space and NUL characters
      still parses to `b`. */
  lemma ParseBoolPadded(b: bool, t: string, pre: string, post: string)
    requires t == BoolToString(b) || t == (if b then "true" else "false")
    requires forall i :: 0 <= i < |pre| ==> IsWhiteOrNul(pre[i])
    requires forall i :: 0 <= i < |post| ==> IsWhiteOrNul(post[i])
    ensures ParseBool(pre + t + post) == Ok(b)
  {
    assert |t| >= 4 && (t[0] == 'T' || t[0] == 't' || t[0] == 'F' || t[0] == 'f') && t[|t| - 1] == 'e';
    TrimBothKeeps(pre, t, post, IsWhiteOrNul);
    LowerSpellings(b);
  }

  lemma LowerSpellings(b: bool)
    ensures Lower(BoolToString(b)) == (if b then "true" else "false")
    ensures Lower(if b then "true" else "false") == (if b then "true" else "false")
  {
    if b {
      assert Lower("True") == "true";
      assert Lower("true") == "true";
    } else {
      assert Lower("False") == "false";
      assert Lower("false") == "false";
    }
  }

  /** A string that is not a spelling of a boolean is rejected. */
  lemma ParseBoolRejects()
    ensures ParseBool("yes").Err?
    ensures ParseBool("").Err?
    ensures ParseBool("t rue").Err?
  {
    ParseBoolNotWord("yes");
    assert BoolCore("") == "";
    NotBoolWord("");
    ParseBoolNotWord("t rue");
  }

  /** Text with kept ends that is neither spelling once lower-cased is rejected. */
  lemma ParseBoolNotWord(s: string)
    requires |s| > 0 && !IsWhiteOrNul(s[0]) && !IsWhiteOrNul(s[|s| - 1])
    requires |s| != 4 && (|s| != 5 || LowerChar(s[1]) != 'a')
    ensures ParseBool(s).Err?
  {
    BoolCoreKeeps(s);
    NotBoolWord(s);
  }


  /** Words of the wrong length, or with anything but an `a` second, are
      neither spelling. */
  lemma NotBoolWord(t: string)
    requires |t| != 4 && (|t| != 5 || LowerChar(t[1]) != 'a')
    ensures Lower(t) != "true" && Lower(t) != "false"
  {
    if |t| == 5 {
      assert Lower(t)[1] != "false"[1];
    }
  }

  /** Text that starts and ends with characters `bool.Parse` does not trim
      is compared as it stands. */
  lemma BoolCoreKeeps(s: string)
    requires |s| > 0 && !IsWhiteOrNul(s[0]) && !IsWhiteOrNul(s[|s| - 1])
    ensures BoolCore(s) == s
  {
    TrimLeadingKeeps("", s, IsWhiteOrNul);
    assert "" + s == s;
    TrimTrailingKeeps(s, "", IsWhiteOrNul);
    assert s + "" == s;
  }

  predicate IsDigit(c: char) { '0' <= c <= '9' }

  function DigitChar(d: nat): char
    requires d < 10
  {
    ('0' as int + d) as char
  }

  function DigitValue(c: char): nat
    requires IsDigit(c)
  {
    c as int - '0' as int
  }

  predicate AllDigits(s: string) { forall i :: 0 <= i < |s| ==> IsDigit(s[i]) }

  /** Decimal digits of a natural number, most significant first, no leading zeros. */
  function NatDigits(n: nat): (s: string)
    ensures |s| >= 1 && AllDigits(s)
    decreases n
  {
    if n < 10 then [DigitChar(n)] else NatDigits(n / 10) + [DigitChar(n % 10)]
  }

  /** The value of a string of decimal digits. */
  function DigitsValue(s: string): nat
    requires AllDigits(s)
    decreases |s|
  {
    if |s| == 0 then 0 else DigitsValue(s[..|s| - 1]) * 10 + DigitValue(s[|s| - 1])
  }

  lemma {:induction false} DigitsRoundTrip(n: nat)
    ensures DigitsValue(NatDigits(n)) == n
    decreases n
  {
    var s := NatDigits(n);
    if n >= 10 {
      DigitsRoundTrip(n / 10);
      assert s[..|s| - 1] == NatDigits(n / 10);
      assert DigitValue(s[|s| - 1]) == n % 10;
    }
  }

  /** `int.ToString` with the invariant culture. */
  function IntToString(n: int): string
  {
    if n < 0 then "-" + NatDigits(-n) else NatDigits(n)
  }

  /** The text `int.Parse` reads as a number: leading white space
      skipped, then trailing NUL characters and trailing white space. */
  function IntCore(s: string): string
  {
    TrimTrailing(TrimTrailing(TrimLeading(s, IsNumberWhite), IsNul), IsNumberWhite)
  }

  /** The number part of `int.Parse`: an optional sign and at least one
      digit; a value outside the 32-bit range overflows. Errors name the
      whole input `s`. */
  function ParseNumber(c: string, s: string): (r: Result<int>)
    ensures r.Ok? ==> IsInt32(r.value)
    ensures r.Err? ==> r.error == FormatError(s) || r.error == Overflow(s)
  {
    var neg := |c| > 0 && c[0] == '-';
    var body := if |c| > 0 && (c[0] == '-' || c[0] == '+') then c[1..] else c;
    if |body| == 0 || !AllDigits(body) then Err(FormatError(s))
    else
      var mag: int := DigitsValue(body);
      var v := if neg then -mag else mag;
      if IsInt32(v) then Ok(v) else Err(Overflow(s))
  }

  /** `int.Parse`: optional surrounding white space around the number part. */
  function ParseInt(s: string): (r: Result<int>)
    ensures r.Ok? ==> IsInt32(r.value)
    ensures r.Err? ==> r.error == FormatError(s) || r.error == Overflow(s)
  {
    ParseNumber(IntCore(s), s)
  }

  /** Every 32-bit integer survives the text round trip. */
  lemma ParseIntRoundTrip(n: int)
    requires IsInt32(n)
    ensures ParseInt(IntToString(n)) == Ok(n)
  {
    var s := IntToString(n);
    IntToStringEnds(n);
    IntCoreKeeps(s);
    NumberCanonical(n, s);
  }

  /** White space in front, white space and then NUL characters behind:
      the number still reads back. */
  lemma ParseIntPadded(n: int, pre: string, white: string, nuls: string)
    requires IsInt32(n)
    requires forall i :: 0 <= i < |pre| ==> IsNumberWhite(pre[i])
    requires forall i :: 0 <= i < |white| ==> IsNumberWhite(white[i])
    requires forall i :: 0 <= i < |nuls| ==> IsNul(nuls[i])
    ensures ParseInt(pre + IntToString(n) + white + nuls) == Ok(n)
  {
    var s := IntToString(n);
    IntToStringEnds(n);
    IntCorePadded(s, pre, white, nuls);
    NumberCanonical(n, pre + s + white + nuls);
  }

  /** The canonical spelling starts with a sign or a digit and ends with a digit. */
  lemma IntToStringEnds(n: int)
    ensures var s := IntToString(n);
            |s| > 0 && (s[0] == '-' || IsDigit(s[0])) && IsDigit(s[|s| - 1])
  {
    if n < 0 {
      var d := NatDigits(-n);
      assert IntToString(n) == "-" + d;
      assert IntToString(n)[|IntToString(n)| - 1] == d[|d| - 1];
    }
  }

  lemma IntCorePadded(s: string, pre: string, white: string, nuls: string)
    requires |s| > 0 && (s[0] == '-' || IsDigit(s[0])) && IsDigit(s[|s| - 1])
    requires forall i :: 0 <= i < |pre| ==> IsNumberWhite(pre[i])
    requires forall i :: 0 <= i < |white| ==> IsNumberWhite(white[i])
    requires forall i :: 0 <= i < |nuls| ==> IsNul(nuls[i])
    ensures IntCore(pre + s + white + nuls) == s
  {
    var sw := s + white;
    assert pre + s + white + nuls == pre + (sw + nuls);
    assert (sw + nuls)[0] == s[0];
    TrimLeadingKeeps(pre, sw + nuls, IsNumberWhite);
    assert !IsNul(sw[|sw| - 1]) by {
      if |white| > 0 {
        assert sw[|sw| - 1] == white[|white| - 1];
      } else {
        assert sw[|sw| - 1] == s[|s| - 1];
      }
    }
    TrimTrailingKeeps(sw, nuls, IsNul);
    TrimTrailingKeeps(s, white, IsNumberWhite);
  }

  /** The canonical spelling of `n` reads as `n`. */
  lemma NumberCanonical(n: int, x: string)
    requires IsInt32(n)
    ensures ParseNumber(IntToString(n), x) == Ok(n)
  {
    var s := IntToString(n);
    if n < 0 {
      DigitsRoundTrip(-n);
      assert s[0] == '-';
      assert s[1..] == NatDigits(-n);
    } else {
      DigitsRoundTrip(n);
      assert IsDigit(s[0]);
    }
  }

  /** Text that is not a number is rejected rather than read as zero. */
  lemma ParseIntRejects()
    ensures ParseInt("").Err?
    ensures ParseInt("-").Err?
    ensures ParseInt("1a").Err?
    ensures ParseInt("- 1").Err?
  {
    assert IntCore("") == "";
    ParseIntSignOnly('-');
    assert ['-'] == "-";
    ParseIntNonDigit("1a", 1);
    ParseIntNonDigit("- 1", 1);
  }

  /** A sign with no digits is rejected. */
  lemma ParseIntSignOnly(c: char)
    requires c == '-' || c == '+'
    ensures ParseInt([c]).Err?
  {
    IntCoreKeeps([c]);
    assert [c][1..] == [];
  }

  /** A character other than a digit after the first position is rejected. */
  lemma ParseIntNonDigit(s: string, k: int)
    requires |s| > 0 && !IsNumberWhite(s[0])
    requires !IsNul(s[|s| - 1]) && !IsNumberWhite(s[|s| - 1])
    requires 0 < k < |s| && !IsDigit(s[k])
    ensures ParseInt(s).Err?
  {
    IntCoreKeeps(s);
    if s[0] == '-' || s[0] == '+' {
      assert s[1..][k - 1] == s[k];
    }
  }

  /** Text that starts and ends with characters `int.Parse` does not skip
      is its own number part. */
  lemma IntCoreKeeps(s: string)
    requires |s| > 0 && !IsNumberWhite(s[0])
    requires !IsNul(s[|s| - 1]) && !IsNumberWhite(s[|s| - 1])
    ensures IntCore(s) == s
  {
    TrimLeadingKeeps("", s, IsNumberWhite);
    assert "" + s == s;
    TrimTrailingKeeps(s, "", IsNul);
    TrimTrailingKeeps(s, "", IsNumberWhite);
    assert s + "" == s;
  }

  /** `string.Join(sep, lines)` with a one-character separator: the empty
      list joins to the empty string. */
  function Join(sep: char, lines: seq<string>): string
    decreases |lines|
  {
    if |lines| == 0 then ""
    else if |lines| == 1 then lines[0]
    else lines[0] + [sep] + Join(sep, lines[1..])
  }

  /** Splitting at every separator: the reference inverse of `Join`. */
  function Split(sep: char, s: string): (r: seq<string>)
    ensures |r| >= 1
    decreases |s|
  {
    if |s| == 0 then [""]
    else
      var rest := Split(sep, s[1..]);
      if s[0] == sep then [""] + rest else [[s[0]] + rest[0]] + rest[1..]
  }

  predicate NoSep(sep: char, s: string)
  {
    forall i :: 0 <= i < |s| ==> s[i] != sep
  }

  lemma {:induction false} SplitSepFree(sep: char, a: string, b: string)
    requires NoSep(sep, a)
    ensures Split(sep, a + b) == [a + Split(sep, b)[0]] + Split(sep, b)[1..]
    decreases |a|
  {
    if |a| > 0 {
      assert (a + b)[1..] == a[1..] + b;
      SplitSepFree(sep, a[1..], b);
      assert [a[0]] + (a[1..] + Split(sep, b)[0]) == a + Split(sep, b)[0];
    } else {
      var r := Split(sep, b);
      assert a + b == b && a + r[0] == r[0];
      assert [r[0]] + r[1..] == r;
    }
  }

  /** Joining lines that do not contain the separator and splitting the
      result gives the lines back; a list needs at least one line, since
      no lines and one empty line both join to "". */
  lemma {:induction false} SplitJoin(sep: char, lines: seq<string>)
    requires |lines| >= 1
    requires forall i :: 0 <= i < |lines| ==> NoSep(sep, lines[i])
    ensures Split(sep, Join(sep, lines)) == lines
    decreases |lines|
  {
    if |lines| == 1 {
      SplitSepFree(sep, lines[0], "");
      assert lines[0] + "" == lines[0];
    } else {
      var tail := Join(sep, lines[1..]);
      SplitJoin(sep, lines[1..]);
      SplitSepFree(sep, lines[0], [sep] + tail);
      assert ([sep] + tail)[1..] == tail;
      assert lines[0] + [sep] + tail == lines[0] + ([sep] + tail);
      assert Split(sep, [sep] + tail) == [""] + lines[1..];
      assert lines[0] + "" == lines[0];
      assert [lines[0]] + lines[1..] == lines;
    }
  }
}

=== FILE: thrusters.dfy ===
/** The eight thrusters: keyboard input and ROS commands summed per
    thruster, ramped toward that target at a fixed rate, scaled by the
    thruster's efficiency and saturated at the maximum force.
 */
module Thrusters {
  import opened Wrappers
  import opened Geometry

  const Count: nat := 8

  /** Inspector values (newtons, newtons per second). */
  datatype Config = Config(
    sinkForce: real,
    floatForce: real,
    moveForce: real,
    rotationForce: real,
    maxThrusterForce: real,
    rampRate: real)

  const DefaultConfig: Config := Config(30.0, 12.0, 15.0, 1.0, 50.0, 100.0)

  /** The movement keys, in the order the input handler tests them. */
  datatype Key = Pitch | Yaw | NegPitch | NegYaw | NegRoll | Roll
               | Surge | Sway | NegSurge | NegSway | NegHeave | Heave
  {
    /** The keys that drive the horizontal thrusters 0, 3, 4 and 7. */
    predicate Horizontal()
    {
      this in {Yaw, NegYaw, Surge, Sway, NegSurge, NegSway}
    }

    predicate IsHeave()
    {
      this == NegHeave || this == Heave
    }
  }

  const KeyOrder: seq<Key> := [Pitch, Yaw, NegPitch, NegYaw, NegRoll, Roll,
                               Surge, Sway, NegSurge, NegSway, NegHeave, Heave]

  /** The opposite pairs: pitch, yaw, roll, surge and sway. */
  predicate Opposite(a: Key, b: Key)
  {
    (a, b) in {(Pitch, NegPitch), (Yaw, NegYaw), (NegRoll, Roll), (Surge, NegSurge), (Sway, NegSway)}
  }

  predicate IsVector(v: seq<real>) { |v| == Count }

  const Zeros: seq<real> := [0.0, 0.0, 0.0, 0.0, 0.0, 0.0, 0.0, 0.0]

  function AddVec(a: seq<real>, b: seq<real>): (r: seq<real>)
    requires |a| == |b|
    ensures |r| == |a|
    ensures forall i :: 0 <= i < |a| ==> r[i] == a[i] + b[i]
  {
    seq(|a|, i requires 0 <= i < |a| => a[i] + b[i])
  }

  /** The sum of the eight forces. */
  function Total(v: seq<real>): real
    requires IsVector(v)
  {
    v[0] + v[1] + v[2] + v[3] + v[4] + v[5] + v[6] + v[7]
  }

  /** What one held key adds to the eight input forces. Horizontal keys
      touch only thrusters 0, 3, 4 and 7, the others only 1, 2, 5 and 6;
      every key except the two heave keys adds forces summing to zero. */
  function Contribution(c: Config, k: Key): (f: seq<real>)
    ensures IsVector(f)
    ensures k.Horizontal() ==> f[1] == 0.0 && f[2] == 0.0 && f[5] == 0.0 && f[6] == 0.0
    ensures !k.Horizontal() ==> f[0] == 0.0 && f[3] == 0.0 && f[4] == 0.0 && f[7] == 0.0
    ensures !k.IsHeave() ==> Total(f) == 0.0
    ensures k == NegHeave ==> Total(f) == c.sinkForce
    ensures k == Heave ==> Total(f) == -c.floatForce
  {
    var r := c.rotationForce / 4.0;
    var m := c.moveForce / 4.0;
    var h := c.moveForce / 2.0;
    var s := c.sinkForce / 4.0;
    var fl := c.floatForce / 4.0;
    var f := match k
      case Pitch => [0.0, -r, r, 0.0, 0.0, r, -r, 0.0]
      case Yaw => [r, 0.0, 0.0, -r, r, 0.0, 0.0, -r]
      case NegPitch => [0.0, r, -r, 0.0, 0.0, -r, r, 0.0]
      case NegYaw => [-r, 0.0, 0.0, r, -r, 0.0, 0.0, r]
      case NegRoll => [0.0, -r, -r, 0.0, 0.0, r, r, 0.0]
      case Roll => [0.0, r, r, 0.0, 0.0, -r, -r, 0.0]
      case Surge => [m, 0.0, 0.0, -m, -m, 0.0, 0.0, m]
      case Sway => [-h, 0.0, 0.0, -h, h, 0.0, 0.0, h]
      case NegSurge => [-m, 0.0, 0.0, m, m, 0.0, 0.0, -m]
      case NegSway => [h, 0.0, 0.0, h, -h, 0.0, 0.0, -h]
      case NegHeave => [0.0, s, s, 0.0, 0.0, s, s, 0.0]
      case Heave => [0.0, -fl, -fl, 0.0, 0.0, -fl, -fl, 0.0];
    f
  }

  /** The forces of the held keys among `keys`, added in the order given. */
  function Accumulate(c: Config, keys: seq<Key>, held: set<Key>): (v: seq<real>)
    ensures IsVector(v)
    decreases |keys|
  {
    if |keys| == 0 then Zeros
    else
      var prefix := Accumulate(c, keys[..|keys| - 1], held);
      var k := keys[|keys| - 1];
      if k in held then AddVec(prefix, Contribution(c, k)) else prefix
  }

  /** `HandleMovementInput`: frozen, or with the HUD's text field focused,
      the input forces are left as they are; otherwise they are cleared and
      each held key adds its forces. */
  function HandleMovementInput(c: Config, isFrozen: bool, typing: bool, input: seq<real>, held: set<Key>): (r: seq<real>)
    ensures isFrozen || typing ==> r == input
    ensures !isFrozen && !typing ==> IsVector(r) && r == Accumulate(c, KeyOrder, held)
    ensures !isFrozen && !typing && held == {} ==> r == Zeros
  {
    if isFrozen || typing then input
    else
      NoKeysNoForce(c, KeyOrder);
      Accumulate(c, KeyOrder, held)
  }

  lemma {:induction false} NoKeysNoForce(c: Config, keys: seq<Key>)
    ensures Accumulate(c, keys, {}) == Zeros
    decreases |keys|
  {
    if |keys| > 0 {
      NoKeysNoForce(c, keys[..|keys| - 1]);
    }
  }

  /** Holding only horizontal keys leaves the vertical thrusters at zero,
      and holding only the others leaves the horizontal thrusters at zero. */
  lemma {:induction false} InputSupport(c: Config, keys: seq<Key>, held: set<Key>)
    ensures (forall k :: k in held ==> k.Horizontal()) ==>
              var v := Accumulate(c, keys, held);
              v[1] == 0.0 && v[2] == 0.0 && v[5] == 0.0 && v[6] == 0.0
    ensures (forall k :: k in held ==> !k.Horizontal()) ==>
              var v := Accumulate(c, keys, held);
              v[0] == 0.0 && v[3] == 0.0 && v[4] == 0.0 && v[7] == 0.0
    decreases |keys|
  {
    if |keys| > 0 {
      InputSupport(c, keys[..|keys| - 1], held);
    }
  }

  /** Adding one more held key adds exactly its forces, wherever it sits
      in the order. */
  lemma {:induction false} AddHeldKey(c: Config, keys: seq<Key>, held: set<Key>, a: Key, i: int)
    requires a !in held
    requires forall x, y :: 0 <= x < y < |keys| ==> keys[x] != keys[y]
    requires 0 <= i < Count
    ensures Accumulate(c, keys, held + {a})[i]
         == Accumulate(c, keys, held)[i] + (if a in keys then Contribution(c, a)[i] else 0.0)
    decreases |keys|
  {
    if |keys| > 0 {
      var init := keys[..|keys| - 1];
      AddHeldKey(c, init, held, a, i);
      var k := keys[|keys| - 1];
      assert a in keys <==> a in init || a == k;
      assert a == k ==> a !in init;
    }
  }

  lemma KeyOrderDistinct()
    ensures forall x, y :: 0 <= x < y < |KeyOrder| ==> KeyOrder[x] != KeyOrder[y]
    ensures forall k: Key :: k in KeyOrder
  {
    forall k: Key ensures k in KeyOrder {
      var i := match k
        case Pitch => 0 case Yaw => 1 case NegPitch => 2 case NegYaw => 3
        case NegRoll => 4 case Roll => 5 case Surge => 6 case Sway => 7
        case NegSurge => 8 case NegSway => 9 case NegHeave => 10 case Heave => 11;
      assert KeyOrder[i] == k;
    }
  }

  /** The two keys of an opposite pair add opposite forces. */
  lemma OppositeContributions(c: Config, a: Key, b: Key, i: int)
    requires Opposite(a, b)
    requires 0 <= i < Count
    ensures Contribution(c, a)[i] + Contribution(c, b)[i] == 0.0
  {
  }

  /** Opposite keys cancel exactly: holding both is the same as holding
      neither. */
  lemma OppositePairsCancel(c: Config, held: set<Key>, a: Key, b: Key)
    requires Opposite(a, b)
    requires a !in held && b !in held
    ensures Accumulate(c, KeyOrder, held + {a, b}) == Accumulate(c, KeyOrder, held)
  {
    var with := Accumulate(c, KeyOrder, held + {a, b});
    var without := Accumulate(c, KeyOrder, held);
    KeyOrderDistinct();
    assert held + {a} + {b} == held + {a, b};
    assert b !in held + {a};
    forall i | 0 <= i < Count ensures with[i] == without[i] {
      AddHeldKey(c, KeyOrder, held, a, i);
      AddHeldKey(c, KeyOrder, held + {a}, b, i);
      OppositeContributions(c, a, b, i);
    }
  }

  lemma TotalAdd(a: seq<real>, b: seq<real>)
    requires IsVector(a) && IsVector(b)
    ensures Total(AddVec(a, b)) == Total(a) + Total(b)
  {
  }

  /** One thruster's physics step: skipped above the surface; otherwise the
      level ramps toward the ROS plus keyboard target, is scaled by the
      thruster's efficiency and saturated. Returns the new level and the
      force applied, if any. */
  function ThrusterStep(c: Config, level: real, target: real, efficiency: real, dt: real, y: real)
    : (r: (real, Option<real>))
    ensures y >= 0.0 <==> r.1.None?
    ensures y >= 0.0 ==> r.0 == level
    ensures c.rampRate * dt >= 0.0 ==> Abs(r.0 - level) <= c.rampRate * dt
    ensures c.rampRate * dt >= 0.0 ==> Abs(target - r.0) <= Abs(target - level)
    ensures y < 0.0 && Abs(target - level) <= c.rampRate * dt ==> r.0 == target
    ensures r.1.Some? && c.maxThrusterForce >= 0.0 ==>
              -c.maxThrusterForce <= r.1.value <= c.maxThrusterForce
    ensures r.1.Some? && -c.maxThrusterForce <= r.0 * efficiency <= c.maxThrusterForce ==>
              r.1.value == r.0 * efficiency
  {
    if y >= 0.0 then (level, None)
    else
      var newLevel := MoveTowards(level, target, c.rampRate * dt);
      (newLevel, Some(Clamp(newLevel * efficiency, -c.maxThrusterForce, c.maxThrusterForce)))
  }

  /** Component state: the ROS command, the keyboard forces and the ramped
      levels, one entry per thruster. */
  datatype State = State(isFrozen: bool, ros: seq<real>, input: seq<real>, levels: seq<real>)

  predicate Valid(s: State)
  {
    IsVector(s.ros) && IsVector(s.input) && IsVector(s.levels)
  }

  const Initial: State := State(false, Zeros, Zeros, Zeros)

  /** `HandleFreezeInput`: the freeze key toggles the frozen state. */
  function HandleFreezeInput(s: State, freezePressed: bool): (r: State)
    ensures r.isFrozen == (s.isFrozen != freezePressed)
    ensures r.(isFrozen := s.isFrozen) == s
  {
    if freezePressed then s.(isFrozen := !s.isFrozen) else s
  }

  /** `Update`: the freeze key first, then the movement keys. */
  function Update(c: Config, s: State, freezePressed: bool, typing: bool, held: set<Key>): (r: State)
    requires Valid(s)
    ensures Valid(r)
    ensures r.ros == s.ros && r.levels == s.levels
    ensures r.isFrozen == (freezePressed != s.isFrozen)
    ensures r.isFrozen || typing ==> r.input == s.input
    ensures !r.isFrozen && !typing ==> r.input == Accumulate(c, KeyOrder, held)
  {
    var t := HandleFreezeInput(s, freezePressed);
    t.(input := HandleMovementInput(c, t.isFrozen, typing, t.input, held))
  }

  /** The first thruster from index `k` on that is below the surface. */
  function FirstSubmerged(heights: seq<real>, k: nat): (r: Option<nat>)
    requires k <= |heights|
    ensures r.Some? ==> k <= r.value < |heights| && heights[r.value] < 0.0
    ensures r.Some? ==> forall j :: k <= j < r.value ==> heights[j] >= 0.0
    ensures r.None? <==> forall j :: k <= j < |heights| ==> heights[j] >= 0.0
    decreases |heights| - k
  {
    if k == |heights| then None
    else if heights[k] < 0.0 then Some(k)
    else FirstSubmerged(heights, k + 1)
  }

  /** `FixedUpdate` over the scene's thrusters (their heights given by
      `heights`). A thruster at or above the surface is skipped before
      anything is read. The per-thruster arrays hold eight entries, so the
      first submerged thruster past the eighth throws, after every thruster
      before it was handled; skipped thrusters past the eighth are harmless.
      `r.1` holds one entry per thruster handled. */
  function FixedUpdate(c: Config, s: State, heights: seq<real>, efficiency: seq<real>, dt: real)
    : (r: (State, seq<Option<real>>, Option<Error>))
    requires Valid(s) && IsVector(efficiency)
    ensures Valid(r.0)
    ensures r.2.Some? <==> exists i :: Count <= i < |heights| && heights[i] < 0.0
    ensures r.2.Some? ==> Count <= |r.1| < |heights| && heights[|r.1|] < 0.0
                          && r.2.value == IndexOutOfRange(|r.1|, Count)
                          && forall j :: Count <= j < |r.1| ==> heights[j] >= 0.0
    ensures r.2.None? ==> |r.1| == |heights|
    ensures r.0.(levels := s.levels) == s
    ensures forall i :: 0 <= i < |r.1| && i < Count ==>
              var step := ThrusterStep(c, s.levels[i], s.ros[i] + s.input[i], efficiency[i], dt, heights[i]);
              r.0.levels[i] == step.0 && r.1[i] == step.1
    ensures forall i :: Count <= i < |r.1| ==> r.1[i].None?
    ensures forall i :: |heights| <= i < Count ==> r.0.levels[i] == s.levels[i]
  {
    var n := if |heights| > Count then Count else |heights|;
    var fail := if |heights| > Count then FirstSubmerged(heights, Count) else None;
    var stop := if fail.Some? then fail.value else |heights|;
    var levels := seq(Count, i requires 0 <= i < Count =>
      if i < n then ThrusterStep(c, s.levels[i], s.ros[i] + s.input[i], efficiency[i], dt, heights[i]).0
      else s.levels[i]);
    var forces := seq(stop, i requires 0 <= i < stop =>
      if i < Count then ThrusterStep(c, s.levels[i], s.ros[i] + s.input[i], efficiency[i], dt, heights[i]).1
      else None);
    (s.(levels := levels), forces, if fail.Some? then Some(IndexOutOfRange(fail.value, Count)) else None)
  }

  /** The ROS thruster-forces message. */
  datatype ForcesMsg = ForcesMsg(
    frontLeft: real, frontRight: real, backLeft: real, backRight: real,
    heaveFrontLeft: real, heaveFrontRight: real, heaveBackLeft: real, heaveBackRight: real)

  /** `SetThrusterForces`: the message fields in declaration order become
      thrusters 0 to 7. */
  function SetThrusterForces(s: State, msg: ForcesMsg): (r: State)
    ensures IsVector(r.ros)
    ensures r.(ros := s.ros) == s
  {
    s.(ros := [msg.frontLeft, msg.frontRight, msg.backLeft, msg.backRight,
               msg.heaveFrontLeft, msg.heaveFrontRight, msg.heaveBackLeft, msg.heaveBackRight])
  }

  /** The message a ROS vector came from. */
  function MsgOf(v: seq<real>): ForcesMsg
    requires IsVector(v)
  {
    ForcesMsg(v[0], v[1], v[2], v[3], v[4], v[5], v[6], v[7])
  }

  /** The field-to-index map is a bijection: no field is lost or shared. */
  lemma ForcesMsgRoundTrip(s: State, msg: ForcesMsg, v: seq<real>)
    requires IsVector(v)
    ensures MsgOf(SetThrusterForces(s, msg).ros) == msg
    ensures SetThrusterForces(s, MsgOf(v)).ros == v
  {
  }
}

=== FILE: torpedo.dfy ===
/** The torpedo launcher: launches its torpedoes one at a time in order,
    puts them all back on reset, and turns its base toward a target angle
    kept within the mechanical limit.
 */
module Torpedo {
  import opened Geometry

  datatype Launcher = Launcher(
    present: seq<bool>,
    launched: seq<bool>,
    nextTorpedoIndex: nat,
    targetRotation: real,
    baseAngle: real,
    maxRotationAngle: real,
    rotationSpeed: real)

  /** Inspector defaults (degrees, degrees per second). */
  const DefaultMaxRotationAngle: real := 80.0
  const DefaultRotationSpeed: real := 30.0

  /** `present[i]` says the slot holds a torpedo object. Exactly the
      torpedoes before the next index are out, and those were present. */
  predicate Valid(l: Launcher)
  {
    |l.launched| == |l.present|
    && l.nextTorpedoIndex <= |l.present|
    && (forall i :: 0 <= i < |l.present| ==> (l.launched[i] <==> i < l.nextTorpedoIndex))
    && (forall i :: 0 <= i < l.nextTorpedoIndex ==> l.present[i])
    && l.maxRotationAngle >= 0.0
    && -l.maxRotationAngle <= l.targetRotation <= l.maxRotationAngle
  }

  /** The launcher after `Start`. */
  function Start(present: seq<bool>, maxRotationAngle: real, rotationSpeed: real): (l: Launcher)
    requires maxRotationAngle >= 0.0
    ensures Valid(l)
    ensures l.nextTorpedoIndex == 0
  {
    Launcher(present, seq(|present|, _ => false), 0, 0.0, 0.0, maxRotationAngle, rotationSpeed)
  }

  /** `LaunchTorpedo`: nothing when every slot was used or the next slot
      is empty; otherwise that torpedo goes and the index moves on by one. */
  function Launch(l: Launcher): (r: Launcher)
    requires Valid(l)
    ensures Valid(r)
    ensures l.nextTorpedoIndex >= |l.present| ==> r == l
    ensures l.nextTorpedoIndex < |l.present| && !l.present[l.nextTorpedoIndex] ==> r == l
    ensures l.nextTorpedoIndex < |l.present| && l.present[l.nextTorpedoIndex] ==>
              r.nextTorpedoIndex == l.nextTorpedoIndex + 1 && r.launched[l.nextTorpedoIndex]
    ensures r.(launched := l.launched, nextTorpedoIndex := l.nextTorpedoIndex) == l
  {
    if l.nextTorpedoIndex >= |l.present| then l
    else if !l.present[l.nextTorpedoIndex] then l
    else l.(launched := l.launched[l.nextTorpedoIndex := true], nextTorpedoIndex := l.nextTorpedoIndex + 1)
  }

  function LaunchTimes(l: Launcher, n: nat): (r: Launcher)
    requires Valid(l)
    ensures Valid(r)
    decreases n
  {
    if n == 0 then l else LaunchTimes(Launch(l), n - 1)
  }

  /** An empty slot blocks every later launch until a reset. */
  lemma {:induction false} EmptySlotBlocks(l: Launcher, n: nat)
    requires Valid(l)
    requires l.nextTorpedoIndex < |l.present| && !l.present[l.nextTorpedoIndex]
    ensures LaunchTimes(l, n) == l
    decreases n
  {
    if n > 0 {
      EmptySlotBlocks(Launch(l), n - 1);
    }
  }

  /** With every slot filled, `n` launches use the first `n` torpedoes,
      and further launches do nothing once all are gone. */
  lemma {:induction false} LaunchesCount(l: Launcher, n: nat)
    requires Valid(l)
    requires forall i :: 0 <= i < |l.present| ==> l.present[i]
    ensures LaunchTimes(l, n).nextTorpedoIndex
         == if l.nextTorpedoIndex + n <= |l.present| then l.nextTorpedoIndex + n else |l.present|
    decreases n
  {
    if n > 0 {
      var l1 := Launch(l);
      assert forall i :: 0 <= i < |l1.present| ==> l1.present[i];
      LaunchesCount(l1, n - 1);
    }
  }

  /** `ResetLauncher`: every torpedo back in its tube, the index and the
      target at zero, and the base at its rest orientation. */
  function Reset(l: Launcher): (r: Launcher)
    requires Valid(l)
    ensures Valid(r)
    ensures r.nextTorpedoIndex == 0 && r.targetRotation == 0.0 && r.baseAngle == 0.0
    ensures forall i :: 0 <= i < |r.launched| ==> !r.launched[i]
    ensures r.present == l.present
  {
    l.(launched := seq(|l.present|, _ => false), nextTorpedoIndex := 0, targetRotation := 0.0, baseAngle := 0.0)
  }

  /** After a reset the launcher is the same whatever was launched
      before it. */
  lemma ResetForgetsHistory(l: Launcher, n: nat)
    requires Valid(l)
    ensures Reset(LaunchTimes(l, n)) == Reset(l)
  {
    LaunchTimesKeeps(l, n);
  }

  lemma {:induction false} LaunchTimesKeeps(l: Launcher, n: nat)
    requires Valid(l)
    ensures LaunchTimes(l, n).present == l.present
    ensures LaunchTimes(l, n).maxRotationAngle == l.maxRotationAngle
    ensures LaunchTimes(l, n).rotationSpeed == l.rotationSpeed
    decreases n
  {
    if n > 0 {
      LaunchTimesKeeps(Launch(l), n - 1);
    }
  }

  /** The arrow keys: left subtracts, right adds, and the sum moves the
      target by speed times the frame time, clamped to the limit. */
  function Rotate(l: Launcher, left: bool, right: bool, dt: real): (r: Launcher)
    requires Valid(l)
    ensures Valid(r)
    ensures left == right ==> r == l
    ensures r.(targetRotation := l.targetRotation) == l
    ensures left != right && -l.maxRotationAngle <= l.targetRotation + (if right then 1.0 else -1.0) * l.rotationSpeed * dt <= l.maxRotationAngle
            ==> r.targetRotation == l.targetRotation + (if right then 1.0 else -1.0) * l.rotationSpeed * dt
  {
    var input := (if left then -1.0 else 0.0) + (if right then 1.0 else 0.0);
    if input != 0.0 then
      l.(targetRotation := Clamp(l.targetRotation + input * l.rotationSpeed * dt, -l.maxRotationAngle, l.maxRotationAngle))
    else l
  }

  /** `UpdateRotation`: the base turns toward the target by at most speed
      times the frame time. Both are yaw angles within the limit, so the
      quaternion step is a step of the angle. */
  function UpdateRotation(l: Launcher, dt: real): (r: Launcher)
    requires Valid(l)
    ensures Valid(r)
    ensures l.rotationSpeed * dt >= 0.0 ==> Abs(r.baseAngle - l.baseAngle) <= l.rotationSpeed * dt
    ensures l.rotationSpeed * dt >= 0.0 ==> Abs(l.targetRotation - r.baseAngle) <= Abs(l.targetRotation - l.baseAngle)
    ensures l.rotationSpeed * dt >= 0.0 && -l.maxRotationAngle <= l.baseAngle <= l.maxRotationAngle
            ==> -l.maxRotationAngle <= r.baseAngle <= l.maxRotationAngle
    ensures l.rotationSpeed * dt >= 0.0 && Abs(l.targetRotation - l.baseAngle) <= l.rotationSpeed * dt
            ==> r.baseAngle == l.targetRotation
    ensures Abs(l.targetRotation - l.baseAngle) > l.rotationSpeed * dt >= 0.0
            ==> Abs(r.baseAngle - l.baseAngle) == l.rotationSpeed * dt
    ensures r.(baseAngle := l.baseAngle) == l
  {
    l.(baseAngle := MoveTowards(l.baseAngle, l.targetRotation, l.rotationSpeed * dt))
  }

  /** The keys read in one frame. */
  datatype Keys = Keys(launch: bool, reset: bool, left: bool, right: bool)

  /** `Update`: launch, then reset, then rotation input, all skipped while
      the HUD's text field has focus; then the base turns. */
  function Update(l: Launcher, typing: bool, k: Keys, dt: real): (r: Launcher)
    requires Valid(l)
    ensures Valid(r)
    ensures typing ==> r == UpdateRotation(l, dt)
    ensures !typing ==>
              r == UpdateRotation(Rotate(OnRosReset(OnRosLaunch(l, k.launch), k.reset), k.left, k.right, dt), dt)
    ensures !typing && k.reset ==> r.nextTorpedoIndex == 0
  {
    if typing then UpdateRotation(l, dt)
    else
      var a := if k.launch then Launch(l) else l;
      var b := if k.reset then Reset(a) else a;
      UpdateRotation(Rotate(b, k.left, k.right, dt), dt)
  }

  /** `OnRosLaunch` and `OnRosReset` act only on a true message. */
  function OnRosLaunch(l: Launcher, data: bool): (r: Launcher)
    requires Valid(l)
    ensures Valid(r)
    ensures !data ==> r == l
    ensures data ==> r == Launch(l)
  {
    if data then Launch(l) else l
  }

  function OnRosReset(l: Launcher, data: bool): (r: Launcher)
    requires Valid(l)
    ensures Valid(r)
    ensures !data ==> r == l
    ensures data ==> r == Reset(l)
    ensures data ==> r.nextTorpedoIndex == 0 && r.targetRotation == 0.0
  {
    if data then Reset(l) else l
  }

  /** `OnRosRotate`: the requested angle, clamped to the limit. */
  function OnRosRotate(l: Launcher, angle: real): (r: Launcher)
    requires Valid(l)
    ensures Valid(r)
    ensures -l.maxRotationAngle <= angle <= l.maxRotationAngle ==> r.targetRotation == angle
    ensures angle > l.maxRotationAngle ==> r.targetRotation == l.maxRotationAngle
    ensures angle < -l.maxRotationAngle ==> r.targetRotation == -l.maxRotationAngle
    ensures r.(targetRotation := l.targetRotation) == l
  {
    l.(targetRotation := Clamp(angle, -l.maxRotationAngle, l.maxRotationAngle))
  }
}

=== FILE: tricks.dfy ===
/** The tricks task: near the target prop, full turns about each axis are
    accumulated from the frame-to-frame rotation and each full turn scores;
    after two tricks the task stops.
 */
module Tricks {
  import opened Geometry
  import Text
  import Points

  const MaxDistance: real := 3.0
  const TricksAllowed: int := 2
  const FullTurn: real := 360.0

  datatype Checker = Checker(
    enabled: bool,
    isInitialRotation: bool,
    rollCount: int,
    pitchCount: int,
    yawCount: int,
    rollTotal: real,
    pitchTotal: real,
    yawTotal: real)

  /** The fields' initial values: `isInitialRotation` starts false. */
  const Initial: Checker := Checker(false, false, 0, 0, 0, 0.0, 0.0, 0.0)

  /** Between frames no accumulated angle has reached a full turn. */
  predicate Valid(c: Checker)
  {
    Abs(c.rollTotal) < FullTurn && Abs(c.pitchTotal) < FullTurn && Abs(c.yawTotal) < FullTurn
  }

  /** `StartScript`: only `enabled` changes. */
  function StartScript(c: Checker): (r: Checker)
    ensures r.enabled && r.(enabled := c.enabled) == c
  {
    c.(enabled := true)
  }

  /** `StopScript`: the counts go, the accumulated angles stay. */
  function StopScript(c: Checker): (r: Checker)
    ensures r.rollCount == 0 && r.pitchCount == 0 && r.yawCount == 0 && !r.enabled
    ensures r.(rollCount := c.rollCount, pitchCount := c.pitchCount, yawCount := c.yawCount, enabled := c.enabled) == c
  {
    c.(rollCount := 0, pitchCount := 0, yawCount := 0, enabled := false)
  }

  /** One frame's input: both positions, and the Euler angles (degrees) of
      the rotation from last frame's AUV rotation to this frame's. */
  datatype Frame = Frame(auv: Vec3, prop: Vec3, deltaEuler: Vec3)

  predicate OutOfRange(f: Frame)
  {
    var d := Sub(f.prop, f.auv);
    Dot(d, d) > MaxDistance * MaxDistance
  }

  /** Adding one frame's signed delta to an axis total: a full turn either
      way is a trick and restarts the total. */
  function Accumulate(total: real, delta: real): (r: (real, bool))
    requires Abs(total) < FullTurn
    ensures Abs(r.0) < FullTurn
    ensures r.1 <==> Abs(total + delta) >= FullTurn
    ensures r.1 ==> r.0 == 0.0
    ensures !r.1 ==> r.0 == total + delta
  {
    if Abs(total + delta) >= FullTurn then (0.0, true) else (total + delta, false)
  }

  datatype Award = Award(pitchRoll: int, yaw: int, hud: bool)

  datatype Outcome = Outcome(checker: Checker, points: Points.Manager, log: seq<string>)

  function Score(pm: Points.Manager, trick: bool, points: int, name: string, hud: bool): (r: (Points.Manager, seq<string>))
    ensures r.0.currentScore == pm.currentScore + (if trick then points else 0)
    ensures r.0.color == pm.color
  {
    if trick then
      var a := Points.AddPoint(pm, points, "Gate", hud);
      (a.0, a.1 + ["Tricks " + name + " +" + Text.IntToString(points) + "pts"])
    else (pm, [])
  }

  /** `Update`. A checker that already has two tricks is stopped first, and
      the rest of the frame still runs. Out of range the counts restart
      and the next frame takes its rotation as the reference. Otherwise
      each delta is brought into (-180, 180] and added to its axis; the
      Euler x angle is roll, z is pitch and y is yaw. */
  function Update(c: Checker, pm: Points.Manager, f: Frame, a: Award): (r: Outcome)
    requires Valid(c)
    ensures Valid(r.checker)
    ensures !c.enabled ==> r == Outcome(c, pm, [])
  {
    if !c.enabled then Outcome(c, pm, [])
    else
      var c1 := if c.rollCount + c.pitchCount + c.yawCount >= TricksAllowed then StopScript(c) else c;
      if OutOfRange(f) then
        Outcome(c1.(isInitialRotation := true, rollCount := 0, pitchCount := 0, yawCount := 0), pm, [])
      else
        var e := if c1.isInitialRotation then Zero else f.deltaEuler;
        var roll := Accumulate(c1.rollTotal, DeltaAngle(0.0, e.x));
        var pitch := Accumulate(c1.pitchTotal, DeltaAngle(0.0, e.z));
        var yaw := Accumulate(c1.yawTotal, DeltaAngle(0.0, e.y));
        var s1 := Score(pm, roll.1, a.pitchRoll, "Roll", a.hud);
        var s2 := Score(s1.0, pitch.1, a.pitchRoll, "Pitch", a.hud);
        var s3 := Score(s2.0, yaw.1, a.yaw, "Yaw", a.hud);
        var c2 := c1.(isInitialRotation := false,
                      rollCount := c1.rollCount + (if roll.1 then 1 else 0),
                      pitchCount := c1.pitchCount + (if pitch.1 then 1 else 0),
                      yawCount := c1.yawCount + (if yaw.1 then 1 else 0),
                      rollTotal := roll.0, pitchTotal := pitch.0, yawTotal := yaw.0);
        Outcome(c2, s3.0, s1.1 + s2.1 + s3.1)
  }

  /** Leaving the prop's range restarts the counts but keeps the angles
      accumulated so far. */
  lemma OutOfRangeKeepsTotals(c: Checker, pm: Points.Manager, f: Frame, a: Award)
    requires Valid(c) && c.enabled && OutOfRange(f)
    ensures var r := Update(c, pm, f, a);
            r.checker.rollCount == 0 && r.checker.pitchCount == 0 && r.checker.yawCount == 0
            && r.checker.isInitialRotation && r.points == pm
            && r.checker.rollTotal == c.rollTotal && r.checker.pitchTotal == c.pitchTotal
            && r.checker.yawTotal == c.yawTotal
  {
  }

  /** In range, each axis gains at most one trick per frame, and the score
      grows by the matching points: roll and pitch at one value, yaw at
      the other. The frame that finds two tricks already made stops the
      task, counting only this frame's tricks. */
  lemma TricksScore(c: Checker, pm: Points.Manager, f: Frame, a: Award)
    requires Valid(c) && c.enabled && !OutOfRange(f)
    ensures var r := Update(c, pm, f, a).checker;
            var stopped := c.rollCount + c.pitchCount + c.yawCount >= TricksAllowed;
            var roll0 := if stopped then 0 else c.rollCount;
            var pitch0 := if stopped then 0 else c.pitchCount;
            var yaw0 := if stopped then 0 else c.yawCount;
            (r.rollCount == roll0 || r.rollCount == roll0 + 1)
            && (r.pitchCount == pitch0 || r.pitchCount == pitch0 + 1)
            && (r.yawCount == yaw0 || r.yawCount == yaw0 + 1)
            && Update(c, pm, f, a).points.currentScore
               == pm.currentScore + (if r.rollCount > roll0 then a.pitchRoll else 0)
                  + (if r.pitchCount > pitch0 then a.pitchRoll else 0)
                  + (if r.yawCount > yaw0 then a.yaw else 0)
            && (r.enabled <==> !stopped)
  {
    var c1 := if c.rollCount + c.pitchCount + c.yawCount >= TricksAllowed then StopScript(c) else c;
    var e := if c1.isInitialRotation then Zero else f.deltaEuler;
    var roll := Accumulate(c1.rollTotal, DeltaAngle(0.0, e.x));
    var pitch := Accumulate(c1.pitchTotal, DeltaAngle(0.0, e.z));
    var yaw := Accumulate(c1.yawTotal, DeltaAngle(0.0, e.y));
    var s1 := Score(pm, roll.1, a.pitchRoll, "Roll", a.hud);
    var s2 := Score(s1.0, pitch.1, a.pitchRoll, "Pitch", a.hud);
    var s3 := Score(s2.0, yaw.1, a.yaw, "Yaw", a.hud);
    var r := Update(c, pm, f, a);
    assert r.points == s3.0;
    assert r.checker.rollCount == c1.rollCount + (if roll.1 then 1 else 0);
    assert r.checker.pitchCount == c1.pitchCount + (if pitch.1 then 1 else 0);
    assert r.checker.yawCount == c1.yawCount + (if yaw.1 then 1 else 0);
  }

  /** Every trick needs the axis to have turned at least half a turn
      before the frame that completes it, since one frame adds at most
      180 degrees. */
  lemma TrickNeedsHalfTurn(total: real, euler: real)
    requires Abs(total) < FullTurn
    ensures Accumulate(total, DeltaAngle(0.0, euler)).1 ==> Abs(total) >= 180.0
  {
  }

  /** The first in-range frame after a reset measures no rotation, so it
      never scores. */
  lemma FirstFrameNoTrick(c: Checker, pm: Points.Manager, f: Frame, a: Award)
    requires Valid(c) && c.enabled && c.isInitialRotation && !OutOfRange(f)
    ensures Update(c, pm, f, a).points == pm
    ensures Update(c, pm, f, a).checker.rollTotal == c.rollTotal
  {
    assert DeltaAngle(0.0, 0.0) == 0.0 by {
      DeltaAngleZero();
    }
  }

  lemma DeltaAngleZero()
    ensures DeltaAngle(0.0, 0.0) == 0.0
  {
  }
}

=== FILE: vision_viz.dfy ===
/** The vision-objects visualizer: draws one sphere per confident detected
    object and a marker at the VIO pose, both converted from the ROS world
    frame (x forward, y left, z up) into Unity's (x right, y up, z forward)
    and placed relative to the simulation origin.
 */
module VisionViz {
  import opened Wrappers
  import opened Geometry
  import Text
  import SimOrigin

  /** ROS (x, y, z) to Unity (-y, z, x). */
  function RosToUnity(p: Vec3): Vec3
  {
    Vec3(-p.y, p.z, p.x)
  }

  function UnityToRos(u: Vec3): Vec3
  {
    Vec3(u.z, -u.x, u.y)
  }

  /** The remap is a bijection between the two frames, preserving length. */
  lemma RemapRoundTrip(p: Vec3, u: Vec3)
    ensures UnityToRos(RosToUnity(p)) == p
    ensures RosToUnity(UnityToRos(u)) == u
    ensures Dot(RosToUnity(p), RosToUnity(p)) == Dot(p, p)
  {
  }

  datatype Color = Color(r: real, g: real, b: real)

  datatype ClassColor = ClassColor(className: string, color: Color)

  /** Entry `i` names a class, and no later entry names the same class up
      to letter case: its colour is the one that stays in the table. */
  predicate LastFor(classColors: seq<ClassColor>, i: int)
    requires 0 <= i < |classColors|
  {
    classColors[i].className != []
    && forall j :: i < j < |classColors| && classColors[j].className != [] ==>
         Text.Lower(classColors[j].className) != Text.Lower(classColors[i].className)
  }

  /** The colour table built in `Start`: non-empty class names, lower-cased,
      later entries overriding earlier ones. */
  function ColorLookup(classColors: seq<ClassColor>): (m: map<string, Color>)
    ensures forall k :: k in m ==> Text.Lower(k) == k
    ensures forall i :: 0 <= i < |classColors| && classColors[i].className != [] ==> Text.Lower(classColors[i].className) in m
    decreases |classColors|
  {
    if |classColors| == 0 then map[]
    else
      var init := classColors[..|classColors| - 1];
      var last := classColors[|classColors| - 1];
      var m := ColorLookup(init);
      assert forall i :: 0 <= i < |init| ==> init[i] == classColors[i];
      if last.className == [] then m
      else
        Text.LowerIdempotent(last.className);
        m[Text.Lower(last.className) := last.color]
  }

  /** Every key of the table comes from some entry. */
  lemma {:induction false} ColorLookupKeys(classColors: seq<ClassColor>, k: string)
    requires k in ColorLookup(classColors)
    ensures exists i :: 0 <= i < |classColors| && classColors[i].className != []
                        && Text.Lower(classColors[i].className) == k
    decreases |classColors|
  {
    var init := classColors[..|classColors| - 1];
    var last := classColors[|classColors| - 1];
    if last.className != [] && Text.Lower(last.className) == k {
      assert classColors[|classColors| - 1] == last;
    } else {
      ColorLookupKeys(init, k);
      var i :| 0 <= i < |init| && init[i].className != [] && Text.Lower(init[i].className) == k;
      assert classColors[i] == init[i];
    }
  }

  /** The last entry for a class decides its colour. */
  lemma {:induction false} ColorLookupLast(classColors: seq<ClassColor>, i: int)
    requires 0 <= i < |classColors| && LastFor(classColors, i)
    ensures Text.Lower(classColors[i].className) in ColorLookup(classColors)
    ensures ColorLookup(classColors)[Text.Lower(classColors[i].className)] == classColors[i].color
    decreases |classColors|
  {
    var init := classColors[..|classColors| - 1];
    var last := classColors[|classColors| - 1];
    if i < |classColors| - 1 {
      assert init[i] == classColors[i];
      assert LastFor(init, i) by {
        forall j | i < j < |init| && init[j].className != []
          ensures Text.Lower(init[j].className) != Text.Lower(init[i].className)
        {
          assert init[j] == classColors[j];
        }
      }
      ColorLookupLast(init, i);
      if last.className != [] {
        assert Text.Lower(last.className) != Text.Lower(classColors[i].className);
      }
    }
  }

  /** A sphere's colour: its class colour looked up case-insensitively, or
      the default for an empty or unknown label. */
  function ColorFor(lookup: map<string, Color>, labelName: string, fallback: Color): (c: Color)
    ensures labelName == [] || Text.Lower(labelName) !in lookup ==> c == fallback
    ensures labelName != [] && Text.Lower(labelName) in lookup ==> c == lookup[Text.Lower(labelName)]
  {
    if labelName != [] && Text.Lower(labelName) in lookup then lookup[Text.Lower(labelName)] else fallback
  }

  /** A label that names a configured class, in any letter case, gets the
      colour of the last entry for that class; a label naming no class gets
      the default. */
  lemma ColorOfClass(classColors: seq<ClassColor>, labelName: string, fallback: Color, i: int)
    requires 0 <= i < |classColors| && LastFor(classColors, i)
    requires Text.Lower(labelName) == Text.Lower(classColors[i].className)
    ensures ColorFor(ColorLookup(classColors), labelName, fallback) == classColors[i].color
  {
    ColorLookupLast(classColors, i);
    assert |labelName| == |classColors[i].className|;
  }

  lemma ColorOfUnknown(classColors: seq<ClassColor>, labelName: string, fallback: Color)
    requires forall i :: 0 <= i < |classColors| ==> Text.Lower(labelName) != Text.Lower(classColors[i].className)
    ensures ColorFor(ColorLookup(classColors), labelName, fallback) == fallback
  {
    if labelName != [] && Text.Lower(labelName) in ColorLookup(classColors) {
      ColorLookupKeys(classColors, Text.Lower(labelName));
    }
  }

  /** The lookup ignores letter case. */
  lemma ColorForIgnoresCase(lookup: map<string, Color>, labelName: string, fallback: Color)
    ensures ColorFor(lookup, Text.Lower(labelName), fallback) == ColorFor(lookup, labelName, fallback)
  {
    Text.LowerIdempotent(labelName);
  }

  /** One detected object of the message. */
  datatype VisionObject = VisionObject(labelName: string, x: real, y: real, z: real, confidence: real)

  datatype Sphere = Sphere(labelName: string, position: Vec3, confidence: real, color: Color)

  datatype Visualizer = Visualizer(
    minConfidence: real,
    autoFixDrift: bool,
    worldOrigin: Vec3,
    worldRotation: Quat,
    marker: Option<Vec3>,
    spheres: seq<Sphere>,
    colors: map<string, Color>,
    defaultColor: Color)

  /** `Start`: the frame comes from the simulation origin through its
      `Instance` getter, which creates and initializes one when the scene
      has none, so the Unity-frame fallback of the source never runs. */
  function Start(minConfidence: real, autoFixDrift: bool, classColors: seq<ClassColor>, defaultColor: Color,
                 existing: Option<SimOrigin.Origin>, auv: Option<SimOrigin.AuvPose>): (v: Visualizer)
    ensures var o := SimOrigin.InitializeOrigin(SimOrigin.Instance(existing, auv), auv);
            v.worldOrigin == o.initialPosition && v.worldRotation == o.initialRotation
    ensures existing.None? && auv.Some? ==>
              v.worldOrigin == Vec3(auv.value.position.x, 0.0, auv.value.position.z)
              && v.worldRotation == auv.value.rotation
    ensures existing.None? && auv.None? ==> v.worldOrigin == Zero && v.worldRotation == Identity
    ensures v.colors == ColorLookup(classColors) && v.defaultColor == defaultColor
    ensures v.marker.None? && v.spheres == []
  {
    var o := SimOrigin.InitializeOrigin(SimOrigin.Instance(existing, auv), auv);
    Visualizer(minConfidence, autoFixDrift, o.initialPosition, o.initialRotation, None, [], ColorLookup(classColors), defaultColor)
  }

  /** Where a ROS-frame point lands in the Unity world. */
  function Place(v: Visualizer, ros: Vec3): Vec3
  {
    Add(v.worldOrigin, Rotate(v.worldRotation, RosToUnity(ros)))
  }

  /** `OnVIOPoseReceived`: with drift fixing on and the AUV found, the frame
      origin is first moved so that the pose lands on the AUV. */
  function OnVioPose(v: Visualizer, pose: Vec3, auv: Option<Vec3>): (r: Visualizer)
    ensures r.marker == Some(Place(r, pose))
    ensures v.autoFixDrift && auv.Some? ==> r.marker == Some(auv.value)
    ensures !(v.autoFixDrift && auv.Some?) ==> r == v.(marker := Some(Place(v, pose)))
    ensures r.(worldOrigin := v.worldOrigin, marker := v.marker) == v
  {
    var u := Rotate(v.worldRotation, RosToUnity(pose));
    var v1 := if v.autoFixDrift && auv.Some? then v.(worldOrigin := Sub(auv.value, u)) else v;
    assert v.autoFixDrift && auv.Some? ==> Add(Sub(auv.value, u), u) == auv.value;
    v1.(marker := Some(Place(v1, pose)))
  }

  /** `FixDrift`: nothing before the first pose or without the AUV;
      otherwise the origin moves by exactly the marker's error. */
  function FixDrift(v: Visualizer, auv: Option<Vec3>): (r: Visualizer)
    ensures v.marker.None? || auv.None? ==> r == v
    ensures v.marker.Some? && auv.Some? ==>
              r == v.(worldOrigin := Add(v.worldOrigin, Sub(auv.value, v.marker.value)))
  {
    if v.marker.None? || auv.None? then v
    else v.(worldOrigin := Add(v.worldOrigin, Sub(auv.value, v.marker.value)))
  }

  /** After a fix, the pose that placed the marker lands on the AUV. */
  lemma FixDriftAligns(v: Visualizer, pose: Vec3, auv: Vec3)
    requires v.marker == Some(Place(v, pose))
    ensures Place(FixDrift(v, Some(auv)), pose) == auv
  {
    var u := Rotate(v.worldRotation, RosToUnity(pose));
    assert Add(Add(v.worldOrigin, Sub(auv, Add(v.worldOrigin, u))), u) == auv;
  }

  /** The objects confident enough to draw, in message order. */
  function Confident(minConfidence: real, objs: seq<VisionObject>): (s: seq<VisionObject>)
    ensures |s| <= |objs|
    ensures forall i :: 0 <= i < |s| ==> s[i].confidence >= minConfidence
    decreases |objs|
  {
    if |objs| == 0 then []
    else if objs[0].confidence < minConfidence then Confident(minConfidence, objs[1..])
    else [objs[0]] + Confident(minConfidence, objs[1..])
  }

  /** Exactly the objects at or above the threshold are kept. */
  lemma {:induction false} ConfidentExact(minConfidence: real, objs: seq<VisionObject>, o: VisionObject)
    ensures o in Confident(minConfidence, objs) <==> o in objs && o.confidence >= minConfidence
    decreases |objs|
  {
    if |objs| > 0 {
      ConfidentExact(minConfidence, objs[1..], o);
      assert o in objs <==> o == objs[0] || o in objs[1..];
    }
  }

  /** `CreateSphere` for one object. */
  function SphereOf(v: Visualizer, o: VisionObject): Sphere
  {
    Sphere(o.labelName, Place(v, Vec3(o.x, o.y, o.z)), o.confidence, ColorFor(v.colors, o.labelName, v.defaultColor))
  }

  /** The spheres drawn for one message's objects, in message order. */
  function SpheresFor(v: Visualizer, objs: seq<VisionObject>): (s: seq<Sphere>)
    ensures |s| == |Confident(v.minConfidence, objs)|
    ensures forall i :: 0 <= i < |s| ==> s[i] == SphereOf(v, Confident(v.minConfidence, objs)[i])
  {
    var c := Confident(v.minConfidence, objs);
    seq(|c|, i requires 0 <= i < |c| => SphereOf(v, c[i]))
  }

  /** `OnVisionObjectsReceived`: the previous spheres are all cleared and
      replaced by this message's. */
  function OnVisionObjects(v: Visualizer, objs: seq<VisionObject>): (r: Visualizer)
    ensures r.spheres == SpheresFor(v, objs)
    ensures r.(spheres := v.spheres) == v
  {
    v.(spheres := SpheresFor(v, objs))
  }

  /** What is drawn depends only on the latest message. */
  lemma LatestMessageOnly(v: Visualizer, first: seq<VisionObject>, second: seq<VisionObject>)
    ensures OnVisionObjects(OnVisionObjects(v, first), second) == OnVisionObjects(v, second)
  {
    SpheresIgnoreOld(v, first, second);
  }

  lemma SpheresIgnoreOld(v: Visualizer, first: seq<VisionObject>, objs: seq<VisionObject>)
    ensures SpheresFor(OnVisionObjects(v, first), objs) == SpheresFor(v, objs)
  {
  }
}

=== FILE: visual_target.dfy ===
/** The visual target randomizer: on each new scenario iteration it gives
    one or two quads a material and the matching label, never the same
    pair on both quads when there is a choice.
 */
module VisualTarget {
  import opened Wrappers

  /** A material and its label; `None` is a missing label. */
  datatype Config = Config(material: nat, labelText: Option<string>)

  /** A target quad: `present` is false for a missing renderer, and
      `hasLabeling` says it carries a labeling component. */
  datatype Target = Target(present: bool, material: nat, hasLabeling: bool, labels: seq<string>)

  /** The labels a configuration leaves: its label when non-empty. */
  function LabelsOf(c: Config): (r: seq<string>)
    ensures |r| <= 1
    ensures |r| == 1 <==> c.labelText.Some? && c.labelText.value != ""
  {
    if c.labelText.Some? && c.labelText.value != "" then [c.labelText.value] else []
  }

  /** `ApplyConfig`: nothing for a missing target; otherwise the material,
      and the labels cleared and refilled when there is a labeling. */
  function Apply(t: Target, c: Config): (r: Target)
    ensures !t.present ==> r == t
    ensures t.present ==> r.material == c.material
    ensures t.present && t.hasLabeling ==> r.labels == LabelsOf(c)
    ensures !t.hasLabeling ==> r.labels == t.labels
    ensures r.present == t.present && r.hasLabeling == t.hasLabeling
  {
    if !t.present then t
    else if t.hasLabeling then t.(material := c.material, labels := LabelsOf(c))
    else t.(material := c.material)
  }

  /** Applying the same configuration again changes nothing. */
  lemma ApplyIdempotent(t: Target, c: Config)
    ensures Apply(Apply(t, c), c) == Apply(t, c)
  {
  }

  /** The `do`/`while` redraw: the first draw that differs from `first`,
      or `None` when the given draws run out before one does. */
  method DrawDifferent(first: nat, draws: seq<nat>) returns (r: Option<nat>)
    ensures r.Some? ==> r.value != first && r.value in draws
    ensures r.Some? <==> exists i :: 0 <= i < |draws| && draws[i] != first
  {
    var i := 0;
    while i < |draws|
      invariant 0 <= i <= |draws|
      invariant forall j :: 0 <= j < i ==> draws[j] == first
    {
      if draws[i] != first {
        return Some(draws[i]);
      }
      i := i + 1;
    }
    return None;
  }

  /** `RandomizeMaterials` with the draws made: `first` for the first quad
      and `second`, the redraw's outcome, for the second. Nothing happens
      without configurations or targets; the second quad is only touched
      when present. */
  function Randomize(configs: seq<Config>, targets: seq<Target>, first: nat, second: nat): (r: seq<Target>)
    requires first < |configs| || |configs| == 0
    requires (second < |configs| && second != first) || |configs| <= 1
    ensures |r| == |targets|
    ensures |configs| == 0 || |targets| == 0 ==> r == targets
    ensures forall i :: 2 <= i < |r| ==> r[i] == targets[i]
  {
    if |configs| == 0 || |targets| == 0 then targets
    else
      var t0 := Apply(targets[0], configs[first]);
      if |targets| > 1 && targets[1].present then
        var pick := if |configs| > 1 then second else first;
        [t0, Apply(targets[1], configs[pick])] + targets[2..]
      else [t0] + targets[1..]
  }

  /** With two present quads and a choice of configurations, the quads get
      different configurations; with one configuration they share it. */
  lemma TwoQuadsDiffer(configs: seq<Config>, targets: seq<Target>, first: nat, second: nat)
    requires |targets| >= 2 && targets[0].present && targets[1].present
    requires first < |configs|
    requires (second < |configs| && second != first) || |configs| <= 1
    ensures var r := Randomize(configs, targets, first, second);
            r[0].material == configs[first].material
            && (|configs| > 1 ==> r[1].material == configs[second].material)
            && (|configs| == 1 ==> r[1].material == r[0].material)
            && (targets[1].hasLabeling ==> r[1].labels == LabelsOf(configs[if |configs| > 1 then second else first]))
  {
  }

  /** `Update`: a new iteration of the active scenario randomizes again;
      the same iteration, or no scenario, changes nothing. */
  datatype Randomizer = Randomizer(targets: seq<Target>, lastIteration: int)

  function Update(rz: Randomizer, configs: seq<Config>, iteration: Option<int>, first: nat, second: nat): (r: Randomizer)
    requires first < |configs| || |configs| == 0
    requires (second < |configs| && second != first) || |configs| <= 1
    ensures iteration.None? ==> r == rz
    ensures iteration.Some? && iteration.value == rz.lastIteration ==> r == rz
    ensures iteration.Some? ==> r.lastIteration == iteration.value
    ensures iteration.Some? && iteration.value != rz.lastIteration ==>
              r.targets == Randomize(configs, rz.targets, first, second)
  {
    match iteration
    case None => rz
    case Some(it) =>
      if it == rz.lastIteration then rz
      else Randomizer(Randomize(configs, rz.targets, first, second), it)
  }

  /** Within one iteration the quads are randomized at most once: a second
      frame of the same iteration keeps the first frame's draw. */
  lemma OncePerIteration(rz: Randomizer, configs: seq<Config>, iteration: Option<int>,
                         first: nat, second: nat, first2: nat, second2: nat)
    requires first < |configs| || |configs| == 0
    requires (second < |configs| && second != first) || |configs| <= 1
    requires first2 < |configs| || |configs| == 0
    requires (second2 < |configs| && second2 != first2) || |configs| <= 1
    ensures var once := Update(rz, configs, iteration, first, second);
            Update(once, configs, iteration, first2, second2) == once
  {
  }
}

=== FILE: wrappers.dfy ===
/**
 * Option and Result, the two ways the model says "there is no value" and
 * "the original code would throw here".
 */
module Wrappers {

  datatype Option<T> = None | Some(value: T)
  {
    predicate IsSome() { this.Some? }

    function GetOr(default: T): (r: T)
      ensures this.Some? ==> r == value
      ensures this.None? ==> r == default
    {
      match this
      case Some(v) => v
      case None => default
    }
  }

  /** The failure modes of the modelled code: what would be an exception in C#. */
  datatype Error =
    | IndexOutOfRange(index: int, length: nat)
    | FormatError(text: string)
    | Overflow(text: string)

  datatype Result<T> = Ok(value: T) | Err(error: Error)
  {
    predicate IsOk() { this.Ok? }
  }
}

=== FILE: yolo.dfy ===
/** The SOLO-to-YOLO converter: maps the dataset's bounding-box label ids
    to consecutive YOLO class ids, drops boxes whose known visibility is
    too low, normalises each box by the image resolution, and writes one
    label file per RGB capture.
 */
module Yolo {
  import opened Wrappers
  import Text

  /** The converter window's defaults. */
  const DefaultMinVisibility: real := 0.6
  const DefaultResolutionX: real := 960.0
  const DefaultResolutionY: real := 600.0

  /** One entry of an annotation definition's `spec`. */
  datatype SpecItem = SpecItem(labelId: int, labelName: string)

  /** An annotation definition: its `id`, if present, and its `spec`. */
  datatype Definition = Definition(id: Option<string>, spec: seq<SpecItem>)

  /** Numbering one spec from `index` on; a repeated label id keeps its
      last number. */
  function SpecMap(m: map<int, int>, spec: seq<SpecItem>, index: int): map<int, int>
    decreases |spec|
  {
    if |spec| == 0 then m else SpecMap(m[spec[0].labelId := index], spec[1..], index + 1)
  }

  function IdMapFrom(m: map<int, int>, defs: seq<Definition>): map<int, int>
    decreases |defs|
  {
    if |defs| == 0 then m
    else
      var next := if defs[0].id == Some("bounding box") then SpecMap(m, defs[0].spec, 0) else m;
      IdMapFrom(next, defs[1..])
  }

  /** The id map: every "bounding box" definition numbers its spec from 0. */
  function IdMap(defs: seq<Definition>): map<int, int>
  {
    IdMapFrom(map[], defs)
  }

  predicate DistinctIds(spec: seq<SpecItem>)
  {
    forall i, j :: 0 <= i < j < |spec| ==> spec[i].labelId != spec[j].labelId
  }

  lemma {:induction false} SpecMapNumbers(m: map<int, int>, spec: seq<SpecItem>, index: int)
    requires DistinctIds(spec)
    ensures forall k :: 0 <= k < |spec| ==>
              (spec[k].labelId in SpecMap(m, spec, index) && SpecMap(m, spec, index)[spec[k].labelId] == index + k)
    ensures forall id :: id in SpecMap(m, spec, index) <==> id in m || exists k :: 0 <= k < |spec| && spec[k].labelId == id
    ensures forall id :: (forall k :: 0 <= k < |spec| ==> spec[k].labelId != id) && id in m
                         ==> SpecMap(m, spec, index)[id] == m[id]
    decreases |spec|
  {
    forall k | 0 <= k < |spec|
      ensures spec[k].labelId in SpecMap(m, spec, index) && SpecMap(m, spec, index)[spec[k].labelId] == index + k
    {
      SpecMapNumber(m, spec, index, k);
    }
    forall id
      ensures id in SpecMap(m, spec, index) <==> id in m || exists k :: 0 <= k < |spec| && spec[k].labelId == id
    {
      SpecMapKeys(m, spec, index, id);
    }
    forall id | (forall k :: 0 <= k < |spec| ==> spec[k].labelId != id) && id in m
      ensures SpecMap(m, spec, index)[id] == m[id]
    {
      SpecMapKeeps(m, spec, index, id);
    }
  }

  /** The `k`th label of a spec without repeats gets number `index + k`. */
  lemma {:induction false} SpecMapNumber(m: map<int, int>, spec: seq<SpecItem>, index: int, k: nat)
    requires DistinctIds(spec) && k < |spec|
    ensures spec[k].labelId in SpecMap(m, spec, index) && SpecMap(m, spec, index)[spec[k].labelId] == index + k
    decreases |spec|
  {
    var tail := spec[1..];
    assert DistinctIds(tail) by {
      forall i, j | 0 <= i < j < |tail| ensures tail[i].labelId != tail[j].labelId {
        assert tail[i] == spec[i + 1] && tail[j] == spec[j + 1];
      }
    }
    if k > 0 {
      assert tail[k - 1] == spec[k];
      SpecMapNumber(m[spec[0].labelId := index], tail, index + 1, k - 1);
    } else {
      forall j | 0 <= j < |tail| ensures tail[j].labelId != spec[0].labelId {
        assert tail[j] == spec[j + 1];
      }
      SpecMapKeeps(m[spec[0].labelId := index], tail, index + 1, spec[0].labelId);
    }
  }

  /** A mapped id that the spec does not list keeps its number. */
  lemma {:induction false} SpecMapKeeps(m: map<int, int>, spec: seq<SpecItem>, index: int, id: int)
    requires forall k :: 0 <= k < |spec| ==> spec[k].labelId != id
    requires id in m
    ensures id in SpecMap(m, spec, index) && SpecMap(m, spec, index)[id] == m[id]
    decreases |spec|
  {
    if |spec| > 0 {
      var tail := spec[1..];
      forall k | 0 <= k < |tail| ensures tail[k].labelId != id {
        assert tail[k] == spec[k + 1];
      }
      SpecMapKeeps(m[spec[0].labelId := index], tail, index + 1, id);
    }
  }

  /** With one bounding-box definition, the YOLO ids are 0 to n - 1 in spec
      order, and exactly the spec's label ids are mapped. */
  lemma IdMapNumbersSpec(spec: seq<SpecItem>, others: seq<Definition>)
    requires DistinctIds(spec)
    requires forall i :: 0 <= i < |others| ==> others[i].id != Some("bounding box")
    ensures var m := IdMap([Definition(Some("bounding box"), spec)] + others);
            (forall k :: 0 <= k < |spec| ==> spec[k].labelId in m && m[spec[k].labelId] == k)
            && (forall id :: id in m <==> exists k :: 0 <= k < |spec| && spec[k].labelId == id)
  {
    var defs := [Definition(Some("bounding box"), spec)] + others;
    SpecMapNumbers(map[], spec, 0);
    IdMapSkips(SpecMap(map[], spec, 0), others);
    assert defs[1..] == others;
  }

  lemma {:induction false} IdMapSkips(m: map<int, int>, defs: seq<Definition>)
    requires forall i :: 0 <= i < |defs| ==> defs[i].id != Some("bounding box")
    ensures IdMapFrom(m, defs) == m
    decreases |defs|
  {
    if |defs| > 0 {
      IdMapSkips(m, defs[1..]);
    }
  }

  /** Some "bounding box" definition's spec lists `id`. */
  predicate BoxLabel(defs: seq<Definition>, id: int)
  {
    exists i, k :: 0 <= i < |defs| && defs[i].id == Some("bounding box") && 0 <= k < |defs[i].spec|
                   && defs[i].spec[k].labelId == id
  }

  lemma {:induction false} SpecMapKeys(m: map<int, int>, spec: seq<SpecItem>, index: int, id: int)
    ensures id in SpecMap(m, spec, index) <==> id in m || exists k :: 0 <= k < |spec| && spec[k].labelId == id
    decreases |spec|
  {
    if |spec| > 0 {
      var tail := spec[1..];
      SpecMapKeys(m[spec[0].labelId := index], tail, index + 1, id);
      if exists k :: 0 <= k < |spec| && spec[k].labelId == id {
        var k :| 0 <= k < |spec| && spec[k].labelId == id;
        if k > 0 {
          assert tail[k - 1].labelId == id;
        }
      }
      if exists k :: 0 <= k < |tail| && tail[k].labelId == id {
        var k :| 0 <= k < |tail| && tail[k].labelId == id;
        assert spec[k + 1].labelId == id;
      }
    }
  }

  lemma {:induction false} IdMapFromKeys(m: map<int, int>, defs: seq<Definition>, id: int)
    ensures id in IdMapFrom(m, defs) <==> id in m || BoxLabel(defs, id)
    decreases |defs|
  {
    if |defs| > 0 {
      var d := defs[0];
      var tail := defs[1..];
      var next := if d.id == Some("bounding box") then SpecMap(m, d.spec, 0) else m;
      IdMapFromKeys(next, tail, id);
      SpecMapKeys(m, d.spec, 0, id);
      if BoxLabel(defs, id) {
        var i, k :| 0 <= i < |defs| && defs[i].id == Some("bounding box") && 0 <= k < |defs[i].spec|
                    && defs[i].spec[k].labelId == id;
        if i > 0 {
          assert tail[i - 1] == defs[i];
        }
      }
      if BoxLabel(tail, id) {
        var i, k :| 0 <= i < |tail| && tail[i].id == Some("bounding box") && 0 <= k < |tail[i].spec|
                    && tail[i].spec[k].labelId == id;
        assert defs[i + 1] == tail[i];
      }
    }
  }

  /** A label id is mapped exactly when some bounding-box definition lists
      it, whatever the order, repetition or other definitions. */
  lemma IdMapKeys(defs: seq<Definition>, id: int)
    ensures id in IdMap(defs) <==> BoxLabel(defs, id)
  {
    IdMapFromKeys(map[], defs, id);
  }

  /** One bounding box in pixels. */
  datatype Box = Box(instanceId: int, labelId: int, x: real, y: real, w: real, h: real)

  /** A box is dropped only when its visibility is known and below the
      minimum. */
  predicate Kept(b: Box, visibility: map<int, real>, minVisibility: real)
  {
    !(b.instanceId in visibility && visibility[b.instanceId] < minVisibility)
  }

  /** A metric of the frame: its `@type` and (instance id, visible
      fraction) values. */
  datatype Metric = Metric(typ: Option<string>, values: seq<(int, real)>)

  predicate IsOcclusion(m: Metric)
  {
    m.typ.Some? && Contains(m.typ.value, "OcclusionMetric")
  }

  function Record(v: map<int, real>, values: seq<(int, real)>): map<int, real>
    decreases |values|
  {
    if |values| == 0 then v else Record(v[values[0].0 := values[0].1], values[1..])
  }

  /** The visibility map: occlusion metrics' values, a later value for the
      same instance replacing an earlier one. */
  function VisibilityFrom(v: map<int, real>, metrics: seq<Metric>): map<int, real>
    decreases |metrics|
  {
    if |metrics| == 0 then v
    else VisibilityFrom(if IsOcclusion(metrics[0]) then Record(v, metrics[0].values) else v, metrics[1..])
  }

  predicate Listed(id: int, metrics: seq<Metric>)
  {
    exists i, j :: 0 <= i < |metrics| && IsOcclusion(metrics[i]) && 0 <= j < |metrics[i].values|
                   && metrics[i].values[j].0 == id
  }

  lemma {:induction false} RecordKeys(v: map<int, real>, values: seq<(int, real)>)
    ensures forall id :: id in Record(v, values) <==> id in v || exists j :: 0 <= j < |values| && values[j].0 == id
    decreases |values|
  {
    if |values| > 0 {
      RecordKeys(v[values[0].0 := values[0].1], values[1..]);
      forall id
        ensures id in Record(v, values) <==> id in v || exists j :: 0 <= j < |values| && values[j].0 == id
      {
        if exists j :: 0 <= j < |values| && values[j].0 == id {
          var j :| 0 <= j < |values| && values[j].0 == id;
          if j > 0 {
            assert values[1..][j - 1].0 == id;
          }
        }
        if exists j :: 0 <= j < |values[1..]| && values[1..][j].0 == id {
          var j :| 0 <= j < |values[1..]| && values[1..][j].0 == id;
          assert values[j + 1].0 == id;
        }
      }
    }
  }

  /** An instance has a known visibility exactly when some occlusion
      metric lists it; other metrics are ignored. */
  lemma {:induction false} VisibilityKnown(v: map<int, real>, metrics: seq<Metric>, id: int)
    ensures id in VisibilityFrom(v, metrics) <==> id in v || Listed(id, metrics)
    decreases |metrics|
  {
    if |metrics| > 0 {
      var m := metrics[0];
      var v1 := if IsOcclusion(m) then Record(v, m.values) else v;
      RecordKeys(v, m.values);
      VisibilityKnown(v1, metrics[1..], id);
      if Listed(id, metrics) {
        var i, j :| 0 <= i < |metrics| && IsOcclusion(metrics[i]) && 0 <= j < |metrics[i].values|
                    && metrics[i].values[j].0 == id;
        if i > 0 {
          assert metrics[1..][i - 1] == metrics[i];
        }
      }
      if Listed(id, metrics[1..]) {
        var i, j :| 0 <= i < |metrics[1..]| && IsOcclusion(metrics[1..][i]) && 0 <= j < |metrics[1..][i].values|
                    && metrics[1..][i].values[j].0 == id;
        assert metrics[i + 1] == metrics[1..][i];
      }
    }
  }

  /** A box whose instance no occlusion metric lists is always kept. */
  lemma UnlistedKept(b: Box, metrics: seq<Metric>, minVisibility: real)
    requires !Listed(b.instanceId, metrics)
    ensures Kept(b, VisibilityFrom(map[], metrics), minVisibility)
  {
    VisibilityKnown(map[], metrics, b.instanceId);
  }

  /** A single-precision quotient: a zero divisor gives an infinity or
      not-a-number, which is written as such. */
  datatype Num = Finite(value: real) | NonFinite

  function Div(a: real, b: real): (r: Num)
    ensures b != 0.0 ==> r == Finite(a / b)
    ensures b == 0.0 ==> r == NonFinite
  {
    if b == 0.0 then NonFinite else Finite(a / b)
  }

  /** A YOLO line's values: class, centre and size relative to the image. */
  datatype YoloBox = YoloBox(classId: int, cx: Num, cy: Num, w: Num, h: Num)

  function Normalize(b: Box, classId: int, resX: real, resY: real): YoloBox
  {
    YoloBox(classId, Div(b.x + b.w / 2.0, resX), Div(b.y + b.h / 2.0, resY), Div(b.w, resX), Div(b.h, resY))
  }

  /** Scaling the normalised values back by the resolution gives the pixel
      box again: the centre is the origin plus half the size. */
  lemma NormalizeRoundTrip(b: Box, classId: int, resX: real, resY: real)
    requires resX != 0.0 && resY != 0.0
    ensures var y := Normalize(b, classId, resX, resY);
            y.cx.Finite? && y.cy.Finite? && y.w.Finite? && y.h.Finite?
            && y.w.value * resX == b.w && y.h.value * resY == b.h
            && y.cx.value * resX - y.w.value * resX / 2.0 == b.x
            && y.cy.value * resY - y.h.value * resY / 2.0 == b.y
  {
  }

  /** The boxes of one annotation as converted, in order: kept boxes whose
      label id is mapped. */
  function Convert(boxes: seq<Box>, visibility: map<int, real>, minVisibility: real,
                   idMap: map<int, int>, resX: real, resY: real): (r: seq<YoloBox>)
    ensures |r| <= |boxes|
    ensures forall k :: 0 <= k < |r| ==> r[k].classId in idMap.Values
    decreases |boxes|
  {
    if |boxes| == 0 then []
    else
      var b := boxes[0];
      var rest := Convert(boxes[1..], visibility, minVisibility, idMap, resX, resY);
      if Kept(b, visibility, minVisibility) && b.labelId in idMap
      then [Normalize(b, idMap[b.labelId], resX, resY)] + rest
      else rest
  }

  /** Every kept box whose label is mapped appears in the output. */
  lemma {:induction false} ConvertComplete(boxes: seq<Box>, visibility: map<int, real>, minVisibility: real,
                                           idMap: map<int, int>, resX: real, resY: real)
    ensures forall i :: 0 <= i < |boxes| && Kept(boxes[i], visibility, minVisibility) && boxes[i].labelId in idMap
                        ==> Normalize(boxes[i], idMap[boxes[i].labelId], resX, resY)
                            in Convert(boxes, visibility, minVisibility, idMap, resX, resY)
    decreases |boxes|
  {
    if |boxes| > 0 {
      var tail := boxes[1..];
      ConvertComplete(tail, visibility, minVisibility, idMap, resX, resY);
      assert forall i :: 1 <= i < |boxes| ==> boxes[i] == tail[i - 1];
    }
  }

  /** Every output line comes from a kept box whose label is mapped. */
  lemma {:induction false} ConvertSound(boxes: seq<Box>, visibility: map<int, real>, minVisibility: real,
                                        idMap: map<int, int>, resX: real, resY: real, k: nat)
    requires k < |Convert(boxes, visibility, minVisibility, idMap, resX, resY)|
    ensures exists i :: 0 <= i < |boxes| && Kept(boxes[i], visibility, minVisibility) && boxes[i].labelId in idMap
                        && Convert(boxes, visibility, minVisibility, idMap, resX, resY)[k]
                           == Normalize(boxes[i], idMap[boxes[i].labelId], resX, resY)
    decreases |boxes|
  {
    var tail := boxes[1..];
    var r := Convert(boxes, visibility, minVisibility, idMap, resX, resY);
    var rest := Convert(tail, visibility, minVisibility, idMap, resX, resY);
    var head := Kept(boxes[0], visibility, minVisibility) && boxes[0].labelId in idMap;
    if head && k == 0 {
      assert r[0] == Normalize(boxes[0], idMap[boxes[0].labelId], resX, resY);
    } else {
      var k' := if head then k - 1 else k;
      assert r[k] == rest[k'];
      ConvertSound(tail, visibility, minVisibility, idMap, resX, resY, k');
      var j :| 0 <= j < |tail| && Kept(tail[j], visibility, minVisibility) && tail[j].labelId in idMap
               && rest[k'] == Normalize(tail[j], idMap[tail[j].labelId], resX, resY);
      assert boxes[j + 1] == tail[j];
    }
  }

  /** The five fields of a line, before the newline. Numbers are written
      by `format` (fixed six decimals in the source). */
  function Fields(y: YoloBox, format: Num -> string): seq<string>
  {
    [Text.IntToString(y.classId), format(y.cx), format(y.cy), format(y.w), format(y.h)]
  }

  function Line(y: YoloBox, format: Num -> string): string
  {
    Text.Join(' ', Fields(y, format)) + "\n"
  }

  /** A label file's text: one line per converted box. */
  function Content(ys: seq<YoloBox>, format: Num -> string): string
    decreases |ys|
  {
    if |ys| == 0 then "" else Line(ys[0], format) + Content(ys[1..], format)
  }

  predicate Plain(s: string)
  {
    Text.NoSep(' ', s) && Text.NoSep('\n', s)
  }

  lemma IntTextPlain(n: int)
    ensures Plain(Text.IntToString(n))
  {
    var s := Text.IntToString(n);
    if n < 0 {
      var d := Text.NatDigits(-n);
      assert s == "-" + d;
      assert forall i :: 1 <= i < |s| ==> s[i] == d[i - 1];
    }
  }

  lemma {:induction false} JoinPlain(fields: seq<string>)
    requires forall i :: 0 <= i < |fields| ==> Plain(fields[i])
    ensures Text.NoSep('\n', Text.Join(' ', fields))
    decreases |fields|
  {
    if |fields| > 1 {
      JoinPlain(fields[1..]);
      var tail := Text.Join(' ', fields[1..]);
      var s := fields[0] + [' '] + tail;
      assert forall i :: 0 <= i < |fields[0]| ==> s[i] == fields[0][i];
      assert forall i :: |fields[0]| < i < |s| ==> s[i] == tail[i - |fields[0]| - 1];
    }
  }

  /** Each line splits into exactly the five fields, and the file splits
      at newlines into the lines and a final empty piece. */
  lemma LineFields(y: YoloBox, format: Num -> string)
    requires forall n :: Plain(format(n))
    ensures Text.Split(' ', Line(y, format)[..|Line(y, format)| - 1]) == Fields(y, format)
  {
    var fs := Fields(y, format);
    IntTextPlain(y.classId);
    assert forall i :: 0 <= i < |fs| ==> Plain(fs[i]);
    assert Line(y, format)[..|Line(y, format)| - 1] == Text.Join(' ', fs);
    Text.SplitJoin(' ', fs);
  }

  function Bodies(ys: seq<YoloBox>, format: Num -> string): (r: seq<string>)
    ensures |r| == |ys|
    decreases |ys|
  {
    if |ys| == 0 then [] else [Text.Join(' ', Fields(ys[0], format))] + Bodies(ys[1..], format)
  }

  lemma {:induction false} ContentLines(ys: seq<YoloBox>, format: Num -> string)
    requires forall n :: Plain(format(n))
    ensures Text.Split('\n', Content(ys, format)) == Bodies(ys, format) + [""]
    decreases |ys|
  {
    if |ys| > 0 {
      var body := Text.Join(' ', Fields(ys[0], format));
      var rest := Content(ys[1..], format);
      ContentLines(ys[1..], format);
      IntTextPlain(ys[0].classId);
      JoinPlain(Fields(ys[0], format));
      Text.SplitSepFree('\n', body, "\n" + rest);
      assert ("\n" + rest)[1..] == rest;
      assert Content(ys, format) == body + ("\n" + rest);
      assert Text.Split('\n', "\n" + rest) == [""] + Text.Split('\n', rest);
      assert body + "" == body;
    }
  }

  /** `Path.GetFileName` and `DirectoryInfo.Name` with '/' separators:
      the text after the last separator. */
  function AfterLast(s: string, c: char): (r: string)
    ensures Text.NoSep(c, r)
    ensures |r| <= |s| && r == s[|s| - |r|..]
    decreases |s|
  {
    if |s| == 0 then ""
    else if s[|s| - 1] == c then ""
    else AfterLast(s[..|s| - 1], c) + [s[|s| - 1]]
  }

  /** The text before the last separator, or "" without one. */
  function BeforeLast(s: string, c: char): (r: string)
    ensures |r| <= |s|
    decreases |s|
  {
    if |s| == 0 then ""
    else if s[|s| - 1] == c then s[..|s| - 1]
    else BeforeLast(s[..|s| - 1], c)
  }

  /** `Path.GetFileNameWithoutExtension`: the file name up to its last dot. */
  function WithoutExtension(path: string): string
  {
    var name := AfterLast(path, '/');
    if Text.NoSep('.', name) then name else BeforeLast(name, '.')
  }

  /** The copied image's name: the sequence folder, '_', the file name. */
  function UniqueName(jsonPath: string, filename: string): string
  {
    AfterLast(BeforeLast(jsonPath, '/'), '/') + "_" + AfterLast(filename, '/')
  }

  function LabelName(uniqueName: string): string
  {
    WithoutExtension(uniqueName) + ".txt"
  }

  lemma {:induction false} AfterLastSplit(a: string, c: char, b: string)
    requires Text.NoSep(c, b)
    ensures AfterLast(a + [c] + b, c) == b
    decreases |b|
  {
    var s := a + [c] + b;
    if |b| == 0 {
      assert s[|s| - 1] == c;
    } else {
      var b' := b[..|b| - 1];
      assert s[..|s| - 1] == a + [c] + b';
      assert s[|s| - 1] == b[|b| - 1];
      assert Text.NoSep(c, b') by {
        assert forall i :: 0 <= i < |b'| ==> b'[i] == b[i];
      }
      AfterLastSplit(a, c, b');
      assert b' + [b[|b| - 1]] == b;
    }
  }

  lemma {:induction false} BeforeLastSplit(a: string, c: char, b: string)
    requires Text.NoSep(c, b)
    ensures BeforeLast(a + [c] + b, c) == a
    decreases |b|
  {
    var s := a + [c] + b;
    if |b| == 0 {
      assert s[|s| - 1] == c;
      assert s[..|s| - 1] == a;
    } else {
      var b' := b[..|b| - 1];
      assert s[..|s| - 1] == a + [c] + b';
      assert s[|s| - 1] == b[|b| - 1];
      assert Text.NoSep(c, b') by {
        assert forall i :: 0 <= i < |b'| ==> b'[i] == b[i];
      }
      BeforeLastSplit(a, c, b');
    }
  }

  lemma AfterLastPlain(s: string, c: char)
    requires Text.NoSep(c, s)
    ensures AfterLast(s, c) == s
    decreases |s|
  {
    if |s| > 0 {
      assert s[..|s| - 1] + [s[|s| - 1]] == s;
      AfterLastPlain(s[..|s| - 1], c);
    }
  }

  /** A capture written by sequence `folder` gets that folder's name and
      '_' before its file name, and the label file replaces the image's
      extension with ".txt". */
  lemma NamingFollowsFolder(root: string, folder: string, json: string, filename: string)
    requires Text.NoSep('/', folder) && Text.NoSep('/', json) && Text.NoSep('/', filename)
    ensures UniqueName(root + "/" + folder + "/" + json, filename) == folder + "_" + filename
  {
    BeforeLastSplit(root + "/" + folder, '/', json);
    AfterLastSplit(root, '/', folder);
    AfterLastPlain(filename, '/');
  }

  lemma LabelNameReplacesExtension(stem: string, ext: string)
    requires Text.NoSep('/', stem + "." + ext) && Text.NoSep('.', ext)
    ensures LabelName(stem + "." + ext) == stem + ".txt"
  {
    var name := stem + "." + ext;
    AfterLastPlain(name, '/');
    BeforeLastSplit(stem, '.', ext);
    assert name[|stem|] == '.';
  }

  /** Frame JSON as the converter reads it. A missing `@type` is `None`. */
  datatype Annotation = Annotation(typ: Option<string>, values: seq<Box>)
  datatype Capture = Capture(typ: Option<string>, filename: string, annotations: Option<seq<Annotation>>)

  function Contains(s: string, t: string): bool
    decreases |s|
  {
    if |s| < |t| then false else s[..|t|] == t || Contains(s[1..], t)
  }

  /** `?.Contains(..) == false` skips only a capture whose type is present
      and lacks "RGBCamera"; one without a type is converted. */
  predicate IsRgbCapture(c: Capture)
  {
    !(c.typ.Some? && !Contains(c.typ.value, "RGBCamera"))
  }

  /** `?.Contains(..) == true` needs a type naming a 2D bounding box. */
  predicate IsBoxAnnotation(a: Annotation)
  {
    a.typ.Some? && Contains(a.typ.value, "BoundingBox2DAnnotation")
  }

  /** The converter's settings. */
  datatype Settings = Settings(minVisibility: real, resX: real, resY: real, format: Num -> string)

  function AnnotationsContent(anns: seq<Annotation>, visibility: map<int, real>, idMap: map<int, int>, s: Settings)
    : string
    decreases |anns|
  {
    if |anns| == 0 then ""
    else
      var here := if IsBoxAnnotation(anns[0])
                  then Content(Convert(anns[0].values, visibility, s.minVisibility, idMap, s.resX, s.resY), s.format)
                  else "";
      here + AnnotationsContent(anns[1..], visibility, idMap, s)
  }

  /** A converted capture: the copied image's name and the label text; the
      label file is named after the image. */
  datatype LabelFile = LabelFile(imageName: string, content: string)
  {
    function Name(): string
    {
      LabelName(imageName)
    }
  }

  /** The label text of one capture: its box annotations, in order. */
  function CaptureContent(c: Capture, visibility: map<int, real>, idMap: map<int, int>, s: Settings): string
  {
    match c.annotations
    case None => ""
    case Some(anns) => AnnotationsContent(anns, visibility, idMap, s)
  }

  /** `ConvertFrame`: one label file per RGB capture, named after the
      copied image, in capture order; no captures, no files. */
  function ConvertCaptures(jsonPath: string, cs: seq<Capture>, visibility: map<int, real>,
                           idMap: map<int, int>, s: Settings): (r: seq<LabelFile>)
    ensures |r| == RgbCount(cs) <= |cs|
    ensures |cs| > 0 && IsRgbCapture(cs[0]) ==> r[0].imageName == UniqueName(jsonPath, cs[0].filename)
    decreases |cs|
  {
    if |cs| == 0 then []
    else
      var rest := ConvertCaptures(jsonPath, cs[1..], visibility, idMap, s);
      if IsRgbCapture(cs[0]) then
        var unique := UniqueName(jsonPath, cs[0].filename);
        [LabelFile(unique, CaptureContent(cs[0], visibility, idMap, s))] + rest
      else rest
  }

  function ConvertFrame(jsonPath: string, captures: Option<seq<Capture>>, visibility: map<int, real>,
                        idMap: map<int, int>, s: Settings): (r: seq<LabelFile>)
    ensures captures.None? ==> r == []
  {
    match captures
    case None => []
    case Some(cs) => ConvertCaptures(jsonPath, cs, visibility, idMap, s)
  }

  /** The number of RGB captures; a capture without a type counts as one. */
  function RgbCount(cs: seq<Capture>): (n: nat)
    ensures n <= |cs|
    decreases |cs|
  {
    if |cs| == 0 then 0 else (if IsRgbCapture(cs[0]) then 1 else 0) + RgbCount(cs[1..])
  }

  /** A capture without a type is converted; one of another camera type
      is not. */
  lemma UntypedCaptureConverted(filename: string, annotations: Option<seq<Annotation>>)
    ensures IsRgbCapture(Capture(None, filename, annotations))
    ensures !IsRgbCapture(Capture(Some(""), filename, annotations))
  {
  }
}

=== FILE: zed.dfy ===
/** ZED 2i simulated IMU stream: proper acceleration and angular velocity
    in the camera frame, and the start-relative orientation, with a per-axis
    sign inversion selected by flags.
 */
module Zed {
  import opened Wrappers
  import opened Geometry

  /** One inversion flag per axis. */
  datatype AxisFlags = AxisFlags(x: bool, y: bool, z: bool)

  datatype Config = Config(invertRot: AxisFlags, invertAccel: AxisFlags, sendOrientation: bool)

  /** Inspector defaults: all rotation axes inverted, no acceleration axis inverted. */
  const DefaultConfig: Config := Config(AxisFlags(true, true, true), AxisFlags(false, false, false), true)

  function Flip(on: bool, a: real): real { if on then -a else a }

  /** Negate each component exactly when its flag is set. */
  function FlipVec(f: AxisFlags, v: Vec3): (r: Vec3)
    ensures r.x == (if f.x then -v.x else v.x)
    ensures r.y == (if f.y then -v.y else v.y)
    ensures r.z == (if f.z then -v.z else v.z)
  {
    Vec3(Flip(f.x, v.x), Flip(f.y, v.y), Flip(f.z, v.z))
  }

  /** Negate the vector part of a quaternion per flag; w is kept. */
  function FlipQuat(f: AxisFlags, q: Quat): (r: Quat)
    ensures r.x == (if f.x then -q.x else q.x)
    ensures r.y == (if f.y then -q.y else q.y)
    ensures r.z == (if f.z then -q.z else q.z)
    ensures r.w == q.w
    ensures NormSq(r) == NormSq(q)
  {
    Quat(Flip(f.x, q.x), Flip(f.y, q.y), Flip(f.z, q.z), q.w)
  }

  /** Every flag map is an involution. */
  lemma FlipInvolution(f: AxisFlags, v: Vec3, q: Quat)
    ensures FlipVec(f, FlipVec(f, v)) == v
    ensures FlipQuat(f, FlipQuat(f, q)) == q
  {
  }

  /** With all three rotation flags set the orientation flip is the conjugate. */
  lemma AllFlagsIsConj(q: Quat)
    ensures FlipQuat(AxisFlags(true, true, true), q) == Conj(q)
  {
  }

  /** The sample handed to `ingest_imu`. Angular velocity is in deg/s. */
  datatype Packet = Packet(angularVelocity: Vec3, accel: Vec3, orientation: Quat)

  /** `SendIMUData`. */
  function Packetize(c: Config, initialRotationInv: Quat, rotation: Quat,
                     properAccelLocal: Vec3, angularVelocityLocal: Vec3): (p: Packet)
    ensures !c.sendOrientation ==> p.orientation == Identity
    ensures c.sendOrientation ==> FlipQuat(c.invertRot, p.orientation) == QMul(initialRotationInv, rotation)
    ensures FlipVec(c.invertAccel, p.accel) == properAccelLocal
    ensures FlipVec(c.invertRot, p.angularVelocity) == angularVelocityLocal
  {
    FlipInvolution(c.invertRot, angularVelocityLocal, QMul(initialRotationInv, rotation));
    FlipInvolution(c.invertAccel, properAccelLocal, Identity);
    Packet(
      FlipVec(c.invertRot, angularVelocityLocal),
      FlipVec(c.invertAccel, properAccelLocal),
      if c.sendOrientation then FlipQuat(c.invertRot, QMul(initialRotationInv, rotation)) else Identity)
  }

  /** The angular velocity follows the rotation flags: the acceleration
      flags have no influence on it. */
  lemma AngularUsesRotationFlags(c: Config, accelFlags: AxisFlags, inv: Quat, rot: Quat, a: Vec3, w: Vec3)
    ensures Packetize(c, inv, rot, a, w).angularVelocity
         == Packetize(c.(invertAccel := accelFlags), inv, rot, a, w).angularVelocity
  {
  }

  datatype State = State(lastLinearVelocity: Vec3, properAccelLocal: Vec3, angularVelocityLocal: Vec3)

  /** What one physics step reads: the camera rotation, the rigidbody's
      velocities, gravity and the fixed time step. */
  datatype Inputs = Inputs(
    rotation: Quat,
    linearVelocity: Vec3,
    angularVelocity: Vec3,
    gravity: Vec3,
    dt: real)

  /** `FixedUpdate`: nothing happens without a rigidbody, while not streaming
      or with a non-positive time step; otherwise the state advances and one
      packet is sent. */
  function FixedUpdate(c: Config, hasBody: bool, streaming: bool, initialRotationInv: Quat,
                       inp: Inputs, s: State): (res: (State, Option<Packet>))
    ensures (!hasBody || !streaming || inp.dt <= 0.0) <==> res.1.None?
    ensures res.1.None? ==> res.0 == s
    ensures res.1.Some? ==> res.0.lastLinearVelocity == inp.linearVelocity
  {
    if !hasBody || !streaming || inp.dt <= 0.0 then (s, None)
    else
      var worldAccel := Scale(1.0 / inp.dt, Sub(inp.linearVelocity, s.lastLinearVelocity));
      var proper := Rotate(Conj(inp.rotation), Sub(worldAccel, inp.gravity));
      var angular := Scale(Rad2Deg, Rotate(Conj(inp.rotation), inp.angularVelocity));
      var t := State(inp.linearVelocity, proper, angular);
      (t, Some(Packetize(c, initialRotationInv, inp.rotation, proper, angular)))
  }
}
